=== FILE: README.md ===
# Fiscal printer drivers in Dafny

A model of the byte-level core of a Java fiscal-printer server. The server takes a
receipt (a `Slip` of sale lines and payments) and drives a Polish fiscal printer
over a serial line. This model covers the printer drivers and the utilities they
use:

- **Posnet Thermal 1.01** (`Posnet101Driver`). Frames are STX, the payload, '#',
  a CRC-16 (polynomial 0x1021) in hex, then ETX. Commands are tab-separated;
  answers are decoded into two-letter-key properties. Modelled parts:
  - the table-driven CRC, proved equal to bitwise polynomial division;
  - framing, and parsing frames back;
  - the `?` error answers;
  - the encoders for sale lines, payments and the receipt header;
  - the readiness checks of `canPrint`;
  - the VAT slot map;
  - the order of commands in `printSlip`.
- **The ESC-framed family.** Thermal 2.03, Thermal 3.01, Innova Profit 451 and
  Optimus Vivo are near-copies of one another, so one engine (`EscDriver`) is
  parameterised by a `Dialect` record (`EscDialect`) with one constant per
  driver. Modelled parts:
  - `ESC P … ESC \` framing with its XOR check byte;
  - reading answers, and `<code>#Z` status parsing;
  - decoding the DLE/ENQ flag bytes;
  - the "disconnected" mode;
  - each driver's reset pattern;
  - reading the VAT table and looking slots up in it;
  - payment preparation;
  - the texts of the sale-line, closing (`$y`, `$x`), card-slip, daily-report and one-parameter commands.
- **Elzab Mera**, a binary protocol in which every command is acknowledged
  by ACK. Modelled parts:
  - little-endian integers and the 28-character name field;
  - the choice of quantity precision;
  - the 51-byte sale-line record;
  - the rate table and slot lookup;
  - the readiness rules of `checkPrinter`;
  - discounts;
  - the closing sequence.
- **Utilities.** Three classes are modelled:
  - `BitsAndBytes`: hex, byte/int packing, 64-bit halves;
  - `ToString`: the Mazovia code page, accent stripping and debug texts;
  - `BartDate`: millisecond arithmetic.

  The model also covers `Slip`'s bookkeeping of lines and payments.

How the model represents the source:

- **Java values.** A Java `byte` is an `int` in 0..255, with `Signed` giving the
  value Java computes with. `int` and `long` are subset types, and where Java
  wraps, the model narrows explicitly (`Wrap32`, `Wrap64`). Java division and
  shifts of negative values are written out, since Java truncates toward zero.
- **Money and rates.** Money is in integer cents, quantities are exact decimals
  (`Decimal(mantissa, scale)`), and VAT rates are in ten-thousandths.
- **The serial line** (`Link`) is a record of three parts:
  - the bytes already waiting;
  - the printer's answer to each future transmission;
  - the log of everything sent.

  A timeout is simply running out of bytes. `read()` on an empty line gives -1,
  which has every bit set.
- **Results.** Every operation returns its `Result` (success or the `Fault` the
  Java code throws) together with the link it leaves behind.
- **One-argument overload.** `byteArrayToString(a)` is the range
  `0..a.length` of `ToString.ByteArrayToString`.

Where the protocol's written description and the code differ, the model follows
the code:

- **Elzab: rate looked up late.** Elzab's `printLine` looks the line's rate up
  only after the first 46 bytes of the record have gone out
  (`ElzabDriver.PrintLineStops`). An undefined rate is therefore not rejected
  before anything is sent.
- **Posnet: unmapped rate sent.** Posnet's `encodeLine` sends an unmapped rate as
  the slot text "null" (`Posnet.SlotText`).

## Model

| member | source | states |
|---|---|---|
| BitsAndBytes.Wrap32 | src/main/java/name/prokop/bart/fps/util/BitsAndBytes.java:76-79 | narrowing to `int` keeps the value modulo 2^32 and leaves every value in range unchanged |
| BitsAndBytes.CastIntToByte | src/main/java/name/prokop/bart/fps/util/BitsAndBytes.java:61-64 | the byte agrees with the `int` in its low 8 bits (congruent modulo 256) |
| BitsAndBytes.PromoteByteToInt | src/main/java/name/prokop/bart/fps/util/BitsAndBytes.java:169-171 | the unsigned value 0..255, congruent to the signed byte, and `castIntToByte` of it gives the byte back |
| BitsAndBytes.CastIntToChar | src/main/java/name/prokop/bart/fps/util/BitsAndBytes.java:66-69 | the code unit agrees with the `int` in its low 16 bits |
| BitsAndBytes.CastCharToByte | src/main/java/name/prokop/bart/fps/util/BitsAndBytes.java:81-83 | the low 8 bits of the code unit |
| BitsAndBytes.PromoteByteToChar | src/main/java/name/prokop/bart/fps/util/BitsAndBytes.java:159-161 | a code unit below 256 that `castCharToByte` maps back to the byte |
| BitsAndBytes.CastLongToByte | src/main/java/name/prokop/bart/fps/util/BitsAndBytes.java:71-74 | the byte agrees with the `long` in its low 8 bits |
| BitsAndBytes.ByteToHexString | src/main/java/name/prokop/bart/fps/util/BitsAndBytes.java:204-308 | exactly two upper-case hex digits: the high nibble of the unsigned byte, then the low nibble |
| BitsAndBytes.Parse2Hex | src/main/java/name/prokop/bart/fps/util/BitsAndBytes.java:19-24 | for two hex digits, the byte `16 * high + low` |
| BitsAndBytes.Parse2HexInvertsByteToHexString | src/main/java/name/prokop/bart/fps/util/BitsAndBytes.java:19-24 | `parse2hex` of the two digits of `byteToHexString(b)` is `b`, for every byte |
| BitsAndBytes.ParseString | src/main/java/name/prokop/bart/fps/util/BitsAndBytes.java:26-32 | succeeds exactly for an even length (an odd one runs off the end of the string); one byte per pair of characters, each the `parse2hex` of its pair |
| BitsAndBytes.ParseStringOfHexOf | src/main/java/name/prokop/bart/fps/util/BitsAndBytes.java:26-32 | `parseString` of the concatenated hex text of any byte array gives that array back |
| BitsAndBytes.ToLittleEndian | src/main/java/name/prokop/bart/fps/util/BitsAndBytes.java:133-140 | four bytes: the big-endian bytes in reverse order |
| BitsAndBytes.BuildInt | src/main/java/name/prokop/bart/fps/util/BitsAndBytes.java:34-50 | accepts only arrays of length 4 or 2, any other length is an `IllegalArgumentException`; two bytes give the unsigned value `256 * a0 + a1` in 0..65535 |
| BitsAndBytes.BuildInt4 | src/main/java/name/prokop/bart/fps/util/BitsAndBytes.java:52-59 | the same value as the array overload on the four bytes |
| BitsAndBytes.BuildIntOfToBigEndian | src/main/java/name/prokop/bart/fps/util/BitsAndBytes.java:124-131 | `buildInt(toBigEndian(i)) == i` for every `int` |
| BitsAndBytes.FillBigEndian | src/main/java/name/prokop/bart/fps/util/BitsAndBytes.java:110-115 | an array of at least four bytes gets `toBigEndian(i)` in its first four places and keeps every other element; a shorter one is an index error |
| BitsAndBytes.FillLittleEndian | src/main/java/name/prokop/bart/fps/util/BitsAndBytes.java:117-122 | the same with `toLittleEndian(i)` |
| BitsAndBytes.ExtractByte | src/main/java/name/prokop/bart/fps/util/BitsAndBytes.java:100-103 | for an index 0..3, byte `idx` of `toLittleEndian(value)` |
| BitsAndBytes.ExtractByteWrapsAtFour | src/main/java/name/prokop/bart/fps/util/BitsAndBytes.java:100-103 | index `k + 4` reads the same byte as `k`, because Java masks the shift distance to five bits |
| BitsAndBytes.LowOfCombine | src/main/java/name/prokop/bart/fps/util/BitsAndBytes.java:142-151 | `low(combine(h, l)) == l` for every pair |
| BitsAndBytes.HighOfCombine | src/main/java/name/prokop/bart/fps/util/BitsAndBytes.java:142-151 | `high(combine(h, l))` is `h` when `l >= 0` and -1 when `l < 0` (sign extension) |
| BitsAndBytes.CombineLosesHigh | src/main/java/name/prokop/bart/fps/util/BitsAndBytes.java:85-87 | the witness: `combine(1, -1)` has `high` -1, not 1 |
| BitsAndBytes.CombineUnsigned | src/main/java/name/prokop/bart/fps/util/BitsAndBytes.java:85-87 | the corrected `combine` (lower half taken unsigned): `high` and `low` recover `h` and `l` for every pair |
| ToString.MazoviaLetter | src/main/java/name/prokop/bart/fps/util/ToString.java:131-214 | a code exactly for the 18 Polish letters, each code at least 128 |
| ToString.MazoviaByte | src/main/java/name/prokop/bart/fps/util/ToString.java:138-216 | a Polish letter goes as its table code; any other character as its low 8 bits, so 7-bit ASCII passes unchanged |
| ToString.String2Mazovia | src/main/java/name/prokop/bart/fps/util/ToString.java:138-220 | exactly one byte per character, each the character's Mazovia code |
| ToString.MazoviaLetterReadsBack | src/main/java/name/prokop/bart/fps/util/ToString.java:131-214 | every table code reads back as its letter |
| ToString.MazoviaCodesDistinct | src/main/java/name/prokop/bart/fps/util/ToString.java:131-214 | distinct Polish letters never share a code, and every code is at least 128 |
| ToString.MazoviaRoundTrip | src/main/java/name/prokop/bart/fps/util/ToString.java:138-220 | decoding the Mazovia bytes of any string of ASCII characters and Polish letters gives the string back |
| ToString.NoAccent | src/main/java/name/prokop/bart/fps/util/ToString.java:222-311 | an accented Polish letter or 'ü' becomes an ASCII letter; any other character is kept |
| ToString.String2NoAccents | src/main/java/name/prokop/bart/fps/util/ToString.java:222-311 | same length; each Polish letter and 'ü' replaced by an ASCII letter; every other character kept |
| ToString.NoAccentsIdempotent | src/main/java/name/prokop/bart/fps/util/ToString.java:222-311 | stripping accents twice is stripping them once |
| ToString.DebugString | src/main/java/name/prokop/bart/fps/util/ToString.java:32-42 | the text holds only characters 32..127 and is at least as long as the input |
| ToString.DebugChar | src/main/java/name/prokop/bart/fps/util/ToString.java:32-42 | a printable character is kept; any other becomes " 0x", lower-case hex digits whose value is the character's code, then "h "; the result is printable throughout |
| ToString.DebugStringOfPrintable | src/main/java/name/prokop/bart/fps/util/ToString.java:32-42 | a text of printable characters passes unchanged |
| ToString.ByteToIntString | src/main/java/name/prokop/bart/fps/util/ToString.java:110-116 | exactly three decimal digits whose value is the unsigned byte |
| ToString.HexSpaced | src/main/java/name/prokop/bart/fps/util/ToString.java:86-92 | three characters per byte: its two hex digits and a space |
| ToString.ByteArrayToString | src/main/java/name/prokop/bart/fps/util/ToString.java:86-92 | succeeds unless a non-empty range reaches outside the array; an empty range gives "[ ]"; otherwise "[ ", each byte of the range in its own slot, "]", in 3 + 3 * (to - from) characters |
| Slips.AddLine | src/main/java/name/prokop/bart/fps/datamodel/Slip.java:39-41 | the line goes after every earlier line; nothing else changes |
| Slips.GetLine | src/main/java/name/prokop/bart/fps/datamodel/Slip.java:58-60 | defined exactly for an index below `getNoOfLines`, and then the line at that index |
| Slips.AddLinesInOrder | src/main/java/name/prokop/bart/fps/datamodel/Slip.java:31-50 | lines added one after another come back in that order, and the count grows by their number |
| Slips.IndexOfType | src/main/java/name/prokop/bart/fps/datamodel/Slip.java:107-114 | the position of the first entry of the type, -1 exactly when there is none |
| Slips.GetPayment | src/main/java/name/prokop/bart/fps/datamodel/Slip.java:107-114 | `null` exactly when no entry has the type; otherwise an entry of that type |
| Slips.GetPaymentAmount | src/main/java/name/prokop/bart/fps/datamodel/Slip.java:122-129 | 0 for a type never added |
| Slips.GetPaymentName | src/main/java/name/prokop/bart/fps/datamodel/Slip.java:137-144 | "" for a type never added |
| Slips.NormalizeName | src/main/java/name/prokop/bart/fps/datamodel/Slip.java:74-79 | the name cut to 16 characters and then trimmed; `null` stays `null` |
| Slips.AddPayment | src/main/java/name/prokop/bart/fps/datamodel/Slip.java:73-90 | the type's amount grows by `amount`; a new type is appended with the normalised name, an existing entry keeps its name; the other entries, lines and texts stay as they were |
| Slips.AddPaymentEntry | src/main/java/name/prokop/bart/fps/datamodel/Slip.java:92-99 | the same for a ready entry, appended as given when its type is new |
| Slips.AddPaymentKeepsUnique | src/main/java/name/prokop/bart/fps/datamodel/Slip.java:73-90 | after `addPayment` each payment type still has at most one entry |
| Slips.AddPaymentEntryKeepsUnique | src/main/java/name/prokop/bart/fps/datamodel/Slip.java:92-99 | the same for `addPayment(SlipPayment)` |
| Slips.ApplyAllKeepsUnique | src/main/java/name/prokop/bart/fps/datamodel/Slip.java:62-99 | after any sequence of `addPayment` calls each type has at most one entry, and `isUsingPayments` holds exactly when a payment was added |
| Slips.TrimmedOrNull | src/main/java/name/prokop/bart/fps/datamodel/Slip.java:273-278 | the argument trimmed; `null` stays `null` |
| Slips.SetCashbox | src/main/java/name/prokop/bart/fps/datamodel/Slip.java:273-278 | the cash box is `null` exactly when the argument is, and otherwise the trimmed argument; every other field is as it was |
| Slips.SetCashierName | src/main/java/name/prokop/bart/fps/datamodel/Slip.java:284-289 | the cashier name is `null` exactly when the argument is, and otherwise the trimmed argument; every other field is as it was |
| Slips.SetReference | src/main/java/name/prokop/bart/fps/datamodel/Slip.java:311-316 | the reference is `null` exactly when the argument is, and otherwise the trimmed argument; every other field is as it was |
| Slips.SettersIdempotent | src/main/java/name/prokop/bart/fps/datamodel/Slip.java:273-316 | setting a field again with the value it holds changes nothing: stored values have no blank at either end |
| BartDate.Combine | src/main/java/name/prokop/bart/fps/util/BartDate.java:203-205 | the millisecond values add, modulo 2^64 |
| BartDate.IsBetween | src/main/java/name/prokop/bart/fps/util/BartDate.java:207-209 | strictly after `from` and strictly before `to`; never true unless `from < to` |
| BartDate.IsBetweenNeedsOrderedBounds | src/main/java/name/prokop/bart/fps/util/BartDate.java:207-209 | with `from >= to` no date is between them |
| BartDate.TicksBetween | src/main/java/name/prokop/bart/fps/util/BartDate.java:211-213 | the `long` that takes `d1` to `d2` |
| BartDate.TicksBetweenAntisymmetric | src/main/java/name/prokop/bart/fps/util/BartDate.java:211-213 | swapping the arguments negates the result in `long` arithmetic; equal instants give 0 |
| BartDate.TicksBetweenExact | src/main/java/name/prokop/bart/fps/util/BartDate.java:211-213 | when the true difference fits a `long`, it is exact and negated by the swap |
| BartDate.DaysBetweenOneDay | src/main/java/name/prokop/bart/fps/util/BartDate.java:215-218 | every gap from 23 h up to (not including) 47 h counts as one day |
| BartDate.DaysBetweenTruncates | src/main/java/name/prokop/bart/fps/util/BartDate.java:215-218 | gaps strictly between -25 h and 23 h count as zero days (Java's division truncates toward zero) |
| BartDate.TicksOfCombine | src/main/java/name/prokop/bart/fps/util/BartDate.java:203-213 | `ticksBetween(day, combine(day, time))` is `time`'s millisecond value |
| Datamodel.RateDeterminesRate | src/main/java/name/prokop/bart/fps/datamodel/VATRate.java:18-60 | rates with the same value are the same rate, except 0% and exempt, which are both 0 |
| Datamodel.OrdinalIsInjective | src/main/java/name/prokop/bart/fps/datamodel/DiscountType.java:17-39 | different discount kinds have different ordinals |
| Crc16.CalcCRC | src/main/java/name/prokop/bart/fps/drivers/Posnet101Driver.java:571-585 | four lower-case hex digits, zero-padded, whose value is the 16-bit register the loop leaves |
| Crc16.HexField | src/main/java/name/prokop/bart/fps/drivers/Posnet101Driver.java:571-585 | any 16-bit value printed as four lower-case hex digits with that value |
| Crc16.CalcCRCOfEmpty | src/main/java/name/prokop/bart/fps/drivers/Posnet101Driver.java:571-585 | the empty payload gives "0000" |
| Crc16.CrcText | src/main/java/name/prokop/bart/fps/drivers/Posnet101Driver.java:571-585 | the bitwise CRC-16 (polynomial 0x1021, zero start) printed in the same four-digit form |
| Crc16.TablesAgree | src/main/java/name/prokop/bart/fps/drivers/Posnet101Driver.java:504-569 | every entry of the two tables is the bitwise division of its index |
| Crc16.SourceTablesDivide | src/main/java/name/prokop/bart/fps/drivers/Posnet101Driver.java:504-569 | the high and low tables together are the division table of polynomial 0x1021 |
| Crc16.KnownEntries | src/main/java/name/prokop/bart/fps/drivers/Posnet101Driver.java:504-569 | entry 1 is 0x1021 and entry 255 is 0x1ef0 |
| Crc16.CalcCRCIsDivision | src/main/java/name/prokop/bart/fps/drivers/Posnet101Driver.java:571-585 | the table-driven loop computes polynomial division by 0x1021: its value is the bitwise CRC of the payload |
| Crc16.CalcCRCIsCrcText | src/main/java/name/prokop/bart/fps/drivers/Posnet101Driver.java:571-585 | `calcCRC` and the bitwise reference print the same four characters |
| Posnet.Frame | src/main/java/name/prokop/bart/fps/drivers/Posnet101Driver.java:427-435 | STX, the payload, '#', the CRC of the payload alone, ETX: seven bytes more than the payload |
| Posnet.Framing | src/main/java/name/prokop/bart/fps/drivers/Posnet101Driver.java:427-435 | the frame layout around any four check bytes |
| Posnet.Send | src/main/java/name/prokop/bart/fps/drivers/Posnet101Driver.java:427-435 | one transmission, the frame of the command text |
| Posnet.ScanFrame | src/main/java/name/prokop/bart/fps/drivers/Posnet101Driver.java:441-476 | on success the payload holds no '#' and the check has four bytes; a failure is a timeout |
| Posnet.ReceiveBytes | src/main/java/name/prokop/bart/fps/drivers/Posnet101Driver.java:441-483 | a payload without '#', or a timeout, or "Bad CRC" |
| Posnet.ScanOfFramed | src/main/java/name/prokop/bart/fps/drivers/Posnet101Driver.java:441-476 | a frame after noise without STX is cut at its STX, its '#' and its four check bytes |
| Posnet.ReceiveChecksCrc | src/main/java/name/prokop/bart/fps/drivers/Posnet101Driver.java:441-476 | a frame is accepted exactly when its check bytes equal the payload's CRC ignoring letter case |
| Posnet.ReceiveOfFrame | src/main/java/name/prokop/bart/fps/drivers/Posnet101Driver.java:441-483 | parsing inverts framing: noise without STX, then the frame of any payload without '#', gives the payload and leaves the bytes after ETX unread |
| Posnet.AnswerText | src/main/java/name/prokop/bart/fps/drivers/Posnet101Driver.java:486-491 | an answer without '?' is returned as it is; one with '?' is a protocol fault |
| Posnet.AnswerOfError | src/main/java/name/prokop/bart/fps/drivers/Posnet101Driver.java:486-491 | `cmd?code` becomes the fault naming the trimmed command and the trimmed code |
| Posnet.Receive | src/main/java/name/prokop/bart/fps/drivers/Posnet101Driver.java:441-495 | reading an answer sends nothing |
| Posnet.Exchange | src/main/java/name/prokop/bart/fps/drivers/Posnet101Driver.java:427-439 | one frame out per command |
| Posnet.DecodeTokens | src/main/java/name/prokop/bart/fps/drivers/Posnet101Driver.java:416-425 | keys are the two-character heads of the tokens; a token shorter than two characters is an index error |
| Posnet.KeysOfTokens | src/main/java/name/prokop/bart/fps/drivers/Posnet101Driver.java:416-425 | the keys of the decoded map are exactly the heads of the tokens |
| Posnet.DecodeLastWins | src/main/java/name/prokop/bart/fps/drivers/Posnet101Driver.java:416-425 | a repeated key holds the trimmed value of its last token |
| Posnet.SplitOfCommand | src/main/java/name/prokop/bart/fps/drivers/Posnet101Driver.java:416-425 | the tokens after the echoed command name are the fields of the command |
| Posnet.JavaSplitOfCommand | src/main/java/name/prokop/bart/fps/drivers/Posnet101Driver.java:416-425 | Java's `split` on a tab cuts a command into its name and its fields |
| Posnet.DecodeOfCommand | src/main/java/name/prokop/bart/fps/drivers/Posnet101Driver.java:416-425 | the printer's decoder reads back the table of the entries of any well-formed command |
| Posnet.TableLastWins | src/main/java/name/prokop/bart/fps/drivers/Posnet101Driver.java:416-425 | in the table of entries a key holds the trimmed value of its last entry |
| Posnet.SlotText | src/main/java/name/prokop/bart/fps/drivers/Posnet101Driver.java:267-294 | an unmapped rate is sent as "null"; a mapped one parses back to its slot |
| Posnet.DiscountEntries | src/main/java/name/prokop/bart/fps/drivers/Posnet101Driver.java:267-294 | no discount fields without a discount; "rd" 0 for a surcharge and 1 for a reduction; "rp" for the rate kinds and "rw" for the amount kinds |
| Posnet.EncodeLineDecodes | src/main/java/name/prokop/bart/fps/drivers/Posnet101Driver.java:267-294 | the printer reads exactly the line's fields out of `encodeLine` |
| Posnet.LineReadFields | src/main/java/name/prokop/bart/fps/drivers/Posnet101Driver.java:267-294 | the name, the slot, the price and the quantity read back from the line's table |
| Posnet.DiscountReadFields | src/main/java/name/prokop/bart/fps/drivers/Posnet101Driver.java:267-294 | "rd", "rw" and "rp" read back as the discount kind and value; absent without a discount |
| Posnet.LineReadDiscount | src/main/java/name/prokop/bart/fps/drivers/Posnet101Driver.java:267-294 | a line's discount fields are exactly those of its discount |
| Posnet.PaymentCode | src/main/java/name/prokop/bart/fps/drivers/Posnet101Driver.java:296-332 | codes 0 and 2..8; 1 is never used |
| Posnet.PaymentCodeInjective | src/main/java/name/prokop/bart/fps/drivers/Posnet101Driver.java:296-332 | different payment types travel under different codes |
| Posnet.EncodePaymentDecodes | src/main/java/name/prokop/bart/fps/drivers/Posnet101Driver.java:296-332 | the printer reads exactly the payment's fields out of `encodePayment` |
| Posnet.PaymentReadFields | src/main/java/name/prokop/bart/fps/drivers/Posnet101Driver.java:296-332 | the type code and the amount parse back, and "na" is there exactly when a non-blank name is sent |
| Posnet.Cnf | src/main/java/name/prokop/bart/fps/drivers/Posnet101Driver.java:334-343 | fails with a `NullPointerException` exactly when the cashier, cash box or reference is missing |
| Posnet.CnfDecodes | src/main/java/name/prokop/bart/fps/drivers/Posnet101Driver.java:334-343 | the printer reads back the cut cashier, cash box, reference and footer lines of the header |
| Posnet.DecodeBool | src/main/java/name/prokop/bart/fps/drivers/Posnet101Driver.java:813-821 | '1', 'T', 'Y' (either case) are true, '0', 'N' (either case) false, anything else throws |
| Posnet.DecodeBoolRoundTrip | src/main/java/name/prokop/bart/fps/drivers/Posnet101Driver.java:813-821 | both booleans read back from their letter |
| Posnet.DecodeBoolIgnoresCase | src/main/java/name/prokop/bart/fps/drivers/Posnet101Driver.java:813-821 | letter case does not change the result |
| Posnet.CheckDevice | src/main/java/name/prokop/bart/fps/drivers/Posnet101Driver.java:351-366 | "ds" 1, 2 or 3 is not ready; a missing property throws |
| Posnet.CheckMechanism | src/main/java/name/prokop/bart/fps/drivers/Posnet101Driver.java:368-401 | "pr" 1..10 is a mechanism fault; a missing property throws |
| Posnet.CheckSession | src/main/java/name/prokop/bart/fps/drivers/Posnet101Driver.java:403-413 | ready only when the header flag decodes to true and no transaction is open |
| Posnet.CanPrint | src/main/java/name/prokop/bart/fps/drivers/Posnet101Driver.java:345-414 | the four status queries go out in order, each after the previous answer passed; on a failure only those up to the failing one |
| Posnet.StatusFramesStart | src/main/java/name/prokop/bart/fps/drivers/Posnet101Driver.java:345-414 | no status query frame starts a command whose first letter is not 's' |
| Posnet.RateOfTextInverts | src/main/java/name/prokop/bart/fps/drivers/Posnet101Driver.java:216-257 | a text names a rate exactly when it is that rate's comma-decimal text |
| Posnet.VatSlotsMiss | src/main/java/name/prokop/bart/fps/drivers/Posnet101Driver.java:216-257 | a rate that no key names keeps its earlier slot, or stays unmapped |
| Posnet.VatSlotsStable | src/main/java/name/prokop/bart/fps/drivers/Posnet101Driver.java:216-257 | a rate filed under the slot of its only key stays there |
| Posnet.VatSlotsHit | src/main/java/name/prokop/bart/fps/drivers/Posnet101Driver.java:216-257 | when each rate text appears under one key only, the key decides its rate's slot whatever the order of the keys |
| Posnet.InitVatRates | src/main/java/name/prokop/bart/fps/drivers/Posnet101Driver.java:216-257 | the rate query, then the status queries; on success all of them |
| Posnet.ReadRates | src/main/java/name/prokop/bart/fps/drivers/Posnet101Driver.java:216-257 | one rate query frame |
| Posnet.QueryAll | src/main/java/name/prokop/bart/fps/drivers/Posnet101Driver.java:159-187 | the queries go out in order; on a failure a leading part of them |
| Posnet.ExchangeAll | src/main/java/name/prokop/bart/fps/drivers/Posnet101Driver.java:159-187 | the commands go out in order; on a failure a leading part of them |
| Posnet.PrintSlipStopsWhenNotReady | src/main/java/name/prokop/bart/fps/drivers/Posnet101Driver.java:159-187 | a printer found not ready fails the receipt before any header ("ftrcfg") or transaction start ("trinit") is sent |
| Posnet.PrintSlipStops | src/main/java/name/prokop/bart/fps/drivers/Posnet101Driver.java:159-187 | a receipt that finds the printer not ready ends where the cancel or the status check ended |
| Posnet.NoReceiptFrames | src/main/java/name/prokop/bart/fps/drivers/Posnet101Driver.java:159-187 | after a first frame that is neither a header nor a transaction start (the cancel) and a leading part of the status queries, no frame starts a header or a transaction |
| Posnet.OpenDrawer | src/main/java/name/prokop/bart/fps/drivers/Posnet101Driver.java:87-99 | one frame out; succeeds exactly when the printer echoes the command |
| EscFrame.CalculateCC | src/main/java/name/prokop/bart/fps/drivers/Thermal203.java:989-998 | two bytes: the upper-case hex digits of 0xFF xor every payload byte |
| EscFrame.CheckOfEmpty | src/main/java/name/prokop/bart/fps/drivers/Thermal203.java:989-998 | an empty payload has the check "FF" |
| EscFrame.CheckSeals | src/main/java/name/prokop/bart/fps/drivers/Thermal203.java:989-998 | the xor of the payload and its check byte is always 0xFF |
| EscFrame.CheckDetectsFlip | src/main/java/name/prokop/bart/fps/drivers/Thermal203.java:989-998 | changing one payload byte by a nonzero mask changes the check by the same mask, so any single bit flip is detected |
| EscFrame.CheckReadsBack | src/main/java/name/prokop/bart/fps/drivers/Thermal203.java:989-998 | `parse2hex` reads the check byte back from its two digits |
| EscFrame.Frame | src/main/java/name/prokop/bart/fps/drivers/Thermal203.java:968-987 | ESC P, the payload, the check digits when checked, ESC \ |
| EscFrame.ReadSeq | src/main/java/name/prokop/bart/fps/drivers/Thermal203.java:283-319 | reading sends nothing; without `ESC \` on the line the answer is "" and the line is used up |
| EscFrame.ReadSeqOfReply | src/main/java/name/prokop/bart/fps/drivers/Thermal203.java:283-319 | a bracketed answer without ESC inside reads back exactly, and what follows stays on the line |
| EscFrame.DecodeStatus | src/main/java/name/prokop/bart/fps/drivers/Thermal203.java:360-372 | "" is -1; a text without "#Z" is an index error; a success fits a byte |
| EscFrame.DecodeStatusOfText | src/main/java/name/prokop/bart/fps/drivers/Thermal203.java:360-372 | every status code a byte holds is read back from its text, in every dialect |
| EscFrame.DecodeStatusControlPrefix | src/main/java/name/prokop/bart/fps/drivers/InnovaProfit451.java:304-311 | a control character before a one-digit code is dropped by the Thermal drivers and makes the others fail to parse |
| EscFrame.DecodeDLEOfEncode | src/main/java/name/prokop/bart/fps/drivers/Thermal203.java:930-934 | every DLE flag set (ONL, PE, ERR from bits 4, 2, 1) is read back whatever the higher bits hold |
| EscFrame.EncodeDLEOfDecode | src/main/java/name/prokop/bart/fps/drivers/Thermal203.java:930-934 | decoding keeps exactly the low three bits |
| EscFrame.DecodeENQOfEncode | src/main/java/name/prokop/bart/fps/drivers/Thermal203.java:919-924 | every ENQ flag set (FSK, CMD, PAR, TRF from bits 8, 4, 2, 1) is read back whatever the higher bits hold |
| EscFrame.EncodeENQOfDecode | src/main/java/name/prokop/bart/fps/drivers/OptimusVivo.java:726-732 | decoding keeps exactly the low four bits |
| EscDialect.ResetCodes | src/main/java/name/prokop/bart/fps/drivers/Thermal203.java:335-358 | leading CANs plus, per round, its CANs, DLE and ENQ |
| EscDialect.Thermal203Reset | src/main/java/name/prokop/bart/fps/drivers/Thermal203.java:335-358 | fifteen rounds of CAN, CAN, DLE, ENQ |
| EscDialect.Thermal301Reset | src/main/java/name/prokop/bart/fps/drivers/Thermal301.java:294-317 | seven rounds of CAN, CAN, DLE, ENQ |
| EscDialect.InnovaReset | src/main/java/name/prokop/bart/fps/drivers/InnovaProfit451.java:281-302 | five CANs, then three rounds of DLE, ENQ |
| EscDialect.VivoReset | src/main/java/name/prokop/bart/fps/drivers/OptimusVivo.java:270-291 | three CANs, then two rounds of DLE, ENQ |
| EscDialect.Collect | src/main/java/name/prokop/bart/fps/drivers/Thermal203.java:254-279 | the nonzero entries in order, each under its position as code |
| EscDialect.PreparePayments | src/main/java/name/prokop/bart/fps/drivers/Thermal203.java:254-279 | `null` exactly for a slip without payments; otherwise entries in increasing code order, each the type's amount and name |
| EscDialect.CollectSent | src/main/java/name/prokop/bart/fps/drivers/Thermal203.java:254-279 | a position is collected exactly when it is listed and its amount is nonzero |
| EscDialect.PaymentSentIff | src/main/java/name/prokop/bart/fps/drivers/Thermal301.java:204-238 | a listed type is sent, under the code of its position, exactly when its amount is nonzero |
| EscDialect.UnlistedTypeDropped | src/main/java/name/prokop/bart/fps/drivers/Thermal203.java:254-279 | a type the order does not list is never sent, whatever its amount |
| EscDialect.Thermal203DropsBondAndAccount | src/main/java/name/prokop/bart/fps/drivers/Thermal203.java:254-279 | the 2.03 order (shared by the Vivo driver) lists every type except Bond and Account |
| EscDialect.Thermal301ListsAll | src/main/java/name/prokop/bart/fps/drivers/Thermal301.java:204-238 | the 3.01 order lists every payment type exactly once |
| EscDialect.InnovaSlotOf | src/main/java/name/prokop/bart/fps/drivers/InnovaProfit451.java:199-225 | flag 1, amount and name (where the slot has a name line) exactly for a nonzero amount; the defaults otherwise |
| EscDialect.PrepareInnova | src/main/java/name/prokop/bart/fps/drivers/InnovaProfit451.java:199-225 | a slip without payments leaves all four slots at their defaults |
| EscDialect.PrepareInnovaSlots | src/main/java/name/prokop/bart/fps/drivers/InnovaProfit451.java:1035-1048 | each slot is what the slip holds for cash, card, cheque and voucher; the other types have no slot |
| EscDialect.RateText | src/main/java/name/prokop/bart/fps/drivers/Thermal203.java:785-816 | the printer's text of a rate has a '.' and no '/' |
| EscDialect.DecodeRateIff | src/main/java/name/prokop/bart/fps/drivers/Thermal203.java:785-816 | a text decodes to a rate exactly when it is that rate's text; "101.00" and unknown texts give an empty slot |
| EscDialect.FindBelow | src/main/java/name/prokop/bart/fps/drivers/Thermal203.java:228-252 | the highest slot below `k` holding the rate, -1 when none does |
| EscDialect.FindPTU | src/main/java/name/prokop/bart/fps/drivers/Thermal203.java:228-252 | the letter of the slot holding the rate, the last one from A to G; "undefined rate" exactly when no slot holds it |
| EscDialect.ExemptFallsBackToG | src/main/java/name/prokop/bart/fps/drivers/InnovaProfit451.java:618-688 | with the Innova defaults the exempt rate is found in slot G |
| EscDialect.AfterSlash | src/main/java/name/prokop/bart/fps/drivers/Thermal203.java:765-783 | the text after the first '/', all of it when there is none |
| EscDialect.ReadSlots | src/main/java/name/prokop/bart/fps/drivers/Thermal203.java:765-783 | the slots before the one being read are kept; a missing '/' is an index error |
| EscDialect.ReadSlotsOfFields | src/main/java/name/prokop/bart/fps/drivers/Thermal301.java:617-633 | fields each ended by '/' fill the slots in order; when they run out before G the read throws and later slots keep their values |
| EscDialect.ReadSlotsStopsEarly | src/main/java/name/prokop/bart/fps/drivers/InnovaProfit451.java:618-688 | Innova stops at the first field without '.', without an error, and the later slots keep their defaults |
| EscDialect.ErrDescription | src/main/java/name/prokop/bart/fps/drivers/InnovaProfit451.java:904-1027 | the code, " : ", then its text: "TIMEOUT" for -1 and "NIEZNAY BŁĄD" for an unlisted code |
| EscDialect.ErrDescriptionNamesCode | src/main/java/name/prokop/bart/fps/drivers/InnovaProfit451.java:904-1027 | the text before the first " : " parses back to the code |
| EscTexts.NumReadsBack | src/main/java/name/prokop/bart/fps/drivers/Thermal301.java:438-452 | numbers read back: exactly in plain notation or with no more than `k` decimals, otherwise rounded half-even to `k` decimals |
| EscTexts.MoneyReadsBack | src/main/java/name/prokop/bart/fps/drivers/Thermal301.java:438-444 | an amount of cents reads back exactly in either notation |
| EscTexts.PayloadCuts | src/main/java/name/prokop/bart/fps/drivers/Thermal203.java:590-618 | a command's text cuts back into its parameters, name, lines and numbers when none of them holds its separator |
| EscTexts.DiscountSent | src/main/java/name/prokop/bart/fps/drivers/Thermal301.java:459-462 | a rate-kind discount goes as a percentage (the fraction times 100); an amount kind as its cents |
| EscTexts.LineTextFields | src/main/java/name/prokop/bart/fps/drivers/Thermal203.java:590-618 | a sale line's text cuts back into number and discount kind, name, quantity and its '/'-ended numbers |
| EscTexts.LineNumbersReadBack | src/main/java/name/prokop/bart/fps/drivers/Thermal301.java:454-478 | the rate letter, price, value and discount of a line read back exactly |
| EscTexts.Others | src/main/java/name/prokop/bart/fps/drivers/Thermal301.java:485-516 | the forms of payment listed: every prepared entry but cash, in order |
| EscTexts.OthersSent | src/main/java/name/prokop/bart/fps/drivers/Thermal301.java:485-516 | a code is listed exactly when it was prepared and is not cash |
| EscTexts.CashOfCollect | src/main/java/name/prokop/bart/fps/drivers/Thermal301.java:485-516 | the cash amount announced is the first type's amount, 0 included |
| EscTexts.ClosingPayments | src/main/java/name/prokop/bart/fps/drivers/Thermal301.java:485-516 | `$y` announces the cash amount and lists exactly the other ordered types with a nonzero amount |
| EscTexts.ReferenceLine | src/main/java/name/prokop/bart/fps/drivers/Thermal301.java:550-555 | with a bar code: '#', at most 16 characters of the reference, '#', and a missing reference throws; without one (Vivo) the reference as it is |
| EscTexts.Trxend1Text | src/main/java/name/prokop/bart/fps/drivers/Thermal203.java:620-696 | fails exactly when a bar code is due and the reference is missing |
| EscTexts.Trxend1Fields | src/main/java/name/prokop/bart/fps/drivers/Thermal301.java:480-548 | `$y` cuts back into its parameters, its lines and its amounts |
| EscTexts.Trxend1HeadReadsBack | src/main/java/name/prokop/bart/fps/drivers/Thermal301.java:485-516 | the number of forms, the cash flag (set exactly when cash was paid) and each form's code read back |
| EscTexts.Trxend1AmountsReadBack | src/main/java/name/prokop/bart/fps/drivers/Thermal301.java:480-548 | the total, the cash and each form's amount read back exactly, in the order of the codes |
| EscTexts.TrxendFields | src/main/java/name/prokop/bart/fps/drivers/InnovaProfit451.java:446-499 | `$x` cuts back into eleven parameters, nine lines and nine amounts |
| EscTexts.TrxendOfSlip | src/main/java/name/prokop/bart/fps/drivers/InnovaProfit451.java:446-499 | for each slot the flag is 1 exactly for a nonzero amount, the amount and the name read back, and so does the total |
| EscTexts.TrxendPlaces | src/main/java/name/prokop/bart/fps/drivers/InnovaProfit451.java:446-499 | flags, names and amounts are in the same cash, card, cheque, voucher order; cash has no name line |
| EscTexts.CutTrim | src/main/java/name/prokop/bart/fps/drivers/InnovaProfit451.java:506-524 | a longer text is cut to `n` and trimmed; a shorter one is sent unchanged |
| EscTexts.CutTrimKeepsOut | src/main/java/name/prokop/bart/fps/drivers/InnovaProfit451.java:506-524 | the cut text holds no character the original lacks |
| EscTexts.CardFieldLimits | src/main/java/name/prokop/bart/fps/drivers/InnovaProfit451.java:506-524 | reference, holder, terminal, card name and number within 12, 15, 8, 16 and 20 characters; short ones unchanged |
| EscTexts.CardTextFields | src/main/java/name/prokop/bart/fps/drivers/InnovaProfit451.java:501-560 | `#g` cuts back into the PIN flag, the ten lines and the amount, which reads back exactly |
| EscTexts.CommandReadsBack | src/main/java/name/prokop/bart/fps/drivers/Thermal203.java:374-403 | a one-parameter command reads back its parameter and its name |
| EscTexts.DayReportReadsBack | src/main/java/name/prokop/bart/fps/drivers/Thermal203.java:428-452 | the daily report's parameters read back as the year's last two digits, the month from 1 and the day |
| EscDriver.ReadOneByteAnswer | src/main/java/name/prokop/bart/fps/drivers/OptimusVivo.java:670-690 | an empty line reads 0xFF; after an ESC the last byte of the answer, otherwise the first; the rest is dropped |
| EscDriver.SendCan | src/main/java/name/prokop/bart/fps/drivers/OptimusVivo.java:713-719 | one CAN goes out; connection and rate slots unchanged |
| EscDriver.SendDle | src/main/java/name/prokop/bart/fps/drivers/Thermal203.java:894-905 | one DLE goes out; rate slots and ENQ flags unchanged |
| EscDriver.DleConnected | src/main/java/name/prokop/bart/fps/drivers/Thermal203.java:894-905 | the printer counts as connected exactly when a byte is waiting after the DLE |
| EscDriver.DleFlagsOfAnswer | src/main/java/name/prokop/bart/fps/drivers/OptimusVivo.java:700-711 | a one-byte answer is the DLE flags; after an ESC only `readOneByteAnswer` finds the flags in the last byte |
| EscDriver.SendEnq | src/main/java/name/prokop/bart/fps/drivers/Thermal203.java:873-885 | nothing at all when disconnected; otherwise one ENQ goes out |
| EscDriver.FlushSession | src/main/java/name/prokop/bart/fps/drivers/Thermal203.java:321-332 | the waiting bytes are dropped and nothing is sent |
| EscDriver.Exchange | src/main/java/name/prokop/bart/fps/drivers/Thermal203.java:710-731 | one frame goes out (with its check unless unchecked) and the answer is read |
| EscDriver.Command | src/main/java/name/prokop/bart/fps/drivers/Thermal203.java:374-403 | nothing when disconnected; otherwise the command's frame is the next thing sent |
| EscDriver.CommandOfStatus | src/main/java/name/prokop/bart/fps/drivers/Thermal203.java:374-403 | a connected command answered with status `code` succeeds exactly when it is 0, and a nonzero code is the fault it throws |
| EscDriver.ExchangeReadsStatus | src/main/java/name/prokop/bart/fps/drivers/Thermal203.java:283-319 | a status answer is read back as its text and leaves the line empty |
| EscDriver.Serm | src/main/java/name/prokop/bart/fps/drivers/Thermal203.java:710-731 | disconnected, the error-mode command throws "no communication" |
| EscDriver.SermOfStatus | src/main/java/name/prokop/bart/fps/drivers/InnovaProfit451.java:562-584 | a nonzero status after the error-mode command throws exactly in the strict dialects |
| EscDriver.InnovaLenient | src/main/java/name/prokop/bart/fps/drivers/InnovaProfit451.java:562-584 | only the Innova driver is lenient; 2.03, 3.01 and Vivo are strict |
| EscDriver.RateRequestReadsTable | src/main/java/name/prokop/bart/fps/drivers/Thermal203.java:733-756 | the rate table the printer answers is the one the lines are looked up in, and a read that throws half-way fails the request |
| EscDriver.DisconnectedLines | src/main/java/name/prokop/bart/fps/drivers/Thermal203.java:590-618 | disconnected, the lines send nothing and change nothing; they fail only on an undefined rate |
| EscDriver.DisconnectedPrintSlip | src/main/java/name/prokop/bart/fps/drivers/Thermal203.java:181-200 | disconnected, the receipt sends nothing and fails only on an undefined rate |
| EscDriver.CancelPendingSends | src/main/java/name/prokop/bart/fps/drivers/Thermal301.java:96-120 | the cancel `0$e` goes out exactly when the printer is connected and in a transaction |
| EscDriver.DailyReport | src/main/java/name/prokop/bart/fps/drivers/InnovaProfit451.java:1030-1032 | the Innova and Vivo drivers throw "unsupported" before touching the line |
| EscDriver.SilentControls | src/main/java/name/prokop/bart/fps/drivers/Thermal203.java:335-358 | control bytes on a silent line send only themselves, and after a DLE the printer counts as disconnected |
| EscDriver.ResetHasDle | src/main/java/name/prokop/bart/fps/drivers/Thermal203.java:335-358 | every reset pattern holds a DLE |
| EscDriver.SilentPrinter | src/main/java/name/prokop/bart/fps/drivers/Thermal203.java:95-119 | a printer that never answers gets only the reset's control bytes and `print`, `openDrawer` and the daily report throw "no communication" |
| ElzabCodec.EpsilonCast | src/main/java/name/prokop/bart/fps/drivers/ElzabMera.java:99-101 | `(int)(v + 0.000001)`: a non-negative `int` is kept, a negative one moves up by one |
| ElzabCodec.JavaInt | src/main/java/name/prokop/bart/fps/drivers/ElzabMera.java:99-101 | the `int` closest to the value, which is the value itself exactly when it fits |
| ElzabCodec.PrepareInteger | src/main/java/name/prokop/bart/fps/drivers/ElzabMera.java:407-416 | four bytes, least significant first |
| ElzabCodec.PrepareIntegerRoundTrip | src/main/java/name/prokop/bart/fps/drivers/ElzabMera.java:407-416 | the four bytes read back as the integer, and every four bytes encode what they read as |
| ElzabCodec.NameText | src/main/java/name/prokop/bart/fps/drivers/ElzabMera.java:384-405 | always 28 characters |
| ElzabCodec.PrepareName | src/main/java/name/prokop/bart/fps/drivers/ElzabMera.java:384-405 | 28 bytes: the name trimmed, cut to 28, dotted up to 5 and blank-padded |
| ElzabCodec.NameTextTrimsBack | src/main/java/name/prokop/bart/fps/drivers/ElzabMera.java:384-405 | a trimmed name of 5 to 28 characters is what trimming the field gives back; a shorter one comes back with its dots |
| ElzabCodec.CountAmountPrecision | src/main/java/name/prokop/bart/fps/drivers/ElzabMera.java:418-438 | the fewest decimals, 0 to 4, that write the quantity; "reduce amount precision" exactly when four are not enough |
| ElzabCodec.ScaledIsExact | src/main/java/name/prokop/bart/fps/drivers/ElzabMera.java:418-438 | `amount * 10^k` with `k` denotes the quantity exactly |
| ElzabCodec.PairValue | src/main/java/name/prokop/bart/fps/drivers/ElzabMera.java:236-248 | the big-endian value of a byte pair |
| ElzabCodec.DecodeRates | src/main/java/name/prokop/bart/fps/drivers/ElzabMera.java:236-248 | fourteen bytes give seven 16-bit rates |
| ElzabCodec.RatesRoundTrip | src/main/java/name/prokop/bart/fps/drivers/ElzabMera.java:236-248 | every table of 16-bit rates survives encoding and decoding |
| ElzabCodec.RatesBytesRoundTrip | src/main/java/name/prokop/bart/fps/drivers/ElzabMera.java:236-248 | every fourteen bytes are the encoding of the table they decode to |
| ElzabCodec.FirstFrom | src/main/java/name/prokop/bart/fps/drivers/ElzabMera.java:440-463 | the first of rates A..F from `i` on equal to `v`, or 6 |
| ElzabCodec.FindRate | src/main/java/name/prokop/bart/fps/drivers/ElzabMera.java:440-463 | exempt goes to slot 5 before any comparison; otherwise found exactly when one of A..F equals the rate |
| ElzabCodec.FindRateSearches | src/main/java/name/prokop/bart/fps/drivers/ElzabMera.java:440-463 | the slot of the first of A..F equal to the rate; an undefined rate when none is |
| ElzabCodec.FindRateIgnoresG | src/main/java/name/prokop/bart/fps/drivers/ElzabMera.java:440-463 | rate G plays no part, and only the exempt rate lands in slot 5 |
| ElzabCodec.Assess | src/main/java/name/prokop/bart/fps/drivers/ElzabMera.java:315-381 | a failure is either paper out or a missing daily report |
| ElzabCodec.ReadyIffMasksClear | src/main/java/name/prokop/bart/fps/drivers/ElzabMera.java:315-381 | ready exactly when `byte1 & 0x0A` and `byte2 & 0x43` are 0; paper out first, daily report next, then a stopped print, then busy |
| ElzabCodec.EncodeLine | src/main/java/name/prokop/bart/fps/drivers/ElzabMera.java:471-489 | a record is 51 bytes |
| ElzabCodec.DecodeLine | src/main/java/name/prokop/bart/fps/drivers/ElzabMera.java:471-489 | what reads back is a well-formed record |
| ElzabCodec.LineRoundTrip | src/main/java/name/prokop/bart/fps/drivers/ElzabMera.java:471-489 | every record reads back from its bytes, and bytes that read as a record are that record's bytes |
| ElzabCodec.LineFields | src/main/java/name/prokop/bart/fps/drivers/ElzabMera.java:471-489 | where each field of the record sits in the 51 bytes |
| ElzabCodec.RecordOf | src/main/java/name/prokop/bart/fps/drivers/ElzabMera.java:471-489 | a record exactly when the precision and the rate are both settled; otherwise the precision fault comes first |
| ElzabCodec.RecordReadsBack | src/main/java/name/prokop/bart/fps/drivers/ElzabMera.java:471-489 | the quantity at its precision, the price, the value and the VAT slot read back from the record's bytes |
| ElzabCodec.DiscountHead | src/main/java/name/prokop/bart/fps/drivers/ElzabMera.java:491-514 | ESC 18 20 for a surcharge, ESC 18 2D for a reduction |
| ElzabCodec.RateDiscountShare | src/main/java/name/prokop/bart/fps/drivers/ElzabMera.java:502-509 | a rate discount is the rate's share of the gross in cents, truncated toward zero; a negative share that is a whole number of cents comes out one cent higher, as the epsilon before the cast makes it |
| ElzabDriver.WaitForAck | src/main/java/name/prokop/bart/fps/drivers/ElzabMera.java:194-215 | succeeds exactly when the first byte is ACK; another byte is a NAK, no byte a timeout |
| ElzabDriver.Request | src/main/java/name/prokop/bart/fps/drivers/ElzabMera.java:171-215 | one transmission, the command |
| ElzabDriver.RequestAnswered | src/main/java/name/prokop/bart/fps/drivers/ElzabMera.java:194-215 | a command answered with ACK succeeds; any other answer or none fails |
| ElzabDriver.StatusQuery | src/main/java/name/prokop/bart/fps/drivers/ElzabMera.java:264-314 | the query goes out; the byte read is -1..255 and uses up the printer's answers |
| ElzabDriver.CheckPrinter | src/main/java/name/prokop/bart/fps/drivers/ElzabMera.java:264-382 | a decision uses up the printer's answers |
| ElzabDriver.CheckPrinterDecides | src/main/java/name/prokop/bart/fps/drivers/ElzabMera.java:264-382 | one round concludes exactly what the readiness rules say of the second and third status bytes, with ESC 2A sent only for a print stopped for paper |
| ElzabDriver.MissingStatusIsPaperOut | src/main/java/name/prokop/bart/fps/drivers/ElzabMera.java:315-381 | a status byte that never comes reads as -1 and counts as paper out |
| ElzabDriver.AwaitReady | src/main/java/name/prokop/bart/fps/drivers/ElzabMera.java:80-86 | each round uses up answers, so the wait ends on any finite script of answers |
| ElzabDriver.ReadRates | src/main/java/name/prokop/bart/fps/drivers/ElzabMera.java:225-256 | one query, ESC D1 |
| ElzabDriver.ReadRatesReads | src/main/java/name/prokop/bart/fps/drivers/ElzabMera.java:225-256 | the table the printer sends is the one read; an answer of another length is a timeout |
| ElzabDriver.WriteAll | src/main/java/name/prokop/bart/fps/drivers/ElzabMera.java:471-489 | one transmission per piece, in order |
| ElzabDriver.LinePiecesJoined | src/main/java/name/prokop/bart/fps/drivers/ElzabMera.java:471-489 | joined, the line's transmissions are the record's 51 bytes |
| ElzabDriver.PrintLineResult | src/main/java/name/prokop/bart/fps/drivers/ElzabMera.java:471-489 | `printLine` succeeds exactly when the line has a record, and otherwise fails with the record's fault |
| ElzabDriver.PrintLineSends | src/main/java/name/prokop/bart/fps/drivers/ElzabMera.java:471-489 | a successful `printLine` sends the record's pieces in order |
| ElzabDriver.PrintLineStops | src/main/java/name/prokop/bart/fps/drivers/ElzabMera.java:471-489 | too many decimals send nothing; an undefined rate stops after the first 46 bytes |
| ElzabDriver.LineHeadLength | src/main/java/name/prokop/bart/fps/drivers/ElzabMera.java:471-489 | the pieces before the slot are 46 bytes |
| ElzabDriver.PrintDiscount | src/main/java/name/prokop/bart/fps/drivers/ElzabMera.java:491-514 | without a discount it throws; otherwise the header and the value in cents |
| ElzabDriver.PrintItemResult | src/main/java/name/prokop/bart/fps/drivers/ElzabMera.java:93-97 | an item fails exactly when its line has no record, with that fault; an undiscounted line never reaches `printDiscount` |
| ElzabDriver.PrintLinesFails | src/main/java/name/prokop/bart/fps/drivers/ElzabMera.java:93-97 | the lines fail exactly when one of them has no record, and then with a precision or rate fault |
| ElzabDriver.CloseSends | src/main/java/name/prokop/bart/fps/drivers/ElzabMera.java:99-117 | the total, the reference line and the cashier line in order; a missing text throws when its bytes are due |
| ElzabDriver.ClosingJoined | src/main/java/name/prokop/bart/fps/drivers/ElzabMera.java:99-117 | joined, the closing is ESC 07, the total, the marked reference and cashier lines, ESC 24 |
| ElzabDriver.OpenDrawer | src/main/java/name/prokop/bart/fps/drivers/ElzabMera.java:131-141 | one command, ESC 57 |
| ElzabDriver.DailyReport | src/main/java/name/prokop/bart/fps/drivers/ElzabMera.java:144-154 | one command, ESC 25 |
| ElzabDriver.PrintInvoice | src/main/java/name/prokop/bart/fps/drivers/ElzabMera.java:126-128 | unsupported; nothing is sent |
| ElzabDriver.SilentPrinter | src/main/java/name/prokop/bart/fps/drivers/ElzabMera.java:74-124 | a printer that never answers stops the receipt at the first status query; the drawer and the report time out |
| EscTexts.Num | src/main/java/name/prokop/bart/fps/drivers/Thermal301.java:438-452 | the text holds only digits, a leading minus and a decimal point, so it never meets a separator of the command |
| EscDriver.Reset | src/main/java/name/prokop/bart/fps/drivers/Thermal203.java:335-358 | what goes out is exactly the reset pattern's control bytes in order, each as its own write, with an ENQ dropped while the printer counts as disconnected; a connected printer that answers every byte stays connected and gets the whole pattern; the rate slots stay |
| EscDriver.Poll | src/main/java/name/prokop/bart/fps/drivers/Thermal203.java:873-905 | a DLE, then an ENQ exactly when a byte answered the DLE (or was already waiting), which is exactly when the printer counts as connected afterwards |
| EscDriver.PollSends | src/main/java/name/prokop/bart/fps/drivers/Thermal203.java:873-905 | the DLE and ENQ only add to what was sent |
| EscDriver.Cancel | src/main/java/name/prokop/bart/fps/drivers/Thermal203.java:374-403 | cancelling a transaction leaves the rate slots alone |
| EscDriver.RateRequest | src/main/java/name/prokop/bart/fps/drivers/Thermal203.java:733-756 | disconnected, nothing is sent and nothing changes; connected, the slots remain a table of seven whatever the answer |
| EscDriver.SendLine | src/main/java/name/prokop/bart/fps/drivers/Thermal203.java:590-618 | an undefined rate fails before anything is sent; otherwise, connected, the next frame is the line's `$l` text in Mazovia with the slot letter of its rate, with check bytes; the rate slots stay |
| EscDriver.SendClosing | src/main/java/name/prokop/bart/fps/drivers/Thermal203.java:620-696 | disconnected, nothing is sent and it cannot fail; connected, a closing text that cannot be built (missing reference for a bar code) fails before anything is sent, and otherwise it is the next frame, in Mazovia with check bytes |
| Slips.IndexOfTypeIsFirst | src/main/java/name/prokop/bart/fps/datamodel/Slip.java:107-114 | the first entry of a type is the one found |
| ElzabDriver.StatusBytes | src/main/java/name/prokop/bart/fps/drivers/ElzabMera.java:264-314 | five status queries in the driver's order; a success uses up answers |
| ElzabDriver.DecideOf | src/main/java/name/prokop/bart/fps/drivers/ElzabMera.java:315-381 | on the bytes read, the rules decide: a fault for paper out or a missing report, true only for ready, false for busy, and ESC 2A sent (and acknowledged) only for a print stopped for paper |
| EscDialect.Overwrite | src/main/java/name/prokop/bart/fps/drivers/Thermal203.java:765-783 | the slots from `i` on take the new values in order; every other slot keeps its value |
| BitsAndBytes.ToBigEndian | src/main/java/name/prokop/bart/fps/util/BitsAndBytes.java:124-131 | four bytes, most significant first, that spell the two's-complement pattern of the `int` (its value modulo 2^32) |
| BitsAndBytes.Combine | src/main/java/name/prokop/bart/fps/util/BitsAndBytes.java:85-87 | `h * 2^32 + l` for a non-negative `l`; for a negative `l` the sign extension swallows `h` and the result is `l` itself |
| BitsAndBytes.High | src/main/java/name/prokop/bart/fps/util/BitsAndBytes.java:142-146 | the upper half taken with an arithmetic shift: `l - high(l) * 2^32` is the unsigned lower half, from 0 to 2^32 - 1 |
| BitsAndBytes.Low | src/main/java/name/prokop/bart/fps/util/BitsAndBytes.java:148-151 | the lower half: `high(l) * 2^32` plus the unsigned view of `low(l)` gives `l` back |
| EscFrame.DecodeDLE | src/main/java/name/prokop/bart/fps/drivers/Thermal203.java:930-934 | on-line, paper empty and error are bits 2, 1 and 0 of the answer; the bits above play no part |
| EscFrame.DecodeENQ | src/main/java/name/prokop/bart/fps/drivers/Thermal203.java:919-924 | fiscal, command done, in transaction and transaction done are bits 3, 2, 1 and 0 of the answer |
| EscDialect.DecodeRates | src/main/java/name/prokop/bart/fps/drivers/Thermal203.java:765-783 | the slots stay a table of seven, and a read that throws throws an index error |
| EscDialect.DecodeRatesOfFields | src/main/java/name/prokop/bart/fps/drivers/Thermal301.java:617-633 | after the head and its '/', fields each ended by '/' fill slots A.. in order (over the Innova defaults for Innova); fewer than seven fields throw an index error, and the slots not reached keep their values |
| Posnet.Decode | src/main/java/name/prokop/bart/fps/drivers/Posnet101Driver.java:416-425 | succeeds exactly when every tab-separated token after the command name holds a two-character key, and otherwise throws an index error; every token's key is in the table |
| Posnet.PrintSlipSends | src/main/java/name/prokop/bart/fps/drivers/Posnet101Driver.java:159-187 | a receipt that succeeds had its cashier, cash box and reference and a rate table, and sent exactly, in order: `prncancel`, the status queries, `vatget` and the rate queries, then the header, `trinit`, the lines, the payments, `trend` and `opendrwr` |
| EscDriver.PrepareCarriesNothing | src/main/java/name/prokop/bart/fps/drivers/Thermal203.java:335-358 | the reset and flush before every operation send control bytes only, never a command frame |
| EscDriver.CommandCarries | src/main/java/name/prokop/bart/fps/drivers/Thermal203.java:374-403 | a command that succeeds on a connected printer carried exactly its one frame; a command never reconnects a printer |
| EscDriver.SermCarries | src/main/java/name/prokop/bart/fps/drivers/Thermal203.java:710-731 | an error-mode command that succeeds found the printer connected and carried exactly its `#e` frame |
| EscDriver.CancelPendingCarries | src/main/java/name/prokop/bart/fps/drivers/Thermal301.java:108-110 | the frames carried are `0$e` exactly when the printer reported an open transaction, and nothing otherwise |
| EscDriver.RateRequestCarries | src/main/java/name/prokop/bart/fps/drivers/Thermal203.java:733-756 | a rate request that succeeds carried exactly its `#s` frame, the one sent without check bytes |
| EscDriver.SendLineCarries | src/main/java/name/prokop/bart/fps/drivers/Thermal203.java:590-618 | a line sent successfully carried exactly its `$l` frame with the slot letter of its rate |
| EscDriver.SendLinesCarries | src/main/java/name/prokop/bart/fps/drivers/Thermal203.java:181-189 | lines sent successfully on a connected printer had every rate defined and carried their `$l` frames in order, numbered from the first number on |
| EscDriver.SendClosingCarries | src/main/java/name/prokop/bart/fps/drivers/Thermal203.java:620-696 | a closing sent successfully was buildable and carried exactly its one frame |
| EscDriver.ReceiptBodyCarries | src/main/java/name/prokop/bart/fps/drivers/Thermal203.java:185-200 | after the header: the lines' frames, the closing frame and the drawer's `1$d`, in that order |
| EscDriver.PrintSlipCarries | src/main/java/name/prokop/bart/fps/drivers/Thermal203.java:181-200 | a receipt that succeeds carried `0$h`, one `$l` frame per line in order, the closing frame and `1$d`; every line's rate was defined and the closing was buildable |
| EscDriver.BeforeReceiptCarries | src/main/java/name/prokop/bart/fps/drivers/Thermal301.java:96-113 | before the receipt: `3#e`, then `0$e` exactly when the printer reported an open transaction, then `23#s` |
| EscDriver.PrintCarries | src/main/java/name/prokop/bart/fps/drivers/Thermal301.java:96-120 | after the reset, a successful print carried in order `3#e`, `0$e` exactly when a transaction was open, `23#s` without check bytes, `0$h`, one `$l` per line, the closing text and `1$d` |
| EscDriver.AfterErrorModeCarries | src/main/java/name/prokop/bart/fps/drivers/Thermal203.java:150-180 | an error mode then one command: exactly those two frames |
| EscDriver.DrawerAndReportCarry | src/main/java/name/prokop/bart/fps/drivers/Thermal203.java:150-180 | after the reset, opening the drawer carries `3#e` then `1$d`; a daily report carries `3#e` then `#r`, and only in a dialect that has one |
| ElzabCodec.DiscountCents | src/main/java/name/prokop/bart/fps/drivers/ElzabMera.java:491-514 | an amount discount goes out as its cents, a negative one one cent higher (the epsilon before the cast) |
| ElzabDriver.PrintItemSends | src/main/java/name/prokop/bart/fps/drivers/ElzabMera.java:93-97 | a successful item sent its line record, then for a discounted line the discount header and value |
| ElzabDriver.PrintLinesSends | src/main/java/name/prokop/bart/fps/drivers/ElzabMera.java:93-97 | successful lines sent each item's pieces in the order of the lines |
| ElzabDriver.CloseFails | src/main/java/name/prokop/bart/fps/drivers/ElzabMera.java:99-117 | a close that succeeds had both the reference and the cashier name |
| ElzabDriver.PrintSends | src/main/java/name/prokop/bart/fps/drivers/ElzabMera.java:74-124 | a receipt that succeeds found the printer ready, read the rates, had a record for every line and both texts; after the readiness check it sent the rate query, ESC 21, the items and the closing pieces, in order |
| ElzabDriver.PrintBytes | src/main/java/name/prokop/bart/fps/drivers/ElzabMera.java:74-124 | joined, a printed receipt after the readiness check is ESC D1, ESC 21, the items' bytes and the closing bytes |
| Slips.TotalOfAddLines | src/main/java/name/prokop/bart/fps/datamodel/Slip.java:151-157 | a receipt built line by line totals what it started with plus the totals of the lines added |
| BartDate.DaysBetween | src/main/java/name/prokop/bart/fps/util/BartDate.java:215-218 | without overflow, the gap plus one hour in whole days, truncated toward zero (rounded down for a non-negative sum, up for a negative one); a gap so large that the sum overflows gives a negative count |

## Left out

- The serial port itself: opening, parameters, CTS polling, `connect`/`disconnect`, closing, and every `Thread.sleep`. The link is a record of waiting bytes, scripted answers and sent bytes; a timeout is running out of bytes.
- `SlipExamples.demo`: every driver's `print` first calls it, and from 2019 on it swaps the caller's slip for the fixed `getUnlicensed()` receipt. The model prints the caller's slip, which is the behaviour before 2019, with the clock left out. The one other clock read, the date of the Thermal 2.03 and 3.01 daily report, is a parameter (`now` of `EscDriver.DailyReport`).
- Floating point: money is exact integer cents and quantities exact decimals, so the rounding of `double` arithmetic is not modelled.
- The Cp1250 and platform-default charsets: the model sends one byte per character (the low 8 bits) wherever Java calls `getBytes()` without the Mazovia table.
- The error-text tables: Posnet's `?` code texts and the Thermal 2.03, 3.01 and Vivo `getErrDescription` tables are plain lookup tables. The Innova one is modelled with its texts as a parameter (`EscDialect.ErrDescription`).
- Posnet `printInvoice` and the daily and monthly reports: invoice printing sends further commands of the same shape as the receipt; the model stops at the receipt.
- `printTest`, the `sendLBTRSHDR` variants other than the plain receipt header, and the bar-code senders: test and header-printing paths outside a receipt.
- The card slip's hard-coded demonstration data: only the cutting of its fields and the text of `#g` are modelled.
- `sendBEL` and Innova's `sendLBTREXIT`: no flow calls them (the one call of `sendLBTREXIT` is commented out).
- The reflection-based choice of a driver by name, and the `CloudPrint`/`CommandLinePrint` glue: they sit outside the drivers.
- The initial values of Elzab's rate fields before `readRates`: every use in the model follows a read.
- EscTexts.Num: writes the exact decimal in plain notation, not Java's `Double.toString` (which switches to scientific notation for very small and very large values); `EscTexts.NumReadsBack` states what survives.
- Posnet.InitVatRates: takes the rate keys in the order of the answer, not in `Properties` hash order; `Posnet.VatSlotsHit` shows the order does not matter when each rate text appears once.
- ElzabCodec.PrepareName: sends the low 8 bits of each character, not its Cp1250 byte.
- ElzabDriver.AwaitReady: has no sleep between rounds; it ends because the answer script is finite, where the Java loop can spin forever.
- Posnet.EncodeLine: writes the quantity (`il`) as the exact decimal in plain notation, where Java appends the `double` through `Double.toString`, which is scientific below 0.001 and from 10^7 (0.0005 goes out as "5.0E-4", ten million as "1.0E7").
- Posnet.EncodeLineDecodes: the quantity it reads back is the plain-notation text of `Posnet.EncodeLine`, not Java's scientific form for such quantities.
- Posnet.LineReadFields: the same plain-notation quantity as `Posnet.EncodeLine`.
- JavaText.Cut: counts Unicode scalar values, where a Java `String` counts UTF-16 code units; a character outside the Basic Multilingual Plane (U+1F600, say) is one here and two in Java, so the 16-, 28- and 32-character cuts of such a text differ.
- Charset.TextBytes: one byte per scalar value, where Java sees two code units for a character outside the Basic Multilingual Plane.
- ToString.DebugChar: one hex group per scalar value, where Java writes one per UTF-16 code unit (two groups for U+1F600).
- Numbers.FixedText: prints "0.0000" for a negative value that rounds to zero, where Java's `NumberFormat` prints "-0.0000".

## Findings

| source | as written | input that shows it | evidently intended | confidence | as-written member | corrected member |
|---|---|---|---|---|---|---|
| src/main/java/name/prokop/bart/fps/util/BitsAndBytes.java:85-87 | `combine(h, l)` ORs `l` into the long without masking it, so a negative `l` is sign-extended over the upper half | `combine(1, -1)`: `high` of the result is -1, not 1 | `high(combine(h, l)) == h` for every pair, i.e. `l` taken unsigned | not executed | BitsAndBytes.CombineLosesHigh | BitsAndBytes.CombineUnsigned |

=== FILE: bartdate.dfy ===
/** Millisecond arithmetic of `util/BartDate`. A `java.util.Date` is its
    `getTime()` value; `long` subtraction and addition wrap around. */
module BartDate {
  import opened BitsAndBytes

  datatype Date = Date(millis: int64)

  const OneHour: int := 3_600_000
  const OneDay: int := 86_400_000

  /** Java integer division, which truncates toward zero. */
  function JavaDiv(a: int, b: int): (q: int)
    requires b > 0
    ensures a >= 0 ==> q == a / b
    ensures a < 0 ==> q == -((-a) / b)
  {
    if a >= 0 then a / b else -((-a) / b)
  }

  /** `combine(day, time)`: the two millisecond values added. */
  function Combine(day: Date, time: Date): (r: Date)
    ensures (r.millis - day.millis - time.millis) % 0x1_0000_0000_0000_0000 == 0
  {
    Date(Wrap64(day.millis + time.millis))
  }

  /** `isBetween(date, from, to)`: strictly after `from` and strictly before `to`. */
  function IsBetween(date: Date, from: Date, to: Date): (r: bool)
    ensures r ==> from.millis < to.millis
    ensures r <==> from.millis < date.millis < to.millis
  {
    from.millis < date.millis && date.millis < to.millis
  }

  lemma IsBetweenNeedsOrderedBounds(date: Date, from: Date, to: Date)
    requires from.millis >= to.millis
    ensures !IsBetween(date, from, to)
  {
  }

  /** `ticksBetween(d1, d2)`: `d2 - d1` in `long` arithmetic, the amount that
      takes `d1` to `d2`. */
  function TicksBetween(d1: Date, d2: Date): (r: int64)
    ensures Wrap64(d1.millis + r) == d2.millis
  {
    var r := Wrap64(d2.millis - d1.millis);
    assert (d1.millis + r - d2.millis) % 0x1_0000_0000_0000_0000 == 0;
    Wrap64Residue(d1.millis + r, d2.millis);
    r
  }

  /** Two values congruent modulo 2^64 wrap to the same `long`. */
  lemma Wrap64Residue(x: int, y: int64)
    requires (x - y) % 0x1_0000_0000_0000_0000 == 0
    ensures Wrap64(x) == y
  {
    var k := (x - y) / 0x1_0000_0000_0000_0000;
    assert x == y + k * 0x1_0000_0000_0000_0000;
    assert x % 0x1_0000_0000_0000_0000 == y % 0x1_0000_0000_0000_0000;
  }

  /** Swapping the arguments negates the result, in `long` arithmetic (so the
      one value without a positive counterpart maps to itself). */
  lemma TicksBetweenAntisymmetric(d1: Date, d2: Date)
    ensures TicksBetween(d1, d2) == Wrap64(-(TicksBetween(d2, d1) as int))
    ensures TicksBetween(d1, d1) == 0
  {
    var a := TicksBetween(d1, d2);
    var b := TicksBetween(d2, d1);
    ResidueNeg(a, b, d2.millis - d1.millis);
    Wrap64Residue(-(b as int), a);
  }

  /** If `a` is congruent to `x` and `b` to `-x`, then `-b` is congruent to `a`. */
  lemma ResidueNeg(a: int, b: int, x: int)
    requires (a - x) % 0x1_0000_0000_0000_0000 == 0
    requires (b + x) % 0x1_0000_0000_0000_0000 == 0
    ensures (-b - a) % 0x1_0000_0000_0000_0000 == 0
  {
    var p := (a - x) / 0x1_0000_0000_0000_0000;
    var q := (b + x) / 0x1_0000_0000_0000_0000;
    assert a - x == p * 0x1_0000_0000_0000_0000;
    assert b + x == q * 0x1_0000_0000_0000_0000;
    assert -b - a == -(p + q) * 0x1_0000_0000_0000_0000;
  }

  /** When the true difference fits in a `long`, the negation is exact. */
  lemma TicksBetweenExact(d1: Date, d2: Date)
    requires -0x8000_0000_0000_0000 < d2.millis - d1.millis < 0x8000_0000_0000_0000
    ensures TicksBetween(d1, d2) == d2.millis - d1.millis == -TicksBetween(d2, d1)
  {
  }

  /** `daysBetween(d1, d2)`: `(d2 - d1 + ONE_HOUR) / (24 * ONE_HOUR)` in `long`
      arithmetic with truncating division. */
  function DaysBetween(d1: Date, d2: Date): (r: int64)
    ensures var g := TicksBetween(d1, d2) + OneHour;
      g < 0x8000_0000_0000_0000 ==>
        (g >= 0 ==> r * OneDay <= g < (r + 1) * OneDay) && (g < 0 ==> (r - 1) * OneDay < g <= r * OneDay)
    ensures TicksBetween(d1, d2) + OneHour >= 0x8000_0000_0000_0000 ==> r < 0
  {
    JavaDiv(Wrap64(TicksBetween(d1, d2) + OneHour), OneDay)
  }

  /** The added hour makes every gap from 23 h up to (not including) 47 h one day. */
  lemma DaysBetweenOneDay(d1: Date, d2: Date)
    requires 23 * OneHour <= TicksBetween(d1, d2) < 47 * OneHour
    ensures DaysBetween(d1, d2) == 1
  {
  }

  /** Truncation toward zero: gaps down to (not including) -25 h still count as
      zero days, where flooring division would give -1 below -1 h. */
  lemma DaysBetweenTruncates(d1: Date, d2: Date)
    requires -25 * OneHour < TicksBetween(d1, d2) < 23 * OneHour
    ensures DaysBetween(d1, d2) == 0
  {
  }

  /** `combine` and `ticksBetween` are inverse: the time part is recovered exactly. */
  lemma TicksOfCombine(day: Date, time: Date)
    ensures TicksBetween(day, Combine(day, time)) == time.millis
  {
    var c := Combine(day, time);
    assert (c.millis - day.millis - time.millis) % 0x1_0000_0000_0000_0000 == 0;
    Wrap64Residue(c.millis - day.millis, time.millis);
  }
}

=== FILE: bitsandbytes.dfy ===
/** Byte, hex and word utilities of the drivers (`util/BitsAndBytes`).
    A Java `byte` is held as its 8-bit pattern; `Signed` recovers the value
    Java arithmetic sees. Java `int` and `long` are integers kept inside their
    two's-complement ranges, and every narrowing is written out. */
module BitsAndBytes {
  import opened Wrappers
  import opened Faults
  import JavaText

  /** The unsigned value 0..255 of a byte's bit pattern. */
  type byte = b: int | 0 <= b < 256
  type int32 = x: int | -0x8000_0000 <= x < 0x8000_0000
  type int64 = x: int | -0x8000_0000_0000_0000 <= x < 0x8000_0000_0000_0000
  /** A UTF-16 code unit, which is what a Java `char` holds. */
  type jchar = x: int | 0 <= x < 0x1_0000

  /** The value Java gives a byte in arithmetic: -128..127. */
  function Signed(b: byte): (v: int)
    ensures -128 <= v < 128
    ensures (v - b) % 256 == 0
  {
    if b < 0x80 then b else b - 256
  }

  /** Java `(int)` narrowing: keep the low 32 bits, read them as signed. */
  function Wrap32(x: int): (r: int32)
    ensures (r - x) % 0x1_0000_0000 == 0
    ensures -0x8000_0000 <= x < 0x8000_0000 ==> r == x
  {
    var m := x % 0x1_0000_0000;
    if m < 0x8000_0000 then m else m - 0x1_0000_0000
  }

  /** Java `(long)` narrowing and `long` arithmetic wrap-around. */
  function Wrap64(x: int): (r: int64)
    ensures (r - x) % 0x1_0000_0000_0000_0000 == 0
    ensures -0x8000_0000_0000_0000 <= x < 0x8000_0000_0000_0000 ==> r == x
  {
    var m := x % 0x1_0000_0000_0000_0000;
    if m < 0x8000_0000_0000_0000 then m else m - 0x1_0000_0000_0000_0000
  }

  function Pow2(n: nat): (r: nat)
    ensures r >= 1
  {
    if n == 0 then 1 else 2 * Pow2(n - 1)
  }

  lemma Pow2Bytes()
    ensures Pow2(0) == 1 && Pow2(8) == 0x100 && Pow2(16) == 0x1_0000 && Pow2(24) == 0x100_0000
    ensures Pow2(32) == 0x1_0000_0000
  {
    assert Pow2(4) == 16;
    assert Pow2(8) == 0x100;
    assert Pow2(12) == 0x1000;
    assert Pow2(16) == 0x1_0000;
    assert Pow2(20) == 0x10_0000;
    assert Pow2(24) == 0x100_0000;
    assert Pow2(28) == 0x1000_0000;
  }

  /** Bitwise OR of the low `n` bits of two naturals, bit by bit. */
  function OrBits(n: nat, x: nat, y: nat): (r: nat)
    ensures r < Pow2(n)
  {
    if n == 0 then 0
    else (if x % 2 == 1 || y % 2 == 1 then 1 else 0) + 2 * OrBits(n - 1, x / 2, y / 2)
  }

  lemma {:induction false} OrBitsZero(n: nat, x: nat)
    requires x < Pow2(n)
    ensures OrBits(n, x, 0) == x
  {
    if n > 0 {
      OrBitsZero(n - 1, x / 2);
    }
  }

  lemma {:induction false} OrBitsOnes(n: nat, x: nat)
    ensures OrBits(n, x, Pow2(n) - 1) == Pow2(n) - 1
  {
    if n > 0 {
      assert (Pow2(n) - 1) / 2 == Pow2(n - 1) - 1;
      OrBitsOnes(n - 1, x / 2);
    }
  }

  // ------------------------------------------------------------ casts

  /** `castIntToByte`: `i & 0xFF`, then `(byte)`; only the low 8 bits survive. */
  function CastIntToByte(i: int): (r: byte)
    ensures (r - i) % 256 == 0
  {
    i % 256
  }

  /** `promoteByteToInt`: `b & 0xff`, the unsigned value of the byte. */
  function PromoteByteToInt(b: byte): (r: int)
    ensures 0 <= r < 256
    ensures (r - Signed(b)) % 256 == 0
    ensures CastIntToByte(r) == b
  {
    b
  }

  /** `castIntToChar`: `i & 0xFFFF`, the low 16 bits. */
  function CastIntToChar(i: int): (r: jchar)
    ensures (r - i) % 0x1_0000 == 0
  {
    i % 0x1_0000
  }

  /** `castCharToByte`: the low 8 bits of the code unit. */
  function CastCharToByte(c: jchar): (r: byte)
    ensures r == c % 256
  {
    CastIntToByte(c)
  }

  /** `promoteByteToChar`: the unsigned byte value as a code unit 0..255. */
  function PromoteByteToChar(b: byte): (r: jchar)
    ensures r < 256 && CastCharToByte(r) == b
  {
    b
  }

  /** `castLongToByte`: the low 8 bits of a `long`. */
  function CastLongToByte(l: int64): (r: byte)
    ensures (r - l) % 256 == 0
  {
    CastIntToByte(l)
  }

  // ------------------------------------------------------------- hex

  predicate IsHexUpper(c: char) {
    JavaText.IsDigit(c) || 'A' <= c <= 'F'
  }

  function HexUpperChar(d: nat): (c: char)
    requires d < 16
    ensures IsHexUpper(c) && JavaText.HexValue(c) == d
  {
    if d < 10 then JavaText.DigitChar(d) else ('A' as int + (d - 10)) as char
  }

  /** `byteToHexString`: two upper-case hex digits, the high nibble of the
      unsigned byte value first. */
  function ByteToHexString(b: byte): (r: string)
    ensures |r| == 2 && IsHexUpper(r[0]) && IsHexUpper(r[1])
    ensures JavaText.HexValue(r[0]) == b / 16
    ensures JavaText.HexValue(r[1]) == b % 16
  {
    [HexUpperChar(b / 16), HexUpperChar(b % 16)]
  }

  /** `parse2hex`: `Character.digit` of each character (-1 when it is not a
      hex digit), combined as `16 * a + b` and cast to a byte. */
  function Parse2Hex(a: char, b: char): (r: byte)
    ensures 0 <= JavaText.HexValue(a) && 0 <= JavaText.HexValue(b) ==>
      r == JavaText.HexValue(a) * 16 + JavaText.HexValue(b)
  {
    CastIntToByte(JavaText.HexValue(a) * 16 + JavaText.HexValue(b))
  }

  lemma Parse2HexInvertsByteToHexString(b: byte)
    ensures Parse2Hex(ByteToHexString(b)[0], ByteToHexString(b)[1]) == b
  {
  }

  /** `parseString`: one byte per pair of characters. An odd length makes the
      last `charAt(i + 1)` run off the end of the string. */
  function ParseString(s: string): (r: Result<seq<byte>, Fault>)
    ensures r.Success? <==> |s| % 2 == 0
    ensures r.Failure? ==> r.error == IndexOutOfBounds
    ensures r.Success? ==> |r.value| == |s| / 2
    ensures r.Success? ==> forall k :: 0 <= k < |r.value| ==> r.value[k] == Parse2Hex(s[2 * k], s[2 * k + 1])
    decreases |s|
  {
    if |s| == 0 then Success([])
    else if |s| == 1 then Failure(IndexOutOfBounds)
    else
      var rest :- ParseString(s[2..]);
      Success([Parse2Hex(s[0], s[1])] + rest)
  }

  /** The hex text of a whole array: `byteToHexString` of each byte, joined. */
  function HexOf(a: seq<byte>): (r: string)
    ensures |r| == 2 * |a|
  {
    if |a| == 0 then "" else ByteToHexString(a[0]) + HexOf(a[1..])
  }

  lemma {:induction false} ParseStringOfHexOf(a: seq<byte>)
    ensures ParseString(HexOf(a)) == Success(a)
  {
    if |a| > 0 {
      var h := HexOf(a);
      assert h[2..] == HexOf(a[1..]);
      ParseStringOfHexOf(a[1..]);
      Parse2HexInvertsByteToHexString(a[0]);
      assert [a[0]] + a[1..] == a;
    }
  }

  // ------------------------------------------------------- word packing

  /** `toBigEndian`: `i >> 24`, `i >> 16`, `i >> 8`, `i`, each cast to a byte.
      The four bytes, most significant first, spell the two's-complement
      pattern of `i`. */
  function ToBigEndian(i: int32): (r: seq<byte>)
    ensures |r| == 4
    ensures r[0] as int * 0x100_0000 + r[1] as int * 0x1_0000 + r[2] as int * 0x100 + r[3] as int == i % 0x1_0000_0000
  {
    ByteOfShift(i, 1);
    ByteOfShift(i, 0x100);
    ByteOfShift(i, 0x1_0000);
    ByteOfShift(i, 0x100_0000);
    Base256Digits(i % 0x1_0000_0000);
    [CastIntToByte(i / 0x100_0000), CastIntToByte(i / 0x1_0000), CastIntToByte(i / 0x100), CastIntToByte(i)]
  }

  /** `toLittleEndian`: least significant byte first, the big-endian bytes reversed. */
  function ToLittleEndian(i: int32): (r: seq<byte>)
    ensures |r| == 4
    ensures forall k :: 0 <= k < 4 ==> r[k] == ToBigEndian(i)[3 - k]
  {
    [CastIntToByte(i), CastIntToByte(i / 0x100), CastIntToByte(i / 0x1_0000), CastIntToByte(i / 0x100_0000)]
  }

  /** The four promoted bytes shifted into place. The shifted values occupy
      disjoint bit ranges, so the source's `|=` chain adds them; the `<< 24`
      wraps into the sign bit of a Java `int`. */
  function Pack4(b3: byte, b2: byte, b1: byte, b0: byte): int32 {
    Wrap32(PromoteByteToInt(b3) * 0x100_0000 + PromoteByteToInt(b2) * 0x1_0000
      + PromoteByteToInt(b1) * 0x100 + PromoteByteToInt(b0))
  }

  /** `buildInt(byte[])`: four bytes big-endian as a signed `int`, two bytes as
      an unsigned value, any other length an `IllegalArgumentException`. */
  function BuildInt(a: seq<byte>): (r: Result<int32, Fault>)
    ensures r.Success? <==> |a| == 4 || |a| == 2
    ensures r.Failure? ==> r.error == IllegalArgument
    ensures |a| == 2 ==> r == Success(a[0] as int * 256 + a[1] as int)
    ensures |a| == 2 ==> 0 <= r.value < 0x1_0000
  {
    if |a| == 4 then Success(Pack4(a[0], a[1], a[2], a[3]))
    else if |a| == 2 then Success(PromoteByteToInt(a[0]) * 0x100 + PromoteByteToInt(a[1]))
    else Failure(IllegalArgument)
  }

  /** `buildInt(b3, b2, b1, b0)`: the array overload on `[b3, b2, b1, b0]`. */
  function BuildInt4(b3: byte, b2: byte, b1: byte, b0: byte): (r: int32)
    ensures BuildInt([b3, b2, b1, b0]) == Success(r)
  {
    Pack4(b3, b2, b1, b0)
  }

  /** Shifting right by `8k` and keeping 8 bits reads base-256 digit `k` of the
      unsigned 32-bit residue. */
  lemma ByteOfShift(i: int32, p: nat)
    requires p == 1 || p == 0x100 || p == 0x1_0000 || p == 0x100_0000
    ensures CastIntToByte(i / p) == ((i % 0x1_0000_0000) / p) % 256
  {
    if p == 0x100 {
      ByteOfShift8(i);
    } else if p == 0x1_0000 {
      ByteOfShift16(i);
    } else if p == 0x100_0000 {
      ByteOfShift24(i);
    }
  }

  lemma ByteOfShift8(i: int32)
    ensures CastIntToByte(i / 0x100) == ((i % 0x1_0000_0000) / 0x100) % 256
  {
    var u := i % 0x1_0000_0000;
    var q := i / 0x1_0000_0000;
    assert i == q * 0x1_0000_0000 + u;
    assert i / 0x100 == q * 0x100_0000 + u / 0x100;
    assert (q * 0x100_0000 + u / 0x100) % 256 == (u / 0x100) % 256;
  }

  lemma ByteOfShift16(i: int32)
    ensures CastIntToByte(i / 0x1_0000) == ((i % 0x1_0000_0000) / 0x1_0000) % 256
  {
    var u := i % 0x1_0000_0000;
    var q := i / 0x1_0000_0000;
    assert i == q * 0x1_0000_0000 + u;
    assert i / 0x1_0000 == q * 0x1_0000 + u / 0x1_0000;
    assert (q * 0x1_0000 + u / 0x1_0000) % 256 == (u / 0x1_0000) % 256;
  }

  lemma ByteOfShift24(i: int32)
    ensures CastIntToByte(i / 0x100_0000) == ((i % 0x1_0000_0000) / 0x100_0000) % 256
  {
    var u := i % 0x1_0000_0000;
    var q := i / 0x1_0000_0000;
    assert i == q * 0x1_0000_0000 + u;
    assert i / 0x100_0000 == q * 0x100 + u / 0x100_0000;
    assert (q * 0x100 + u / 0x100_0000) % 256 == (u / 0x100_0000) % 256;
  }

  lemma BuildIntOfToBigEndian(i: int32)
    ensures BuildInt(ToBigEndian(i)) == Success(i)
  {
    var a := ToBigEndian(i);
    var u := i % 0x1_0000_0000;
    ByteOfShift(i, 1);
    ByteOfShift(i, 0x100);
    ByteOfShift(i, 0x1_0000);
    ByteOfShift(i, 0x100_0000);
    Base256Digits(u);
    Wrap32OfResidue(i);
  }

  /** A 32-bit residue is the sum of its four base-256 digits. */
  lemma Base256Digits(u: nat)
    requires u < 0x1_0000_0000
    ensures u == ((u / 0x100_0000) % 0x100) * 0x100_0000 + ((u / 0x1_0000) % 0x100) * 0x1_0000
                 + ((u / 0x100) % 0x100) * 0x100 + u % 0x100
  {
    var u1 := u / 0x100;
    var u2 := u1 / 0x100;
    var u3 := u2 / 0x100;
    assert u == u1 * 0x100 + u % 0x100;
    assert u1 == u2 * 0x100 + u1 % 0x100;
    assert u2 == u3 * 0x100 + u2 % 0x100;
    assert u / 0x1_0000 == u2;
    assert u / 0x100_0000 == u3;
  }

  lemma Wrap32OfResidue(i: int32)
    ensures Wrap32(i % 0x1_0000_0000) == i
  {
    var u := i % 0x1_0000_0000;
    if i < 0 {
      assert u == i + 0x1_0000_0000;
    } else {
      assert u == i;
    }
  }

  /** `fillBigEndian`: `a[0..3]` become `toBigEndian(i)`, the rest of the array
      is untouched; an array shorter than four is an index error. */
  function FillBigEndian(a: seq<byte>, i: int32): (r: Result<seq<byte>, Fault>)
    ensures r.Success? <==> |a| >= 4
    ensures r.Failure? ==> r.error == IndexOutOfBounds
    ensures r.Success? ==> |r.value| == |a| && r.value[..4] == ToBigEndian(i) && r.value[4..] == a[4..]
  {
    if |a| < 4 then Failure(IndexOutOfBounds)
    else Success(a[0 := CastIntToByte(i / 0x100_0000)][1 := CastIntToByte(i / 0x1_0000)]
                  [2 := CastIntToByte(i / 0x100)][3 := CastIntToByte(i)])
  }

  /** `fillLittleEndian`: `a[0..3]` become `toLittleEndian(i)`, the rest is untouched. */
  function FillLittleEndian(a: seq<byte>, i: int32): (r: Result<seq<byte>, Fault>)
    ensures r.Success? <==> |a| >= 4
    ensures r.Failure? ==> r.error == IndexOutOfBounds
    ensures r.Success? ==> |r.value| == |a| && r.value[..4] == ToLittleEndian(i) && r.value[4..] == a[4..]
  {
    if |a| < 4 then Failure(IndexOutOfBounds)
    else Success(a[0 := CastIntToByte(i)][1 := CastIntToByte(i / 0x100)]
                  [2 := CastIntToByte(i / 0x1_0000)][3 := CastIntToByte(i / 0x100_0000)])
  }

  /** `extractByte(int, idx)`: `(value >> 8*idx) & 0xFF`. Java uses only the low
      five bits of an `int` shift distance, so the distance is `8*idx mod 32`. */
  function ExtractByte(value: int32, idx: int32): (r: byte)
    ensures 0 <= idx < 4 ==> r == ToLittleEndian(value)[idx]
  {
    Pow2Bytes();
    var r := CastIntToByte(value / Pow2((8 * idx) % 32));
    assert 0 <= idx < 4 ==> r == ToLittleEndian(value)[idx] by {
      if idx == 0 { assert (8 * idx) % 32 == 0; }
      else if idx == 1 { assert (8 * idx) % 32 == 8; }
      else if idx == 2 { assert (8 * idx) % 32 == 16; }
      else if idx == 3 { assert (8 * idx) % 32 == 24; }
    }
    r
  }

  /** Because the shift distance is masked, index `k + 4` reads the same byte as `k`. */
  lemma ExtractByteWrapsAtFour(value: int32, idx: int32)
    requires 0 <= idx < 4
    ensures ExtractByte(value, idx + 4) == ExtractByte(value, idx)
  {
    assert (8 * (idx + 4)) % 32 == (8 * idx) % 32;
  }

  // ------------------------------------------------------ long halves

  /** The 32-bit pattern of an `int`, as an unsigned value. */
  function Bits32(x: int32): (r: nat)
    ensures r < 0x1_0000_0000 && (r - x) % 0x1_0000_0000 == 0
  {
    x % 0x1_0000_0000
  }

  /** The `long` whose upper and lower 32-bit halves are `hi` and `lo`. */
  function FromHalves(hi: nat, lo: nat): int64
    requires hi < 0x1_0000_0000 && lo < 0x1_0000_0000
  {
    Wrap64(hi * 0x1_0000_0000 + lo)
  }

  /** `combine(h, l)`: `((long) h << 32) | l`. The `long` `h << 32` has halves
      `(h, 0)`; `l` is sign-extended, so its halves are `(0 or all ones, l)`. The
      OR is taken half by half. */
  function Combine(h: int32, l: int32): (r: int64)
    ensures l >= 0 ==> r == h * 0x1_0000_0000 + l
    ensures l < 0 ==> r == l
  {
    Pow2Bytes();
    CombineValue(h, l);
    var ext := if l < 0 then 0x1_0000_0000 - 1 else 0;
    FromHalves(OrBits(32, Bits32(h), ext), OrBits(32, 0, Bits32(l)))
  }

  /** `high(l)`: `(int) (l >> 32)`. The intermediate `&= 0xFFFFFFFF` uses the
      `int` literal -1, which widens to a `long` of all ones, so it changes nothing. */
  function High(l: int64): (r: int32)
    ensures 0 <= l - r * 0x1_0000_0000 < 0x1_0000_0000
  {
    Wrap32(l / 0x1_0000_0000)
  }

  /** `low(l)` (and `castLongToInt`, which is the same code): `(int) l`, the
      same no-op mask before the narrowing. */
  function Low(l: int64): (r: int32)
    ensures High(l) * 0x1_0000_0000 + Bits32(r) == l
  {
    Wrap32(l)
  }

  /** The halves `combine` ORs together give `h * 2^32 + l` for a
      non-negative `l`, and `l` itself when the upper half is all ones. */
  lemma CombineValue(h: int32, l: int32)
    ensures Pow2(32) == 0x1_0000_0000
    ensures var ext := if l < 0 then 0x1_0000_0000 - 1 else 0;
      FromHalves(OrBits(32, Bits32(h), ext), OrBits(32, 0, Bits32(l))) == if l < 0 then l else h * 0x1_0000_0000 + l
  {
    Pow2Bytes();
    var lo := Bits32(l);
    assert l >= 0 ==> lo == l by {
      if l >= 0 {
        assert l % 0x1_0000_0000 == l;
      }
    }
    OrBitsSymmetric(32, 0, lo);
    OrBitsZero(32, lo);
    assert OrBits(32, 0, lo) == lo;
    if l < 0 {
      var hi := OrBits(32, Bits32(h), 0x1_0000_0000 - 1);
      OrBitsOnes(32, Bits32(h));
      assert hi == 0x1_0000_0000 - 1;
      assert Wrap32(hi) == -1;
      FromHalvesValue(hi, lo);
      assert lo == l + 0x1_0000_0000;
    } else {
      var hi := OrBits(32, Bits32(h), 0);
      OrBitsZero(32, Bits32(h));
      Wrap32OfResidue(h);
      assert hi == Bits32(h) && Wrap32(hi) == h;
      FromHalvesValue(hi, lo);
    }
  }

  lemma HalvesOfFromHalves(hi: nat, lo: nat)
    requires hi < 0x1_0000_0000 && lo < 0x1_0000_0000
    ensures Low(FromHalves(hi, lo)) == Wrap32(lo)
    ensures High(FromHalves(hi, lo)) == Wrap32(hi)
  {
    var h := Wrap32(hi);
    FromHalvesValue(hi, lo);
    Wrap32Shift(lo, h);
    assert (h * 0x1_0000_0000 + lo) / 0x1_0000_0000 == h;
  }

  /** The `long` with halves `hi` and `lo` is the signed upper half times
      2^32 plus the unsigned lower half. */
  lemma FromHalvesValue(hi: nat, lo: nat)
    requires hi < 0x1_0000_0000 && lo < 0x1_0000_0000
    ensures FromHalves(hi, lo) == Wrap32(hi) * 0x1_0000_0000 + lo
  {
    var h := Wrap32(hi);
    assert h == hi || h == hi - 0x1_0000_0000;
    assert -0x8000_0000_0000_0000 <= h * 0x1_0000_0000 + lo < 0x8000_0000_0000_0000;
    if h != hi {
      assert h * 0x1_0000_0000 + lo == hi * 0x1_0000_0000 + lo - 0x1_0000_0000_0000_0000;
    }
  }

  /** Narrowing to `int` ignores whole multiples of 2^32. */
  lemma Wrap32Shift(x: int, k: int)
    ensures Wrap32(x + k * 0x1_0000_0000) == Wrap32(x)
  {
    assert (x + k * 0x1_0000_0000) % 0x1_0000_0000 == x % 0x1_0000_0000;
  }

  lemma OrBitsSymmetric(n: nat, x: nat, y: nat)
    ensures OrBits(n, x, y) == OrBits(n, y, x)
  {
  }

  lemma LowOfCombine(h: int32, l: int32)
    ensures Low(Combine(h, l)) == l
  {
    Pow2Bytes();
    var ext := if l < 0 then 0x1_0000_0000 - 1 else 0;
    OrBitsSymmetric(32, 0, Bits32(l));
    OrBitsZero(32, Bits32(l));
    HalvesOfFromHalves(OrBits(32, Bits32(h), ext), Bits32(l));
    Wrap32OfResidue(l);
  }

  /** `high` recovers `h` only for a non-negative `l`; for a negative one the
      sign extension has filled the upper half with ones. */
  lemma HighOfCombine(h: int32, l: int32)
    ensures l >= 0 ==> High(Combine(h, l)) == h
    ensures l < 0 ==> High(Combine(h, l)) == -1
  {
    Pow2Bytes();
    var ext := if l < 0 then 0x1_0000_0000 - 1 else 0;
    OrBitsSymmetric(32, 0, Bits32(l));
    OrBitsZero(32, Bits32(l));
    if l < 0 {
      OrBitsOnes(32, Bits32(h));
    } else {
      OrBitsZero(32, Bits32(h));
      Wrap32OfResidue(h);
    }
    HalvesOfFromHalves(OrBits(32, Bits32(h), ext), Bits32(l));
  }

  /** A concrete witness: `combine(1, -1)` has `high` -1, not 1. */
  lemma CombineLosesHigh()
    ensures High(Combine(1, -1)) == -1
  {
    HighOfCombine(1, -1);
  }

  /** `((long) h << 32) | (l & 0xFFFFFFFFL)`: the lower half taken unsigned, so
      nothing spills into the upper half. */
  function CombineUnsigned(h: int32, l: int32): (r: int64)
    ensures High(r) == h && Low(r) == l
  {
    HalvesOfFromHalves(Bits32(h), Bits32(l));
    Wrap32OfResidue(h);
    Wrap32OfResidue(l);
    FromHalves(Bits32(h), Bits32(l))
  }
}

=== FILE: charset.dfy ===
/** Java's conversions between text and bytes (`String.getBytes`, `new
    String(byte[])`, `ByteArrayOutputStream.toString`). Every charset the
    drivers name (Cp1250 or the platform default) is taken to be a one byte
    per character code page whose byte is the low eight bits of the character
    and whose characters are the bytes read as code points. */
module Charset {
  import opened BitsAndBytes

  /** `getBytes`: one byte per character, its low eight bits. */
  function TextBytes(s: string): (r: seq<byte>)
    ensures |r| == |s|
    ensures forall k :: 0 <= k < |s| ==> r[k] == (s[k] as int) % 256
  {
    seq(|s|, k requires 0 <= k < |s| => (s[k] as int) % 256)
  }

  /** `new String(bytes)`: one character per byte. */
  function BytesText(b: seq<byte>): (s: string)
    ensures |s| == |b|
    ensures forall k :: 0 <= k < |b| ==> s[k] as int == b[k]
  {
    seq(|b|, k requires 0 <= k < |b| => b[k] as char)
  }

  /** Every character of `s` fits in one byte. */
  predicate IsLatin(s: string) {
    forall k :: 0 <= k < |s| ==> (s[k] as int) < 256
  }

  /** Reading back the bytes of a one-byte text gives the text. */
  lemma BytesTextOfTextBytes(s: string)
    requires IsLatin(s)
    ensures BytesText(TextBytes(s)) == s
  {
    var t := BytesText(TextBytes(s));
    assert forall k :: 0 <= k < |s| ==> t[k] == s[k];
  }

  /** Any bytes survive the trip through text. */
  lemma TextBytesOfBytesText(b: seq<byte>)
    ensures TextBytes(BytesText(b)) == b
  {
    var r := TextBytes(BytesText(b));
    assert forall k :: 0 <= k < |b| ==> r[k] == b[k];
  }

  /** Conversion works character by character. */
  lemma TextBytesOfConcat(s: string, t: string)
    ensures TextBytes(s + t) == TextBytes(s) + TextBytes(t)
  {
    var r := TextBytes(s + t);
    assert forall k :: 0 <= k < |s| + |t| ==> r[k] == (TextBytes(s) + TextBytes(t))[k];
  }

  lemma BytesTextOfConcat(a: seq<byte>, b: seq<byte>)
    ensures BytesText(a + b) == BytesText(a) + BytesText(b)
  {
    var r := BytesText(a + b);
    assert forall k :: 0 <= k < |a| + |b| ==> r[k] == (BytesText(a) + BytesText(b))[k];
  }
}

=== FILE: crc16.dfy ===
/** The CRC-16 of the Posnet 1.01 protocol: `calcCRC` with its two 256-entry
    lookup tables in `Posnet101Driver`, and the bit-by-bit polynomial division
    those tables encode (most significant bit first, polynomial 0x1021, initial
    value 0). The running `hi` and `lo` of the source are ints that only ever
    hold 0..255; they are modelled as eight-bit words. */
module Crc16 {
  import opened BitsAndBytes
  import JavaText
  import ToString

  /** `crc16htab`, eight entries per row as in the source. */
  const HighRows: seq<seq<bv8>> := [
    [0x00, 0x10, 0x20, 0x30, 0x40, 0x50, 0x60, 0x70],
    [0x81, 0x91, 0xa1, 0xb1, 0xc1, 0xd1, 0xe1, 0xf1],
    [0x12, 0x02, 0x32, 0x22, 0x52, 0x42, 0x72, 0x62],
    [0x93, 0x83, 0xb3, 0xa3, 0xd3, 0xc3, 0xf3, 0xe3],
    [0x24, 0x34, 0x04, 0x14, 0x64, 0x74, 0x44, 0x54],
    [0xa5, 0xb5, 0x85, 0x95, 0xe5, 0xf5, 0xc5, 0xd5],
    [0x36, 0x26, 0x16, 0x06, 0x76, 0x66, 0x56, 0x46],
    [0xb7, 0xa7, 0x97, 0x87, 0xf7, 0xe7, 0xd7, 0xc7],
    [0x48, 0x58, 0x68, 0x78, 0x08, 0x18, 0x28, 0x38],
    [0xc9, 0xd9, 0xe9, 0xf9, 0x89, 0x99, 0xa9, 0xb9],
    [0x5a, 0x4a, 0x7a, 0x6a, 0x1a, 0x0a, 0x3a, 0x2a],
    [0xdb, 0xcb, 0xfb, 0xeb, 0x9b, 0x8b, 0xbb, 0xab],
    [0x6c, 0x7c, 0x4c, 0x5c, 0x2c, 0x3c, 0x0c, 0x1c],
    [0xed, 0xfd, 0xcd, 0xdd, 0xad, 0xbd, 0x8d, 0x9d],
    [0x7e, 0x6e, 0x5e, 0x4e, 0x3e, 0x2e, 0x1e, 0x0e],
    [0xff, 0xef, 0xdf, 0xcf, 0xbf, 0xaf, 0x9f, 0x8f],
    [0x91, 0x81, 0xb1, 0xa1, 0xd1, 0xc1, 0xf1, 0xe1],
    [0x10, 0x00, 0x30, 0x20, 0x50, 0x40, 0x70, 0x60],
    [0x83, 0x93, 0xa3, 0xb3, 0xc3, 0xd3, 0xe3, 0xf3],
    [0x02, 0x12, 0x22, 0x32, 0x42, 0x52, 0x62, 0x72],
    [0xb5, 0xa5, 0x95, 0x85, 0xf5, 0xe5, 0xd5, 0xc5],
    [0x34, 0x24, 0x14, 0x04, 0x74, 0x64, 0x54, 0x44],
    [0xa7, 0xb7, 0x87, 0x97, 0xe7, 0xf7, 0xc7, 0xd7],
    [0x26, 0x36, 0x06, 0x16, 0x66, 0x76, 0x46, 0x56],
    [0xd9, 0xc9, 0xf9, 0xe9, 0x99, 0x89, 0xb9, 0xa9],
    [0x58, 0x48, 0x78, 0x68, 0x18, 0x08, 0x38, 0x28],
    [0xcb, 0xdb, 0xeb, 0xfb, 0x8b, 0x9b, 0xab, 0xbb],
    [0x4a, 0x5a, 0x6a, 0x7a, 0x0a, 0x1a, 0x2a, 0x3a],
    [0xfd, 0xed, 0xdd, 0xcd, 0xbd, 0xad, 0x9d, 0x8d],
    [0x7c, 0x6c, 0x5c, 0x4c, 0x3c, 0x2c, 0x1c, 0x0c],
    [0xef, 0xff, 0xcf, 0xdf, 0xaf, 0xbf, 0x8f, 0x9f],
    [0x6e, 0x7e, 0x4e, 0x5e, 0x2e, 0x3e, 0x0e, 0x1e]]

  /** `crc16ltab`, eight entries per row as in the source. */
  const LowRows: seq<seq<bv8>> := [
    [0x00, 0x21, 0x42, 0x63, 0x84, 0xa5, 0xc6, 0xe7],
    [0x08, 0x29, 0x4a, 0x6b, 0x8c, 0xad, 0xce, 0xef],
    [0x31, 0x10, 0x73, 0x52, 0xb5, 0x94, 0xf7, 0xd6],
    [0x39, 0x18, 0x7b, 0x5a, 0xbd, 0x9c, 0xff, 0xde],
    [0x62, 0x43, 0x20, 0x01, 0xe6, 0xc7, 0xa4, 0x85],
    [0x6a, 0x4b, 0x28, 0x09, 0xee, 0xcf, 0xac, 0x8d],
    [0x53, 0x72, 0x11, 0x30, 0xd7, 0xf6, 0x95, 0xb4],
    [0x5b, 0x7a, 0x19, 0x38, 0xdf, 0xfe, 0x9d, 0xbc],
    [0xc4, 0xe5, 0x86, 0xa7, 0x40, 0x61, 0x02, 0x23],
    [0xcc, 0xed, 0x8e, 0xaf, 0x48, 0x69, 0x0a, 0x2b],
    [0xf5, 0xd4, 0xb7, 0x96, 0x71, 0x50, 0x33, 0x12],
    [0xfd, 0xdc, 0xbf, 0x9e, 0x79, 0x58, 0x3b, 0x1a],
    [0xa6, 0x87, 0xe4, 0xc5, 0x22, 0x03, 0x60, 0x41],
    [0xae, 0x8f, 0xec, 0xcd, 0x2a, 0x0b, 0x68, 0x49],
    [0x97, 0xb6, 0xd5, 0xf4, 0x13, 0x32, 0x51, 0x70],
    [0x9f, 0xbe, 0xdd, 0xfc, 0x1b, 0x3a, 0x59, 0x78],
    [0x88, 0xa9, 0xca, 0xeb, 0x0c, 0x2d, 0x4e, 0x6f],
    [0x80, 0xa1, 0xc2, 0xe3, 0x04, 0x25, 0x46, 0x67],
    [0xb9, 0x98, 0xfb, 0xda, 0x3d, 0x1c, 0x7f, 0x5e],
    [0xb1, 0x90, 0xf3, 0xd2, 0x35, 0x14, 0x77, 0x56],
    [0xea, 0xcb, 0xa8, 0x89, 0x6e, 0x4f, 0x2c, 0x0d],
    [0xe2, 0xc3, 0xa0, 0x81, 0x66, 0x47, 0x24, 0x05],
    [0xdb, 0xfa, 0x99, 0xb8, 0x5f, 0x7e, 0x1d, 0x3c],
    [0xd3, 0xf2, 0x91, 0xb0, 0x57, 0x76, 0x15, 0x34],
    [0x4c, 0x6d, 0x0e, 0x2f, 0xc8, 0xe9, 0x8a, 0xab],
    [0x44, 0x65, 0x06, 0x27, 0xc0, 0xe1, 0x82, 0xa3],
    [0x7d, 0x5c, 0x3f, 0x1e, 0xf9, 0xd8, 0xbb, 0x9a],
    [0x75, 0x54, 0x37, 0x16, 0xf1, 0xd0, 0xb3, 0x92],
    [0x2e, 0x0f, 0x6c, 0x4d, 0xaa, 0x8b, 0xe8, 0xc9],
    [0x26, 0x07, 0x64, 0x45, 0xa2, 0x83, 0xe0, 0xc1],
    [0x1f, 0x3e, 0x5d, 0x7c, 0x9b, 0xba, 0xd9, 0xf8],
    [0x17, 0x36, 0x55, 0x74, 0x93, 0xb2, 0xd1, 0xf0]]

  /** `crc16htab[index]`, the index being the eight-bit value the loop
      computes. */
  function HighTab(x: bv8): bv8 {
    assert |HighRows| == 32 && |HighRows[(x >> 3) as int]| == 8;
    HighRows[(x >> 3) as int][(x & 7) as int]
  }

  /** `crc16ltab[index]`. */
  function LowTab(x: bv8): bv8 {
    assert |LowRows| == 32 && |LowRows[(x >> 3) as int]| == 8;
    LowRows[(x >> 3) as int][(x & 7) as int]
  }

  /** Two eight-bit halves as one sixteen-bit word. */
  function Join(hi: bv8, lo: bv8): bv16 {
    ((hi as bv16) << 8) | (lo as bv16)
  }

  // ------------------------------------------------ the table-driven CRC

  /** One turn of the loop of `calcCRC` over byte `b`, with the lookup
      tables as parameters: `index = hi ^ b`, the new `hi` is
      `lo ^ high[index]`, the new `lo` is `low[index]`. */
  function TableStep(high: bv8 -> bv8, low: bv8 -> bv8, st: (bv8, bv8), b: bv8): (bv8, bv8) {
    (st.1 ^ high(st.0 ^ b), low(st.0 ^ b))
  }

  /** `(hi, lo)` after the loop has consumed `s`, starting from `(0, 0)`. */
  function FoldWith(high: bv8 -> bv8, low: bv8 -> bv8, s: seq<byte>): (bv8, bv8) {
    if |s| == 0 then (0, 0)
    else TableStep(high, low, FoldWith(high, low, s[..|s| - 1]), s[|s| - 1] as bv8)
  }

  /** The loop with the source's two tables. */
  function Fold(s: seq<byte>): (bv8, bv8) {
    FoldWith(HighTab, LowTab, s)
  }

  /** `buildInt(0, 0, hi, lo)` after the loop. */
  function CrcValue(s: seq<byte>): (v: nat)
    ensures v < 0x1_0000
  {
    var (hi, lo) := Fold(s);
    Join(hi, lo) as int
  }

  /** `calcCRC`: the CRC as four lower-case hex digits, zero-padded. */
  function CalcCRC(s: seq<byte>): (r: string)
    ensures |r| == 4
    ensures forall k :: 0 <= k < 4 ==> JavaText.IsHexLower(r[k])
    ensures forall k :: 0 <= k < 4 ==> 0 <= JavaText.HexValue(r[k])
    ensures JavaText.HexDigitsValue(r) == CrcValue(s)
  {
    HexField(CrcValue(s))
  }

  /** A 16-bit value as `calcCRC` prints it: `Integer.toHexString`, padded
      with zeros to four digits. */
  function HexField(v: nat): (r: string)
    requires v < 0x1_0000
    ensures |r| == 4
    ensures forall k :: 0 <= k < 4 ==> JavaText.IsHexLower(r[k])
    ensures forall k :: 0 <= k < 4 ==> 0 <= JavaText.HexValue(r[k])
    ensures JavaText.HexDigitsValue(r) == v
  {
    JavaText.HexDigitsValueOfHexText(v);
    PadHexValue(JavaText.HexText(v), 4);
    ToString.PadZeros(JavaText.HexText(v), 4)
  }

  lemma CalcCRCOfEmpty()
    ensures CalcCRC([]) == "0000"
  {
    assert Fold([]) == (0, 0);
    assert Join(0, 0) == 0;
    assert CrcValue([]) == 0;
    assert JavaText.HexText(0) == "0";
    assert "0" + "0" == "00" && "0" + "00" == "000" && "0" + "000" == "0000";
    assert ToString.PadZeros("0000", 4) == "0000";
    assert ToString.PadZeros("000", 4) == "0000";
    assert ToString.PadZeros("00", 4) == "0000";
    assert ToString.PadZeros("0", 4) == "0000";
  }

  lemma {:induction false} PadHexValue(s: string, n: nat)
    requires forall k :: 0 <= k < |s| ==> JavaText.IsHexLower(s[k])
    ensures forall k :: 0 <= k < |ToString.PadZeros(s, n)| ==> JavaText.IsHexLower(ToString.PadZeros(s, n)[k])
    ensures forall k :: 0 <= k < |s| ==> 0 <= JavaText.HexValue(s[k])
    ensures forall k :: 0 <= k < |ToString.PadZeros(s, n)| ==> 0 <= JavaText.HexValue(ToString.PadZeros(s, n)[k])
    ensures JavaText.HexDigitsValue(ToString.PadZeros(s, n)) == JavaText.HexDigitsValue(s)
    decreases n - |s|
  {
    if |s| < n {
      LeadingHexZero(s);
      PadHexValue("0" + s, n);
    }
  }

  lemma {:induction false} LeadingHexZero(s: string)
    requires forall k :: 0 <= k < |s| ==> JavaText.IsHexLower(s[k])
    ensures forall k :: 0 <= k < |"0" + s| ==> JavaText.IsHexLower(("0" + s)[k])
    ensures forall k :: 0 <= k < |s| ==> 0 <= JavaText.HexValue(s[k])
    ensures forall k :: 0 <= k < |"0" + s| ==> 0 <= JavaText.HexValue(("0" + s)[k])
    ensures JavaText.HexDigitsValue("0" + s) == JavaText.HexDigitsValue(s)
    decreases |s|
  {
    if |s| > 0 {
      var t := "0" + s;
      assert t[..|t| - 1] == "0" + s[..|s| - 1];
      LeadingHexZero(s[..|s| - 1]);
    }
  }

  // ------------------------------------------- the bit-by-bit reference

  /** One shift of the division register: shift left, and subtract (xor) the
      polynomial when a one falls out at the top. */
  function Shift(c: bv16): bv16 {
    if c >= 0x8000 then (c << 1) ^ 0x1021 else c << 1
  }

  /** Eight shifts, written out: the form in which the table entries are
      checked one by one. */
  function Shift8(c: bv16): bv16 {
    Shift(Shift(Shift(Shift(Shift(Shift(Shift(Shift(c))))))))
  }

  /** `f` applied `n` times to `c`. */
  function Iter<T>(f: T -> T, c: T, n: nat): T
    decreases n
  {
    if n == 0 then c else Iter(f, f(c), n - 1)
  }

  /** The bits in a byte. Named, so that the verifier does not unroll the
      eight shifts wherever a CRC merely appears. */
  const ByteBits: nat := 8

  /** One byte's worth of division: eight shifts. */
  function ShiftByte(c: bv16): bv16 {
    Iter(Shift, c, ByteBits)
  }

  /** One byte of division, with `f` dividing a register through: the byte
      is xored into the top of the register and divided through. */
  function Divide(c: bv16, b: bv8, f: bv16 -> bv16): bv16 {
    f(c ^ ((b as bv16) << 8))
  }

  /** Division of a whole message, byte by byte, from register 0. */
  function Division(s: seq<byte>, f: bv16 -> bv16): bv16 {
    if |s| == 0 then 0 else Divide(Division(s[..|s| - 1], f), s[|s| - 1] as bv8, f)
  }

  /** The CRC by polynomial division (most significant bit first, polynomial
      0x1021, initial register 0), one bit at a time. */
  function CrcBitwise(s: seq<byte>): bv16 {
    Division(s, ShiftByte)
  }

  /** The bitwise CRC printed as `calcCRC` prints its value: four lower-case
      hex digits, zero-padded. The framing of the protocol is stated with it;
      `CalcCRCIsCrcText` shows that the table-driven `CalcCRC` yields the same
      text. */
  function CrcText(s: seq<byte>): (r: string)
    ensures |r| == 4
    ensures forall k :: 0 <= k < 4 ==> JavaText.IsHexLower(r[k])
  {
    HexField(CrcBitwise(s) as int)
  }

  /** A pair of tables whose entry `x` is `x`, placed in the top byte,
      divided through by `f`. */
  ghost predicate TablesDivide(high: bv8 -> bv8, low: bv8 -> bv8, f: bv16 -> bv16) {
    forall x: bv8 :: Join(high(x), low(x)) == f((x as bv16) << 8)
  }

  /** `f` carries a register holding only a low byte up by eight places
      without any subtraction. */
  ghost predicate LowBytePasses(f: bv16 -> bv16) {
    forall l: bv16 :: l < 256 ==> f(l) == l << 8
  }

  /** Entry `x` of the source's tables is the register after dividing `x`. */
  predicate EntryDivides(x: bv8) {
    Join(HighTab(x), LowTab(x)) == Shift8((x as bv16) << 8)
  }

  lemma TableRow0(x: bv8)
    requires 0 <= x < 8
    ensures EntryDivides(x)
  {
    if x == 0 {
      assert HighTab(0) == 0x00 && LowTab(0) == 0x00;
      assert (0 as bv16) << 8 == 0x0000 && Shift8(0x0000) == 0x0000;
    } else if x == 1 {
      assert HighTab(1) == 0x10 && LowTab(1) == 0x21;
      assert (1 as bv16) << 8 == 0x0100 && Shift8(0x0100) == 0x1021;
    } else if x == 2 {
      assert HighTab(2) == 0x20 && LowTab(2) == 0x42;
      assert (2 as bv16) << 8 == 0x0200 && Shift8(0x0200) == 0x2042;
    } else if x == 3 {
      assert HighTab(3) == 0x30 && LowTab(3) == 0x63;
      assert (3 as bv16) << 8 == 0x0300 && Shift8(0x0300) == 0x3063;
    } else if x == 4 {
      assert HighTab(4) == 0x40 && LowTab(4) == 0x84;
      assert (4 as bv16) << 8 == 0x0400 && Shift8(0x0400) == 0x4084;
    } else if x == 5 {
      assert HighTab(5) == 0x50 && LowTab(5) == 0xa5;
      assert (5 as bv16) << 8 == 0x0500 && Shift8(0x0500) == 0x50a5;
    } else if x == 6 {
      assert HighTab(6) == 0x60 && LowTab(6) == 0xc6;
      assert (6 as bv16) << 8 == 0x0600 && Shift8(0x0600) == 0x60c6;
    } else if x == 7 {
      assert HighTab(7) == 0x70 && LowTab(7) == 0xe7;
      assert (7 as bv16) << 8 == 0x0700 && Shift8(0x0700) == 0x70e7;
    }
  }

  lemma TableRow1(x: bv8)
    requires 8 <= x < 16
    ensures EntryDivides(x)
  {
    if x == 8 {
      assert HighTab(8) == 0x81 && LowTab(8) == 0x08;
      assert (8 as bv16) << 8 == 0x0800 && Shift8(0x0800) == 0x8108;
    } else if x == 9 {
      assert HighTab(9) == 0x91 && LowTab(9) == 0x29;
      assert (9 as bv16) << 8 == 0x0900 && Shift8(0x0900) == 0x9129;
    } else if x == 10 {
      assert HighTab(10) == 0xa1 && LowTab(10) == 0x4a;
      assert (10 as bv16) << 8 == 0x0a00 && Shift8(0x0a00) == 0xa14a;
    } else if x == 11 {
      assert HighTab(11) == 0xb1 && LowTab(11) == 0x6b;
      assert (11 as bv16) << 8 == 0x0b00 && Shift8(0x0b00) == 0xb16b;
    } else if x == 12 {
      assert HighTab(12) == 0xc1 && LowTab(12) == 0x8c;
      assert (12 as bv16) << 8 == 0x0c00 && Shift8(0x0c00) == 0xc18c;
    } else if x == 13 {
      assert HighTab(13) == 0xd1 && LowTab(13) == 0xad;
      assert (13 as bv16) << 8 == 0x0d00 && Shift8(0x0d00) == 0xd1ad;
    } else if x == 14 {
      assert HighTab(14) == 0xe1 && LowTab(14) == 0xce;
      assert (14 as bv16) << 8 == 0x0e00 && Shift8(0x0e00) == 0xe1ce;
    } else if x == 15 {
      assert HighTab(15) == 0xf1 && LowTab(15) == 0xef;
      assert (15 as bv16) << 8 == 0x0f00 && Shift8(0x0f00) == 0xf1ef;
    }
  }

  lemma TableRow2(x: bv8)
    requires 16 <= x < 24
    ensures EntryDivides(x)
  {
    if x == 16 {
      assert HighTab(16) == 0x12 && LowTab(16) == 0x31;
      assert (16 as bv16) << 8 == 0x1000 && Shift8(0x1000) == 0x1231;
    } else if x == 17 {
      assert HighTab(17) == 0x02 && LowTab(17) == 0x10;
      assert (17 as bv16) << 8 == 0x1100 && Shift8(0x1100) == 0x0210;
    } else if x == 18 {
      assert HighTab(18) == 0x32 && LowTab(18) == 0x73;
      assert (18 as bv16) << 8 == 0x1200 && Shift8(0x1200) == 0x3273;
    } else if x == 19 {
      assert HighTab(19) == 0x22 && LowTab(19) == 0x52;
      assert (19 as bv16) << 8 == 0x1300 && Shift8(0x1300) == 0x2252;
    } else if x == 20 {
      assert HighTab(20) == 0x52 && LowTab(20) == 0xb5;
      assert (20 as bv16) << 8 == 0x1400 && Shift8(0x1400) == 0x52b5;
    } else if x == 21 {
      assert HighTab(21) == 0x42 && LowTab(21) == 0x94;
      assert (21 as bv16) << 8 == 0x1500 && Shift8(0x1500) == 0x4294;
    } else if x == 22 {
      assert HighTab(22) == 0x72 && LowTab(22) == 0xf7;
      assert (22 as bv16) << 8 == 0x1600 && Shift8(0x1600) == 0x72f7;
    } else if x == 23 {
      assert HighTab(23) == 0x62 && LowTab(23) == 0xd6;
      assert (23 as bv16) << 8 == 0x1700 && Shift8(0x1700) == 0x62d6;
    }
  }

  lemma TableRow3(x: bv8)
    requires 24 <= x < 32
    ensures EntryDivides(x)
  {
    if x == 24 {
      assert HighTab(24) == 0x93 && LowTab(24) == 0x39;
      assert (24 as bv16) << 8 == 0x1800 && Shift8(0x1800) == 0x9339;
    } else if x == 25 {
      assert HighTab(25) == 0x83 && LowTab(25) == 0x18;
      assert (25 as bv16) << 8 == 0x1900 && Shift8(0x1900) == 0x8318;
    } else if x == 26 {
      assert HighTab(26) == 0xb3 && LowTab(26) == 0x7b;
      assert (26 as bv16) << 8 == 0x1a00 && Shift8(0x1a00) == 0xb37b;
    } else if x == 27 {
      assert HighTab(27) == 0xa3 && LowTab(27) == 0x5a;
      assert (27 as bv16) << 8 == 0x1b00 && Shift8(0x1b00) == 0xa35a;
    } else if x == 28 {
      assert HighTab(28) == 0xd3 && LowTab(28) == 0xbd;
      assert (28 as bv16) << 8 == 0x1c00 && Shift8(0x1c00) == 0xd3bd;
    } else if x == 29 {
      assert HighTab(29) == 0xc3 && LowTab(29) == 0x9c;
      assert (29 as bv16) << 8 == 0x1d00 && Shift8(0x1d00) == 0xc39c;
    } else if x == 30 {
      assert HighTab(30) == 0xf3 && LowTab(30) == 0xff;
      assert (30 as bv16) << 8 == 0x1e00 && Shift8(0x1e00) == 0xf3ff;
    } else if x == 31 {
      assert HighTab(31) == 0xe3 && LowTab(31) == 0xde;
      assert (31 as bv16) << 8 == 0x1f00 && Shift8(0x1f00) == 0xe3de;
    }
  }

  lemma TableRow4(x: bv8)
    requires 32 <= x < 40
    ensures EntryDivides(x)
  {
    if x == 32 {
      assert HighTab(32) == 0x24 && LowTab(32) == 0x62;
      assert (32 as bv16) << 8 == 0x2000 && Shift8(0x2000) == 0x2462;
    } else if x == 33 {
      assert HighTab(33) == 0x34 && LowTab(33) == 0x43;
      assert (33 as bv16) << 8 == 0x2100 && Shift8(0x2100) == 0x3443;
    } else if x == 34 {
      assert HighTab(34) == 0x04 && LowTab(34) == 0x20;
      assert (34 as bv16) << 8 == 0x2200 && Shift8(0x2200) == 0x0420;
    } else if x == 35 {
      assert HighTab(35) == 0x14 && LowTab(35) == 0x01;
      assert (35 as bv16) << 8 == 0x2300 && Shift8(0x2300) == 0x1401;
    } else if x == 36 {
      assert HighTab(36) == 0x64 && LowTab(36) == 0xe6;
      assert (36 as bv16) << 8 == 0x2400 && Shift8(0x2400) == 0x64e6;
    } else if x == 37 {
      assert HighTab(37) == 0x74 && LowTab(37) == 0xc7;
      assert (37 as bv16) << 8 == 0x2500 && Shift8(0x2500) == 0x74c7;
    } else if x == 38 {
      assert HighTab(38) == 0x44 && LowTab(38) == 0xa4;
      assert (38 as bv16) << 8 == 0x2600 && Shift8(0x2600) == 0x44a4;
    } else if x == 39 {
      assert HighTab(39) == 0x54 && LowTab(39) == 0x85;
      assert (39 as bv16) << 8 == 0x2700 && Shift8(0x2700) == 0x5485;
    }
  }

  lemma TableRow5(x: bv8)
    requires 40 <= x < 48
    ensures EntryDivides(x)
  {
    if x == 40 {
      assert HighTab(40) == 0xa5 && LowTab(40) == 0x6a;
      assert (40 as bv16) << 8 == 0x2800 && Shift8(0x2800) == 0xa56a;
    } else if x == 41 {
      assert HighTab(41) == 0xb5 && LowTab(41) == 0x4b;
      assert (41 as bv16) << 8 == 0x2900 && Shift8(0x2900) == 0xb54b;
    } else if x == 42 {
      assert HighTab(42) == 0x85 && LowTab(42) == 0x28;
      assert (42 as bv16) << 8 == 0x2a00 && Shift8(0x2a00) == 0x8528;
    } else if x == 43 {
      assert HighTab(43) == 0x95 && LowTab(43) == 0x09;
      assert (43 as bv16) << 8 == 0x2b00 && Shift8(0x2b00) == 0x9509;
    } else if x == 44 {
      assert HighTab(44) == 0xe5 && LowTab(44) == 0xee;
      assert (44 as bv16) << 8 == 0x2c00 && Shift8(0x2c00) == 0xe5ee;
    } else if x == 45 {
      assert HighTab(45) == 0xf5 && LowTab(45) == 0xcf;
      assert (45 as bv16) << 8 == 0x2d00 && Shift8(0x2d00) == 0xf5cf;
    } else if x == 46 {
      assert HighTab(46) == 0xc5 && LowTab(46) == 0xac;
      assert (46 as bv16) << 8 == 0x2e00 && Shift8(0x2e00) == 0xc5ac;
    } else if x == 47 {
      assert HighTab(47) == 0xd5 && LowTab(47) == 0x8d;
      assert (47 as bv16) << 8 == 0x2f00 && Shift8(0x2f00) == 0xd58d;
    }
  }

  lemma TableRow6(x: bv8)
    requires 48 <= x < 56
    ensures EntryDivides(x)
  {
    if x == 48 {
      assert HighTab(48) == 0x36 && LowTab(48) == 0x53;
      assert (48 as bv16) << 8 == 0x3000 && Shift8(0x3000) == 0x3653;
    } else if x == 49 {
      assert HighTab(49) == 0x26 && LowTab(49) == 0x72;
      assert (49 as bv16) << 8 == 0x3100 && Shift8(0x3100) == 0x2672;
    } else if x == 50 {
      assert HighTab(50) == 0x16 && LowTab(50) == 0x11;
      assert (50 as bv16) << 8 == 0x3200 && Shift8(0x3200) == 0x1611;
    } else if x == 51 {
      assert HighTab(51) == 0x06 && LowTab(51) == 0x30;
      assert (51 as bv16) << 8 == 0x3300 && Shift8(0x3300) == 0x0630;
    } else if x == 52 {
      assert HighTab(52) == 0x76 && LowTab(52) == 0xd7;
      assert (52 as bv16) << 8 == 0x3400 && Shift8(0x3400) == 0x76d7;
    } else if x == 53 {
      assert HighTab(53) == 0x66 && LowTab(53) == 0xf6;
      assert (53 as bv16) << 8 == 0x3500 && Shift8(0x3500) == 0x66f6;
    } else if x == 54 {
      assert HighTab(54) == 0x56 && LowTab(54) == 0x95;
      assert (54 as bv16) << 8 == 0x3600 && Shift8(0x3600) == 0x5695;
    } else if x == 55 {
      assert HighTab(55) == 0x46 && LowTab(55) == 0xb4;
      assert (55 as bv16) << 8 == 0x3700 && Shift8(0x3700) == 0x46b4;
    }
  }

  lemma TableRow7(x: bv8)
    requires 56 <= x < 64
    ensures EntryDivides(x)
  {
    if x == 56 {
      assert HighTab(56) == 0xb7 && LowTab(56) == 0x5b;
      assert (56 as bv16) << 8 == 0x3800 && Shift8(0x3800) == 0xb75b;
    } else if x == 57 {
      assert HighTab(57) == 0xa7 && LowTab(57) == 0x7a;
      assert (57 as bv16) << 8 == 0x3900 && Shift8(0x3900) == 0xa77a;
    } else if x == 58 {
      assert HighTab(58) == 0x97 && LowTab(58) == 0x19;
      assert (58 as bv16) << 8 == 0x3a00 && Shift8(0x3a00) == 0x9719;
    } else if x == 59 {
      assert HighTab(59) == 0x87 && LowTab(59) == 0x38;
      assert (59 as bv16) << 8 == 0x3b00 && Shift8(0x3b00) == 0x8738;
    } else if x == 60 {
      assert HighTab(60) == 0xf7 && LowTab(60) == 0xdf;
      assert (60 as bv16) << 8 == 0x3c00 && Shift8(0x3c00) == 0xf7df;
    } else if x == 61 {
      assert HighTab(61) == 0xe7 && LowTab(61) == 0xfe;
      assert (61 as bv16) << 8 == 0x3d00 && Shift8(0x3d00) == 0xe7fe;
    } else if x == 62 {
      assert HighTab(62) == 0xd7 && LowTab(62) == 0x9d;
      assert (62 as bv16) << 8 == 0x3e00 && Shift8(0x3e00) == 0xd79d;
    } else if x == 63 {
      assert HighTab(63) == 0xc7 && LowTab(63) == 0xbc;
      assert (63 as bv16) << 8 == 0x3f00 && Shift8(0x3f00) == 0xc7bc;
    }
  }

  lemma TableRow8(x: bv8)
    requires 64 <= x < 72
    ensures EntryDivides(x)
  {
    if x == 64 {
      assert HighTab(64) == 0x48 && LowTab(64) == 0xc4;
      assert (64 as bv16) << 8 == 0x4000 && Shift8(0x4000) == 0x48c4;
    } else if x == 65 {
      assert HighTab(65) == 0x58 && LowTab(65) == 0xe5;
      assert (65 as bv16) << 8 == 0x4100 && Shift8(0x4100) == 0x58e5;
    } else if x == 66 {
      assert HighTab(66) == 0x68 && LowTab(66) == 0x86;
      assert (66 as bv16) << 8 == 0x4200 && Shift8(0x4200) == 0x6886;
    } else if x == 67 {
      assert HighTab(67) == 0x78 && LowTab(67) == 0xa7;
      assert (67 as bv16) << 8 == 0x4300 && Shift8(0x4300) == 0x78a7;
    } else if x == 68 {
      assert HighTab(68) == 0x08 && LowTab(68) == 0x40;
      assert (68 as bv16) << 8 == 0x4400 && Shift8(0x4400) == 0x0840;
    } else if x == 69 {
      assert HighTab(69) == 0x18 && LowTab(69) == 0x61;
      assert (69 as bv16) << 8 == 0x4500 && Shift8(0x4500) == 0x1861;
    } else if x == 70 {
      assert HighTab(70) == 0x28 && LowTab(70) == 0x02;
      assert (70 as bv16) << 8 == 0x4600 && Shift8(0x4600) == 0x2802;
    } else if x == 71 {
      assert HighTab(71) == 0x38 && LowTab(71) == 0x23;
      assert (71 as bv16) << 8 == 0x4700 && Shift8(0x4700) == 0x3823;
    }
  }

  lemma TableRow9(x: bv8)
    requires 72 <= x < 80
    ensures EntryDivides(x)
  {
    if x == 72 {
      assert HighTab(72) == 0xc9 && LowTab(72) == 0xcc;
      assert (72 as bv16) << 8 == 0x4800 && Shift8(0x4800) == 0xc9cc;
    } else if x == 73 {
      assert HighTab(73) == 0xd9 && LowTab(73) == 0xed;
      assert (73 as bv16) << 8 == 0x4900 && Shift8(0x4900) == 0xd9ed;
    } else if x == 74 {
      assert HighTab(74) == 0xe9 && LowTab(74) == 0x8e;
      assert (74 as bv16) << 8 == 0x4a00 && Shift8(0x4a00) == 0xe98e;
    } else if x == 75 {
      assert HighTab(75) == 0xf9 && LowTab(75) == 0xaf;
      assert (75 as bv16) << 8 == 0x4b00 && Shift8(0x4b00) == 0xf9af;
    } else if x == 76 {
      assert HighTab(76) == 0x89 && LowTab(76) == 0x48;
      assert (76 as bv16) << 8 == 0x4c00 && Shift8(0x4c00) == 0x8948;
    } else if x == 77 {
      assert HighTab(77) == 0x99 && LowTab(77) == 0x69;
      assert (77 as bv16) << 8 == 0x4d00 && Shift8(0x4d00) == 0x9969;
    } else if x == 78 {
      assert HighTab(78) == 0xa9 && LowTab(78) == 0x0a;
      assert (78 as bv16) << 8 == 0x4e00 && Shift8(0x4e00) == 0xa90a;
    } else if x == 79 {
      assert HighTab(79) == 0xb9 && LowTab(79) == 0x2b;
      assert (79 as bv16) << 8 == 0x4f00 && Shift8(0x4f00) == 0xb92b;
    }
  }

  lemma TableRow10(x: bv8)
    requires 80 <= x < 88
    ensures EntryDivides(x)
  {
    if x == 80 {
      assert HighTab(80) == 0x5a && LowTab(80) == 0xf5;
      assert (80 as bv16) << 8 == 0x5000 && Shift8(0x5000) == 0x5af5;
    } else if x == 81 {
      assert HighTab(81) == 0x4a && LowTab(81) == 0xd4;
      assert (81 as bv16) << 8 == 0x5100 && Shift8(0x5100) == 0x4ad4;
    } else if x == 82 {
      assert HighTab(82) == 0x7a && LowTab(82) == 0xb7;
      assert (82 as bv16) << 8 == 0x5200 && Shift8(0x5200) == 0x7ab7;
    } else if x == 83 {
      assert HighTab(83) == 0x6a && LowTab(83) == 0x96;
      assert (83 as bv16) << 8 == 0x5300 && Shift8(0x5300) == 0x6a96;
    } else if x == 84 {
      assert HighTab(84) == 0x1a && LowTab(84) == 0x71;
      assert (84 as bv16) << 8 == 0x5400 && Shift8(0x5400) == 0x1a71;
    } else if x == 85 {
      assert HighTab(85) == 0x0a && LowTab(85) == 0x50;
      assert (85 as bv16) << 8 == 0x5500 && Shift8(0x5500) == 0x0a50;
    } else if x == 86 {
      assert HighTab(86) == 0x3a && LowTab(86) == 0x33;
      assert (86 as bv16) << 8 == 0x5600 && Shift8(0x5600) == 0x3a33;
    } else if x == 87 {
      assert HighTab(87) == 0x2a && LowTab(87) == 0x12;
      assert (87 as bv16) << 8 == 0x5700 && Shift8(0x5700) == 0x2a12;
    }
  }

  lemma TableRow11(x: bv8)
    requires 88 <= x < 96
    ensures EntryDivides(x)
  {
    if x == 88 {
      assert HighTab(88) == 0xdb && LowTab(88) == 0xfd;
      assert (88 as bv16) << 8 == 0x5800 && Shift8(0x5800) == 0xdbfd;
    } else if x == 89 {
      assert HighTab(89) == 0xcb && LowTab(89) == 0xdc;
      assert (89 as bv16) << 8 == 0x5900 && Shift8(0x5900) == 0xcbdc;
    } else if x == 90 {
      assert HighTab(90) == 0xfb && LowTab(90) == 0xbf;
      assert (90 as bv16) << 8 == 0x5a00 && Shift8(0x5a00) == 0xfbbf;
    } else if x == 91 {
      assert HighTab(91) == 0xeb && LowTab(91) == 0x9e;
      assert (91 as bv16) << 8 == 0x5b00 && Shift8(0x5b00) == 0xeb9e;
    } else if x == 92 {
      assert HighTab(92) == 0x9b && LowTab(92) == 0x79;
      assert (92 as bv16) << 8 == 0x5c00 && Shift8(0x5c00) == 0x9b79;
    } else if x == 93 {
      assert HighTab(93) == 0x8b && LowTab(93) == 0x58;
      assert (93 as bv16) << 8 == 0x5d00 && Shift8(0x5d00) == 0x8b58;
    } else if x == 94 {
      assert HighTab(94) == 0xbb && LowTab(94) == 0x3b;
      assert (94 as bv16) << 8 == 0x5e00 && Shift8(0x5e00) == 0xbb3b;
    } else if x == 95 {
      assert HighTab(95) == 0xab && LowTab(95) == 0x1a;
      assert (95 as bv16) << 8 == 0x5f00 && Shift8(0x5f00) == 0xab1a;
    }
  }

  lemma TableRow12(x: bv8)
    requires 96 <= x < 104
    ensures EntryDivides(x)
  {
    if x == 96 {
      assert HighTab(96) == 0x6c && LowTab(96) == 0xa6;
      assert (96 as bv16) << 8 == 0x6000 && Shift8(0x6000) == 0x6ca6;
    } else if x == 97 {
      assert HighTab(97) == 0x7c && LowTab(97) == 0x87;
      assert (97 as bv16) << 8 == 0x6100 && Shift8(0x6100) == 0x7c87;
    } else if x == 98 {
      assert HighTab(98) == 0x4c && LowTab(98) == 0xe4;
      assert (98 as bv16) << 8 == 0x6200 && Shift8(0x6200) == 0x4ce4;
    } else if x == 99 {
      assert HighTab(99) == 0x5c && LowTab(99) == 0xc5;
      assert (99 as bv16) << 8 == 0x6300 && Shift8(0x6300) == 0x5cc5;
    } else if x == 100 {
      assert HighTab(100) == 0x2c && LowTab(100) == 0x22;
      assert (100 as bv16) << 8 == 0x6400 && Shift8(0x6400) == 0x2c22;
    } else if x == 101 {
      assert HighTab(101) == 0x3c && LowTab(101) == 0x03;
      assert (101 as bv16) << 8 == 0x6500 && Shift8(0x6500) == 0x3c03;
    } else if x == 102 {
      assert HighTab(102) == 0x0c && LowTab(102) == 0x60;
      assert (102 as bv16) << 8 == 0x6600 && Shift8(0x6600) == 0x0c60;
    } else if x == 103 {
      assert HighTab(103) == 0x1c && LowTab(103) == 0x41;
      assert (103 as bv16) << 8 == 0x6700 && Shift8(0x6700) == 0x1c41;
    }
  }

  lemma TableRow13(x: bv8)
    requires 104 <= x < 112
    ensures EntryDivides(x)
  {
    if x == 104 {
      assert HighTab(104) == 0xed && LowTab(104) == 0xae;
      assert (104 as bv16) << 8 == 0x6800 && Shift8(0x6800) == 0xedae;
    } else if x == 105 {
      assert HighTab(105) == 0xfd && LowTab(105) == 0x8f;
      assert (105 as bv16) << 8 == 0x6900 && Shift8(0x6900) == 0xfd8f;
    } else if x == 106 {
      assert HighTab(106) == 0xcd && LowTab(106) == 0xec;
      assert (106 as bv16) << 8 == 0x6a00 && Shift8(0x6a00) == 0xcdec;
    } else if x == 107 {
      assert HighTab(107) == 0xdd && LowTab(107) == 0xcd;
      assert (107 as bv16) << 8 == 0x6b00 && Shift8(0x6b00) == 0xddcd;
    } else if x == 108 {
      assert HighTab(108) == 0xad && LowTab(108) == 0x2a;
      assert (108 as bv16) << 8 == 0x6c00 && Shift8(0x6c00) == 0xad2a;
    } else if x == 109 {
      assert HighTab(109) == 0xbd && LowTab(109) == 0x0b;
      assert (109 as bv16) << 8 == 0x6d00 && Shift8(0x6d00) == 0xbd0b;
    } else if x == 110 {
      assert HighTab(110) == 0x8d && LowTab(110) == 0x68;
      assert (110 as bv16) << 8 == 0x6e00 && Shift8(0x6e00) == 0x8d68;
    } else if x == 111 {
      assert HighTab(111) == 0x9d && LowTab(111) == 0x49;
      assert (111 as bv16) << 8 == 0x6f00 && Shift8(0x6f00) == 0x9d49;
    }
  }

  lemma TableRow14(x: bv8)
    requires 112 <= x < 120
    ensures EntryDivides(x)
  {
    if x == 112 {
      assert HighTab(112) == 0x7e && LowTab(112) == 0x97;
      assert (112 as bv16) << 8 == 0x7000 && Shift8(0x7000) == 0x7e97;
    } else if x == 113 {
      assert HighTab(113) == 0x6e && LowTab(113) == 0xb6;
      assert (113 as bv16) << 8 == 0x7100 && Shift8(0x7100) == 0x6eb6;
    } else if x == 114 {
      assert HighTab(114) == 0x5e && LowTab(114) == 0xd5;
      assert (114 as bv16) << 8 == 0x7200 && Shift8(0x7200) == 0x5ed5;
    } else if x == 115 {
      assert HighTab(115) == 0x4e && LowTab(115) == 0xf4;
      assert (115 as bv16) << 8 == 0x7300 && Shift8(0x7300) == 0x4ef4;
    } else if x == 116 {
      assert HighTab(116) == 0x3e && LowTab(116) == 0x13;
      assert (116 as bv16) << 8 == 0x7400 && Shift8(0x7400) == 0x3e13;
    } else if x == 117 {
      assert HighTab(117) == 0x2e && LowTab(117) == 0x32;
      assert (117 as bv16) << 8 == 0x7500 && Shift8(0x7500) == 0x2e32;
    } else if x == 118 {
      assert HighTab(118) == 0x1e && LowTab(118) == 0x51;
      assert (118 as bv16) << 8 == 0x7600 && Shift8(0x7600) == 0x1e51;
    } else if x == 119 {
      assert HighTab(119) == 0x0e && LowTab(119) == 0x70;
      assert (119 as bv16) << 8 == 0x7700 && Shift8(0x7700) == 0x0e70;
    }
  }

  lemma TableRow15(x: bv8)
    requires 120 <= x < 128
    ensures EntryDivides(x)
  {
    if x == 120 {
      assert HighTab(120) == 0xff && LowTab(120) == 0x9f;
      assert (120 as bv16) << 8 == 0x7800 && Shift8(0x7800) == 0xff9f;
    } else if x == 121 {
      assert HighTab(121) == 0xef && LowTab(121) == 0xbe;
      assert (121 as bv16) << 8 == 0x7900 && Shift8(0x7900) == 0xefbe;
    } else if x == 122 {
      assert HighTab(122) == 0xdf && LowTab(122) == 0xdd;
      assert (122 as bv16) << 8 == 0x7a00 && Shift8(0x7a00) == 0xdfdd;
    } else if x == 123 {
      assert HighTab(123) == 0xcf && LowTab(123) == 0xfc;
      assert (123 as bv16) << 8 == 0x7b00 && Shift8(0x7b00) == 0xcffc;
    } else if x == 124 {
      assert HighTab(124) == 0xbf && LowTab(124) == 0x1b;
      assert (124 as bv16) << 8 == 0x7c00 && Shift8(0x7c00) == 0xbf1b;
    } else if x == 125 {
      assert HighTab(125) == 0xaf && LowTab(125) == 0x3a;
      assert (125 as bv16) << 8 == 0x7d00 && Shift8(0x7d00) == 0xaf3a;
    } else if x == 126 {
      assert HighTab(126) == 0x9f && LowTab(126) == 0x59;
      assert (126 as bv16) << 8 == 0x7e00 && Shift8(0x7e00) == 0x9f59;
    } else if x == 127 {
      assert HighTab(127) == 0x8f && LowTab(127) == 0x78;
      assert (127 as bv16) << 8 == 0x7f00 && Shift8(0x7f00) == 0x8f78;
    }
  }

  lemma TableRow16(x: bv8)
    requires 128 <= x < 136
    ensures EntryDivides(x)
  {
    if x == 128 {
      assert HighTab(128) == 0x91 && LowTab(128) == 0x88;
      assert (128 as bv16) << 8 == 0x8000 && Shift8(0x8000) == 0x9188;
    } else if x == 129 {
      assert HighTab(129) == 0x81 && LowTab(129) == 0xa9;
      assert (129 as bv16) << 8 == 0x8100 && Shift8(0x8100) == 0x81a9;
    } else if x == 130 {
      assert HighTab(130) == 0xb1 && LowTab(130) == 0xca;
      assert (130 as bv16) << 8 == 0x8200 && Shift8(0x8200) == 0xb1ca;
    } else if x == 131 {
      assert HighTab(131) == 0xa1 && LowTab(131) == 0xeb;
      assert (131 as bv16) << 8 == 0x8300 && Shift8(0x8300) == 0xa1eb;
    } else if x == 132 {
      assert HighTab(132) == 0xd1 && LowTab(132) == 0x0c;
      assert (132 as bv16) << 8 == 0x8400 && Shift8(0x8400) == 0xd10c;
    } else if x == 133 {
      assert HighTab(133) == 0xc1 && LowTab(133) == 0x2d;
      assert (133 as bv16) << 8 == 0x8500 && Shift8(0x8500) == 0xc12d;
    } else if x == 134 {
      assert HighTab(134) == 0xf1 && LowTab(134) == 0x4e;
      assert (134 as bv16) << 8 == 0x8600 && Shift8(0x8600) == 0xf14e;
    } else if x == 135 {
      assert HighTab(135) == 0xe1 && LowTab(135) == 0x6f;
      assert (135 as bv16) << 8 == 0x8700 && Shift8(0x8700) == 0xe16f;
    }
  }

  lemma TableRow17(x: bv8)
    requires 136 <= x < 144
    ensures EntryDivides(x)
  {
    if x == 136 {
      assert HighTab(136) == 0x10 && LowTab(136) == 0x80;
      assert (136 as bv16) << 8 == 0x8800 && Shift8(0x8800) == 0x1080;
    } else if x == 137 {
      assert HighTab(137) == 0x00 && LowTab(137) == 0xa1;
      assert (137 as bv16) << 8 == 0x8900 && Shift8(0x8900) == 0x00a1;
    } else if x == 138 {
      assert HighTab(138) == 0x30 && LowTab(138) == 0xc2;
      assert (138 as bv16) << 8 == 0x8a00 && Shift8(0x8a00) == 0x30c2;
    } else if x == 139 {
      assert HighTab(139) == 0x20 && LowTab(139) == 0xe3;
      assert (139 as bv16) << 8 == 0x8b00 && Shift8(0x8b00) == 0x20e3;
    } else if x == 140 {
      assert HighTab(140) == 0x50 && LowTab(140) == 0x04;
      assert (140 as bv16) << 8 == 0x8c00 && Shift8(0x8c00) == 0x5004;
    } else if x == 141 {
      assert HighTab(141) == 0x40 && LowTab(141) == 0x25;
      assert (141 as bv16) << 8 == 0x8d00 && Shift8(0x8d00) == 0x4025;
    } else if x == 142 {
      assert HighTab(142) == 0x70 && LowTab(142) == 0x46;
      assert (142 as bv16) << 8 == 0x8e00 && Shift8(0x8e00) == 0x7046;
    } else if x == 143 {
      assert HighTab(143) == 0x60 && LowTab(143) == 0x67;
      assert (143 as bv16) << 8 == 0x8f00 && Shift8(0x8f00) == 0x6067;
    }
  }

  lemma TableRow18(x: bv8)
    requires 144 <= x < 152
    ensures EntryDivides(x)
  {
    if x == 144 {
      assert HighTab(144) == 0x83 && LowTab(144) == 0xb9;
      assert (144 as bv16) << 8 == 0x9000 && Shift8(0x9000) == 0x83b9;
    } else if x == 145 {
      assert HighTab(145) == 0x93 && LowTab(145) == 0x98;
      assert (145 as bv16) << 8 == 0x9100 && Shift8(0x9100) == 0x9398;
    } else if x == 146 {
      assert HighTab(146) == 0xa3 && LowTab(146) == 0xfb;
      assert (146 as bv16) << 8 == 0x9200 && Shift8(0x9200) == 0xa3fb;
    } else if x == 147 {
      assert HighTab(147) == 0xb3 && LowTab(147) == 0xda;
      assert (147 as bv16) << 8 == 0x9300 && Shift8(0x9300) == 0xb3da;
    } else if x == 148 {
      assert HighTab(148) == 0xc3 && LowTab(148) == 0x3d;
      assert (148 as bv16) << 8 == 0x9400 && Shift8(0x9400) == 0xc33d;
    } else if x == 149 {
      assert HighTab(149) == 0xd3 && LowTab(149) == 0x1c;
      assert (149 as bv16) << 8 == 0x9500 && Shift8(0x9500) == 0xd31c;
    } else if x == 150 {
      assert HighTab(150) == 0xe3 && LowTab(150) == 0x7f;
      assert (150 as bv16) << 8 == 0x9600 && Shift8(0x9600) == 0xe37f;
    } else if x == 151 {
      assert HighTab(151) == 0xf3 && LowTab(151) == 0x5e;
      assert (151 as bv16) << 8 == 0x9700 && Shift8(0x9700) == 0xf35e;
    }
  }

  lemma TableRow19(x: bv8)
    requires 152 <= x < 160
    ensures EntryDivides(x)
  {
    if x == 152 {
      assert HighTab(152) == 0x02 && LowTab(152) == 0xb1;
      assert (152 as bv16) << 8 == 0x9800 && Shift8(0x9800) == 0x02b1;
    } else if x == 153 {
      assert HighTab(153) == 0x12 && LowTab(153) == 0x90;
      assert (153 as bv16) << 8 == 0x9900 && Shift8(0x9900) == 0x1290;
    } else if x == 154 {
      assert HighTab(154) == 0x22 && LowTab(154) == 0xf3;
      assert (154 as bv16) << 8 == 0x9a00 && Shift8(0x9a00) == 0x22f3;
    } else if x == 155 {
      assert HighTab(155) == 0x32 && LowTab(155) == 0xd2;
      assert (155 as bv16) << 8 == 0x9b00 && Shift8(0x9b00) == 0x32d2;
    } else if x == 156 {
      assert HighTab(156) == 0x42 && LowTab(156) == 0x35;
      assert (156 as bv16) << 8 == 0x9c00 && Shift8(0x9c00) == 0x4235;
    } else if x == 157 {
      assert HighTab(157) == 0x52 && LowTab(157) == 0x14;
      assert (157 as bv16) << 8 == 0x9d00 && Shift8(0x9d00) == 0x5214;
    } else if x == 158 {
      assert HighTab(158) == 0x62 && LowTab(158) == 0x77;
      assert (158 as bv16) << 8 == 0x9e00 && Shift8(0x9e00) == 0x6277;
    } else if x == 159 {
      assert HighTab(159) == 0x72 && LowTab(159) == 0x56;
      assert (159 as bv16) << 8 == 0x9f00 && Shift8(0x9f00) == 0x7256;
    }
  }

  lemma TableRow20(x: bv8)
    requires 160 <= x < 168
    ensures EntryDivides(x)
  {
    if x == 160 {
      assert HighTab(160) == 0xb5 && LowTab(160) == 0xea;
      assert (160 as bv16) << 8 == 0xa000 && Shift8(0xa000) == 0xb5ea;
    } else if x == 161 {
      assert HighTab(161) == 0xa5 && LowTab(161) == 0xcb;
      assert (161 as bv16) << 8 == 0xa100 && Shift8(0xa100) == 0xa5cb;
    } else if x == 162 {
      assert HighTab(162) == 0x95 && LowTab(162) == 0xa8;
      assert (162 as bv16) << 8 == 0xa200 && Shift8(0xa200) == 0x95a8;
    } else if x == 163 {
      assert HighTab(163) == 0x85 && LowTab(163) == 0x89;
      assert (163 as bv16) << 8 == 0xa300 && Shift8(0xa300) == 0x8589;
    } else if x == 164 {
      assert HighTab(164) == 0xf5 && LowTab(164) == 0x6e;
      assert (164 as bv16) << 8 == 0xa400 && Shift8(0xa400) == 0xf56e;
    } else if x == 165 {
      assert HighTab(165) == 0xe5 && LowTab(165) == 0x4f;
      assert (165 as bv16) << 8 == 0xa500 && Shift8(0xa500) == 0xe54f;
    } else if x == 166 {
      assert HighTab(166) == 0xd5 && LowTab(166) == 0x2c;
      assert (166 as bv16) << 8 == 0xa600 && Shift8(0xa600) == 0xd52c;
    } else if x == 167 {
      assert HighTab(167) == 0xc5 && LowTab(167) == 0x0d;
      assert (167 as bv16) << 8 == 0xa700 && Shift8(0xa700) == 0xc50d;
    }
  }

  lemma TableRow21(x: bv8)
    requires 168 <= x < 176
    ensures EntryDivides(x)
  {
    if x == 168 {
      assert HighTab(168) == 0x34 && LowTab(168) == 0xe2;
      assert (168 as bv16) << 8 == 0xa800 && Shift8(0xa800) == 0x34e2;
    } else if x == 169 {
      assert HighTab(169) == 0x24 && LowTab(169) == 0xc3;
      assert (169 as bv16) << 8 == 0xa900 && Shift8(0xa900) == 0x24c3;
    } else if x == 170 {
      assert HighTab(170) == 0x14 && LowTab(170) == 0xa0;
      assert (170 as bv16) << 8 == 0xaa00 && Shift8(0xaa00) == 0x14a0;
    } else if x == 171 {
      assert HighTab(171) == 0x04 && LowTab(171) == 0x81;
      assert (171 as bv16) << 8 == 0xab00 && Shift8(0xab00) == 0x0481;
    } else if x == 172 {
      assert HighTab(172) == 0x74 && LowTab(172) == 0x66;
      assert (172 as bv16) << 8 == 0xac00 && Shift8(0xac00) == 0x7466;
    } else if x == 173 {
      assert HighTab(173) == 0x64 && LowTab(173) == 0x47;
      assert (173 as bv16) << 8 == 0xad00 && Shift8(0xad00) == 0x6447;
    } else if x == 174 {
      assert HighTab(174) == 0x54 && LowTab(174) == 0x24;
      assert (174 as bv16) << 8 == 0xae00 && Shift8(0xae00) == 0x5424;
    } else if x == 175 {
      assert HighTab(175) == 0x44 && LowTab(175) == 0x05;
      assert (175 as bv16) << 8 == 0xaf00 && Shift8(0xaf00) == 0x4405;
    }
  }

  lemma TableRow22(x: bv8)
    requires 176 <= x < 184
    ensures EntryDivides(x)
  {
    if x == 176 {
      assert HighTab(176) == 0xa7 && LowTab(176) == 0xdb;
      assert (176 as bv16) << 8 == 0xb000 && Shift8(0xb000) == 0xa7db;
    } else if x == 177 {
      assert HighTab(177) == 0xb7 && LowTab(177) == 0xfa;
      assert (177 as bv16) << 8 == 0xb100 && Shift8(0xb100) == 0xb7fa;
    } else if x == 178 {
      assert HighTab(178) == 0x87 && LowTab(178) == 0x99;
      assert (178 as bv16) << 8 == 0xb200 && Shift8(0xb200) == 0x8799;
    } else if x == 179 {
      assert HighTab(179) == 0x97 && LowTab(179) == 0xb8;
      assert (179 as bv16) << 8 == 0xb300 && Shift8(0xb300) == 0x97b8;
    } else if x == 180 {
      assert HighTab(180) == 0xe7 && LowTab(180) == 0x5f;
      assert (180 as bv16) << 8 == 0xb400 && Shift8(0xb400) == 0xe75f;
    } else if x == 181 {
      assert HighTab(181) == 0xf7 && LowTab(181) == 0x7e;
      assert (181 as bv16) << 8 == 0xb500 && Shift8(0xb500) == 0xf77e;
    } else if x == 182 {
      assert HighTab(182) == 0xc7 && LowTab(182) == 0x1d;
      assert (182 as bv16) << 8 == 0xb600 && Shift8(0xb600) == 0xc71d;
    } else if x == 183 {
      assert HighTab(183) == 0xd7 && LowTab(183) == 0x3c;
      assert (183 as bv16) << 8 == 0xb700 && Shift8(0xb700) == 0xd73c;
    }
  }

  lemma TableRow23(x: bv8)
    requires 184 <= x < 192
    ensures EntryDivides(x)
  {
    if x == 184 {
      assert HighTab(184) == 0x26 && LowTab(184) == 0xd3;
      assert (184 as bv16) << 8 == 0xb800 && Shift8(0xb800) == 0x26d3;
    } else if x == 185 {
      assert HighTab(185) == 0x36 && LowTab(185) == 0xf2;
      assert (185 as bv16) << 8 == 0xb900 && Shift8(0xb900) == 0x36f2;
    } else if x == 186 {
      assert HighTab(186) == 0x06 && LowTab(186) == 0x91;
      assert (186 as bv16) << 8 == 0xba00 && Shift8(0xba00) == 0x0691;
    } else if x == 187 {
      assert HighTab(187) == 0x16 && LowTab(187) == 0xb0;
      assert (187 as bv16) << 8 == 0xbb00 && Shift8(0xbb00) == 0x16b0;
    } else if x == 188 {
      assert HighTab(188) == 0x66 && LowTab(188) == 0x57;
      assert (188 as bv16) << 8 == 0xbc00 && Shift8(0xbc00) == 0x6657;
    } else if x == 189 {
      assert HighTab(189) == 0x76 && LowTab(189) == 0x76;
      assert (189 as bv16) << 8 == 0xbd00 && Shift8(0xbd00) == 0x7676;
    } else if x == 190 {
      assert HighTab(190) == 0x46 && LowTab(190) == 0x15;
      assert (190 as bv16) << 8 == 0xbe00 && Shift8(0xbe00) == 0x4615;
    } else if x == 191 {
      assert HighTab(191) == 0x56 && LowTab(191) == 0x34;
      assert (191 as bv16) << 8 == 0xbf00 && Shift8(0xbf00) == 0x5634;
    }
  }

  lemma TableRow24(x: bv8)
    requires 192 <= x < 200
    ensures EntryDivides(x)
  {
    if x == 192 {
      assert HighTab(192) == 0xd9 && LowTab(192) == 0x4c;
      assert (192 as bv16) << 8 == 0xc000 && Shift8(0xc000) == 0xd94c;
    } else if x == 193 {
      assert HighTab(193) == 0xc9 && LowTab(193) == 0x6d;
      assert (193 as bv16) << 8 == 0xc100 && Shift8(0xc100) == 0xc96d;
    } else if x == 194 {
      assert HighTab(194) == 0xf9 && LowTab(194) == 0x0e;
      assert (194 as bv16) << 8 == 0xc200 && Shift8(0xc200) == 0xf90e;
    } else if x == 195 {
      assert HighTab(195) == 0xe9 && LowTab(195) == 0x2f;
      assert (195 as bv16) << 8 == 0xc300 && Shift8(0xc300) == 0xe92f;
    } else if x == 196 {
      assert HighTab(196) == 0x99 && LowTab(196) == 0xc8;
      assert (196 as bv16) << 8 == 0xc400 && Shift8(0xc400) == 0x99c8;
    } else if x == 197 {
      assert HighTab(197) == 0x89 && LowTab(197) == 0xe9;
      assert (197 as bv16) << 8 == 0xc500 && Shift8(0xc500) == 0x89e9;
    } else if x == 198 {
      assert HighTab(198) == 0xb9 && LowTab(198) == 0x8a;
      assert (198 as bv16) << 8 == 0xc600 && Shift8(0xc600) == 0xb98a;
    } else if x == 199 {
      assert HighTab(199) == 0xa9 && LowTab(199) == 0xab;
      assert (199 as bv16) << 8 == 0xc700 && Shift8(0xc700) == 0xa9ab;
    }
  }

  lemma TableRow25(x: bv8)
    requires 200 <= x < 208
    ensures EntryDivides(x)
  {
    if x == 200 {
      assert HighTab(200) == 0x58 && LowTab(200) == 0x44;
      assert (200 as bv16) << 8 == 0xc800 && Shift8(0xc800) == 0x5844;
    } else if x == 201 {
      assert HighTab(201) == 0x48 && LowTab(201) == 0x65;
      assert (201 as bv16) << 8 == 0xc900 && Shift8(0xc900) == 0x4865;
    } else if x == 202 {
      assert HighTab(202) == 0x78 && LowTab(202) == 0x06;
      assert (202 as bv16) << 8 == 0xca00 && Shift8(0xca00) == 0x7806;
    } else if x == 203 {
      assert HighTab(203) == 0x68 && LowTab(203) == 0x27;
      assert (203 as bv16) << 8 == 0xcb00 && Shift8(0xcb00) == 0x6827;
    } else if x == 204 {
      assert HighTab(204) == 0x18 && LowTab(204) == 0xc0;
      assert (204 as bv16) << 8 == 0xcc00 && Shift8(0xcc00) == 0x18c0;
    } else if x == 205 {
      assert HighTab(205) == 0x08 && LowTab(205) == 0xe1;
      assert (205 as bv16) << 8 == 0xcd00 && Shift8(0xcd00) == 0x08e1;
    } else if x == 206 {
      assert HighTab(206) == 0x38 && LowTab(206) == 0x82;
      assert (206 as bv16) << 8 == 0xce00 && Shift8(0xce00) == 0x3882;
    } else if x == 207 {
      assert HighTab(207) == 0x28 && LowTab(207) == 0xa3;
      assert (207 as bv16) << 8 == 0xcf00 && Shift8(0xcf00) == 0x28a3;
    }
  }

  lemma TableRow26(x: bv8)
    requires 208 <= x < 216
    ensures EntryDivides(x)
  {
    if x == 208 {
      assert HighTab(208) == 0xcb && LowTab(208) == 0x7d;
      assert (208 as bv16) << 8 == 0xd000 && Shift8(0xd000) == 0xcb7d;
    } else if x == 209 {
      assert HighTab(209) == 0xdb && LowTab(209) == 0x5c;
      assert (209 as bv16) << 8 == 0xd100 && Shift8(0xd100) == 0xdb5c;
    } else if x == 210 {
      assert HighTab(210) == 0xeb && LowTab(210) == 0x3f;
      assert (210 as bv16) << 8 == 0xd200 && Shift8(0xd200) == 0xeb3f;
    } else if x == 211 {
      assert HighTab(211) == 0xfb && LowTab(211) == 0x1e;
      assert (211 as bv16) << 8 == 0xd300 && Shift8(0xd300) == 0xfb1e;
    } else if x == 212 {
      assert HighTab(212) == 0x8b && LowTab(212) == 0xf9;
      assert (212 as bv16) << 8 == 0xd400 && Shift8(0xd400) == 0x8bf9;
    } else if x == 213 {
      assert HighTab(213) == 0x9b && LowTab(213) == 0xd8;
      assert (213 as bv16) << 8 == 0xd500 && Shift8(0xd500) == 0x9bd8;
    } else if x == 214 {
      assert HighTab(214) == 0xab && LowTab(214) == 0xbb;
      assert (214 as bv16) << 8 == 0xd600 && Shift8(0xd600) == 0xabbb;
    } else if x == 215 {
      assert HighTab(215) == 0xbb && LowTab(215) == 0x9a;
      assert (215 as bv16) << 8 == 0xd700 && Shift8(0xd700) == 0xbb9a;
    }
  }

  lemma TableRow27(x: bv8)
    requires 216 <= x < 224
    ensures EntryDivides(x)
  {
    if x == 216 {
      assert HighTab(216) == 0x4a && LowTab(216) == 0x75;
      assert (216 as bv16) << 8 == 0xd800 && Shift8(0xd800) == 0x4a75;
    } else if x == 217 {
      assert HighTab(217) == 0x5a && LowTab(217) == 0x54;
      assert (217 as bv16) << 8 == 0xd900 && Shift8(0xd900) == 0x5a54;
    } else if x == 218 {
      assert HighTab(218) == 0x6a && LowTab(218) == 0x37;
      assert (218 as bv16) << 8 == 0xda00 && Shift8(0xda00) == 0x6a37;
    } else if x == 219 {
      assert HighTab(219) == 0x7a && LowTab(219) == 0x16;
      assert (219 as bv16) << 8 == 0xdb00 && Shift8(0xdb00) == 0x7a16;
    } else if x == 220 {
      assert HighTab(220) == 0x0a && LowTab(220) == 0xf1;
      assert (220 as bv16) << 8 == 0xdc00 && Shift8(0xdc00) == 0x0af1;
    } else if x == 221 {
      assert HighTab(221) == 0x1a && LowTab(221) == 0xd0;
      assert (221 as bv16) << 8 == 0xdd00 && Shift8(0xdd00) == 0x1ad0;
    } else if x == 222 {
      assert HighTab(222) == 0x2a && LowTab(222) == 0xb3;
      assert (222 as bv16) << 8 == 0xde00 && Shift8(0xde00) == 0x2ab3;
    } else if x == 223 {
      assert HighTab(223) == 0x3a && LowTab(223) == 0x92;
      assert (223 as bv16) << 8 == 0xdf00 && Shift8(0xdf00) == 0x3a92;
    }
  }

  lemma TableRow28(x: bv8)
    requires 224 <= x < 232
    ensures EntryDivides(x)
  {
    if x == 224 {
      assert HighTab(224) == 0xfd && LowTab(224) == 0x2e;
      assert (224 as bv16) << 8 == 0xe000 && Shift8(0xe000) == 0xfd2e;
    } else if x == 225 {
      assert HighTab(225) == 0xed && LowTab(225) == 0x0f;
      assert (225 as bv16) << 8 == 0xe100 && Shift8(0xe100) == 0xed0f;
    } else if x == 226 {
      assert HighTab(226) == 0xdd && LowTab(226) == 0x6c;
      assert (226 as bv16) << 8 == 0xe200 && Shift8(0xe200) == 0xdd6c;
    } else if x == 227 {
      assert HighTab(227) == 0xcd && LowTab(227) == 0x4d;
      assert (227 as bv16) << 8 == 0xe300 && Shift8(0xe300) == 0xcd4d;
    } else if x == 228 {
      assert HighTab(228) == 0xbd && LowTab(228) == 0xaa;
      assert (228 as bv16) << 8 == 0xe400 && Shift8(0xe400) == 0xbdaa;
    } else if x == 229 {
      assert HighTab(229) == 0xad && LowTab(229) == 0x8b;
      assert (229 as bv16) << 8 == 0xe500 && Shift8(0xe500) == 0xad8b;
    } else if x == 230 {
      assert HighTab(230) == 0x9d && LowTab(230) == 0xe8;
      assert (230 as bv16) << 8 == 0xe600 && Shift8(0xe600) == 0x9de8;
    } else if x == 231 {
      assert HighTab(231) == 0x8d && LowTab(231) == 0xc9;
      assert (231 as bv16) << 8 == 0xe700 && Shift8(0xe700) == 0x8dc9;
    }
  }

  lemma TableRow29(x: bv8)
    requires 232 <= x < 240
    ensures EntryDivides(x)
  {
    if x == 232 {
      assert HighTab(232) == 0x7c && LowTab(232) == 0x26;
      assert (232 as bv16) << 8 == 0xe800 && Shift8(0xe800) == 0x7c26;
    } else if x == 233 {
      assert HighTab(233) == 0x6c && LowTab(233) == 0x07;
      assert (233 as bv16) << 8 == 0xe900 && Shift8(0xe900) == 0x6c07;
    } else if x == 234 {
      assert HighTab(234) == 0x5c && LowTab(234) == 0x64;
      assert (234 as bv16) << 8 == 0xea00 && Shift8(0xea00) == 0x5c64;
    } else if x == 235 {
      assert HighTab(235) == 0x4c && LowTab(235) == 0x45;
      assert (235 as bv16) << 8 == 0xeb00 && Shift8(0xeb00) == 0x4c45;
    } else if x == 236 {
      assert HighTab(236) == 0x3c && LowTab(236) == 0xa2;
      assert (236 as bv16) << 8 == 0xec00 && Shift8(0xec00) == 0x3ca2;
    } else if x == 237 {
      assert HighTab(237) == 0x2c && LowTab(237) == 0x83;
      assert (237 as bv16) << 8 == 0xed00 && Shift8(0xed00) == 0x2c83;
    } else if x == 238 {
      assert HighTab(238) == 0x1c && LowTab(238) == 0xe0;
      assert (238 as bv16) << 8 == 0xee00 && Shift8(0xee00) == 0x1ce0;
    } else if x == 239 {
      assert HighTab(239) == 0x0c && LowTab(239) == 0xc1;
      assert (239 as bv16) << 8 == 0xef00 && Shift8(0xef00) == 0x0cc1;
    }
  }

  lemma TableRow30(x: bv8)
    requires 240 <= x < 248
    ensures EntryDivides(x)
  {
    if x == 240 {
      assert HighTab(240) == 0xef && LowTab(240) == 0x1f;
      assert (240 as bv16) << 8 == 0xf000 && Shift8(0xf000) == 0xef1f;
    } else if x == 241 {
      assert HighTab(241) == 0xff && LowTab(241) == 0x3e;
      assert (241 as bv16) << 8 == 0xf100 && Shift8(0xf100) == 0xff3e;
    } else if x == 242 {
      assert HighTab(242) == 0xcf && LowTab(242) == 0x5d;
      assert (242 as bv16) << 8 == 0xf200 && Shift8(0xf200) == 0xcf5d;
    } else if x == 243 {
      assert HighTab(243) == 0xdf && LowTab(243) == 0x7c;
      assert (243 as bv16) << 8 == 0xf300 && Shift8(0xf300) == 0xdf7c;
    } else if x == 244 {
      assert HighTab(244) == 0xaf && LowTab(244) == 0x9b;
      assert (244 as bv16) << 8 == 0xf400 && Shift8(0xf400) == 0xaf9b;
    } else if x == 245 {
      assert HighTab(245) == 0xbf && LowTab(245) == 0xba;
      assert (245 as bv16) << 8 == 0xf500 && Shift8(0xf500) == 0xbfba;
    } else if x == 246 {
      assert HighTab(246) == 0x8f && LowTab(246) == 0xd9;
      assert (246 as bv16) << 8 == 0xf600 && Shift8(0xf600) == 0x8fd9;
    } else if x == 247 {
      assert HighTab(247) == 0x9f && LowTab(247) == 0xf8;
      assert (247 as bv16) << 8 == 0xf700 && Shift8(0xf700) == 0x9ff8;
    }
  }

  lemma TableRow31(x: bv8)
    requires 248 <= x
    ensures EntryDivides(x)
  {
    if x == 248 {
      assert HighTab(248) == 0x6e && LowTab(248) == 0x17;
      assert (248 as bv16) << 8 == 0xf800 && Shift8(0xf800) == 0x6e17;
    } else if x == 249 {
      assert HighTab(249) == 0x7e && LowTab(249) == 0x36;
      assert (249 as bv16) << 8 == 0xf900 && Shift8(0xf900) == 0x7e36;
    } else if x == 250 {
      assert HighTab(250) == 0x4e && LowTab(250) == 0x55;
      assert (250 as bv16) << 8 == 0xfa00 && Shift8(0xfa00) == 0x4e55;
    } else if x == 251 {
      assert HighTab(251) == 0x5e && LowTab(251) == 0x74;
      assert (251 as bv16) << 8 == 0xfb00 && Shift8(0xfb00) == 0x5e74;
    } else if x == 252 {
      assert HighTab(252) == 0x2e && LowTab(252) == 0x93;
      assert (252 as bv16) << 8 == 0xfc00 && Shift8(0xfc00) == 0x2e93;
    } else if x == 253 {
      assert HighTab(253) == 0x3e && LowTab(253) == 0xb2;
      assert (253 as bv16) << 8 == 0xfd00 && Shift8(0xfd00) == 0x3eb2;
    } else if x == 254 {
      assert HighTab(254) == 0x0e && LowTab(254) == 0xd1;
      assert (254 as bv16) << 8 == 0xfe00 && Shift8(0xfe00) == 0x0ed1;
    } else if x == 255 {
      assert HighTab(255) == 0x1e && LowTab(255) == 0xf0;
      assert (255 as bv16) << 8 == 0xff00 && Shift8(0xff00) == 0x1ef0;
    }
  }

  /** Every entry of both tables is what bitwise division gives. */
  lemma TablesAgree(x: bv8)
    ensures EntryDivides(x)
  {
    if x < 8 {
      TableRow0(x);
    } else if x < 16 {
      TableRow1(x);
    } else if x < 24 {
      TableRow2(x);
    } else if x < 32 {
      TableRow3(x);
    } else if x < 40 {
      TableRow4(x);
    } else if x < 48 {
      TableRow5(x);
    } else if x < 56 {
      TableRow6(x);
    } else if x < 64 {
      TableRow7(x);
    } else if x < 72 {
      TableRow8(x);
    } else if x < 80 {
      TableRow9(x);
    } else if x < 88 {
      TableRow10(x);
    } else if x < 96 {
      TableRow11(x);
    } else if x < 104 {
      TableRow12(x);
    } else if x < 112 {
      TableRow13(x);
    } else if x < 120 {
      TableRow14(x);
    } else if x < 128 {
      TableRow15(x);
    } else if x < 136 {
      TableRow16(x);
    } else if x < 144 {
      TableRow17(x);
    } else if x < 152 {
      TableRow18(x);
    } else if x < 160 {
      TableRow19(x);
    } else if x < 168 {
      TableRow20(x);
    } else if x < 176 {
      TableRow21(x);
    } else if x < 184 {
      TableRow22(x);
    } else if x < 192 {
      TableRow23(x);
    } else if x < 200 {
      TableRow24(x);
    } else if x < 208 {
      TableRow25(x);
    } else if x < 216 {
      TableRow26(x);
    } else if x < 224 {
      TableRow27(x);
    } else if x < 232 {
      TableRow28(x);
    } else if x < 240 {
      TableRow29(x);
    } else if x < 248 {
      TableRow30(x);
    } else {
      TableRow31(x);
    }
  }

  /** The source's tables are division tables. */
  lemma SourceTablesDivide()
    ensures TablesDivide(HighTab, LowTab, ShiftByte)
  {
    forall x: bv8
      ensures Join(HighTab(x), LowTab(x)) == ShiftByte((x as bv16) << 8)
    {
      TablesAgree(x);
      Shift8IsIter((x as bv16) << 8);
    }
  }

  // ---------------------------------------------- division is xor-linear
  //
  // The step lemmas below speak of any `f` that distributes over xor and
  // passes a low byte through, and fix `f` to eight shifts only at the end:
  // the solver handles unfolded shifts of a variable word badly once it has
  // to reason about them.

  lemma ShiftLow(x: bv16)
    requires x < 0x8000
    ensures Shift(x) == x << 1
  {
  }

  lemma ShiftHigh(x: bv16)
    requires x >= 0x8000
    ensures Shift(x) == (x << 1) ^ 0x1021
  {
  }

  lemma ShiftXor(x: bv16, y: bv16)
    ensures (x ^ y) << 1 == (x << 1) ^ (y << 1)
  {
  }

  lemma XorComm(x: bv16, y: bv16)
    ensures x ^ y == y ^ x
  {
  }

  lemma ShiftBothHigh(x: bv16, y: bv16)
    requires x >= 0x8000 && y >= 0x8000
    ensures Shift(x ^ y) == Shift(x) ^ Shift(y)
  {
    assert x ^ y < 0x8000;
    ShiftHigh(x);
    ShiftHigh(y);
    ShiftLow(x ^ y);
    ShiftXor(x, y);
  }

  lemma ShiftOneHigh(x: bv16, y: bv16)
    requires x >= 0x8000 && y < 0x8000
    ensures Shift(x ^ y) == Shift(x) ^ Shift(y)
  {
    assert x ^ y >= 0x8000;
    ShiftHigh(x);
    ShiftLow(y);
    ShiftHigh(x ^ y);
    ShiftXor(x, y);
  }

  lemma ShiftBothLow(x: bv16, y: bv16)
    requires x < 0x8000 && y < 0x8000
    ensures Shift(x ^ y) == Shift(x) ^ Shift(y)
  {
    assert x ^ y < 0x8000;
    ShiftLow(x);
    ShiftLow(y);
    ShiftLow(x ^ y);
    ShiftXor(x, y);
  }

  /** One shift distributes over xor. */
  lemma ShiftLinear(x: bv16, y: bv16)
    ensures Shift(x ^ y) == Shift(x) ^ Shift(y)
  {
    if x >= 0x8000 && y >= 0x8000 {
      ShiftBothHigh(x, y);
    } else if x >= 0x8000 {
      ShiftOneHigh(x, y);
    } else if y >= 0x8000 {
      ShiftOneHigh(y, x);
      XorComm(x, y);
      XorComm(Shift(x), Shift(y));
    } else {
      ShiftBothLow(x, y);
    }
  }

  function Xor(a: bv16, b: bv16): bv16 {
    a ^ b
  }

  /** `f` distributes over `add`. */
  ghost predicate Additive<T(!new)>(f: T -> T, add: (T, T) -> T) {
    forall a: T, b: T :: f(add(a, b)) == add(f(a), f(b))
  }

  /** Repeating a map that distributes over `add` distributes over `add`. */
  lemma {:induction false} IterAdditive<T(!new)>(f: T -> T, add: (T, T) -> T, x: T, y: T, n: nat)
    requires Additive(f, add)
    ensures Iter(f, add(x, y), n) == add(Iter(f, x, n), Iter(f, y, n))
    decreases n
  {
    if n > 0 {
      IterAdditive(f, add, f(x), f(y), n - 1);
    }
  }

  lemma ShiftAdditive()
    ensures Additive(Shift, Xor)
  {
    forall a: bv16, b: bv16
      ensures Shift(Xor(a, b)) == Xor(Shift(a), Shift(b))
    {
      ShiftLinear(a, b);
    }
  }

  /** Eight shifts distribute over xor. */
  lemma ShiftByteAdditive()
    ensures Additive(ShiftByte, Xor)
  {
    ShiftAdditive();
    forall a: bv16, b: bv16
      ensures ShiftByte(Xor(a, b)) == Xor(ShiftByte(a), ShiftByte(b))
    {
      IterAdditive(Shift, Xor, a, b, 8);
    }
  }

  /** The written-out eight shifts are eight repetitions of one. */
  lemma Shift8IsIter(c: bv16)
    ensures Shift8(c) == Iter(Shift, c, 8)
  {
    var c1 := Shift(c);
    var c2 := Shift(c1);
    var c3 := Shift(c2);
    var c4 := Shift(c3);
    var c5 := Shift(c4);
    var c6 := Shift(c5);
    var c7 := Shift(c6);
    assert Iter(Shift, c, 8) == Iter(Shift, c1, 7);
    assert Iter(Shift, c1, 7) == Iter(Shift, c2, 6);
    assert Iter(Shift, c2, 6) == Iter(Shift, c3, 5);
    assert Iter(Shift, c3, 5) == Iter(Shift, c4, 4);
    assert Iter(Shift, c4, 4) == Iter(Shift, c5, 3);
    assert Iter(Shift, c5, 3) == Iter(Shift, c6, 2);
    assert Iter(Shift, c6, 2) == Iter(Shift, c7, 1);
    assert Iter(Shift, c7, 1) == Iter(Shift, Shift(c7), 0);
  }

  /** A register holding only a low byte shifts eight places without any
      subtraction. */
  lemma Shift8OfLowByte(x: bv16)
    requires x < 256
    ensures Shift8(x) == x << 8
  {
    ShiftLow(x);
    ShiftLow(x << 1);
    ShiftLow(x << 2);
    ShiftLow(x << 3);
    ShiftLow(x << 4);
    ShiftLow(x << 5);
    ShiftLow(x << 6);
    ShiftLow(x << 7);
    assert (x << 1) << 1 == x << 2;
    assert (x << 2) << 1 == x << 3;
    assert (x << 3) << 1 == x << 4;
    assert (x << 4) << 1 == x << 5;
    assert (x << 5) << 1 == x << 6;
    assert (x << 6) << 1 == x << 7;
    assert (x << 7) << 1 == x << 8;
  }

  lemma LowByteEight()
    ensures LowBytePasses(ShiftByte)
  {
    forall l: bv16 | l < 256
      ensures ShiftByte(l) == l << 8
    {
      Shift8OfLowByte(l);
      Shift8IsIter(l);
    }
  }

  /** Dividing a byte into register `hi, lo` xors the byte into the top
      half: the top half becomes `hi ^ b` and the low half stays `lo`. */
  lemma SplitRegister(hi: bv8, lo: bv8, b: bv8)
    ensures Join(hi, lo) ^ ((b as bv16) << 8) == Xor(((hi ^ b) as bv16) << 8, lo as bv16)
  {
  }

  /** Xoring a byte into the top half of a register held as two bytes. */
  lemma JoinXor(lo: bv8, h: bv8, l: bv8)
    ensures Join(lo ^ h, l) == Xor(Join(h, l), (lo as bv16) << 8)
  {
  }

  /** What the loop needs of its tables and of the division: the tables
      divide by `f`, and `f` is linear and passes a low byte through. */
  ghost predicate Divides(high: bv8 -> bv8, low: bv8 -> bv8, f: bv16 -> bv16) {
    TablesDivide(high, low, f) && Additive(f, Xor) && LowBytePasses(f)
  }

  lemma StepParts(high: bv8 -> bv8, low: bv8 -> bv8, st: (bv8, bv8), b: bv8)
    ensures TableStep(high, low, st, b).0 == st.1 ^ high(st.0 ^ b)
    ensures TableStep(high, low, st, b).1 == low(st.0 ^ b)
  {
  }

  /** One turn of the loop, given the three facts about `f` it uses: the
      register splits into the table index in the top byte and `lo` in the
      bottom byte, and `f` divides the two separately. */
  lemma StepDividesAt(high: bv8 -> bv8, low: bv8 -> bv8, st: (bv8, bv8), c: bv16, b: bv8, f: bv16 -> bv16, top: bv16, bottom: bv16)
    requires Join(st.0, st.1) == c && top == ((st.0 ^ b) as bv16) << 8 && bottom == st.1 as bv16
    requires f(Xor(top, bottom)) == Xor(f(top), f(bottom))
    requires f(bottom) == bottom << 8
    requires f(top) == Join(high(st.0 ^ b), low(st.0 ^ b))
    ensures Join(TableStep(high, low, st, b).0, TableStep(high, low, st, b).1) == Divide(c, b, f)
  {
    StepParts(high, low, st, b);
    SplitRegister(st.0, st.1, b);
    JoinXor(st.1, high(st.0 ^ b), low(st.0 ^ b));
  }

  /** With division tables, one turn of the loop divides one byte into the
      register the pair `st` holds. */
  lemma TableStepDivides(high: bv8 -> bv8, low: bv8 -> bv8, st: (bv8, bv8), c: bv16, b: bv8, f: bv16 -> bv16)
    requires Divides(high, low, f) && Join(st.0, st.1) == c
    ensures Join(TableStep(high, low, st, b).0, TableStep(high, low, st, b).1) == Divide(c, b, f)
  {
    var top, bottom := ((st.0 ^ b) as bv16) << 8, st.1 as bv16;
    assert f(Xor(top, bottom)) == Xor(f(top), f(bottom));
    StepDividesAt(high, low, st, c, b, f, top, bottom);
  }

  /** With division tables the loop computes the division. */
  lemma {:induction false} FoldWithDivides(high: bv8 -> bv8, low: bv8 -> bv8, s: seq<byte>, f: bv16 -> bv16)
    requires Divides(high, low, f)
    ensures Join(FoldWith(high, low, s).0, FoldWith(high, low, s).1) == Division(s, f)
  {
    if |s| > 0 {
      FoldWithDivides(high, low, s[..|s| - 1], f);
      TableStepDivides(high, low, FoldWith(high, low, s[..|s| - 1]), Division(s[..|s| - 1], f), s[|s| - 1] as bv8, f);
    }
  }

  /** The table-driven loop of `calcCRC` computes polynomial division by
      0x1021: the value it prints is the bitwise CRC of its input. */
  lemma CalcCRCIsDivision(s: seq<byte>)
    ensures CrcValue(s) == CrcBitwise(s) as int
    ensures JavaText.HexDigitsValue(CalcCRC(s)) == CrcBitwise(s) as int
  {
    SourceTablesDivide();
    ShiftByteAdditive();
    LowByteEight();
    FoldWithDivides(HighTab, LowTab, s, ShiftByte);
  }

  /** `calcCRC` and the bitwise reference print the same four characters. */
  lemma CalcCRCIsCrcText(s: seq<byte>)
    ensures CalcCRC(s) == CrcText(s)
  {
    CalcCRCIsDivision(s);
  }

  /** Two entries checked against the polynomial by hand: byte 1 divides to
      the polynomial itself, byte 255 to 0x1ef0. */
  lemma KnownEntries()
    ensures Join(HighTab(1), LowTab(1)) == 0x1021
    ensures Join(HighTab(255), LowTab(255)) == 0x1ef0
  {
    TableRow0(1);
    TableRow31(255);
  }
}

=== FILE: datamodel.dfy ===
/** The data the drivers print (`datamodel/VATRate`, `DiscountType`,
    `SaleLine`, `SlipPayment`). Money is held in integer cents, quantities as
    exact decimals and VAT rates in ten-thousandths (0.23 is 2300). */
module Datamodel {
  import opened Wrappers

  /** Declaration order matters: it is the order of the source enum. */
  datatype VATRate = VAT22 | VAT07 | VAT03 | VAT00 | VATzw | VAT23 | VAT08 | VAT05 {
    /** `getVatRate()`, in ten-thousandths. */
    function Rate(): (r: nat)
      ensures r < 10000
      ensures r == 0 <==> this == VAT00 || this == VATzw
    {
      match this
      case VAT22 => 2200
      case VAT07 => 700
      case VAT03 => 300
      case VAT00 => 0
      case VATzw => 0
      case VAT23 => 2300
      case VAT08 => 800
      case VAT05 => 500
    }
  }

  /** Declaration order matters: the Thermal drivers transmit the ordinal. */
  datatype DiscountType = NoDiscount | AmountDiscount | RateDiscount | AmountExtra | RateExtra {
    function Ordinal(): (n: nat)
      ensures n < 5
    {
      match this
      case NoDiscount => 0
      case AmountDiscount => 1
      case RateDiscount => 2
      case AmountExtra => 3
      case RateExtra => 4
    }

    /** The discount value is a fraction of the gross rather than an amount. */
    predicate IsRateKind() {
      this == RateDiscount || this == RateExtra
    }

    /** A surcharge rather than a reduction. */
    predicate IsExtra() {
      this == AmountExtra || this == RateExtra
    }
  }

  /** Only the 0% rate and the exempt rate share a value; every other rate
      is told apart by its value alone. */
  lemma RateDeterminesRate(a: VATRate, b: VATRate)
    requires a.Rate() == b.Rate()
    ensures a == b || (a.Rate() == 0 && b.Rate() == 0)
  {
  }

  /** Different kinds of discount travel as different ordinals. */
  lemma OrdinalIsInjective(a: DiscountType, b: DiscountType)
    requires a.Ordinal() == b.Ordinal()
    ensures a == b
  {
  }

  /** Declaration order matters: it is the order of the source enum. */
  datatype PaymentType = Cash | CreditCard | Cheque | Bond | Credit | Other | Voucher | Account

  /** An exact decimal `mantissa / 10^scale`. */
  datatype Decimal = Decimal(mantissa: int, scale: nat)

  function Pow10(n: nat): (r: nat)
    ensures r >= 1
  {
    if n == 0 then 1 else 10 * Pow10(n - 1)
  }

  /** One sale line. `price`, `gross` and `total` are in cents; `discount` is
      in cents for the amount kinds and in ten-thousandths for the rate kinds.
      `gross` (amount times price) and `total` (gross after the discount) are
      carried as given rather than recomputed. */
  datatype SaleLine = SaleLine(
    name: string,
    amount: Decimal,
    price: int,
    taxRate: VATRate,
    discountType: DiscountType,
    discount: int,
    gross: int,
    total: int)

  /** One form of payment; `name` may be `null` in the source. */
  datatype SlipPayment = SlipPayment(ptype: PaymentType, amount: int, name: Option<string>)

  /** The three lines a driver prints under the fiscal logo (`footerLine1..3`
      or `footLine1..3`). */
  datatype Footer = Footer(line1: string, line2: string, line3: string)
}

=== FILE: elzabcodec.dfy ===
/** The byte formats of the Elzab Mera driver (`drivers/ElzabMera`): integers
    as four little-endian bytes, names as fixed 28-byte fields, the 51-byte
    sale-line record, the seven-rate table and the VAT slot lookup, the
    readiness decision taken from two status bytes, and the discount
    record. The source computes money and quantities in `double`; here they
    are exact (cents, `Decimal`), and only the integer casts the source
    applies to them are kept. */
module ElzabCodec {
  import opened Wrappers
  import opened Faults
  import opened BitsAndBytes
  import opened Datamodel
  import JavaText
  import Charset

  const ESC: byte := 0x1B

  // ------------------------------------------------------------ casts

  function Distance(a: int, b: int): nat {
    if a <= b then b - a else a - b
  }

  /** Java's `(int)` of a `double` holding the integer `x`: the closest
      `int`, so out-of-range values stick at the ends of the range. */
  function JavaInt(x: int): (r: int32)
    ensures forall y: int32 :: Distance(r, x) <= Distance(y, x)
    ensures (-0x8000_0000 <= x < 0x8000_0000) <==> r == x
  {
    if x >= 0x8000_0000 then 0x7FFF_FFFF
    else if x < -0x8000_0000 then -0x8000_0000
    else x
  }

  /** `(int) (v + 0.000001)` for an exact integer `v`, the cast every amount
      of this driver goes through. The cast truncates toward zero, so the
      added millionth leaves a non-negative value alone and moves a negative
      one up by one. */
  function EpsilonCast(v: int): (r: int32)
    ensures 0 <= v < 0x8000_0000 ==> r == v
    ensures -0x8000_0000 <= v + 1 < 0 ==> r == v + 1
  {
    JavaInt(if v >= 0 then v else v + 1)
  }

  /** Euclidean division is not Java's: a negative quotient is truncated
      toward zero in the source. */
  function TruncDiv(a: int, b: nat): (q: int)
    requires b > 0
    ensures a >= 0 ==> q * b <= a < q * b + b
    ensures a < 0 ==> q * b - b < a <= q * b
  {
    var n := if a >= 0 then a else -a;
    var d := n / b;
    assert d * b <= n < d * b + b by {
      assert n == d * b + n % b;
    }
    if a >= 0 then d else -d
  }

  // ---------------------------------------------------------- integers

  /** `prepareInteger`: `(i >> 8k) & 0xFF` for k = 0..3, the low byte first.
      The arithmetic shift of a Java `int` is a floor division. */
  function PrepareInteger(i: int32): (r: seq<byte>)
    ensures |r| == 4
    ensures r == ToLittleEndian(i)
  {
    [(i / 0x1) % 0x100, (i / 0x100) % 0x100, (i / 0x1_0000) % 0x100, (i / 0x100_0000) % 0x100]
  }

  /** Four little-endian bytes read back as a Java `int`. */
  function ReadInteger(b: seq<byte>): (i: int32)
    requires |b| == 4
  {
    Wrap32(b[0] as int + b[1] as int * 0x100 + b[2] as int * 0x1_0000 + b[3] as int * 0x100_0000)
  }

  /** The four bytes carry the integer: reading them back gives it, and every
      four bytes are the encoding of what they read as. */
  lemma PrepareIntegerRoundTrip(i: int32, b: seq<byte>)
    requires |b| == 4
    ensures ReadInteger(PrepareInteger(i)) == i
    ensures PrepareInteger(ReadInteger(b)) == b
  {
    ReadOfPrepare(i);
    PrepareOfRead(b);
  }

  lemma ReadOfPrepare(i: int32)
    ensures ReadInteger(PrepareInteger(i)) == i
  {
    var u := i % 0x1_0000_0000;
    ByteOfShift(i, 1);
    ByteOfShift(i, 0x100);
    ByteOfShift(i, 0x1_0000);
    ByteOfShift(i, 0x100_0000);
    Base256Digits(u);
    Wrap32OfResidue(i);
  }

  lemma PrepareOfRead(b: seq<byte>)
    requires |b| == 4
    ensures PrepareInteger(ReadInteger(b)) == b
  {
    var v := b[0] as int + b[1] as int * 0x100 + b[2] as int * 0x1_0000 + b[3] as int * 0x100_0000;
    var j := ReadInteger(b);
    assert (j as int) % 0x1_0000_0000 == v;
    ByteOfShift(j, 1);
    ByteOfShift(j, 0x100);
    ByteOfShift(j, 0x1_0000);
    ByteOfShift(j, 0x100_0000);
    DigitsOf(b[0], b[1], b[2], b[3]);
  }

  lemma DigitsOf(b0: int, b1: int, b2: int, b3: int)
    requires 0 <= b0 < 0x100 && 0 <= b1 < 0x100 && 0 <= b2 < 0x100 && 0 <= b3 < 0x100
    ensures var v := b0 + b1 * 0x100 + b2 * 0x1_0000 + b3 * 0x100_0000;
      v % 0x100 == b0 && (v / 0x100) % 0x100 == b1 && (v / 0x1_0000) % 0x100 == b2 && (v / 0x100_0000) % 0x100 == b3
  {
    var v := b0 + b1 * 0x100 + b2 * 0x1_0000 + b3 * 0x100_0000;
    var w := b1 + b2 * 0x100 + b3 * 0x1_0000;
    assert v == b0 + w * 0x100;
    assert v / 0x100 == w;
    var x := b2 + b3 * 0x100;
    assert w == b1 + x * 0x100;
    assert v / 0x1_0000 == w / 0x100 == x;
    assert v / 0x100_0000 == x / 0x100 == b3;
  }

  // ------------------------------------------------------------- names

  const NameWidth: nat := 28
  const ShortestName: nat := 5

  /** The name as the printer gets it: trimmed, cut to 28, filled with dots
      up to 5 characters and with spaces up to 28. */
  function NameText(name: string): (r: string)
    ensures |r| == NameWidth
  {
    var c := JavaText.Cut(JavaText.Trim(name), NameWidth);
    seq(NameWidth, k requires 0 <= k < NameWidth => if k < |c| then c[k] else if k < ShortestName then '.' else ' ')
  }

  /** `prepareName`, with its two padding loops. Characters outside one byte
      are cut to their low eight bits (the code page is not modelled). */
  method PrepareName(name: string) returns (r: seq<byte>)
    ensures |r| == NameWidth
    ensures r == Charset.TextBytes(NameText(name))
  {
    var n := JavaText.Trim(name);
    if |n| > NameWidth {
      n := n[..NameWidth];
    }
    ghost var c := n;
    assert c == JavaText.Cut(JavaText.Trim(name), NameWidth);
    while |n| < ShortestName
      invariant |c| <= |n| <= NameWidth
      invariant |n| > |c| ==> |n| <= ShortestName
      invariant n[..|c|] == c
      invariant forall k :: |c| <= k < |n| ==> n[k] == '.'
      decreases ShortestName - |n|
    {
      n := n + ".";
    }
    while |n| < NameWidth
      invariant |c| <= |n| <= NameWidth
      invariant n[..|c|] == c
      invariant forall k :: |c| <= k < |n| && k < ShortestName ==> n[k] == '.'
      invariant forall k :: |c| <= k < |n| && k >= ShortestName ==> n[k] == ' '
      invariant |n| >= ShortestName
      decreases NameWidth - |n|
    {
      n := n + " ";
    }
    assert n == NameText(name) by {
      forall k | 0 <= k < NameWidth
        ensures n[k] == NameText(name)[k]
      {
        if k < |c| {
          assert n[k] == n[..|c|][k];
        }
      }
    }
    r := Charset.TextBytes(n);
  }

  /** A name of 5 to 28 characters after trimming is all that is left once
      the field's padding is trimmed away again; a shorter one comes back
      with its dots. */
  lemma NameTextTrimsBack(name: string)
    ensures ShortestName <= |JavaText.Trim(name)| <= NameWidth ==>
      JavaText.Trim(NameText(name)) == JavaText.Trim(name)
    ensures |JavaText.Trim(name)| < ShortestName ==>
      JavaText.Trim(NameText(name)) == JavaText.Trim(name) + Dots(ShortestName - |JavaText.Trim(name)|)
  {
    var t := JavaText.Trim(name);
    var f := NameText(name);
    if |t| <= NameWidth {
      var body := if |t| >= ShortestName then t else t + Dots(ShortestName - |t|);
      assert |body| >= ShortestName;
      assert f[..|body|] == body;
      assert !JavaText.IsBlank(body[0]) && !JavaText.IsBlank(body[|body| - 1]);
      assert forall k :: |body| <= k < NameWidth ==> f[k] == ' ';
      TrimOfBodyThenBlanks(f, |body|);
    }
  }

  function Dots(n: nat): (r: string)
    ensures |r| == n && forall k :: 0 <= k < n ==> r[k] == '.'
  {
    seq(n, k => '.')
  }

  /** A string that starts with a piece without a blank at either end and
      goes on with blanks trims back to the piece. */
  lemma TrimOfBodyThenBlanks(s: string, n: nat)
    requires 0 < n <= |s|
    requires !JavaText.IsBlank(s[0]) && !JavaText.IsBlank(s[n - 1])
    requires forall k :: n <= k < |s| ==> JavaText.IsBlank(s[k])
    ensures JavaText.Trim(s) == s[..n]
  {
    assert JavaText.TrimStart(s) == 0;
    var j := JavaText.TrimEnd(s);
    assert j == n;
  }

  // ------------------------------------------------------- quantities

  /** `a` is a whole number of `10^-k` units. */
  predicate HasDecimals(a: Decimal, k: nat) {
    k >= a.scale || a.mantissa % Pow10(a.scale - k) == 0
  }

  /** `countAmountPrecision`: the fewest decimals (0 to 4) the quantity is
      written with, or "Reduce amount precision" when four are not enough. */
  function CountAmountPrecision(a: Decimal): (r: Result<nat, Fault>)
    ensures r.Success? <==> HasDecimals(a, 4)
    ensures r.Failure? ==> r.error == PrecisionTooHigh
    ensures r.Success? ==> r.value <= 4 && HasDecimals(a, r.value)
    ensures r.Success? ==> forall j :: 0 <= j < r.value ==> !HasDecimals(a, j)
  {
    if !HasDecimals(a, 4) then Failure(PrecisionTooHigh)
    else if HasDecimals(a, 0) then Success(0)
    else if HasDecimals(a, 1) then Success(1)
    else if HasDecimals(a, 2) then Success(2)
    else if HasDecimals(a, 3) then Success(3)
    else Success(4)
  }

  /** `amount * 10^k`, whole when the quantity has at most `k` decimals. */
  function Scaled(a: Decimal, k: nat): int {
    if k >= a.scale then a.mantissa * Pow10(k - a.scale) else a.mantissa / Pow10(a.scale - k)
  }

  lemma {:induction false} Pow10Add(m: nat, n: nat)
    ensures Pow10(m + n) == Pow10(m) * Pow10(n)
  {
    if m > 0 {
      Pow10Add(m - 1, n);
    }
  }

  lemma DivExact(m: int, p: int)
    requires p > 0 && m % p == 0
    ensures (m / p) * p == m
  {
  }

  lemma Associates(x: int, y: int, z: int)
    ensures (x * y) * z == x * (y * z)
  {
  }

  /** The pair sent for a quantity, `amount * 10^k` and `k`, denotes the
      quantity exactly: it is the same decimal written at scale `k`. */
  lemma ScaledIsExact(a: Decimal)
    requires CountAmountPrecision(a).Success?
    ensures var k := CountAmountPrecision(a).value;
      Scaled(a, k) * Pow10(a.scale) == a.mantissa * Pow10(k)
  {
    var k := CountAmountPrecision(a).value;
    var m := a.mantissa;
    if k >= a.scale {
      var x := Pow10(k - a.scale);
      var y := Pow10(a.scale);
      Pow10Add(k - a.scale, a.scale);
      assert k - a.scale + a.scale == k;
      assert Pow10(k) == x * y;
      Associates(m, x, y);
    } else {
      var p := Pow10(a.scale - k);
      var q := m / p;
      Pow10Add(a.scale - k, k);
      assert a.scale - k + k == a.scale;
      assert Pow10(a.scale) == p * Pow10(k);
      assert m % p == 0;
      DivExact(m, p);
      Associates(q, p, Pow10(k));
    }
  }

  // ------------------------------------------------------------ rates

  /** The seven rates A..G, in ten-thousandths. */
  type RateTable = r: seq<int> | |r| == 7 witness [0, 0, 0, 0, 0, 0, 0]

  /** The rate fields before any table has been read. */
  const InitialRates: RateTable := [2200, 700, 0, 300, 0x8000, 0x8000, 0x4000]

  /** `Integer.parseInt(byteToHexString(hi) + byteToHexString(lo), 16)`. */
  function PairValue(hi: byte, lo: byte): (v: int)
    ensures v == hi * 0x100 + lo
  {
    var s := ByteToHexString(hi) + ByteToHexString(lo);
    assert JavaText.HexDigitsValue(s) == hi * 0x100 + lo by {
      assert s[..3][..2] == s[..2] && s[..2][..1] == s[..1] && s[..1][..0] == [];
      assert JavaText.HexDigitsValue(s[..1]) == hi / 16;
      assert JavaText.HexDigitsValue(s[..2]) == hi;
      assert JavaText.HexDigitsValue(s[..3]) == hi * 16 + lo / 16;
    }
    JavaText.HexDigitsValue(s)
  }

  /** `readRates`: fourteen bytes as seven big-endian pairs. */
  function DecodeRates(b: seq<byte>): (r: RateTable)
    requires |b| == 14
    ensures forall i :: 0 <= i < 7 ==> 0 <= r[i] < 0x1_0000
  {
    seq(7, i requires 0 <= i < 7 => PairValue(b[2 * i], b[2 * i + 1]))
  }

  /** The rate table as the printer sends it. */
  function EncodeRates(t: RateTable): (b: seq<byte>)
    requires forall i :: 0 <= i < 7 ==> 0 <= t[i] < 0x1_0000
    ensures |b| == 14
  {
    seq(14, k requires 0 <= k < 14 => if k % 2 == 0 then t[k / 2] / 0x100 else t[k / 2] % 0x100)
  }

  /** Every table of 16-bit rates survives the trip. */
  lemma RatesRoundTrip(t: RateTable)
    requires forall i :: 0 <= i < 7 ==> 0 <= t[i] < 0x1_0000
    ensures DecodeRates(EncodeRates(t)) == t
  {
    var e := EncodeRates(t);
    forall i | 0 <= i < 7
      ensures DecodeRates(e)[i] == t[i]
    {
      assert e[2 * i] == t[i] / 0x100 && e[2 * i + 1] == t[i] % 0x100;
    }
  }

  /** Every fourteen bytes are the encoding of the table they decode to. */
  lemma RatesBytesRoundTrip(b: seq<byte>)
    requires |b| == 14
    ensures EncodeRates(DecodeRates(b)) == b
  {
    var r := DecodeRates(b);
    forall k | 0 <= k < 14
      ensures EncodeRates(r)[k] == b[k]
    {
      var i := k / 2;
      assert r[i] == b[2 * i] as int * 0x100 + b[2 * i + 1] as int;
      PairDigits(b[2 * i], b[2 * i + 1]);
      assert k == 2 * i || k == 2 * i + 1;
    }
  }

  lemma PairDigits(hi: byte, lo: byte)
    ensures (hi * 0x100 + lo) / 0x100 == hi && (hi * 0x100 + lo) % 0x100 == lo
  {
  }

  /** The VAT slot of rates A..F, in order; G is the exempt slot. */
  const SlotCodes: seq<byte> := [1, 2, 3, 4, 6, 7]
  const ExemptSlot: byte := 5

  /** The first of rates A..F from `i` on that equals `v`, or 6 when none
      does. */
  function FirstFrom(rates: RateTable, v: int, i: nat): (f: nat)
    requires i <= 6
    ensures i <= f <= 6
    ensures forall j :: i <= j < f ==> rates[j] != v
    ensures f < 6 ==> rates[f] == v
    decreases 6 - i
  {
    if i == 6 then 6 else if rates[i] == v then i else FirstFrom(rates, v, i + 1)
  }

  /** `findRate`: the exempt slot for VATzw before any comparison, otherwise
      the slot of the first of A..F holding the rate; G is never compared. */
  function FindRate(rates: RateTable, rate: VATRate): (r: Result<byte, Fault>)
    ensures rate == VATzw ==> r == Success(ExemptSlot)
    ensures rate != VATzw ==> (r.Success? <==> exists i :: 0 <= i < 6 && rates[i] == rate.Rate())
    ensures r.Failure? ==> r.error == UndefinedRate
  {
    var v := rate.Rate();
    if rate == VATzw then Success(5)
    else if v == rates[0] then Success(1)
    else if v == rates[1] then Success(2)
    else if v == rates[2] then Success(3)
    else if v == rates[3] then Success(4)
    else if v == rates[4] then Success(6)
    else if v == rates[5] then Success(7)
    else Failure(UndefinedRate)
  }

  /** `findRate` is a search through A..F that stops at the first match:
      the slot of the first rate equal to the line's, an undefined rate when
      none is. */
  lemma {:induction false} FindRateSearches(rates: RateTable, rate: VATRate)
    requires rate != VATzw
    ensures var f := FirstFrom(rates, rate.Rate(), 0);
      FindRate(rates, rate) == if f < 6 then Success(SlotCodes[f]) else Failure(UndefinedRate)
  {
    var v := rate.Rate();
    assert FirstFrom(rates, v, 6) == 6;
    assert FirstFrom(rates, v, 5) == if rates[5] == v then 5 else 6;
    assert FirstFrom(rates, v, 4) == if rates[4] == v then 4 else FirstFrom(rates, v, 5);
    assert FirstFrom(rates, v, 3) == if rates[3] == v then 3 else FirstFrom(rates, v, 4);
    assert FirstFrom(rates, v, 2) == if rates[2] == v then 2 else FirstFrom(rates, v, 3);
    assert FirstFrom(rates, v, 1) == if rates[1] == v then 1 else FirstFrom(rates, v, 2);
    assert FirstFrom(rates, v, 0) == if rates[0] == v then 0 else FirstFrom(rates, v, 1);
  }

  /** Rate G plays no part, and only VATzw lands in the exempt slot. */
  lemma FindRateIgnoresG(rates: RateTable, rate: VATRate, g: int)
    ensures FindRate(rates[6 := g], rate) == FindRate(rates, rate)
    ensures FindRate(rates, rate).Success? ==> (FindRate(rates, rate).value == ExemptSlot <==> rate == VATzw)
  {
  }

  // ------------------------------------------------------------ status

  /** Java's `x & m` for a mask `m` below 256, bit by bit. The -1 that
      `read()` returns on an empty line has every bit set. */
  function Masked(x: int, m: nat): (r: nat)
    requires m < 256
    ensures r <= m
    decreases m
  {
    if m == 0 then 0
    else (if m % 2 == 1 && x % 2 == 1 then 1 else 0) + 2 * Masked(x / 2, m / 2)
  }

  /** `(x & m) == m`: every bit of `m` is set in `x`. */
  predicate Flag(x: int, m: nat)
    requires m < 256
  {
    Masked(x, m) == m
  }

  /** What `checkPrinter` makes of the two status bytes that matter. */
  datatype Decision =
    | Go                // ready for a receipt
    | Busy              // a document or print buffer is still pending
    | ResumePaper       // printing stopped for paper: send ESC 2A, not ready

  /** The rules of `checkPrinter` in their order: no paper fails first, a
      missing daily report next, then a print stopped for paper, then a
      pending document or print buffer. */
  function Assess(byte1: int, byte2: int): (r: Result<Decision, Fault>)
    ensures r.Failure? ==> r.error == PaperOut || r.error == DailyReportMissing
  {
    if Flag(byte2, 2) then Failure(PaperOut)
    else if Flag(byte1, 8) then Failure(DailyReportMissing)
    else if Flag(byte2, 64) then Success(ResumePaper)
    else if Flag(byte1, 2) || Flag(byte2, 1) then Success(Busy)
    else Success(Go)
  }

  /** Bit `e` of `x`, 0 or 1. */
  function BitOf(x: int, e: nat): (b: nat)
    ensures b < 2
  {
    (x / Pow2(e)) % 2
  }

  lemma MaskedOfByte1(x: int)
    ensures Masked(x, 0x02) == 2 * BitOf(x, 1) && Masked(x, 0x08) == 8 * BitOf(x, 3)
    ensures Masked(x, 0x0A) == 2 * BitOf(x, 1) + 8 * BitOf(x, 3)
  {
    assert Pow2(1) == 2 && Pow2(3) == 8;
    assert Masked(x / 8, 1) == (x / 8) % 2;
    assert (x / 2) / 2 == x / 4 && (x / 4) / 2 == x / 8;
    assert Masked(x / 4, 2) == 2 * Masked(x / 8, 1);
    assert Masked(x / 2, 5) == (x / 2) % 2 + 2 * Masked(x / 4, 2);
    assert Masked(x / 2, 4) == 2 * Masked(x / 4, 2);
    assert Masked(x / 2, 1) == (x / 2) % 2;
  }

  lemma MaskedOfByte2(x: int)
    ensures Masked(x, 0x01) == BitOf(x, 0) && Masked(x, 0x02) == 2 * BitOf(x, 1) && Masked(x, 0x40) == 64 * BitOf(x, 6)
    ensures Masked(x, 0x43) == BitOf(x, 0) + 2 * BitOf(x, 1) + 64 * BitOf(x, 6)
  {
    assert Pow2(0) == 1 && Pow2(1) == 2 && Pow2(6) == 64;
    var x6 := x / 64;
    assert (x / 2) / 2 == x / 4 && (x / 4) / 2 == x / 8 && (x / 8) / 2 == x / 16;
    assert (x / 16) / 2 == x / 32 && (x / 32) / 2 == x6;
    assert Masked(x6, 1) == x6 % 2;
    assert Masked(x / 32, 2) == 2 * Masked(x6, 1);
    assert Masked(x / 16, 4) == 2 * Masked(x / 32, 2);
    assert Masked(x / 8, 8) == 2 * Masked(x / 16, 4);
    assert Masked(x / 4, 16) == 2 * Masked(x / 8, 8);
    assert Masked(x / 2, 33) == (x / 2) % 2 + 2 * Masked(x / 4, 16);
    assert Masked(x / 2, 32) == 2 * Masked(x / 4, 16);
    assert Masked(x / 2, 1) == (x / 2) % 2;
  }

  /** The printer counts as ready exactly when none of the five deciding bits
      is set, that is when `(byte1 & 0x0A) == 0` and `(byte2 & 0x43) == 0`;
      the other bits only produce messages. Paper out wins over a missing
      daily report. */
  lemma ReadyIffMasksClear(byte1: int, byte2: int)
    ensures Assess(byte1, byte2) == Success(Go) <==> Masked(byte1, 0x0A) == 0 && Masked(byte2, 0x43) == 0
    ensures Assess(byte1, byte2) == Failure(PaperOut) <==> Masked(byte2, 0x02) != 0
    ensures Assess(byte1, byte2) == Failure(DailyReportMissing) <==> Masked(byte2, 0x02) == 0 && Masked(byte1, 0x08) != 0
  {
    MaskedOfByte1(byte1);
    MaskedOfByte2(byte2);
  }

  // -------------------------------------------------------- sale lines

  /** The 51-byte record of one sale line, field by field. */
  datatype LineRecord = LineRecord(
    name: seq<byte>,      // K1..K28
    quantity: int32,      // I1..I4: the quantity times 10^precision
    precision: byte,      // M
    price: int32,         // C1..C4: the unit price in cents
    slot: byte,           // the VAT slot
    gross: int32)         // W1..W4: the line value in cents

  predicate WellFormed(r: LineRecord) {
    |r.name| == NameWidth
  }

  const LineStart: seq<byte> := [ESC, 0x06, 0x20]
  const Unit: seq<byte> := [0x73, 0x7A, 0x74, 0x2E]   // "szt."

  /** The record's bytes in the order `printLine` sends them. */
  function EncodeLine(r: LineRecord): (b: seq<byte>)
    requires WellFormed(r)
    ensures |b| == 51
  {
    LineStart + r.name + [0x00] + PrepareInteger(r.quantity) + [r.precision] + Unit
      + PrepareInteger(r.price) + [ESC] + [r.slot] + PrepareInteger(r.gross)
  }

  /** Reading a record back: the fixed bytes must be where `printLine` puts
      them. */
  function DecodeLine(b: seq<byte>): (r: Option<LineRecord>)
    requires |b| == 51
    ensures r.Some? ==> WellFormed(r.value)
  {
    if b[..3] == LineStart && b[31] == 0 && b[37..41] == Unit && b[45] == ESC then
      Some(LineRecord(b[3..31], ReadInteger(b[32..36]), b[36], ReadInteger(b[41..45]), b[46], ReadInteger(b[47..51])))
    else None
  }

  /** Every record reads back from its bytes, and every 51 bytes that read
      as a record are that record's bytes. */
  lemma LineRoundTrip(r: LineRecord, b: seq<byte>)
    requires WellFormed(r) && |b| == 51
    ensures DecodeLine(EncodeLine(r)) == Some(r)
    ensures DecodeLine(b).Some? ==> EncodeLine(DecodeLine(b).value) == b
  {
    var e := EncodeLine(r);
    LineFields(r);
    PrepareIntegerRoundTrip(r.quantity, e[32..36]);
    PrepareIntegerRoundTrip(r.price, e[41..45]);
    PrepareIntegerRoundTrip(r.gross, e[47..51]);
    if DecodeLine(b).Some? {
      var d := DecodeLine(b).value;
      PrepareIntegerRoundTrip(d.quantity, b[32..36]);
      PrepareIntegerRoundTrip(d.price, b[41..45]);
      PrepareIntegerRoundTrip(d.gross, b[47..51]);
      LineFields(d);
      var e' := EncodeLine(d);
      assert e'[..3] == b[..3] && e'[3..31] == b[3..31] && e'[31] == b[31] && e'[32..36] == b[32..36];
      assert e'[36] == b[36] && e'[37..41] == b[37..41] && e'[41..45] == b[41..45];
      assert e'[45] == b[45] && e'[46] == b[46] && e'[47..51] == b[47..51];
      SplitsAt(e', b);
    }
  }

  /** Where each field sits in the record. */
  lemma LineFields(r: LineRecord)
    requires WellFormed(r)
    ensures var e := EncodeLine(r);
      e[..3] == LineStart && e[3..31] == r.name && e[31] == 0 && e[32..36] == PrepareInteger(r.quantity)
      && e[36] == r.precision && e[37..41] == Unit && e[41..45] == PrepareInteger(r.price)
      && e[45] == ESC && e[46] == r.slot && e[47..51] == PrepareInteger(r.gross)
  {
  }

  /** Two 51-byte sequences that agree on every field are equal. */
  lemma SplitsAt(x: seq<byte>, y: seq<byte>)
    requires |x| == 51 && |y| == 51
    requires x[..3] == y[..3] && x[3..31] == y[3..31] && x[31] == y[31] && x[32..36] == y[32..36]
    requires x[36] == y[36] && x[37..41] == y[37..41] && x[41..45] == y[41..45]
    requires x[45] == y[45] && x[46] == y[46] && x[47..51] == y[47..51]
    ensures x == y
  {
    forall k | 0 <= k < 51
      ensures x[k] == y[k]
    {
      if k < 3 { assert x[k] == x[..3][k] && y[k] == y[..3][k]; }
      else if k < 31 { assert x[k] == x[3..31][k - 3] && y[k] == y[3..31][k - 3]; }
      else if k == 31 { }
      else if k < 36 { assert x[k] == x[32..36][k - 32] && y[k] == y[32..36][k - 32]; }
      else if k == 36 { }
      else if k < 41 { assert x[k] == x[37..41][k - 37] && y[k] == y[37..41][k - 37]; }
      else if k < 45 { assert x[k] == x[41..45][k - 41] && y[k] == y[41..45][k - 41]; }
      else if k < 47 { }
      else { assert x[k] == x[47..51][k - 47] && y[k] == y[47..51][k - 47]; }
    }
  }

  /** The record of a sale line: the precision is settled first, then the
      slot; either may throw. */
  function RecordOf(line: SaleLine, rates: RateTable): (r: Result<LineRecord, Fault>)
    ensures r.Success? ==> WellFormed(r.value)
    ensures r.Success? <==> CountAmountPrecision(line.amount).Success? && FindRate(rates, line.taxRate).Success?
    ensures r.Failure? ==>
      r.error == (if CountAmountPrecision(line.amount).Failure? then PrecisionTooHigh else UndefinedRate)
  {
    var k :- CountAmountPrecision(line.amount);
    var slot :- FindRate(rates, line.taxRate);
    Success(LineRecord(Charset.TextBytes(NameText(line.name)), EpsilonCast(Scaled(line.amount, k)), k,
      EpsilonCast(line.price), slot, EpsilonCast(line.gross)))
  }

  /** What a line's record says, read back from its bytes: the quantity at
      its precision, the price and value in cents (when they fit an `int`),
      and the line's VAT slot. */
  lemma RecordReadsBack(line: SaleLine, rates: RateTable)
    requires RecordOf(line, rates).Success?
    requires 0 <= Scaled(line.amount, CountAmountPrecision(line.amount).value) < 0x8000_0000
    requires 0 <= line.price < 0x8000_0000 && 0 <= line.gross < 0x8000_0000
    ensures DecodeLine(EncodeLine(RecordOf(line, rates).value)).Some?
    ensures var d := DecodeLine(EncodeLine(RecordOf(line, rates).value)).value;
      d.quantity * Pow10(line.amount.scale) == line.amount.mantissa * Pow10(d.precision)
      && d.precision <= 4 && d.price == line.price && d.gross == line.gross
      && FindRate(rates, line.taxRate) == Success(d.slot)
  {
    var r := RecordOf(line, rates).value;
    LineRoundTrip(r, EncodeLine(r));
    ScaledIsExact(line.amount);
  }

  // --------------------------------------------------------- discounts

  /** `printDiscount`'s header: ESC 18 2D takes off, ESC 18 20 adds. */
  function DiscountHead(t: DiscountType): (h: seq<byte>)
    ensures |h| == 3 && h[..2] == [ESC, 0x18]
    ensures h[2] == 0x20 <==> t.IsExtra()
  {
    [ESC, 0x18, if t.IsExtra() then 0x20 else 0x2D]
  }

  /** The discount in cents: the amount itself, or the rate (in
      ten-thousandths) applied to the gross. */
  function DiscountCents(line: SaleLine): (r: int32)
    ensures !line.discountType.IsRateKind() && 0 <= line.discount < 0x8000_0000 ==> r == line.discount
    ensures !line.discountType.IsRateKind() && -0x8000_0000 <= line.discount + 1 < 0 ==> r == line.discount + 1
  {
    if line.discountType.IsRateKind() then ShareCents(line.discount * line.gross)
    else EpsilonCast(line.discount)
  }

  /** `(int) (v + 0.000001)` for `v` = `p` / 10000 cents. A share with a
      fraction of a cent keeps at least 0.0001 of it, so the epsilon never
      reaches the next whole cent and the cast truncates `v` itself toward
      zero; only a whole share is the exact integer that `EpsilonCast`
      describes. */
  function ShareCents(p: int): int32 {
    if p % 10000 == 0 then EpsilonCast(p / 10000) else JavaInt(TruncDiv(p, 10000))
  }

  /** Ten percent off a gross of -1.25 is -12.5 cents, sent as -12. */
  lemma NegativeShareTruncates(line: SaleLine)
    requires line.discountType == RateDiscount && line.discount == 1000 && line.gross == -125
    ensures DiscountCents(line) == -12
  {
  }

  /** A rate discount is the rate's share of the gross, truncated toward
      zero to the cent; a negative share that is a whole number of cents
      comes out one cent higher, as the cast after adding the epsilon
      makes it. */
  lemma RateDiscountShare(line: SaleLine)
    requires line.discountType.IsRateKind()
    requires -10000 * 0x8000_0000 < line.discount * line.gross < 10000 * 0x8000_0000
    ensures var p := line.discount * line.gross;
      (p >= 0 ==> DiscountCents(line) * 10000 <= p < (DiscountCents(line) + 1) * 10000)
      && (p < 0 && p % 10000 != 0 ==> (DiscountCents(line) - 1) * 10000 < p < DiscountCents(line) * 10000)
      && (p < 0 && p % 10000 == 0 ==> DiscountCents(line) * 10000 == p + 10000)
  {
    var p := line.discount * line.gross;
    if p < 0 && p % 10000 == 0 {
      assert p == (p / 10000) * 10000;
    }
  }
}

=== FILE: elzabdriver.dfy ===
/** The conversations of the Elzab Mera driver (`drivers/ElzabMera`): every
    command is an ESC sequence acknowledged by one byte, the status bytes
    follow their acknowledgement, and the sale lines go out without any
    acknowledgement until the receipt is closed. */
module ElzabDriver {
  import opened Wrappers
  import opened Faults
  import opened BitsAndBytes
  import opened Datamodel
  import opened Link
  import opened ElzabCodec
  import Slips
  import Charset

  const ACK: byte := 0x06

  // --------------------------------------------------- acknowledgements

  /** `waitForAck`: the first byte to arrive decides. ACK goes on, any other
      byte is a NAK, and no byte at all is a timeout. */
  function WaitForAck(l: Link): (r: Run<()>)
    ensures r.link.sent == l.sent && r.link.replies == l.replies
    ensures r.result.Success? <==> |l.input| > 0 && l.input[0] == ACK
    ensures |l.input| == 0 ==> r == Run(l, Failure(AckTimeout))
    ensures |l.input| > 0 ==> r.link.input == l.input[1..]
    ensures |l.input| > 0 && l.input[0] != ACK ==> r.result == Failure(NakReceived)
  {
    if |l.input| == 0 then Run(l, Failure(AckTimeout))
    else if l.input[0] == ACK then Run(l.(input := l.input[1..]), Success(()))
    else Run(l.(input := l.input[1..]), Failure(NakReceived))
  }

  /** `sendToPrinter(command); waitForAck()`. */
  function Request(l: Link, command: seq<byte>): (r: Run<()>)
    ensures r.link.sent == l.sent + [command]
  {
    WaitForAck(Write(l, command))
  }

  /** A command answered with ACK succeeds and leaves the rest of the
      answer to be read; one answered with anything else, or not at all,
      fails. */
  lemma RequestAnswered(l: Link, command: seq<byte>, answer: seq<byte>)
    requires l.input == [] && |l.replies| > 0 && l.replies[0] == answer
    ensures |answer| > 0 && answer[0] == ACK ==>
      Request(l, command) == Run(Link(answer[1..], l.replies[1..], l.sent + [command]), Success(()))
    ensures |answer| > 0 && answer[0] != ACK ==> Request(l, command).result == Failure(NakReceived)
    ensures answer == [] ==> Request(l, command).result == Failure(AckTimeout)
  {
  }

  // ------------------------------------------------------- bytes waiting

  function ReplyBytes(rs: seq<seq<byte>>): nat
    decreases |rs|
  {
    if |rs| == 0 then 0 else |rs[0]| + ReplyBytes(rs[1..])
  }

  /** Every byte the printer has sent or will send that the driver has not
      read yet. */
  function Waiting(l: Link): nat {
    |l.input| + ReplyBytes(l.replies)
  }

  lemma WriteKeepsWaiting(l: Link, data: seq<byte>)
    ensures Waiting(Write(l, data)) == Waiting(l)
  {
  }

  // ------------------------------------------------------------- status

  /** One status query: the command, its ACK, then one byte (`read()`, so
      -1 when nothing is left). */
  function StatusQuery(l: Link, code: byte): (r: Run<int>)
    ensures r.link.sent == l.sent + [[ESC, code]]
    ensures r.result.Success? ==> -1 <= r.result.value < 256 && Waiting(r.link) < Waiting(l)
  {
    WriteKeepsWaiting(l, [ESC, code]);
    var a :- Request(l, [ESC, code]);
    var (b, l') := Read(a.0);
    Run(l', Success(if b.Some? then b.value else -1))
  }

  /** `checkPrinter`: the five queries, then the rules of `Assess`. A print
      stopped for paper is resumed with ESC 2A, and the printer still
      counts as not ready. */
  function CheckPrinter(l: Link): (r: Run<bool>)
    ensures r.result.Success? ==> Waiting(r.link) < Waiting(l)
  {
    var q :- StatusBytes(l);
    Decide(q.0, q.1.0, q.1.1)
  }

  /** The five status queries in the driver's order; the second and third
      answers are the ones the rules look at. */
  function StatusBytes(l: Link): (r: Run<(int, int)>)
    ensures r.result.Success? ==> Waiting(r.link) < Waiting(l)
  {
    var q0 :- StatusQuery(l, 0x5B);
    var q1 :- StatusQuery(q0.0, 0x54);
    var q2 :- StatusQuery(q1.0, 0x55);
    var q3 :- StatusQuery(q2.0, 0x56);
    var q4 :- StatusQuery(q3.0, 0x5F);
    Run(q4.0, Success((q1.1, q2.1)))
  }

  /** The rules of `Assess` applied to the second and third status bytes. */
  function Decide(l: Link, byte1: int, byte2: int): (r: Run<bool>)
    ensures r.result.Success? ==> Waiting(r.link) <= Waiting(l)
  {
    match Assess(byte1, byte2)
    case Failure(e) => Run(l, Failure(e))
    case Success(d) =>
      if d == ResumePaper then
        WriteKeepsWaiting(l, [ESC, 0x2A]);
        var a :- Request(l, [ESC, 0x2A]);
        Run(a.0, Success(false))
      else Run(l, Success(d == Go))
  }

  /** `while (!checkPrinter()) sleep`: asked again until ready. Each round
      uses up at least one byte of the printer's answers, so on any finite
      script of answers the loop ends, at the latest with a timeout. */
  function AwaitReady(l: Link): (r: Run<()>)
    ensures r.result.Success? ==> Waiting(r.link) < Waiting(l)
    decreases Waiting(l)
  {
    var c :- CheckPrinter(l);
    if c.1 then Run(c.0, Success(())) else AwaitReady(c.0)
  }

  /** A status query answered with ACK and one byte reads that byte. */
  lemma QueryAnswered(l: Link, code: byte, b: byte, rest: seq<seq<byte>>)
    requires l.input == [] && l.replies == [[ACK, b]] + rest
    ensures StatusQuery(l, code) == Run(Link([], rest, l.sent + [[ESC, code]]), Success(b as int))
  {
    assert ([[ACK, b]] + rest)[1..] == rest;
    assert [ACK, b][1..] == [b];
  }

  /** What one round of `checkPrinter` concludes from the status bytes it
      is sent: exactly what `Assess` says of the second and third, with ESC
      2A sent only for a print stopped for paper. */
  lemma CheckPrinterDecides(l: Link, b0: byte, b1: byte, b2: byte, b3: byte, b4: byte, rest: seq<seq<byte>>)
    requires l.input == []
    requires l.replies == [[ACK, b0], [ACK, b1], [ACK, b2], [ACK, b3], [ACK, b4]] + rest
    ensures var r := CheckPrinter(l);
      (Assess(b1, b2).Failure? ==> r.result == Failure(Assess(b1, b2).error))
      && (r.result == Success(true) <==> Assess(b1, b2) == Success(Go))
      && (Assess(b1, b2) == Success(Busy) ==> r.result == Success(false))
      && (Assess(b1, b2) != Success(ResumePaper) ==> r.link.sent == l.sent + QueryFrames())
      && (Assess(b1, b2) == Success(ResumePaper) ==>
            r.link.sent == l.sent + QueryFrames() + [[ESC, 0x2A]]
            && (r.result.Success? <==> |rest| > 0 && |rest[0]| > 0 && rest[0][0] == ACK)
            && (r.result.Success? ==> !r.result.value))
  {
    var l5 := Link([], rest, l.sent + QueryFrames());
    StatusBytesAnswered(l, b0, b1, b2, b3, b4, rest);
    assert CheckPrinter(l) == Decide(l5, b1, b2);
    DecideOf(l5, b1, b2);
  }

  /** Five answered queries read their five bytes and send the five frames. */
  lemma StatusBytesAnswered(l: Link, b0: byte, b1: byte, b2: byte, b3: byte, b4: byte, rest: seq<seq<byte>>)
    requires l.input == []
    requires l.replies == [[ACK, b0], [ACK, b1], [ACK, b2], [ACK, b3], [ACK, b4]] + rest
    ensures StatusBytes(l) == Run(Link([], rest, l.sent + QueryFrames()), Success((b1 as int, b2 as int)))
  {
    var r4 := [[ACK, b4]] + rest;
    var r3 := [[ACK, b3]] + r4;
    var r2 := [[ACK, b2]] + r3;
    var r1 := [[ACK, b1]] + r2;
    assert l.replies == [[ACK, b0]] + r1;
    QueryAnswered(l, 0x5B, b0, r1);
    var l1 := Link([], r1, l.sent + [[ESC, 0x5B]]);
    QueryAnswered(l1, 0x54, b1, r2);
    var l2 := Link([], r2, l1.sent + [[ESC, 0x54]]);
    QueryAnswered(l2, 0x55, b2, r3);
    var l3 := Link([], r3, l2.sent + [[ESC, 0x55]]);
    QueryAnswered(l3, 0x56, b3, r4);
    var l4 := Link([], r4, l3.sent + [[ESC, 0x56]]);
    QueryAnswered(l4, 0x5F, b4, rest);
    var l5 := Link([], rest, l4.sent + [[ESC, 0x5F]]);
    assert l5.sent == l.sent + QueryFrames();
  }

  /** What the rules conclude on a link with nothing waiting. */
  lemma DecideOf(l: Link, b1: int, b2: int)
    requires l.input == []
    ensures var r := Decide(l, b1, b2);
      (Assess(b1, b2).Failure? ==> r.result == Failure(Assess(b1, b2).error))
      && (r.result == Success(true) <==> Assess(b1, b2) == Success(Go))
      && (Assess(b1, b2) == Success(Busy) ==> r.result == Success(false))
      && (Assess(b1, b2) != Success(ResumePaper) ==> r.link.sent == l.sent)
      && (Assess(b1, b2) == Success(ResumePaper) ==>
            r.link.sent == l.sent + [[ESC, 0x2A]]
            && (r.result.Success? <==> |l.replies| > 0 && |l.replies[0]| > 0 && l.replies[0][0] == ACK)
            && (r.result.Success? ==> !r.result.value))
  {
  }

  /** The five status queries as they go out. */
  function QueryFrames(): (fs: seq<seq<byte>>)
    ensures |fs| == 5
  {
    [[ESC, 0x5B], [ESC, 0x54], [ESC, 0x55], [ESC, 0x56], [ESC, 0x5F]]
  }

  /** A status byte that never comes reads as -1, every bit set: the
      printer counts as out of paper. */
  lemma MissingStatusIsPaperOut(byte1: int)
    ensures Assess(byte1, -1) == Failure(PaperOut)
  {
    assert Masked(-1, 2) == 2 * Masked(-1, 1);
  }

  // -------------------------------------------------------------- rates

  /** `readRates`: ESC D1, its ACK, then exactly fourteen bytes. Any other
      count waits out the timeout. */
  function ReadRates(l: Link): (r: Run<RateTable>)
    ensures r.link.sent == l.sent + [[ESC, 0xD1]]
  {
    var a :- Request(l, [ESC, 0xD1]);
    if |a.0.input| != 14 then Run(a.0, Failure(RatesTimeout))
    else Run(a.0.(input := []), Success(DecodeRates(a.0.input)))
  }

  /** The table the printer sends is the table the lines are then looked up
      in; an answer of any other length is a timeout. */
  lemma ReadRatesReads(l: Link, t: RateTable, answer: seq<byte>)
    requires forall i :: 0 <= i < 7 ==> 0 <= t[i] < 0x1_0000
    requires l.input == [] && |l.replies| > 0 && |answer| > 0 && answer[0] == ACK
    requires l.replies[0] == answer
    ensures answer[1..] == EncodeRates(t) ==> ReadRates(l).result == Success(t)
    ensures |answer| != 15 ==> ReadRates(l).result == Failure(RatesTimeout)
  {
    var a := Request(l, [ESC, 0xD1]);
    assert a.result.Success? && a.link.input == answer[1..];
    if answer[1..] == EncodeRates(t) {
      RatesRoundTrip(t);
    }
  }

  // --------------------------------------------------------- sale lines

  /** Every piece of `ps`, one transmission each. */
  function WriteAll(l: Link, ps: seq<seq<byte>>): (r: Link)
    ensures r.sent == l.sent + ps
    decreases |ps|
  {
    if |ps| == 0 then l
    else
      var r := WriteAll(Write(l, ps[0]), ps[1..]);
      assert l.sent + [ps[0]] + ps[1..] == l.sent + ps;
      r
  }

  /** The pieces `printLine` sends one by one, up to the ESC before the
      VAT slot. */
  function LineHead(line: SaleLine, k: nat): seq<seq<byte>> {
    [LineStart, Charset.TextBytes(NameText(line.name)), [0x00],
     PrepareInteger(EpsilonCast(Scaled(line.amount, k))), [k % 256], Unit,
     PrepareInteger(EpsilonCast(line.price)), [ESC]]
  }

  /** `printLine`. The precision is settled before anything is sent; the
      slot is looked up only after the ESC that precedes it has gone out. */
  function PrintLine(l: Link, line: SaleLine, rates: RateTable): (r: Run<()>)
  {
    var k :- Lift(l, CountAmountPrecision(line.amount));
    var h := WriteAll(l, LineHead(line, k.1));
    var slot :- Lift(h, FindRate(rates, line.taxRate));
    Run(WriteAll(h, [[slot.1], PrepareInteger(EpsilonCast(line.gross))]), Success(()))
  }

  /** The pieces joined. */
  function Joined(ps: seq<seq<byte>>): seq<byte>
    decreases |ps|
  {
    if |ps| == 0 then [] else ps[0] + Joined(ps[1..])
  }

  lemma {:induction false} JoinedAppend(a: seq<seq<byte>>, b: seq<seq<byte>>)
    ensures Joined(a + b) == Joined(a) + Joined(b)
    decreases |a|
  {
    if |a| > 0 {
      assert (a + b)[1..] == a[1..] + b;
      assert (a + b)[0] == a[0];
      JoinedAppend(a[1..], b);
      assert Joined(a + b) == a[0] + (Joined(a[1..]) + Joined(b));
    } else {
      assert a + b == b;
    }
  }

  lemma JoinedCons(x: seq<byte>, rest: seq<seq<byte>>)
    ensures Joined([x] + rest) == x + Joined(rest)
  {
    assert ([x] + rest)[1..] == rest;
  }

  lemma Joined2(x: seq<byte>, y: seq<byte>)
    ensures Joined([x, y]) == x + y
  {
    JoinedCons(y, []);
    assert [x, y] == [x] + [y];
    JoinedCons(x, [y]);
  }

  /** The ten transmissions of a line's record. */
  function LinePieces(r: LineRecord): seq<seq<byte>> {
    [LineStart, r.name, [0x00], PrepareInteger(r.quantity), [r.precision], Unit,
     PrepareInteger(r.price), [ESC], [r.slot], PrepareInteger(r.gross)]
  }

  /** Joined, the ten transmissions are the record's 51 bytes. */
  lemma LinePiecesJoined(r: LineRecord)
    requires WellFormed(r)
    ensures Joined(LinePieces(r)) == EncodeLine(r)
  {
    var ps := LinePieces(r);
    JoinedFour(ps[0], ps[1], ps[2], ps[3]);
    JoinedFour(ps[4], ps[5], ps[6], ps[7]);
    Joined2(ps[8], ps[9]);
    assert ps == [ps[0], ps[1], ps[2], ps[3]] + [ps[4], ps[5], ps[6], ps[7]] + [ps[8], ps[9]];
    JoinedAppend([ps[0], ps[1], ps[2], ps[3]], [ps[4], ps[5], ps[6], ps[7]]);
    JoinedAppend([ps[0], ps[1], ps[2], ps[3]] + [ps[4], ps[5], ps[6], ps[7]], [ps[8], ps[9]]);
  }

  /** Whether `printLine` succeeds: exactly when the line has a record;
      otherwise the fault is the one the record reports, precision first. */
  lemma PrintLineResult(l: Link, line: SaleLine, rates: RateTable)
    ensures PrintLine(l, line, rates).result.Success? <==> RecordOf(line, rates).Success?
    ensures RecordOf(line, rates).Failure? ==>
      PrintLine(l, line, rates).result == Failure(RecordOf(line, rates).error)
  {
  }

  /** What a successful `printLine` puts on the line: the ten pieces of the
      line's record, in order. */
  lemma PrintLineSends(l: Link, line: SaleLine, rates: RateTable)
    requires RecordOf(line, rates).Success?
    ensures PrintLine(l, line, rates).link.sent == l.sent + LinePieces(RecordOf(line, rates).value)
  {
    var hs := LineHead(line, CountAmountPrecision(line.amount).value);
    var tail := [[FindRate(rates, line.taxRate).value], PrepareInteger(EpsilonCast(line.gross))];
    PrintLineWrites(l, line, rates);
    PiecesOfRecord(line, rates);
    assert l.sent + hs + tail == l.sent + (hs + tail);
  }

  /** A successful `printLine` writes the head pieces, then the slot and the
      value. */
  lemma PrintLineWrites(l: Link, line: SaleLine, rates: RateTable)
    requires RecordOf(line, rates).Success?
    ensures PrintLine(l, line, rates).link ==
      WriteAll(WriteAll(l, LineHead(line, CountAmountPrecision(line.amount).value)),
               [[FindRate(rates, line.taxRate).value], PrepareInteger(EpsilonCast(line.gross))])
  {
  }

  /** The record's pieces are the head pieces, the slot and the value. */
  lemma PiecesOfRecord(line: SaleLine, rates: RateTable)
    requires RecordOf(line, rates).Success?
    ensures LinePieces(RecordOf(line, rates).value) ==
      LineHead(line, CountAmountPrecision(line.amount).value)
        + [[FindRate(rates, line.taxRate).value], PrepareInteger(EpsilonCast(line.gross))]
  {
    var k := CountAmountPrecision(line.amount).value;
    var rec := RecordOf(line, rates).value;
    assert rec == LineRecord(Charset.TextBytes(NameText(line.name)), EpsilonCast(Scaled(line.amount, k)), k,
      EpsilonCast(line.price), FindRate(rates, line.taxRate).value, EpsilonCast(line.gross));
    assert k % 256 == k;
  }

  /** A failing `printLine`: nothing is sent when the quantity has too many
      decimals; the first eight pieces, up to the ESC before the slot, have
      gone out when the rate is not in the table. */
  lemma PrintLineStops(l: Link, line: SaleLine, rates: RateTable)
    ensures CountAmountPrecision(line.amount).Failure? ==>
      PrintLine(l, line, rates) == Run(l, Failure(PrecisionTooHigh))
    ensures CountAmountPrecision(line.amount).Success? && FindRate(rates, line.taxRate).Failure? ==>
      PrintLine(l, line, rates) ==
        Run(WriteAll(l, LineHead(line, CountAmountPrecision(line.amount).value)), Failure(UndefinedRate))
  {
  }

  /** The pieces before the slot make up 46 bytes. */
  lemma LineHeadLength(line: SaleLine, k: nat)
    ensures |Joined(LineHead(line, k))| == 46
  {
    var ps := LineHead(line, k);
    JoinedFour(ps[0], ps[1], ps[2], ps[3]);
    JoinedFour(ps[4], ps[5], ps[6], ps[7]);
    assert ps == [ps[0], ps[1], ps[2], ps[3]] + [ps[4], ps[5], ps[6], ps[7]];
    JoinedAppend([ps[0], ps[1], ps[2], ps[3]], [ps[4], ps[5], ps[6], ps[7]]);
  }

  /** `printDiscount`: the header for the kind, then the value in cents.
      Without a discount it throws, but it is only called for discounted
      lines. */
  function PrintDiscount(l: Link, line: SaleLine): (r: Run<()>)
    ensures line.discountType == NoDiscount ==> r == Run(l, Failure(IllegalState))
    ensures line.discountType != NoDiscount ==>
      r == Run(WriteAll(l, [DiscountHead(line.discountType), PrepareInteger(DiscountCents(line))]), Success(()))
  {
    if line.discountType == NoDiscount then Run(l, Failure(IllegalState))
    else Run(WriteAll(l, [DiscountHead(line.discountType), PrepareInteger(DiscountCents(line))]), Success(()))
  }

  /** One line of the receipt, followed by its discount when it has one. */
  function PrintItem(l: Link, line: SaleLine, rates: RateTable): (r: Run<()>)
  {
    var p :- PrintLine(l, line, rates);
    if line.discountType != NoDiscount then PrintDiscount(p.0, line) else Run(p.0, Success(()))
  }

  /** An item fails exactly when its line has no record, and with the
      record's fault: a line without a discount never reaches
      `printDiscount`'s exception. */
  lemma PrintItemResult(l: Link, line: SaleLine, rates: RateTable)
    ensures PrintItem(l, line, rates).result.Success? <==> RecordOf(line, rates).Success?
    ensures RecordOf(line, rates).Failure? ==>
      PrintItem(l, line, rates).result == Failure(RecordOf(line, rates).error)
  {
    PrintLineResult(l, line, rates);
  }

  /** Each line, followed by its discount when it has one. */
  function PrintLines(l: Link, lines: seq<SaleLine>, rates: RateTable): (r: Run<()>)
    decreases |lines|
  {
    if |lines| == 0 then Run(l, Success(()))
    else
      var d :- PrintItem(l, lines[0], rates);
      PrintLines(d.0, lines[1..], rates)
  }

  /** Every line has a record: its precision and its rate are settled. */
  predicate AllRecorded(lines: seq<SaleLine>, rates: RateTable) {
    forall k :: 0 <= k < |lines| ==> RecordOf(lines[k], rates).Success?
  }

  lemma AllRecordedCons(lines: seq<SaleLine>, rates: RateTable)
    requires |lines| > 0
    ensures AllRecorded(lines, rates) <==> RecordOf(lines[0], rates).Success? && AllRecorded(lines[1..], rates)
  {
    assert forall k :: 1 <= k < |lines| ==> lines[k] == lines[1..][k - 1];
  }

  /** The lines fail exactly when one of them has no record, and then with
      that line's fault; a line without a discount never reaches
      `printDiscount`'s exception. */
  lemma {:induction false} PrintLinesFails(l: Link, lines: seq<SaleLine>, rates: RateTable)
    ensures PrintLines(l, lines, rates).result.Success? <==> AllRecorded(lines, rates)
    ensures PrintLines(l, lines, rates).result.Failure? ==>
      PrintLines(l, lines, rates).result.error in {PrecisionTooHigh, UndefinedRate}
    decreases |lines|
  {
    if |lines| > 0 {
      var d := PrintItem(l, lines[0], rates);
      PrintItemResult(l, lines[0], rates);
      AllRecordedCons(lines, rates);
      if d.result.Success? {
        assert PrintLines(l, lines, rates) == PrintLines(d.link, lines[1..], rates);
        PrintLinesFails(d.link, lines[1..], rates);
      } else {
        assert PrintLines(l, lines, rates).result == Failure(RecordOf(lines[0], rates).error);
      }
    }
  }

  // ----------------------------------------------------------- receipt

  /** The closing: end of items with the total, the reference line, the
      cashier line, the end of the receipt. A `null` reference or cashier
      throws when its bytes are due. */
  function Close(l: Link, slip: Slips.Slip): (r: Run<()>)
  {
    var l1 := WriteAll(l, [[ESC, 0x07], PrepareInteger(EpsilonCast(Slips.Total(slip))), [ESC, 0x09], [0x3C]]);
    if slip.reference.None? then Run(l1, Failure(NullPointer))
    else
      var l2 := WriteAll(l1, [Charset.TextBytes(slip.reference.value), [0x0A], [ESC, 0x09], [0x35]]);
      if slip.cashierName.None? then Run(l2, Failure(NullPointer))
      else Request(WriteAll(l2, [Charset.TextBytes(slip.cashierName.value), [0x0A]]), [ESC, 0x24])
  }

  /** The bytes of a complete closing. */
  function ClosingBytes(total: int, reference: string, cashier: string): seq<byte> {
    [ESC, 0x07] + PrepareInteger(EpsilonCast(total)) + [ESC, 0x09, 0x3C] + Charset.TextBytes(reference)
      + [0x0A, ESC, 0x09, 0x35] + Charset.TextBytes(cashier) + [0x0A, ESC, 0x24]
  }

  /** The transmissions of a complete closing. */
  function ClosingPieces(total: int, reference: string, cashier: string): seq<seq<byte>> {
    [[ESC, 0x07], PrepareInteger(EpsilonCast(total)), [ESC, 0x09], [0x3C],
     Charset.TextBytes(reference), [0x0A], [ESC, 0x09], [0x35],
     Charset.TextBytes(cashier), [0x0A], [ESC, 0x24]]
  }

  /** With both texts present the closing sends the total and the two
      texts in their marked lines, and the receipt counts as printed exactly
      when the printer acknowledges its end. A missing reference stops it
      after the reference marker, a missing cashier after the cashier
      marker. */
  lemma CloseSends(l: Link, slip: Slips.Slip)
    ensures var r := Close(l, slip);
      (slip.reference.Some? && slip.cashierName.Some? ==>
          r.link.sent == l.sent + ClosingPieces(Slips.Total(slip), slip.reference.value, slip.cashierName.value))
      && (slip.reference.None? ==>
          r.result == Failure(NullPointer) && r.link.sent == l.sent + ClosingPieces(Slips.Total(slip), "", "")[..4])
      && (slip.reference.Some? && slip.cashierName.None? ==>
          r.result == Failure(NullPointer) && r.link.sent == l.sent + ClosingPieces(Slips.Total(slip), slip.reference.value, "")[..8])
  {
  }

  /** Joined, a complete closing is the total between ESC 07 and the
      reference line, then the cashier line and ESC 24. */
  lemma ClosingJoined(total: int, reference: string, cashier: string)
    ensures Joined(ClosingPieces(total, reference, cashier)) == ClosingBytes(total, reference, cashier)
  {
    var ps := ClosingPieces(total, reference, cashier);
    JoinedFour(ps[0], ps[1], ps[2], ps[3]);
    JoinedFour(ps[4], ps[5], ps[6], ps[7]);
    Joined2(ps[8], ps[9]);
    JoinedCons(ps[10], []);
    assert ps == [ps[0], ps[1], ps[2], ps[3]] + [ps[4], ps[5], ps[6], ps[7]] + [ps[8], ps[9]] + [ps[10]];
    JoinedAppend([ps[0], ps[1], ps[2], ps[3]], [ps[4], ps[5], ps[6], ps[7]]);
    JoinedAppend([ps[0], ps[1], ps[2], ps[3]] + [ps[4], ps[5], ps[6], ps[7]], [ps[8], ps[9]]);
    JoinedAppend([ps[0], ps[1], ps[2], ps[3]] + [ps[4], ps[5], ps[6], ps[7]] + [ps[8], ps[9]], [ps[10]]);
  }

  lemma JoinedFour(w: seq<byte>, x: seq<byte>, y: seq<byte>, z: seq<byte>)
    ensures Joined([w, x, y, z]) == w + x + y + z
  {
    assert [w, x, y, z] == [w, x] + [y, z];
    JoinedAppend([w, x], [y, z]);
    Joined2(w, x);
    Joined2(y, z);
  }

  /** `print(Slip)`: wait until the printer is ready, read its rates, open
      the receipt (ESC 21, acknowledged), send the lines and their
      discounts, and close. */
  function Print(l: Link, slip: Slips.Slip): (r: Run<()>)
  {
    var ready :- AwaitReady(l);
    Receipt(ready.0, slip)
  }

  /** The receipt once the printer is ready. */
  function Receipt(l: Link, slip: Slips.Slip): (r: Run<()>)
  {
    var rates :- ReadRates(l);
    var open :- Request(rates.0, [ESC, 0x21]);
    var lines :- PrintLines(open.0, slip.lines, rates.1);
    Close(lines.0, slip)
  }

  // ------------------------------------------------- what a receipt sends

  /** A line's transmissions: its record's ten pieces, then the discount's
      header and value when it has one; nothing for a line without a
      record. */
  function ItemPieces(line: SaleLine, rates: RateTable): seq<seq<byte>> {
    match RecordOf(line, rates)
    case Failure(_) => []
    case Success(rec) =>
      LinePieces(rec) + (if line.discountType != NoDiscount then [DiscountHead(line.discountType), PrepareInteger(DiscountCents(line))] else [])
  }

  function ItemsPieces(lines: seq<SaleLine>, rates: RateTable): seq<seq<byte>>
    decreases |lines|
  {
    if |lines| == 0 then [] else ItemPieces(lines[0], rates) + ItemsPieces(lines[1..], rates)
  }

  /** A line's bytes: its 51-byte record, then the discount's header and
      value when it has one. */
  function ItemBytes(line: SaleLine, rates: RateTable): seq<byte> {
    match RecordOf(line, rates)
    case Failure(_) => []
    case Success(rec) =>
      EncodeLine(rec) + (if line.discountType != NoDiscount then DiscountHead(line.discountType) + PrepareInteger(DiscountCents(line)) else [])
  }

  function ItemsBytes(lines: seq<SaleLine>, rates: RateTable): seq<byte>
    decreases |lines|
  {
    if |lines| == 0 then [] else ItemBytes(lines[0], rates) + ItemsBytes(lines[1..], rates)
  }

  /** A line that goes out whole sends its item's pieces. */
  lemma PrintItemSends(l: Link, line: SaleLine, rates: RateTable)
    ensures PrintItem(l, line, rates).result.Success? ==>
      PrintItem(l, line, rates).link.sent == l.sent + ItemPieces(line, rates)
  {
    PrintItemResult(l, line, rates);
    if RecordOf(line, rates).Success? {
      var p := PrintLine(l, line, rates);
      PrintLineResult(l, line, rates);
      PrintLineSends(l, line, rates);
      var rec := RecordOf(line, rates).value;
      if line.discountType != NoDiscount {
        var tail := [DiscountHead(line.discountType), PrepareInteger(DiscountCents(line))];
        assert PrintItem(l, line, rates).link.sent == p.link.sent + tail;
        assert l.sent + LinePieces(rec) + tail == l.sent + (LinePieces(rec) + tail);
      } else {
        assert LinePieces(rec) + [] == LinePieces(rec);
      }
    }
  }

  /** Lines that all go out send their items' pieces in order. */
  lemma {:induction false} PrintLinesSends(l: Link, lines: seq<SaleLine>, rates: RateTable)
    ensures PrintLines(l, lines, rates).result.Success? ==>
      PrintLines(l, lines, rates).link.sent == l.sent + ItemsPieces(lines, rates)
    decreases |lines|
  {
    if |lines| == 0 {
      assert ItemsPieces(lines, rates) == [];
    } else {
      var d := PrintItem(l, lines[0], rates);
      if d.result.Failure? {
        assert PrintLines(l, lines, rates).result.Failure?;
      } else {
        PrintItemSends(l, lines[0], rates);
        PrintLinesStep(l, lines, rates);
        PrintLinesSends(d.link, lines[1..], rates);
        if PrintLines(l, lines, rates).result.Success? {
          SentInTwo(l.sent, d.link.sent, PrintLines(l, lines, rates).link.sent,
                    ItemPieces(lines[0], rates), ItemsPieces(lines[1..], rates));
        }
      }
    }
  }

  lemma PrintLinesStep(l: Link, lines: seq<SaleLine>, rates: RateTable)
    requires |lines| > 0 && PrintItem(l, lines[0], rates).result.Success?
    ensures PrintLines(l, lines, rates) == PrintLines(PrintItem(l, lines[0], rates).link, lines[1..], rates)
    ensures ItemsPieces(lines, rates) == ItemPieces(lines[0], rates) + ItemsPieces(lines[1..], rates)
  {
  }

  lemma SentInTwo(a: seq<seq<byte>>, b: seq<seq<byte>>, c: seq<seq<byte>>, x: seq<seq<byte>>, y: seq<seq<byte>>)
    requires b == a + x && c == b + y
    ensures c == a + (x + y)
  {
  }

  /** Joined, the items' pieces are the items' bytes. */
  lemma {:induction false} ItemsJoined(lines: seq<SaleLine>, rates: RateTable)
    ensures Joined(ItemsPieces(lines, rates)) == ItemsBytes(lines, rates)
    decreases |lines|
  {
    if |lines| > 0 {
      JoinedAppend(ItemPieces(lines[0], rates), ItemsPieces(lines[1..], rates));
      ItemsJoined(lines[1..], rates);
      ItemJoined(lines[0], rates);
    }
  }

  lemma ItemJoined(line: SaleLine, rates: RateTable)
    ensures Joined(ItemPieces(line, rates)) == ItemBytes(line, rates)
  {
    if RecordOf(line, rates).Success? {
      var rec := RecordOf(line, rates).value;
      LinePiecesJoined(rec);
      if line.discountType != NoDiscount {
        var tail := [DiscountHead(line.discountType), PrepareInteger(DiscountCents(line))];
        JoinedAppend(LinePieces(rec), tail);
        Joined2(tail[0], tail[1]);
      } else {
        assert LinePieces(rec) + [] == LinePieces(rec);
      }
    }
  }

  /** A receipt that prints went out, once the printer was ready, as the
      rate request, the opening, every line with its discount, and the
      closing with the total, the reference and the cashier. */
  lemma PrintSends(l: Link, slip: Slips.Slip)
    ensures var r := Print(l, slip);
      var ready := AwaitReady(l);
      var rates := ReadRates(ready.link);
      r.result.Success? ==>
        ready.result.Success? && rates.result.Success? && AllRecorded(slip.lines, rates.result.value)
        && slip.reference.Some? && slip.cashierName.Some?
        && r.link.sent == ready.link.sent + [[ESC, 0xD1], [ESC, 0x21]] + ItemsPieces(slip.lines, rates.result.value)
             + ClosingPieces(Slips.Total(slip), slip.reference.value, slip.cashierName.value)
  {
    var ready := AwaitReady(l);
    if Print(l, slip).result.Success? {
      assert ready.result.Success? && Print(l, slip) == Receipt(ready.link, slip);
      ReceiptSends(ready.link, slip);
    }
  }

  lemma ReceiptSends(l: Link, slip: Slips.Slip)
    ensures var r := Receipt(l, slip);
      var rates := ReadRates(l);
      r.result.Success? ==>
        rates.result.Success? && AllRecorded(slip.lines, rates.result.value)
        && slip.reference.Some? && slip.cashierName.Some?
        && r.link.sent == l.sent + [[ESC, 0xD1], [ESC, 0x21]] + ItemsPieces(slip.lines, rates.result.value)
             + ClosingPieces(Slips.Total(slip), slip.reference.value, slip.cashierName.value)
  {
    var rates := ReadRates(l);
    if Receipt(l, slip).result.Success? {
      var open := Request(rates.link, [ESC, 0x21]);
      var lines := PrintLines(open.link, slip.lines, rates.result.value);
      assert rates.result.Success? && open.result.Success? && lines.result.Success?;
      assert Receipt(l, slip) == Close(lines.link, slip);
      PrintLinesFails(open.link, slip.lines, rates.result.value);
      PrintLinesSends(open.link, slip.lines, rates.result.value);
      CloseSends(lines.link, slip);
      CloseFails(lines.link, slip);
      TwoWrites(l.sent, [ESC, 0xD1], [ESC, 0x21]);
      assert open.link.sent == l.sent + [[ESC, 0xD1], [ESC, 0x21]];
      SentInThree(l.sent, open.link.sent, lines.link.sent, Receipt(l, slip).link.sent,
                  [[ESC, 0xD1], [ESC, 0x21]], ItemsPieces(slip.lines, rates.result.value),
                  ClosingPieces(Slips.Total(slip), slip.reference.value, slip.cashierName.value));
    }
  }

  lemma TwoWrites(a: seq<seq<byte>>, x: seq<byte>, y: seq<byte>)
    ensures a + [x] + [y] == a + [x, y]
  {
  }

  lemma SentAfter(a: seq<seq<byte>>, b: seq<seq<byte>>, x: seq<seq<byte>>, y: seq<seq<byte>>, z: seq<seq<byte>>)
    requires b == a + x + y + z
    ensures |a| <= |b| && b[|a|..] == x + y + z
  {
  }

  lemma CloseFails(l: Link, slip: Slips.Slip)
    ensures Close(l, slip).result.Success? ==> slip.reference.Some? && slip.cashierName.Some?
  {
  }

  lemma SentInThree(a: seq<seq<byte>>, b: seq<seq<byte>>, c: seq<seq<byte>>, e: seq<seq<byte>>,
                    x: seq<seq<byte>>, y: seq<seq<byte>>, z: seq<seq<byte>>)
    requires b == a + x && c == b + y && e == c + z
    ensures e == a + x + y + z
  {
  }

  /** Joined, a printed receipt is ESC D1, ESC 21, the items' bytes and the
      closing's bytes. */
  lemma PrintBytes(l: Link, slip: Slips.Slip)
    ensures var r := Print(l, slip);
      var ready := AwaitReady(l);
      var rates := ReadRates(ready.link);
      r.result.Success? ==>
        |ready.link.sent| <= |r.link.sent| && rates.result.Success? && slip.reference.Some? && slip.cashierName.Some?
        && Joined(r.link.sent[|ready.link.sent|..]) ==
             [ESC, 0xD1, ESC, 0x21] + ItemsBytes(slip.lines, rates.result.value)
               + ClosingBytes(Slips.Total(slip), slip.reference.value, slip.cashierName.value)
  {
    var ready := AwaitReady(l);
    var rates := ReadRates(ready.link);
    var r := Print(l, slip);
    PrintSends(l, slip);
    if r.result.Success? {
      var items := ItemsPieces(slip.lines, rates.result.value);
      var closing := ClosingPieces(Slips.Total(slip), slip.reference.value, slip.cashierName.value);
      SentAfter(ready.link.sent, r.link.sent, [[ESC, 0xD1], [ESC, 0x21]], items, closing);
      ReceiptJoined(slip.lines, rates.result.value, Slips.Total(slip), slip.reference.value, slip.cashierName.value);
    }
  }

  lemma ReceiptJoined(lines: seq<SaleLine>, rates: RateTable, total: int, reference: string, cashier: string)
    ensures Joined([[ESC, 0xD1], [ESC, 0x21]] + ItemsPieces(lines, rates) + ClosingPieces(total, reference, cashier))
      == [ESC, 0xD1, ESC, 0x21] + ItemsBytes(lines, rates) + ClosingBytes(total, reference, cashier)
  {
    var head: seq<seq<byte>> := [[ESC, 0xD1], [ESC, 0x21]];
    var items := ItemsPieces(lines, rates);
    var closing := ClosingPieces(total, reference, cashier);
    JoinedThree(head, items, closing);
    Joined2([ESC, 0xD1], [ESC, 0x21]);
    ItemsJoined(lines, rates);
    ClosingJoined(total, reference, cashier);
  }

  lemma JoinedThree(a: seq<seq<byte>>, b: seq<seq<byte>>, c: seq<seq<byte>>)
    ensures Joined(a + b + c) == Joined(a) + Joined(b) + Joined(c)
  {
    JoinedAppend(a + b, c);
    JoinedAppend(a, b);
  }

  /** `openDrawer`: ESC 57, acknowledged. */
  function OpenDrawer(l: Link): (r: Run<()>)
    ensures r.link.sent == l.sent + [[ESC, 0x57]]
  {
    Request(l, [ESC, 0x57])
  }

  /** `printDailyReport`: ESC 25, acknowledged. */
  function DailyReport(l: Link): (r: Run<()>)
    ensures r.link.sent == l.sent + [[ESC, 0x25]]
  {
    Request(l, [ESC, 0x25])
  }

  /** `print(Invoice)` is not supported by this printer. */
  function PrintInvoice(l: Link): (r: Run<()>)
    ensures r.link == l && r.result == Failure(UnsupportedOperation)
  {
    Run(l, Failure(UnsupportedOperation))
  }

  /** A printer that never answers: the receipt stops at the first status
      query with a timeout, and the drawer and report commands time out. */
  lemma SilentPrinter(replies: seq<seq<byte>>, slip: Slips.Slip)
    requires forall k :: 0 <= k < |replies| ==> replies[k] == []
    ensures Print(Open(replies), slip) == Run(Link([], if |replies| > 0 then replies[1..] else [], [[ESC, 0x5B]]), Failure(AckTimeout))
    ensures OpenDrawer(Open(replies)).result == Failure(AckTimeout)
    ensures DailyReport(Open(replies)).result == Failure(AckTimeout)
  {
  }
}

=== FILE: escdialect.dfy ===
/** What the four ESC-framed drivers (`Thermal203`, `Thermal301`,
    `InnovaProfit451`, `OptimusVivo`) do differently, gathered in one record,
    and the texts of their commands. The classes are near-copies of one
    another; the engine that runs them is `EscDriver`. */
module EscDialect {
  import opened Wrappers
  import opened Faults
  import opened BitsAndBytes
  import opened Datamodel
  import JavaText
  import Numbers
  import Seqs
  import Slips

  /** Cancel, status request, enquiry, bell: the one-byte requests. */
  const CAN: byte := 0x18
  const DLE: byte := 0x10
  const ENQ: byte := 0x05
  const BEL: byte := 0x07

  /** How amounts are written: `Double.toString` (Plain), or `NumberFormat`
      with a fixed number of fraction digits, 2 for money and 4 for
      quantities (Fixed, `f2`/`f4` of the 3.01 driver). */
  datatype NumberStyle = Plain | Fixed

  /** The command that closes a receipt. `Trxend1` is `$y`: payments are
      numbered by their position in `order`, and the system number is either
      wrapped for a bar code ('#', at most 16 characters, '#') or sent as it
      is. `Trxend` is the Innova `$x` with its four fixed payment slots. */
  datatype Closing =
    | Trxend1(order: seq<PaymentType>, barcodeReference: bool, footer: Footer)
    | Trxend

  datatype Dialect = Dialect(
    /** `reset`: CANs first, then `rounds` times: `roundCans` CANs, DLE, ENQ. */
    leadingCans: nat,
    rounds: nat,
    roundCans: nat,
    /** `print` empties the input before `reset` rather than after it. */
    flushFirst: bool,
    /** Every one-byte request is answered through `readOneByteAnswer`,
        which drains the line (CAN and BEL consume an answer too). */
    oneByteAnswers: bool,
    /** `decodeLBERSTS` drops a control character in front of a one-digit code. */
    stripsControl: bool,
    /** A nonzero status after the error-mode command `#e` throws (otherwise
        it is only logged). */
    strictErrorMode: bool,
    /** The rate request `#s` is followed by a status answer. */
    statusAfterRates: bool,
    /** The rate table starts as A..F empty and G exempt, and reading stops
        at the first field without a '.'. */
    ratesStopEarly: bool,
    /** The transaction cancel `0$e` empties the input afterwards. */
    flushAfterCancel: bool,
    /** Sale lines carry the discount kind and value. */
    discountedLines: bool,
    numbers: NumberStyle,
    closing: Closing,
    /** `printDailyReport` is implemented (the others throw
        `UnsupportedOperationException`). */
    dailyReport: bool)

  const Thermal203Order: seq<PaymentType> := [Cash, CreditCard, Cheque, Voucher, Other, Credit]
  const Thermal301Order: seq<PaymentType> := [Cash, CreditCard, Cheque, Bond, Other, Credit, Account, Voucher]

  const Thermal203Footer: Footer :=
    Footer("Serwer wydruku fiskalnego wersja 2.0", "(c)2014 http://fps.bart.prokop.name/", "Sterownik: PosnetThermal 2.03")
  const Thermal301Footer: Footer :=
    Footer("Serwer wydruku fiskalnego wersja 2.0", "(c)2014 http://fps.bart.prokop.name/", "Sterownik: PosnetThermal 3.01")
  const VivoFooter: Footer := Footer("Dziękujemy", "Zapraszamy ponownie", "Driver: OptimusVivo")

  const Thermal203: Dialect := Dialect(
    0, 15, 2, false, false, true, true, true, false, true, true, Plain,
    Trxend1(Thermal203Order, true, Thermal203Footer), true)

  const Thermal301: Dialect := Dialect(
    0, 7, 2, false, false, true, true, true, false, true, true, Fixed,
    Trxend1(Thermal301Order, true, Thermal301Footer), true)

  const Innova: Dialect := Dialect(
    5, 3, 0, false, false, false, false, true, true, false, false, Plain,
    Trxend, false)

  const Vivo: Dialect := Dialect(
    3, 2, 0, true, true, false, true, false, false, true, true, Plain,
    Trxend1(Thermal203Order, false, VivoFooter), false)

  // ================================================================= reset

  /** The bytes `reset` writes, one write each, in order. */
  function ResetCodes(d: Dialect): (r: seq<byte>)
    ensures |r| == d.leadingCans + d.rounds * (d.roundCans + 2)
  {
    Seqs.Repeat([CAN], d.leadingCans) + Seqs.Repeat(Seqs.Repeat([CAN], d.roundCans) + [DLE, ENQ], d.rounds)
  }

  /** Fifteen rounds of CAN, CAN, DLE, ENQ. */
  lemma Thermal203Reset()
    ensures ResetCodes(Thermal203) == Seqs.Repeat([CAN, CAN, DLE, ENQ], 15)
    ensures |ResetCodes(Thermal203)| == 60
  {
    TwoCans();
  }

  /** Seven rounds of CAN, CAN, DLE, ENQ. */
  lemma Thermal301Reset()
    ensures ResetCodes(Thermal301) == Seqs.Repeat([CAN, CAN, DLE, ENQ], 7)
    ensures |ResetCodes(Thermal301)| == 28
  {
    TwoCans();
  }

  lemma TwoCans()
    ensures Seqs.Repeat([CAN], 0) == []
    ensures Seqs.Repeat([CAN], 2) == [CAN, CAN]
    ensures Seqs.Repeat([CAN], 2) + [DLE, ENQ] == [CAN, CAN, DLE, ENQ]
  {
    assert Seqs.Repeat([CAN], 1) == [CAN] + Seqs.Repeat([CAN], 0);
  }

  /** Five CANs, then three rounds of DLE, ENQ. */
  lemma InnovaReset()
    ensures ResetCodes(Innova) == [CAN, CAN, CAN, CAN, CAN, DLE, ENQ, DLE, ENQ, DLE, ENQ]
  {
    Cans(5);
    Rounds(3);
    assert Seqs.Repeat([CAN], 0) + [DLE, ENQ] == [DLE, ENQ];
  }

  /** Three CANs, then two rounds of DLE, ENQ. */
  lemma VivoReset()
    ensures ResetCodes(Vivo) == [CAN, CAN, CAN, DLE, ENQ, DLE, ENQ]
  {
    Cans(3);
    Rounds(2);
    assert Seqs.Repeat([CAN], 0) + [DLE, ENQ] == [DLE, ENQ];
  }

  lemma Cans(n: nat)
    requires n <= 5
    ensures n == 3 ==> Seqs.Repeat([CAN], n) == [CAN, CAN, CAN]
    ensures n == 5 ==> Seqs.Repeat([CAN], n) == [CAN, CAN, CAN, CAN, CAN]
  {
    var p: seq<byte> := [CAN];
    assert Seqs.Repeat(p, 1) == p + Seqs.Repeat(p, 0);
    assert Seqs.Repeat(p, 2) == p + Seqs.Repeat(p, 1);
    assert Seqs.Repeat(p, 3) == p + Seqs.Repeat(p, 2);
    assert Seqs.Repeat(p, 4) == p + Seqs.Repeat(p, 3);
    assert Seqs.Repeat(p, 5) == p + Seqs.Repeat(p, 4);
  }

  lemma Rounds(n: nat)
    requires n <= 3
    ensures n == 2 ==> Seqs.Repeat([DLE, ENQ], n) == [DLE, ENQ, DLE, ENQ]
    ensures n == 3 ==> Seqs.Repeat([DLE, ENQ], n) == [DLE, ENQ, DLE, ENQ, DLE, ENQ]
  {
    var p: seq<byte> := [DLE, ENQ];
    assert Seqs.Repeat(p, 1) == p + Seqs.Repeat(p, 0);
    assert Seqs.Repeat(p, 2) == p + Seqs.Repeat(p, 1);
    assert Seqs.Repeat(p, 3) == p + Seqs.Repeat(p, 2);
  }

  // ============================================================== payments

  /** One entry of the list `preparePayments` hands to `$y`: the code is the
      payment's position in the dialect's order. */
  datatype Payment = Payment(code: nat, amount: int, name: Option<string>)

  /** What the slip holds for each type of the order: amount and name. */
  function Entries(order: seq<PaymentType>, slip: Slips.Slip): (es: seq<(int, Option<string>)>)
    ensures |es| == |order|
    ensures forall k :: 0 <= k < |order| ==>
      es[k] == (Slips.GetPaymentAmount(slip, order[k]), Slips.GetPaymentName(slip, order[k]))
  {
    seq(|order|, k requires 0 <= k < |order| => (Slips.GetPaymentAmount(slip, order[k]), Slips.GetPaymentName(slip, order[k])))
  }

  /** The nonzero entries among the first `n`, in order, each with its
      position as code (the chain of `if (getPaymentAmount(..) != 0.0) add`). */
  function Collect(es: seq<(int, Option<string>)>, n: nat): (r: seq<Payment>)
    requires n <= |es|
    ensures forall j :: 0 <= j < |r| ==> r[j].code < n
    ensures forall j :: 0 <= j < |r| ==> r[j].amount == es[r[j].code].0 != 0 && r[j].name == es[r[j].code].1
    ensures forall i, j :: 0 <= i < j < |r| ==> r[i].code < r[j].code
  {
    if n == 0 then []
    else
      var front := Collect(es, n - 1);
      front + if es[n - 1].0 != 0 then [Payment(n - 1, es[n - 1].0, es[n - 1].1)] else []
  }

  /** `preparePayments` of the `$y` drivers: `null` for a slip without
      payments, otherwise every nonzero payment whose type the order lists. */
  function PreparePayments(order: seq<PaymentType>, slip: Slips.Slip): (r: Option<seq<Payment>>)
    ensures r.None? <==> !Slips.IsUsingPayments(slip)
    ensures r.Some? ==> forall j :: 0 <= j < |r.value| ==>
      r.value[j].code < |order| &&
      r.value[j].amount == Slips.GetPaymentAmount(slip, order[r.value[j].code]) != 0 &&
      r.value[j].name == Slips.GetPaymentName(slip, order[r.value[j].code])
    ensures r.Some? ==> forall i, j :: 0 <= i < j < |r.value| ==> r.value[i].code < r.value[j].code
  {
    if !Slips.IsUsingPayments(slip) then None
    else
      var es := Entries(order, slip);
      Some(Collect(es, |es|))
  }

  /** Some entry of `ps` carries code `c`. */
  predicate Sent(ps: seq<Payment>, c: nat) {
    exists j :: 0 <= j < |ps| && ps[j].code == c
  }

  /** A payment is collected exactly when its type is among the first `n` of
      the order and its amount is not zero. */
  lemma {:induction false} CollectSent(es: seq<(int, Option<string>)>, n: nat, c: nat)
    requires n <= |es|
    ensures Sent(Collect(es, n), c) <==> c < n && es[c].0 != 0
  {
    if n > 0 {
      var front := Collect(es, n - 1);
      var tail := if es[n - 1].0 != 0 then [Payment(n - 1, es[n - 1].0, es[n - 1].1)] else [];
      CollectSent(es, n - 1, c);
      SentAppend(front, tail, c);
      assert Sent(tail, c) <==> c == n - 1 && es[n - 1].0 != 0 by {
        if Sent(tail, c) {
          assert tail[0].code == c;
        }
        if c == n - 1 && es[n - 1].0 != 0 {
          assert tail[0].code == c;
        }
      }
    }
  }

  lemma SentAppend(a: seq<Payment>, b: seq<Payment>, c: nat)
    ensures Sent(a + b, c) <==> Sent(a, c) || Sent(b, c)
  {
    if Sent(a + b, c) {
      var j :| 0 <= j < |a + b| && (a + b)[j].code == c;
      if j < |a| {
        assert a[j].code == c;
      } else {
        assert b[j - |a|].code == c;
      }
    }
    if Sent(a, c) {
      var j :| 0 <= j < |a| && a[j].code == c;
      assert (a + b)[j].code == c;
    }
    if Sent(b, c) {
      var j :| 0 <= j < |b| && b[j].code == c;
      assert (a + b)[|a| + j].code == c;
    }
  }

  /** A payment is sent when its type is listed and its amount is not zero,
      and then under the code of its position. */
  lemma PaymentSentIff(order: seq<PaymentType>, slip: Slips.Slip, c: nat)
    requires c < |order|
    requires Slips.IsUsingPayments(slip)
    ensures Sent(PreparePayments(order, slip).value, c) <==> Slips.GetPaymentAmount(slip, order[c]) != 0
  {
    var es := Entries(order, slip);
    CollectSent(es, |es|, c);
  }

  /** A payment type the order does not list is never sent, whatever its
      amount: the 2.03 and Vivo drivers drop Bond and Account. */
  lemma UnlistedTypeDropped(order: seq<PaymentType>, slip: Slips.Slip, t: PaymentType)
    requires t !in order
    requires PreparePayments(order, slip).Some?
    ensures forall p :: p in PreparePayments(order, slip).value ==> order[p.code] != t
  {
  }

  lemma Thermal203DropsBondAndAccount()
    ensures Bond !in Thermal203Order && Account !in Thermal203Order
    ensures forall t :: t != Bond && t != Account ==> t in Thermal203Order
  {
  }

  /** The 3.01 order lists every payment type, each once. */
  lemma Thermal301ListsAll()
    ensures forall t :: t in Thermal301Order
    ensures forall i, j :: 0 <= i < j < |Thermal301Order| ==> Thermal301Order[i] != Thermal301Order[j]
  {
    forall t: PaymentType
      ensures t in Thermal301Order
    {
      var o := Thermal301Order;
      match t
      case Cash => assert o[0] == t;
      case CreditCard => assert o[1] == t;
      case Cheque => assert o[2] == t;
      case Bond => assert o[3] == t;
      case Other => assert o[4] == t;
      case Credit => assert o[5] == t;
      case Account => assert o[6] == t;
      case Voucher => assert o[7] == t;
    }
  }

  /** One payment slot of the Innova `$x` (`iX`, `dX`, `nX` of
      `PaymentInnova451`): flag, amount, name. */
  datatype InnovaSlot = InnovaSlot(flag: int, amount: int, name: Option<string>)

  /** Cash, card, cheque, voucher. */
  datatype InnovaPayments = InnovaPayments(cash: InnovaSlot, card: InnovaSlot, cheque: InnovaSlot, voucher: InnovaSlot)

  /** The field initialisers: 0, 0.0 and "". */
  const Unused: InnovaSlot := InnovaSlot(0, 0, Some(""))

  /** One slot filled in by `preparePayments`: flag and amount when the
      amount is not zero, and the name too when the slot has a name line. */
  function InnovaSlotOf(slip: Slips.Slip, t: PaymentType, named: bool): (s: InnovaSlot)
    ensures s.flag == 1 <==> Slips.GetPaymentAmount(slip, t) != 0
    ensures s.flag != 1 ==> s == Unused
    ensures s.amount == Slips.GetPaymentAmount(slip, t)
    ensures s.name == if named && s.flag == 1 then Slips.GetPaymentName(slip, t) else Some("")
  {
    var a := Slips.GetPaymentAmount(slip, t);
    if a == 0 then Unused
    else InnovaSlot(1, a, if named then Slips.GetPaymentName(slip, t) else Unused.name)
  }

  /** `preparePayments` of the Innova driver. */
  function PrepareInnova(slip: Slips.Slip): (r: InnovaPayments)
    ensures !Slips.IsUsingPayments(slip) ==> r == InnovaPayments(Unused, Unused, Unused, Unused)
  {
    if !Slips.IsUsingPayments(slip) then InnovaPayments(Unused, Unused, Unused, Unused)
    else
      InnovaPayments(
        InnovaSlotOf(slip, Cash, false), InnovaSlotOf(slip, CreditCard, true),
        InnovaSlotOf(slip, Cheque, true), InnovaSlotOf(slip, Voucher, true))
  }

  /** Whether the slip uses payments or not, each slot is what the slip holds
      for its type: a slip without payments holds nothing. Bond, Credit,
      Other and Account have no slot. */
  lemma PrepareInnovaSlots(slip: Slips.Slip)
    ensures PrepareInnova(slip) == InnovaPayments(
      InnovaSlotOf(slip, Cash, false), InnovaSlotOf(slip, CreditCard, true),
      InnovaSlotOf(slip, Cheque, true), InnovaSlotOf(slip, Voucher, true))
  {
    if !Slips.IsUsingPayments(slip) {
      NoPaymentsNoAmount(slip, Cash);
      NoPaymentsNoAmount(slip, CreditCard);
      NoPaymentsNoAmount(slip, Cheque);
      NoPaymentsNoAmount(slip, Voucher);
    }
  }

  lemma NoPaymentsNoAmount(slip: Slips.Slip, t: PaymentType)
    requires !Slips.IsUsingPayments(slip)
    ensures Slips.GetPaymentAmount(slip, t) == 0
  {
    assert Slips.GetPayment(slip, t).None?;
  }

  // ============================================================ rate slots

  /** `decodeLBFSTRQ_PTU`: the printer's text of a rate. "101.00" (a disabled
      slot) and anything unknown give `null`. */
  function DecodeRate(s: string): (r: Option<VATRate>)
  {
    if s == "22.00" then Some(VAT22)
    else if s == "07.00" then Some(VAT07)
    else if s == "03.00" then Some(VAT03)
    else if s == "23.00" then Some(VAT23)
    else if s == "08.00" then Some(VAT08)
    else if s == "05.00" then Some(VAT05)
    else if s == "00.00" then Some(VAT00)
    else if s == "100.00" then Some(VATzw)
    else None
  }

  /** How the printer writes a rate: the percentage with two decimals, and
      100.00 for the exempt rate. */
  function RateText(r: VATRate): (s: string)
    ensures '.' in s && '/' !in s
  {
    match r
    case VAT22 => "22.00"
    case VAT07 => "07.00"
    case VAT03 => "03.00"
    case VAT00 => "00.00"
    case VATzw => "100.00"
    case VAT23 => "23.00"
    case VAT08 => "08.00"
    case VAT05 => "05.00"
  }

  /** The two are inverse: a text decodes to a rate exactly when it is that
      rate's text. */
  lemma DecodeRateIff(s: string, r: VATRate)
    ensures DecodeRate(s) == Some(r) <==> s == RateText(r)
  {
  }

  /** The slots A..G (`ptuA`..`ptuG`) as a sequence of seven; `None` is `null`. */
  predicate IsTable(slots: seq<Option<VATRate>>) {
    |slots| == 7
  }

  /** The fields' initial values: every slot `null`. */
  const Unread: seq<Option<VATRate>> := [None, None, None, None, None, None, None]

  /** What the Innova driver sets before reading: A..F `null`, G exempt. */
  const InnovaDefaults: seq<Option<VATRate>> := [None, None, None, None, None, None, Some(VATzw)]

  /** The highest slot below `k` that holds `rate`, or -1. */
  function FindBelow(slots: seq<Option<VATRate>>, rate: VATRate, k: nat): (r: int)
    requires k <= |slots|
    ensures -1 <= r < k
    ensures r >= 0 ==> slots[r] == Some(rate) && forall j :: r < j < k ==> slots[j] != Some(rate)
    ensures r < 0 ==> forall j :: 0 <= j < k ==> slots[j] != Some(rate)
  {
    if k == 0 then -1
    else if slots[k - 1] == Some(rate) then k - 1
    else FindBelow(slots, rate, k - 1)
  }

  /** `findPTU`: the letter of the slot holding the rate, G checked first and
      A last; no such slot is "Niezdefiniowana stawka w drukarce". */
  function FindPTU(slots: seq<Option<VATRate>>, rate: VATRate): (r: Result<char, Fault>)
    requires IsTable(slots)
    ensures r.Success? <==> Some(rate) in slots
    ensures r.Failure? ==> r.error == UndefinedRate
    ensures r.Success? ==> 'A' <= r.value <= 'G' && slots[r.value as int - 'A' as int] == Some(rate)
    ensures r.Success? ==> forall j :: r.value as int - 'A' as int < j < 7 ==> slots[j] != Some(rate)
  {
    var k := FindBelow(slots, rate, 7);
    if k < 0 then Failure(UndefinedRate) else Success(('A' as int + k) as char)
  }

  /** With the Innova defaults, an exempt rate is always found, in slot G,
      unless the printer's table overwrote that slot. */
  lemma ExemptFallsBackToG(slots: seq<Option<VATRate>>)
    requires IsTable(slots) && slots[6] == Some(VATzw)
    ensures FindPTU(slots, VATzw) == Success('G')
  {
  }

  /** `seq.substring(seq.indexOf('/') + 1)`: the text after the first '/',
      or all of it when there is none. */
  function AfterSlash(t: string): (r: string)
    ensures '/' !in t ==> r == t
    ensures '/' in t ==> r == t[Seqs.IndexOf(t, '/') + 1..]
  {
    t[Seqs.IndexOf(t, '/') + 1..]
  }

  /** The seven reads of `decodeLBFSTRQ` from slot `i` on: each takes the text
      up to the next '/' as a rate and moves past that '/'. A missing '/'
      throws out of `substring(0, -1)`; the slots already assigned keep their
      new values. With `stopEarly` a field without '.' ends the reading. */
  function ReadSlots(stopEarly: bool, t: string, slots: seq<Option<VATRate>>, i: nat): (r: (seq<Option<VATRate>>, Result<(), Fault>))
    requires IsTable(slots) && i <= 7
    ensures IsTable(r.0) && r.0[..i] == slots[..i]
    ensures r.1.Failure? ==> r.1.error == IndexOutOfBounds
    decreases 7 - i
  {
    if i == 7 then (slots, Success(()))
    else
      var j := Seqs.IndexOf(t, '/');
      if j < 0 then (slots, Failure(IndexOutOfBounds))
      else
        var f := t[..j];
        if stopEarly && '.' !in f then (slots, Success(()))
        else
          var r := ReadSlots(stopEarly, t[j + 1..], slots[i := DecodeRate(f)], i + 1);
          PrefixBeforeUpdate(slots, r.0, i, DecodeRate(f));
          r
  }

  /** A sequence agreeing with `a[i := x]` up to `i` agrees with `a` before it. */
  lemma PrefixBeforeUpdate<T>(a: seq<T>, b: seq<T>, i: nat, x: T)
    requires i < |a| && i < |b| && b[..i + 1] == a[i := x][..i + 1]
    ensures b[..i] == a[..i]
  {
    assert b[..i] == b[..i + 1][..i];
    assert a[..i] == a[i := x][..i + 1][..i];
  }

  /** `decodeLBFSTRQ` on the answer to `23#s`: the first field is skipped and
      the next seven are slots A..G. */
  function DecodeRates(d: Dialect, reply: string, slots: seq<Option<VATRate>>): (r: (seq<Option<VATRate>>, Result<(), Fault>))
    requires IsTable(slots)
    ensures IsTable(r.0)
    ensures r.1.Failure? ==> r.1.error == IndexOutOfBounds
  {
    ReadSlots(d.ratesStopEarly, AfterSlash(reply), if d.ratesStopEarly then InnovaDefaults else slots, 0)
  }

  /** An answer whose head is followed by '/' and by fields each ended by
      '/': the fields fill the slots from A on (over the defaults for Innova),
      and the read fails exactly when fewer than seven are there. */
  lemma DecodeRatesOfFields(d: Dialect, head: string, fs: seq<string>, rest: string, slots: seq<Option<VATRate>>)
    requires IsTable(slots) && |fs| <= 7 && '/' !in head
    requires RateFields(d.ratesStopEarly, fs)
    requires |fs| < 7 ==> '/' !in rest
    ensures DecodeRates(d, head + (['/'] + (Seqs.Terminated(fs, '/') + rest)), slots) ==
      (Spliced(if d.ratesStopEarly then InnovaDefaults else slots, 0, fs), if |fs| == 7 then Success(()) else Failure(IndexOutOfBounds))
  {
    var body := Seqs.Terminated(fs, '/') + rest;
    var reply := head + (['/'] + body);
    var base := if d.ratesStopEarly then InnovaDefaults else slots;
    Seqs.CutAt(head, '/', body);
    assert AfterSlash(reply) == body;
    ReadSlotsOfFields(d.ratesStopEarly, fs, rest, base, 0);
    assert DecodeRates(d, reply, slots) == ReadSlots(d.ratesStopEarly, body, base, 0);
  }

  function Decoded(fs: seq<string>): (r: seq<Option<VATRate>>)
    ensures |r| == |fs| && forall k :: 0 <= k < |fs| ==> r[k] == DecodeRate(fs[k])
  {
    seq(|fs|, k requires 0 <= k < |fs| => DecodeRate(fs[k]))
  }

  /** The slots with those from `i` on replaced by the decoded fields. */
  function Spliced(slots: seq<Option<VATRate>>, i: nat, fs: seq<string>): (r: seq<Option<VATRate>>)
    requires i + |fs| <= |slots|
    ensures |r| == |slots|
  {
    Overwrite(slots, i, Decoded(fs))
  }

  /** `s` with the elements from `i` on replaced by `vs`. */
  function Overwrite<T>(s: seq<T>, i: nat, vs: seq<T>): (r: seq<T>)
    requires i + |vs| <= |s|
    ensures |r| == |s|
    ensures forall k :: 0 <= k < |r| ==> r[k] == if i <= k < i + |vs| then vs[k - i] else s[k]
  {
    s[..i] + vs + s[i + |vs|..]
  }

  /** Fields each ended by '/' fill the slots from `i` on, in order. When
      they run out before G and no '/' follows, the read throws, and the
      slots not reached keep what they held. */
  lemma {:induction false} ReadSlotsOfFields(stopEarly: bool, fs: seq<string>, rest: string, slots: seq<Option<VATRate>>, i: nat)
    requires IsTable(slots) && i + |fs| <= 7
    requires RateFields(stopEarly, fs)
    requires i + |fs| < 7 ==> '/' !in rest
    ensures ReadSlots(stopEarly, Seqs.Terminated(fs, '/') + rest, slots, i) ==
      (Spliced(slots, i, fs), if i + |fs| == 7 then Success(()) else Failure(IndexOutOfBounds))
    decreases |fs|
  {
    if |fs| == 0 {
      assert Seqs.Terminated(fs, '/') + rest == rest;
      ReadSlotsOfRest(stopEarly, rest, slots, i);
      assert slots == Spliced(slots, i, fs);
    } else {
      RateFieldsTail(stopEarly, fs);
      ReadSlotsCons(stopEarly, fs, rest, slots, i);
      ReadSlotsOfFields(stopEarly, fs[1..], rest, slots[i := DecodeRate(fs[0])], i + 1);
      SlotsSpliced(slots, i, fs);
    }
  }

  /** The Innova read stops at the first field without '.': the fields before
      it fill the slots from `i` on, the stop is not an error, and every slot
      after them keeps what it held (the defaults, in `DecodeRates`). */
  lemma {:induction false} ReadSlotsStopsEarly(fs: seq<string>, g: string, rest: string, slots: seq<Option<VATRate>>, i: nat)
    requires IsTable(slots) && i + |fs| < 7
    requires RateFields(true, fs)
    requires '/' !in g && '.' !in g
    ensures ReadSlots(true, Seqs.Terminated(fs, '/') + (g + ['/'] + rest), slots, i) == (Spliced(slots, i, fs), Success(()))
    decreases |fs|
  {
    if |fs| == 0 {
      assert Seqs.Terminated(fs, '/') + (g + ['/'] + rest) == g + (['/'] + rest);
      ReadSlotsStopsAt(g, rest, slots, i);
      assert slots == Spliced(slots, i, fs);
    } else {
      RateFieldsTail(true, fs);
      ReadSlotsCons(true, fs, g + ['/'] + rest, slots, i);
      ReadSlotsStopsEarly(fs[1..], g, rest, slots[i := DecodeRate(fs[0])], i + 1);
      SlotsSpliced(slots, i, fs);
    }
  }

  /** A field without '.' ends the Innova reading and keeps every slot. */
  lemma ReadSlotsStopsAt(g: string, rest: string, slots: seq<Option<VATRate>>, i: nat)
    requires IsTable(slots) && i < 7
    requires '/' !in g && '.' !in g
    ensures ReadSlots(true, g + (['/'] + rest), slots, i) == (slots, Success(()))
  {
    Seqs.CutAt(g, '/', rest);
  }

  /** Each field is free of '/' and, when a field without '.' would end the
      reading, holds a '.'. */
  predicate RateFields(stopEarly: bool, fs: seq<string>)
  {
    forall k :: 0 <= k < |fs| ==> '/' !in fs[k] && (stopEarly ==> '.' in fs[k])
  }

  lemma RateFieldsTail(stopEarly: bool, fs: seq<string>)
    requires |fs| > 0 && RateFields(stopEarly, fs)
    ensures '/' !in fs[0] && (stopEarly ==> '.' in fs[0]) && RateFields(stopEarly, fs[1..])
  {
    assert forall k :: 0 <= k < |fs| - 1 ==> fs[1..][k] == fs[k + 1];
  }

  /** The first field read moves the reading to the next slot. */
  lemma ReadSlotsCons(stopEarly: bool, fs: seq<string>, rest: string, slots: seq<Option<VATRate>>, i: nat)
    requires IsTable(slots) && 0 < |fs| && i < 7
    requires '/' !in fs[0] && (stopEarly ==> '.' in fs[0])
    ensures ReadSlots(stopEarly, Seqs.Terminated(fs, '/') + rest, slots, i) ==
      ReadSlots(stopEarly, Seqs.Terminated(fs[1..], '/') + rest, slots[i := DecodeRate(fs[0])], i + 1)
  {
    Seqs.TerminatedCons(fs, rest, '/');
    ReadSlotsStep(stopEarly, fs[0], Seqs.Terminated(fs[1..], '/') + rest, slots, i);
  }

  /** Nothing left to read: done at G, otherwise the missing '/' throws. */
  lemma ReadSlotsOfRest(stopEarly: bool, rest: string, slots: seq<Option<VATRate>>, i: nat)
    requires IsTable(slots) && i <= 7
    requires i < 7 ==> '/' !in rest
    ensures ReadSlots(stopEarly, rest, slots, i) == (slots, if i == 7 then Success(()) else Failure(IndexOutOfBounds))
  {
  }

  /** One field and its '/' read into slot `i`. */
  lemma ReadSlotsStep(stopEarly: bool, f: string, u: string, slots: seq<Option<VATRate>>, i: nat)
    requires IsTable(slots) && i < 7
    requires '/' !in f && (stopEarly ==> '.' in f)
    ensures ReadSlots(stopEarly, f + ['/'] + u, slots, i) == ReadSlots(stopEarly, u, slots[i := DecodeRate(f)], i + 1)
  {
    var t := f + (['/'] + u);
    assert f + ['/'] + u == t;
    Seqs.CutAt(f, '/', u);
    assert t[..|f|] == f && t[|f| + 1..] == u;
    assert ReadSlots(stopEarly, t, slots, i) == ReadSlots(stopEarly, t[|f| + 1..], slots[i := DecodeRate(t[..|f|])], i + 1);
  }

  lemma SlotsSpliced(slots: seq<Option<VATRate>>, i: nat, fs: seq<string>)
    requires |fs| > 0 && i + |fs| <= |slots|
    ensures Spliced(slots[i := DecodeRate(fs[0])], i + 1, fs[1..]) == Spliced(slots, i, fs)
  {
    var vs := Decoded(fs);
    assert Decoded(fs[1..]) == vs[1..];
    OverwriteStep(slots, i, vs);
  }

  /** Writing the first value, then the rest one place further on, is
      writing them all. */
  lemma OverwriteStep<T>(s: seq<T>, i: nat, vs: seq<T>)
    requires |vs| > 0 && i + |vs| <= |s|
    ensures Overwrite(s[i := vs[0]], i + 1, vs[1..]) == Overwrite(s, i, vs)
  {
    var l := Overwrite(s[i := vs[0]], i + 1, vs[1..]);
    var r := Overwrite(s, i, vs);
    forall k | 0 <= k < |r|
      ensures l[k] == r[k]
    {
      if i + 1 <= k < i + |vs| {
        assert vs[1..][k - (i + 1)] == vs[k - i];
      }
    }
  }

  // ========================================================= error texts

  /** The status codes the Innova driver's `getErrDescription` has a text
      for: -1 (a timeout) and the printer's codes 0..14, 16..41, 80..83 and
      90..98. */
  predicate Listed(code: int) {
    -1 <= code <= 14 || 16 <= code <= 41 || 80 <= code <= 83 || 90 <= code <= 98
  }

  /** `getErrDescription`: the code, " : ", then its text. The printer's own
      texts are the parameter `texts`; a timeout reads "TIMEOUT" and a code
      without an entry "NIEZNAY BŁĄD", spelled as in the driver. */
  function ErrDescription(code: int, texts: int -> string): (r: string)
    ensures |JavaText.IntText(code)| + 3 <= |r|
    ensures r[..|JavaText.IntText(code)| + 3] == JavaText.IntText(code) + " : "
    ensures code == -1 ==> r[|JavaText.IntText(code)| + 3..] == "TIMEOUT"
    ensures !Listed(code) ==> r[|JavaText.IntText(code)| + 3..] == "NIEZNAY BŁĄD"
    ensures Listed(code) && code != -1 ==> r[|JavaText.IntText(code)| + 3..] == texts(code)
  {
    var t := if code == -1 then "TIMEOUT" else if Listed(code) then texts(code) else "NIEZNAY BŁĄD";
    JavaText.IntText(code) + " : " + t
  }

  /** The code is recoverable from its description: the text before the
      first " : " parses back, as a byte, to the code. */
  lemma ErrDescriptionNamesCode(code: int, texts: int -> string)
    requires -128 <= code <= 127
    ensures Seqs.IndexOfSeq(ErrDescription(code, texts), " : ") == |JavaText.IntText(code)|
    ensures JavaText.ParseByte(ErrDescription(code, texts)[..|JavaText.IntText(code)|]) == Some(code)
  {
    var c := JavaText.IntText(code);
    var s := ErrDescription(code, texts);
    JavaText.IntTextNoBlank(code);
    assert Seqs.OccursAt(s, " : ", |c|);
    forall i | 0 <= i < |c|
      ensures !Seqs.OccursAt(s, " : ", i)
    {
      assert s[i] == c[i];
    }
    assert s[..|c|] == c;
    JavaText.ParseByteOfText(code);
  }
}

=== FILE: escdriver.dfy ===
/** The engine shared by the four ESC-framed drivers: the control bytes (CAN,
    DLE, ENQ) and the flags they bring back, the command exchange with its
    status answer, and the flows `print`, `openDrawer` and
    `printDailyReport`. What differs between the drivers is read from the
    `Dialect`. The driver object's fields (connection flag, DLE and ENQ
    flags, the rate table) live in a `Session` that each step hands on. */
module EscDriver {
  import opened Wrappers
  import opened Faults
  import opened BitsAndBytes
  import opened Datamodel
  import opened Link
  import opened EscDialect
  import EscFrame
  import EscTexts
  import Charset
  import ToString
  import Slips
  import JavaText
  import Numbers
  import Seqs

  /** The fields of a driver object. `connected` is `printerConnected`. */
  datatype Session = Session(
    link: Link,
    connected: bool,
    dle: EscFrame.DleFlags,
    enq: EscFrame.EnqFlags,
    slots: seq<Option<VATRate>>)

  /** A fresh driver object on an open line: not known to be connected, all
      flags clear and every rate slot `null`. */
  function Fresh(l: Link): (s: Session)
    ensures s.link == l && !s.connected && IsTable(s.slots)
  {
    Session(l, false, EscFrame.DleFlags(false, false, false), EscFrame.EnqFlags(false, false, false, false), Unread)
  }

  /** The session after a step, and whether the step threw. */
  datatype Outcome = Outcome(session: Session, result: Result<(), Fault>) {
    predicate IsFailure() {
      result.Failure?
    }

    function PropagateFailure(): Outcome
      requires result.Failure?
    {
      this
    }

    function Extract(): Session
      requires result.Success?
    {
      session
    }
  }

  function Ok(s: Session): (o: Outcome)
    ensures o.session == s && o.result.Success?
  {
    Outcome(s, Success(()))
  }

  // ========================================================= control bytes

  /** `readOneByteAnswer` (Optimus Vivo): one byte is read (an empty line
      reads as 0xFF); after an ESC the rest of the line is read and its last
      byte is the answer, otherwise the rest is thrown away. The line is
      empty afterwards. */
  function ReadOneByteAnswer(l: Link): (r: (byte, Link))
    ensures r.1.input == [] && r.1.sent == l.sent && r.1.replies == l.replies
    ensures |l.input| == 0 ==> r.0 == 0xFF
    ensures |l.input| > 0 && l.input[0] != EscFrame.ESC ==> r.0 == l.input[0]
    ensures |l.input| > 1 && l.input[0] == EscFrame.ESC ==> r.0 == l.input[|l.input| - 1]
  {
    var (b, l1) := ReadCast(l);
    var answer := if b == EscFrame.ESC && |l1.input| > 0 then l1.input[|l1.input| - 1] else b;
    (answer, Flush(l1))
  }

  /** The answer to a one-byte request: one `read()`, or `readOneByteAnswer`. */
  function Answer(d: Dialect, l: Link): (r: (byte, Link))
    ensures r.1.sent == l.sent && r.1.replies == l.replies
  {
    if d.oneByteAnswers then ReadOneByteAnswer(l) else ReadCast(l)
  }

  /** `sendCAN`: the byte is written; the Vivo driver then reads an answer. */
  function SendCan(d: Dialect, s: Session): (r: Session)
    ensures r.link.sent == s.link.sent + [[CAN]]
    ensures r.connected == s.connected && r.slots == s.slots
  {
    var l := Write(s.link, [CAN]);
    s.(link := if d.oneByteAnswers then ReadOneByteAnswer(l).1 else l)
  }

  /** `sendDLE`: the byte is written; a byte waiting on the line marks the
      printer connected and is read as the DLE flags, and none marks it
      disconnected. */
  function SendDle(d: Dialect, s: Session): (r: Session)
    ensures r.link.sent == s.link.sent + [[DLE]]
    ensures r.slots == s.slots && r.enq == s.enq
  {
    var l := Write(s.link, [DLE]);
    if |l.input| == 0 then s.(link := l, connected := false)
    else
      var (b, l2) := Answer(d, l);
      s.(link := l2, connected := true, dle := EscFrame.DecodeDLE(b))
  }

  /** `sendENQ`: nothing at all when disconnected; otherwise the byte is
      written and a byte waiting is read as the ENQ flags. */
  function SendEnq(d: Dialect, s: Session): (r: Session)
    ensures r.connected == s.connected && r.slots == s.slots && r.dle == s.dle
    ensures !s.connected ==> r == s
    ensures s.connected ==> r.link.sent == s.link.sent + [[ENQ]]
  {
    if !s.connected then s
    else
      var l := Write(s.link, [ENQ]);
      if |l.input| == 0 then s.(link := l)
      else
        var (b, l2) := Answer(d, l);
        s.(link := l2, enq := EscFrame.DecodeENQ(b))
  }

  /** One control byte of `reset`: CAN and DLE always go out, ENQ only to
      a printer that counts as connected. */
  function SendControl(d: Dialect, s: Session, b: byte): (r: Session)
    ensures r.slots == s.slots
    ensures IsControl(b) ==> r.link.sent == s.link.sent + (if b == ENQ && !s.connected then [] else [[b]])
  {
    if b == CAN then SendCan(d, s) else if b == DLE then SendDle(d, s) else SendEnq(d, s)
  }

  predicate IsControl(b: byte) {
    b == CAN || b == DLE || b == ENQ
  }

  /** The control bytes in order. */
  function SendControls(d: Dialect, s: Session, bs: seq<byte>): (r: Session)
    ensures r.slots == s.slots
    decreases |bs|
  {
    if |bs| == 0 then s else SendControls(d, SendControl(d, s, bs[0]), bs[1..])
  }

  /** `ts` is `bs` sent one byte at a time, with some of the ENQs left out. */
  predicate ControlsSent(ts: seq<seq<byte>>, bs: seq<byte>)
    decreases |bs|
  {
    if |bs| == 0 then ts == []
    else
      || (|ts| > 0 && ts[0] == [bs[0]] && ControlsSent(ts[1..], bs[1..]))
      || (bs[0] == ENQ && ControlsSent(ts, bs[1..]))
  }

  /** Control bytes go out in their order, each on its own, and only an ENQ
      can be left out. */
  lemma {:induction false} SendControlsInOrder(d: Dialect, s: Session, bs: seq<byte>)
    requires forall k :: 0 <= k < |bs| ==> IsControl(bs[k])
    ensures var r := SendControls(d, s, bs);
      |r.link.sent| >= |s.link.sent| && r.link.sent[..|s.link.sent|] == s.link.sent
      && ControlsSent(r.link.sent[|s.link.sent|..], bs)
    decreases |bs|
  {
    if |bs| > 0 {
      var s1 := SendControl(d, s, bs[0]);
      var r := SendControls(d, s1, bs[1..]);
      SendControlsInOrder(d, s1, bs[1..]);
      var ts := r.link.sent[|s1.link.sent|..];
      assert r.link.sent == s1.link.sent + ts;
      if bs[0] == ENQ && !s.connected {
        assert r.link.sent[|s.link.sent|..] == ts;
      } else {
        assert r.link.sent[|s.link.sent|..] == [[bs[0]]] + ts;
      }
    }
  }

  /** The next `n` transmissions are each answered with at least one byte. */
  predicate Answered(l: Link, n: nat) {
    n <= |l.replies| && forall k :: 0 <= k < n ==> |l.replies[k]| > 0
  }

  /** Every byte on its own. */
  function Singles(bs: seq<byte>): (ts: seq<seq<byte>>)
    ensures |ts| == |bs| && forall k :: 0 <= k < |bs| ==> ts[k] == [bs[k]]
  {
    seq(|bs|, k requires 0 <= k < |bs| => [bs[k]])
  }

  /** A connected printer that answers every control byte stays connected,
      and then nothing is left out. */
  lemma {:induction false} AnsweredControls(d: Dialect, s: Session, bs: seq<byte>)
    requires forall k :: 0 <= k < |bs| ==> IsControl(bs[k])
    requires s.connected && Answered(s.link, |bs|)
    ensures SendControls(d, s, bs).link.sent == s.link.sent + Singles(bs)
    ensures SendControls(d, s, bs).connected
    decreases |bs|
  {
    if |bs| > 0 {
      var s1 := SendControl(d, s, bs[0]);
      var rest := bs[1..];
      AnsweredStep(d, s, bs);
      ControlsTail(bs);
      AnsweredControls(d, s1, rest);
      assert Singles(bs) == [[bs[0]]] + Singles(rest);
    }
  }

  /** One answered control byte: sent on its own, the printer still
      connected, one answer fewer waiting. */
  lemma AnsweredStep(d: Dialect, s: Session, bs: seq<byte>)
    requires |bs| > 0 && IsControl(bs[0])
    requires s.connected && Answered(s.link, |bs|)
    ensures var s1 := SendControl(d, s, bs[0]);
      SendControls(d, s, bs) == SendControls(d, s1, bs[1..]) &&
      s1.connected && s1.link.sent == s.link.sent + [[bs[0]]] && Answered(s1.link, |bs| - 1)
  {
    var s1 := SendControl(d, s, bs[0]);
    ControlAnswered(d, s, bs[0]);
    AnsweredTail(s.link, s1.link, |bs| - 1);
  }

  lemma ControlsTail(bs: seq<byte>)
    requires |bs| > 0 && forall k :: 0 <= k < |bs| ==> IsControl(bs[k])
    ensures forall k :: 0 <= k < |bs| - 1 ==> IsControl(bs[1..][k])
  {
  }

  lemma AnsweredTail(l: Link, l': Link, n: nat)
    requires Answered(l, n + 1) && l'.replies == l.replies[1..]
    ensures Answered(l', n)
  {
    forall k | 0 <= k < n
      ensures |l'.replies[k]| > 0
    {
      assert l'.replies[k] == l.replies[k + 1];
    }
  }

  /** A control byte the printer answers keeps it connected. */
  lemma ControlAnswered(d: Dialect, s: Session, b: byte)
    requires IsControl(b) && s.connected && |s.link.replies| > 0 && |s.link.replies[0]| > 0
    ensures SendControl(d, s, b).connected && SendControl(d, s, b).link.replies == s.link.replies[1..]
  {
    var l := Write(s.link, [b]);
    assert l.replies == s.link.replies[1..] && |l.input| > 0;
  }

  lemma ResetCodesAreControls(d: Dialect)
    ensures forall k :: 0 <= k < |ResetCodes(d)| ==> IsControl(ResetCodes(d)[k])
  {
    var round := Seqs.Repeat([CAN], d.roundCans) + [DLE, ENQ];
    RepeatControls([CAN], d.leadingCans);
    RepeatControls([CAN], d.roundCans);
    RepeatControls(round, d.rounds);
  }

  lemma {:induction false} RepeatControls(bs: seq<byte>, n: nat)
    requires forall k :: 0 <= k < |bs| ==> IsControl(bs[k])
    ensures forall k :: 0 <= k < |Seqs.Repeat(bs, n)| ==> IsControl(Seqs.Repeat(bs, n)[k])
  {
    if n > 0 {
      RepeatControls(bs, n - 1);
      assert Seqs.Repeat(bs, n) == bs + Seqs.Repeat(bs, n - 1);
    }
  }

  /** `reset`: the driver's CAN, DLE and ENQ pattern, one byte per
      transmission and in order; an ENQ is skipped while the printer counts
      as disconnected. */
  function Reset(d: Dialect, s: Session): (r: Session)
    ensures r.slots == s.slots
    ensures |r.link.sent| >= |s.link.sent| && r.link.sent[..|s.link.sent|] == s.link.sent
    ensures ControlsSent(r.link.sent[|s.link.sent|..], ResetCodes(d))
    ensures s.connected && Answered(s.link, |ResetCodes(d)|) ==>
      r.link.sent == s.link.sent + Singles(ResetCodes(d)) && r.connected
  {
    ResetCodesAreControls(d);
    SendControlsInOrder(d, s, ResetCodes(d));
    if s.connected && Answered(s.link, |ResetCodes(d)|) then
      AnsweredControls(d, s, ResetCodes(d));
      SendControls(d, s, ResetCodes(d))
    else SendControls(d, s, ResetCodes(d))
  }

  /** `flushStreams`: whatever waits on the line is read and dropped. */
  function FlushSession(s: Session): (r: Session)
    ensures r.link.input == [] && r.link.sent == s.link.sent && r.link.replies == s.link.replies
    ensures r.connected == s.connected && r.slots == s.slots && r.enq == s.enq && r.dle == s.dle
  {
    s.(link := Flush(s.link))
  }

  /** DLE and ENQ after a command: the ENQ goes out only when something
      answers the DLE, or was already waiting. */
  function Poll(d: Dialect, s: Session): (r: Session)
    ensures r.slots == s.slots
    ensures r.connected <==> |s.link.input| > 0 || (|s.link.replies| > 0 && |s.link.replies[0]| > 0)
    ensures r.link.sent == s.link.sent + (if r.connected then [[DLE], [ENQ]] else [[DLE]])
  {
    SendEnq(d, SendDle(d, s))
  }

  // ============================================================= commands

  /** One command frame out (with its check bytes unless `checked` is false),
      and `readSeq` for the answer. */
  function Exchange(s: Session, payload: seq<byte>, checked: bool): (r: (string, Session))
    ensures r.1.link.sent == s.link.sent + [EscFrame.Frame(payload, checked)]
    ensures r.1.connected == s.connected && r.1.slots == s.slots && r.1.enq == s.enq && r.1.dle == s.dle
  {
    var (text, l) := EscFrame.ReadSeq(Write(s.link, EscFrame.Frame(payload, checked)));
    (text, s.(link := l))
  }

  /** The common shape of a command: nothing when disconnected; otherwise
      the frame, the status answer (`decodeLBERSTS`), which throws when
      nonzero, then DLE and ENQ. */
  function Command(d: Dialect, s: Session, payload: seq<byte>): (o: Outcome)
    ensures o.session.slots == s.slots
    ensures !s.connected ==> o == Ok(s)
    ensures s.connected ==> (|o.session.link.sent| > |s.link.sent| &&
      o.session.link.sent[..|s.link.sent| + 1] == s.link.sent + [EscFrame.Frame(payload, true)])
  {
    if !s.connected then Ok(s)
    else
      var (text, s1) := Exchange(s, payload, true);
      match EscFrame.DecodeStatus(d.stripsControl, text)
      case Failure(e) => Outcome(s1, Failure(e))
      case Success(code) =>
        if code != 0 then Outcome(s1, Failure(DeviceStatus(code)))
        else
          var s2 := Poll(d, s1);
          assert s2.link.sent[..|s.link.sent| + 1] == s1.link.sent by {
            PollSends(d, s1);
          }
          Ok(s2)
  }

  /** Polling only adds control writes. */
  lemma PollSends(d: Dialect, s: Session)
    ensures |Poll(d, s).link.sent| >= |s.link.sent| && Poll(d, s).link.sent[..|s.link.sent|] == s.link.sent
  {
    var s1 := SendDle(d, s);
    assert s1.link.sent[..|s.link.sent|] == s.link.sent;
    if s1.connected {
      assert Poll(d, s).link.sent == s1.link.sent + [[ENQ]];
    }
  }

  /** A text sent with `getBytes`. */
  function PlainBytes(t: string): seq<byte> {
    Charset.TextBytes(t)
  }

  /** A text sent with `string2Mazovia`. */
  function Mazovia(t: string): seq<byte> {
    ToString.String2Mazovia(t)
  }

  /** `sendLBSERM(ps)`: disconnected is "Brak komunikacji z drukarką.";
      a nonzero status throws only where the dialect is strict, and is
      logged otherwise. */
  function Serm(d: Dialect, s: Session, ps: int): (o: Outcome)
    ensures o.session.slots == s.slots
    ensures !s.connected ==> o == Outcome(s, Failure(NoCommunication))
  {
    if !s.connected then Outcome(s, Failure(NoCommunication))
    else
      var (text, s1) := Exchange(s, PlainBytes(EscTexts.Command(ps, '#', 'e')), true);
      match EscFrame.DecodeStatus(d.stripsControl, text)
      case Failure(e) => Outcome(s1, Failure(e))
      case Success(code) =>
        if code != 0 && d.strictErrorMode then Outcome(s1, Failure(DeviceStatus(code)))
        else Ok(Poll(d, s1))
  }

  /** `sendLBTREXITCAN`: `0$e`, then, in the dialects that do, the line is
      emptied. */
  function Cancel(d: Dialect, s: Session): (o: Outcome)
    ensures o.session.slots == s.slots
  {
    var o := Command(d, s, PlainBytes(EscTexts.Command(0, '$', 'e')));
    if s.connected && o.result.Success? && d.flushAfterCancel then Ok(FlushSession(o.session)) else o
  }

  /** `sendLBFSTRQ(ps)`: the request goes without check bytes; its answer is
      the rate table (which may throw half-way, keeping the slots read so
      far); the Thermal and Innova drivers then read a status answer. */
  function RateRequest(d: Dialect, s: Session, ps: int): (o: Outcome)
    requires IsTable(s.slots)
    ensures IsTable(o.session.slots)
    ensures !s.connected ==> o == Ok(s)
    ensures o.session.connected ==> s.connected
  {
    if !s.connected then Ok(s)
    else
      var (s2, read) := TableRead(d, s, ps);
      if read.Failure? then Outcome(s2, read)
      else if !d.statusAfterRates then Ok(Poll(d, s2))
      else StatusThenPoll(d, s2)
  }

  /** The request without check bytes, and the table read from its answer. */
  function TableRead(d: Dialect, s: Session, ps: int): (r: (Session, Result<(), Fault>))
    requires IsTable(s.slots)
    ensures IsTable(r.0.slots)
    ensures r.0.link.sent == s.link.sent + [EscFrame.Frame(PlainBytes(EscTexts.Command(ps, '#', 's')), false)]
    ensures r.0.connected == s.connected
  {
    var (text, s1) := Exchange(s, PlainBytes(EscTexts.Command(ps, '#', 's')), false);
    var (slots, read) := DecodeRates(d, text, s.slots);
    (s1.(slots := slots), read)
  }

  /** A status answer read on its own, then DLE and ENQ when it is 0. */
  function StatusThenPoll(d: Dialect, s: Session): (o: Outcome)
    ensures o.session.slots == s.slots
    ensures o.result.Success? ==> o.session == Poll(d, s.(link := EscFrame.ReadSeq(s.link).1))
  {
    var (text, l) := EscFrame.ReadSeq(s.link);
    var s1 := s.(link := l);
    match EscFrame.DecodeStatus(d.stripsControl, text)
    case Failure(e) => Outcome(s1, Failure(e))
    case Success(code) =>
      if code != 0 then Outcome(s1, Failure(DeviceStatus(code))) else Ok(Poll(d, s1))
  }

  // =============================================================== receipt

  /** `sendLBTRSLN` for line `no`. The rate letter is an argument of the
      call, so an unknown rate throws even when the printer is disconnected,
      and then nothing is sent; otherwise the line's text, with the letter
      of its rate's slot, is the next frame to a connected printer. */
  function SendLine(d: Dialect, s: Session, no: int, line: SaleLine): (o: Outcome)
    requires IsTable(s.slots)
    ensures o.session.slots == s.slots
    ensures FindPTU(s.slots, line.taxRate).Failure? ==> o == Outcome(s, Failure(UndefinedRate))
    ensures s.connected && FindPTU(s.slots, line.taxRate).Success? ==>
      |o.session.link.sent| > |s.link.sent| &&
      o.session.link.sent[..|s.link.sent| + 1] ==
        s.link.sent + [EscFrame.Frame(Mazovia(EscTexts.LineText(d, no, line, FindPTU(s.slots, line.taxRate).value)), true)]
  {
    match FindPTU(s.slots, line.taxRate)
    case Failure(e) => Outcome(s, Failure(e))
    case Success(ptu) => Command(d, s, Mazovia(EscTexts.LineText(d, no, line, ptu)))
  }

  /** The lines numbered from `no` on, stopping at the first that throws. */
  function SendLines(d: Dialect, s: Session, lines: seq<SaleLine>, no: int): (o: Outcome)
    requires IsTable(s.slots)
    ensures o.session.slots == s.slots
    decreases |lines|
  {
    if |lines| == 0 then Ok(s)
    else
      var s1 :- SendLine(d, s, no, lines[0]);
      SendLines(d, s1, lines[1..], no + 1)
  }

  /** The text of the closing command: `$y` with the prepared payment list
      (its reference handling may throw), or the Innova `$x` with its four
      slots. */
  function ClosingText(d: Dialect, slip: Slips.Slip): Result<string, Fault> {
    if d.closing.Trxend? then Success(EscTexts.TrxendText(Slips.Total(slip), PrepareInnova(slip)))
    else
      var c := d.closing;
      EscTexts.Trxend1Text(d.numbers, c.barcodeReference, c.footer, Slips.Total(slip), slip.cashbox,
                           slip.cashierName, slip.reference, PreparePayments(c.order, slip))
  }

  /** The closing command. Its text is only built once the printer is known
      to be connected; a text that cannot be built throws before anything is
      sent, and otherwise it is the next frame. */
  function SendClosing(d: Dialect, s: Session, slip: Slips.Slip): (o: Outcome)
    ensures o.session.slots == s.slots
    ensures !s.connected ==> o == Ok(s)
    ensures s.connected && ClosingText(d, slip).Failure? ==> o == Outcome(s, Failure(ClosingText(d, slip).error))
    ensures s.connected && ClosingText(d, slip).Success? ==>
      |o.session.link.sent| > |s.link.sent| &&
      o.session.link.sent[..|s.link.sent| + 1] == s.link.sent + [EscFrame.Frame(Mazovia(ClosingText(d, slip).value), true)]
  {
    if !s.connected then Ok(s)
    else
      match ClosingText(d, slip)
      case Failure(e) => Outcome(s, Failure(e))
      case Success(t) => Command(d, s, Mazovia(t))
  }

  /** `printSlip`: open the receipt (`0$h`), the lines, the closing, and the
      drawer (`1$d`). */
  function PrintSlip(d: Dialect, s: Session, slip: Slips.Slip): (o: Outcome)
    requires IsTable(s.slots)
    ensures o.session.slots == s.slots
  {
    var s1 :- Command(d, s, PlainBytes(EscTexts.Command(0, '$', 'h')));
    ReceiptBody(d, s1, slip)
  }

  /** The lines, the closing and the drawer. */
  function ReceiptBody(d: Dialect, s: Session, slip: Slips.Slip): (o: Outcome)
    requires IsTable(s.slots)
    ensures o.session.slots == s.slots
  {
    var s2 :- SendLines(d, s, slip.lines, 1);
    var s3 :- SendClosing(d, s2, slip);
    Command(d, s3, PlainBytes(EscTexts.Command(1, '$', 'd')))
  }

  /** `reset` and `flushStreams`, in the order of the dialect. */
  function Prepare(d: Dialect, s: Session): (r: Session)
    ensures r.slots == s.slots
  {
    if d.flushFirst then Reset(d, FlushSession(s)) else FlushSession(Reset(d, s))
  }

  /** A transaction left open is cancelled first. */
  function CancelPending(d: Dialect, s: Session): (o: Outcome)
    ensures o.session.slots == s.slots
  {
    if s.enq.inTransaction then Cancel(d, s) else Ok(s)
  }

  /** `print(Slip)` once the port is open: reset, error mode 3, cancel an
      open transaction, read the rate table (`23#s`), then the receipt. */
  function Print(d: Dialect, s: Session, slip: Slips.Slip): (o: Outcome)
    requires IsTable(s.slots)
    ensures IsTable(o.session.slots)
  {
    var s3 :- BeforeReceipt(d, s);
    PrintSlip(d, s3, slip)
  }

  /** What `print(Slip)` does before the receipt itself. */
  function BeforeReceipt(d: Dialect, s: Session): (o: Outcome)
    requires IsTable(s.slots)
    ensures IsTable(o.session.slots)
  {
    var s1 :- Serm(d, Prepare(d, s), 3);
    var s2 :- CancelPending(d, s1);
    RateRequest(d, s2, 23)
  }

  /** `openDrawer`: reset, error mode 3, `1$d`. */
  function OpenDrawer(d: Dialect, s: Session): (o: Outcome) {
    AfterErrorMode(d, Prepare(d, s), 3, PlainBytes(EscTexts.Command(1, '$', 'd')))
  }

  /** An error mode, then one command. */
  function AfterErrorMode(d: Dialect, s: Session, mode: int, payload: seq<byte>): (o: Outcome) {
    var s1 :- Serm(d, s, mode);
    Command(d, s1, payload)
  }

  /** `printDailyReport`: unsupported by the Innova and Vivo drivers, which
      throw before touching the line; otherwise reset, error mode 3, and the
      report for the day `now`. */
  function DailyReport(d: Dialect, s: Session, now: EscTexts.JavaDate): (o: Outcome)
    ensures !d.dailyReport ==> o == Outcome(s, Failure(UnsupportedOperation))
  {
    if !d.dailyReport then Outcome(s, Failure(UnsupportedOperation))
    else AfterErrorMode(d, Prepare(d, s), 3, PlainBytes(EscTexts.DayReportText(now)))
  }

  // ========================================================= frames sent

  /** The command frames among transmissions: everything but the one-byte
      control writes. */
  function CommandFrames(ts: seq<seq<byte>>): seq<seq<byte>>
    decreases |ts|
  {
    if |ts| == 0 then []
    else (if |ts[0]| > 1 then [ts[0]] else []) + CommandFrames(ts[1..])
  }

  lemma {:induction false} CommandFramesAppend(a: seq<seq<byte>>, b: seq<seq<byte>>)
    ensures CommandFrames(a + b) == CommandFrames(a) + CommandFrames(b)
    decreases |a|
  {
    if |a| == 0 {
      assert a + b == b;
    } else {
      assert (a + b)[0] == a[0] && (a + b)[1..] == a[1..] + b;
      CommandFramesAppend(a[1..], b);
    }
  }

  /** Going from `a` to `b`, the line kept what had been sent and then
      carried the command frames `frames`, in this order, between any number
      of control bytes. */
  predicate Carried(a: Link, b: Link, frames: seq<seq<byte>>) {
    |a.sent| <= |b.sent| && b.sent[..|a.sent|] == a.sent && CommandFrames(b.sent[|a.sent|..]) == frames
  }

  lemma CarriedSent(a: Link, b: Link, ts: seq<seq<byte>>)
    requires b.sent == a.sent + ts
    ensures Carried(a, b, CommandFrames(ts))
  {
    assert b.sent[|a.sent|..] == ts;
  }

  lemma CarriedTrans(a: Link, b: Link, c: Link, f: seq<seq<byte>>, g: seq<seq<byte>>)
    requires Carried(a, b, f) && Carried(b, c, g)
    ensures Carried(a, c, f + g)
  {
    assert c.sent[|a.sent|..] == b.sent[|a.sent|..] + c.sent[|b.sent|..];
    CommandFramesAppend(b.sent[|a.sent|..], c.sent[|b.sent|..]);
  }

  lemma CarriedNothing(a: Link)
    ensures Carried(a, a, [])
  {
    assert a.sent[|a.sent|..] == [];
  }

  /** Control bytes alone carry no command frame. */
  lemma {:induction false} ControlsCarryNothing(ts: seq<seq<byte>>, bs: seq<byte>)
    requires ControlsSent(ts, bs)
    ensures CommandFrames(ts) == []
    decreases |bs|
  {
    if |bs| > 0 {
      if |ts| > 0 && ts[0] == [bs[0]] && ControlsSent(ts[1..], bs[1..]) {
        ControlsCarryNothing(ts[1..], bs[1..]);
      } else {
        ControlsCarryNothing(ts, bs[1..]);
      }
    }
  }

  /** A command frame followed by the poll's control bytes. */
  lemma FramePolled(a: Link, b: Link, f: seq<byte>, polls: seq<seq<byte>>)
    requires |f| > 1 && b.sent == a.sent + [f] + polls
    requires forall k :: 0 <= k < |polls| ==> |polls[k]| == 1
    ensures Carried(a, b, [f])
  {
    assert b.sent == a.sent + ([f] + polls);
    CarriedSent(a, b, [f] + polls);
    CommandFramesAppend([f], polls);
    OneByteWrites(polls);
    assert CommandFrames([f]) == [f] + CommandFrames([f][1..]);
  }

  lemma {:induction false} OneByteWrites(ts: seq<seq<byte>>)
    requires forall k :: 0 <= k < |ts| ==> |ts[k]| == 1
    ensures CommandFrames(ts) == []
    decreases |ts|
  {
    if |ts| > 0 {
      OneByteWrites(ts[1..]);
    }
  }

  /** `reset` and `flushStreams` send no command frame. */
  lemma PrepareCarriesNothing(d: Dialect, s: Session)
    ensures Carried(s.link, Prepare(d, s).link, [])
  {
    var r := Reset(d, if d.flushFirst then FlushSession(s) else s);
    var from := if d.flushFirst then FlushSession(s) else s;
    ControlsCarryNothing(r.link.sent[|from.link.sent|..], ResetCodes(d));
    assert r.link.sent == from.link.sent + r.link.sent[|from.link.sent|..];
    CarriedSent(from.link, r.link, r.link.sent[|from.link.sent|..]);
    assert from.link.sent == s.link.sent;
    assert Prepare(d, s).link.sent == r.link.sent;
  }

  /** A command that succeeds and leaves the printer connected carried its
      one frame; a command never reconnects a printer. */
  lemma CommandCarries(d: Dialect, s: Session, payload: seq<byte>)
    ensures Command(d, s, payload).session.connected ==> s.connected
    ensures Command(d, s, payload).result.Success? && s.connected ==>
      Carried(s.link, Command(d, s, payload).session.link, [EscFrame.Frame(payload, true)])
  {
    var o := Command(d, s, payload);
    if o.result.Success? && s.connected {
      var s1 := Exchange(s, payload, true).1;
      assert o.session == Poll(d, s1);
      var polls := if o.session.connected then [[DLE], [ENQ]] else [[DLE]];
      FramePolled(s.link, o.session.link, EscFrame.Frame(payload, true), polls);
    }
  }

  /** The error-mode command succeeds only on a connected printer, and then
      carried its one frame. */
  lemma SermCarries(d: Dialect, s: Session, ps: int)
    ensures Serm(d, s, ps).result.Success? ==>
      s.connected && Carried(s.link, Serm(d, s, ps).session.link, [EscFrame.Frame(PlainBytes(EscTexts.Command(ps, '#', 'e')), true)])
  {
    var o := Serm(d, s, ps);
    if o.result.Success? {
      var payload := PlainBytes(EscTexts.Command(ps, '#', 'e'));
      var s1 := Exchange(s, payload, true).1;
      assert o.session == Poll(d, s1);
      var polls := if o.session.connected then [[DLE], [ENQ]] else [[DLE]];
      FramePolled(s.link, o.session.link, EscFrame.Frame(payload, true), polls);
    }
  }

  /** A pending transaction is cancelled with `0$e`; nothing goes out when
      none is pending. */
  lemma CancelPendingCarries(d: Dialect, s: Session)
    ensures CancelPending(d, s).session.connected ==> s.connected
    ensures CancelPending(d, s).result.Success? && CancelPending(d, s).session.connected ==>
      Carried(s.link, CancelPending(d, s).session.link,
              if s.enq.inTransaction then [EscFrame.Frame(PlainBytes(EscTexts.Command(0, '$', 'e')), true)] else [])
  {
    CommandCarries(d, s, PlainBytes(EscTexts.Command(0, '$', 'e')));
    CarriedNothing(s.link);
  }

  /** The rate request carried its one frame, the one without check bytes. */
  lemma RateRequestCarries(d: Dialect, s: Session, ps: int)
    requires IsTable(s.slots)
    ensures RateRequest(d, s, ps).result.Success? && s.connected ==>
      Carried(s.link, RateRequest(d, s, ps).session.link, [EscFrame.Frame(PlainBytes(EscTexts.Command(ps, '#', 's')), false)])
  {
    if RateRequest(d, s, ps).result.Success? && s.connected {
      RateRequestPolls(d, s, ps);
      PolledCarries(d, PolledFrom(d, s, ps), s.link, EscFrame.Frame(PlainBytes(EscTexts.Command(ps, '#', 's')), false));
    }
  }

  /** Polling after a frame leaves that frame the only one carried. */
  lemma PolledCarries(d: Dialect, before: Session, a: Link, f: seq<byte>)
    requires |f| > 1 && before.link.sent == a.sent + [f]
    ensures Carried(a, Poll(d, before).link, [f])
  {
    var r := Poll(d, before);
    FramePolled(a, r.link, f, if r.connected then [[DLE], [ENQ]] else [[DLE]]);
  }

  /** The session a successful rate request polls from: its frame has gone
      out and the answers have been read. */
  function PolledFrom(d: Dialect, s: Session, ps: int): (r: Session)
    requires IsTable(s.slots)
    ensures r.link.sent == s.link.sent + [EscFrame.Frame(PlainBytes(EscTexts.Command(ps, '#', 's')), false)]
  {
    var s2 := TableRead(d, s, ps).0;
    if d.statusAfterRates then s2.(link := EscFrame.ReadSeq(s2.link).1) else s2
  }

  lemma RateRequestPolls(d: Dialect, s: Session, ps: int)
    requires IsTable(s.slots) && s.connected && RateRequest(d, s, ps).result.Success?
    ensures RateRequest(d, s, ps).session == Poll(d, PolledFrom(d, s, ps))
  {
    var s2 := TableRead(d, s, ps).0;
    if d.statusAfterRates {
      assert RateRequest(d, s, ps) == StatusThenPoll(d, s2);
    }
  }

  /** The line frames of a receipt: each line's text with its rate's letter,
      numbered from `no`, up to the first line whose rate has no slot. */
  function LineFrames(d: Dialect, slots: seq<Option<VATRate>>, lines: seq<SaleLine>, no: int): seq<seq<byte>>
    requires IsTable(slots)
    decreases |lines|
  {
    if |lines| == 0 then []
    else
      match FindPTU(slots, lines[0].taxRate)
      case Failure(_) => []
      case Success(ptu) =>
        [EscFrame.Frame(Mazovia(EscTexts.LineText(d, no, lines[0], ptu)), true)] + LineFrames(d, slots, lines[1..], no + 1)
  }

  lemma SendLineCarries(d: Dialect, s: Session, no: int, line: SaleLine)
    requires IsTable(s.slots)
    ensures SendLine(d, s, no, line).session.connected ==> s.connected
    ensures SendLine(d, s, no, line).result.Success? && s.connected ==>
      Carried(s.link, SendLine(d, s, no, line).session.link,
              [EscFrame.Frame(Mazovia(EscTexts.LineText(d, no, line, FindPTU(s.slots, line.taxRate).value)), true)])
  {
    if FindPTU(s.slots, line.taxRate).Success? {
      CommandCarries(d, s, Mazovia(EscTexts.LineText(d, no, line, FindPTU(s.slots, line.taxRate).value)));
    }
  }

  /** Lines sent to a printer that is still connected at the end: every
      line's rate has a slot, and the lines' frames went out in order. */
  lemma {:induction false} SendLinesCarries(d: Dialect, s: Session, lines: seq<SaleLine>, no: int)
    requires IsTable(s.slots)
    ensures SendLines(d, s, lines, no).session.connected ==> s.connected
    ensures SendLines(d, s, lines, no).result.Success? && SendLines(d, s, lines, no).session.connected ==>
      RatesDefined(lines, s.slots) && Carried(s.link, SendLines(d, s, lines, no).session.link, LineFrames(d, s.slots, lines, no))
    decreases |lines|
  {
    if |lines| == 0 {
      CarriedNothing(s.link);
    } else {
      var o1 := SendLine(d, s, no, lines[0]);
      SendLineCarries(d, s, no, lines[0]);
      RatesDefinedCons(lines, s.slots);
      if o1.result.Success? {
        assert SendLines(d, s, lines, no) == SendLines(d, o1.session, lines[1..], no + 1);
        SendLinesCarries(d, o1.session, lines[1..], no + 1);
        var o := SendLines(d, s, lines, no);
        if o.result.Success? && o.session.connected {
          var ptu := FindPTU(s.slots, lines[0].taxRate).value;
          CarriedTrans(s.link, o1.session.link, o.session.link,
                       [EscFrame.Frame(Mazovia(EscTexts.LineText(d, no, lines[0], ptu)), true)],
                       LineFrames(d, s.slots, lines[1..], no + 1));
        }
      }
    }
  }

  /** The closing frame, when its text can be built. */
  function ClosingFrames(d: Dialect, slip: Slips.Slip): seq<seq<byte>> {
    match ClosingText(d, slip)
    case Failure(_) => []
    case Success(t) => [EscFrame.Frame(Mazovia(t), true)]
  }

  lemma SendClosingCarries(d: Dialect, s: Session, slip: Slips.Slip)
    ensures SendClosing(d, s, slip).session.connected ==> s.connected
    ensures SendClosing(d, s, slip).result.Success? && s.connected ==>
      ClosingText(d, slip).Success? && Carried(s.link, SendClosing(d, s, slip).session.link, ClosingFrames(d, slip))
  {
    if s.connected && ClosingText(d, slip).Success? {
      CommandCarries(d, s, Mazovia(ClosingText(d, slip).value));
    }
  }

  /** The frames of a receipt: `0$h`, the lines, the closing, `1$d`. */
  function SlipFrames(d: Dialect, slots: seq<Option<VATRate>>, slip: Slips.Slip): seq<seq<byte>>
    requires IsTable(slots)
  {
    [EscFrame.Frame(PlainBytes(EscTexts.Command(0, '$', 'h')), true)] + BodyFrames(d, slots, slip)
  }

  /** A receipt printed on a printer still connected at the end: every
      line's rate has a slot, the closing text could be built, and the frames
      went out in the receipt's order. */
  lemma PrintSlipCarries(d: Dialect, s: Session, slip: Slips.Slip)
    requires IsTable(s.slots)
    ensures PrintSlip(d, s, slip).session.connected ==> s.connected
    ensures PrintSlip(d, s, slip).result.Success? && PrintSlip(d, s, slip).session.connected ==>
      RatesDefined(slip.lines, s.slots) && ClosingText(d, slip).Success? &&
      Carried(s.link, PrintSlip(d, s, slip).session.link, SlipFrames(d, s.slots, slip))
  {
    var open := PlainBytes(EscTexts.Command(0, '$', 'h'));
    var o1 := Command(d, s, open);
    CommandCarries(d, s, open);
    if o1.result.Success? {
      var o := ReceiptBody(d, o1.session, slip);
      ReceiptBodyCarries(d, o1.session, slip);
      assert PrintSlip(d, s, slip) == o;
      if o.result.Success? && o.session.connected {
        CarriedTrans(s.link, o1.session.link, o.session.link, [EscFrame.Frame(open, true)], BodyFrames(d, s.slots, slip));
      }
    }
  }

  /** The frames of the receipt after its opening. */
  function BodyFrames(d: Dialect, slots: seq<Option<VATRate>>, slip: Slips.Slip): seq<seq<byte>>
    requires IsTable(slots)
  {
    LineFrames(d, slots, slip.lines, 1) + ClosingFrames(d, slip) + [EscFrame.Frame(PlainBytes(EscTexts.Command(1, '$', 'd')), true)]
  }

  lemma ReceiptBodyCarries(d: Dialect, s: Session, slip: Slips.Slip)
    requires IsTable(s.slots)
    ensures ReceiptBody(d, s, slip).session.connected ==> s.connected
    ensures ReceiptBody(d, s, slip).result.Success? && ReceiptBody(d, s, slip).session.connected ==>
      RatesDefined(slip.lines, s.slots) && ClosingText(d, slip).Success? &&
      Carried(s.link, ReceiptBody(d, s, slip).session.link, BodyFrames(d, s.slots, slip))
  {
    var drawer := PlainBytes(EscTexts.Command(1, '$', 'd'));
    var o2 := SendLines(d, s, slip.lines, 1);
    SendLinesCarries(d, s, slip.lines, 1);
    if o2.result.Success? {
      var o3 := SendClosing(d, o2.session, slip);
      SendClosingCarries(d, o2.session, slip);
      if o3.result.Success? {
        var o := Command(d, o3.session, drawer);
        CommandCarries(d, o3.session, drawer);
        assert ReceiptBody(d, s, slip) == o;
        if o.result.Success? && o.session.connected {
          CarriedTrans(s.link, o2.session.link, o3.session.link, LineFrames(d, s.slots, slip.lines, 1), ClosingFrames(d, slip));
          CarriedTrans(s.link, o3.session.link, o.session.link,
                       LineFrames(d, s.slots, slip.lines, 1) + ClosingFrames(d, slip), [EscFrame.Frame(drawer, true)]);
        }
      }
    }
  }

  /** What `print(Slip)` sends after `reset` and `flushStreams` when it
      succeeds on a printer still connected at the end: error mode 3, `0$e`
      exactly when the ENQ flags the error-mode command brought back report
      an open transaction, the rate request, then the receipt's frames with
      the rates that request read. */
  lemma PrintCarries(d: Dialect, s: Session, slip: Slips.Slip)
    requires IsTable(s.slots)
    ensures var o := Print(d, s, slip);
      var pending := Serm(d, Prepare(d, s), 3).session.enq.inTransaction;
      o.result.Success? && o.session.connected ==>
        RatesDefined(slip.lines, o.session.slots) && ClosingText(d, slip).Success? &&
        Carried(Prepare(d, s).link, o.session.link, PreludeFrames(pending) + SlipFrames(d, o.session.slots, slip))
  {
    var o3 := BeforeReceipt(d, s);
    BeforeReceiptCarries(d, s);
    if o3.result.Success? {
      var o := PrintSlip(d, o3.session, slip);
      PrintSlipCarries(d, o3.session, slip);
      assert Print(d, s, slip) == o;
      if o.result.Success? && o.session.connected {
        CarriedTrans(Prepare(d, s).link, o3.session.link, o.session.link,
                     PreludeFrames(Serm(d, Prepare(d, s), 3).session.enq.inTransaction), SlipFrames(d, o3.session.slots, slip));
      }
    }
  }

  /** Error mode 3, `0$e` when a transaction is `pending`, and the rate
      request. */
  function PreludeFrames(pending: bool): seq<seq<byte>> {
    [EscFrame.Frame(PlainBytes(EscTexts.Command(3, '#', 'e')), true)]
      + (if pending then [EscFrame.Frame(PlainBytes(EscTexts.Command(0, '$', 'e')), true)] else [])
      + [EscFrame.Frame(PlainBytes(EscTexts.Command(23, '#', 's')), false)]
  }

  lemma BeforeReceiptCarries(d: Dialect, s: Session)
    requires IsTable(s.slots)
    ensures var o := BeforeReceipt(d, s);
      o.session.connected ==> Prepare(d, s).connected
    ensures var o := BeforeReceipt(d, s);
      o.result.Success? && o.session.connected ==>
        Carried(Prepare(d, s).link, o.session.link, PreludeFrames(Serm(d, Prepare(d, s), 3).session.enq.inTransaction))
  {
    var p := Prepare(d, s);
    var o1 := Serm(d, p, 3);
    SermCarries(d, p, 3);
    if o1.result.Success? {
      var o2 := CancelPending(d, o1.session);
      CancelPendingCarries(d, o1.session);
      if o2.result.Success? {
        var o3 := RateRequest(d, o2.session, 23);
        RateRequestCarries(d, o2.session, 23);
        if o3.result.Success? && o3.session.connected {
          var f1 := [EscFrame.Frame(PlainBytes(EscTexts.Command(3, '#', 'e')), true)];
          var f2 := if o1.session.enq.inTransaction then [EscFrame.Frame(PlainBytes(EscTexts.Command(0, '$', 'e')), true)] else [];
          var f3 := [EscFrame.Frame(PlainBytes(EscTexts.Command(23, '#', 's')), false)];
          CarriedTrans(p.link, o1.session.link, o2.session.link, f1, f2);
          CarriedTrans(p.link, o2.session.link, o3.session.link, f1 + f2, f3);
        }
      }
    }
  }

  /** A command after the error mode sends the error mode's frame and then
      its own. */
  lemma AfterErrorModeCarries(d: Dialect, p: Session, mode: int, payload: seq<byte>)
    ensures var o := AfterErrorMode(d, p, mode, payload);
      o.result.Success? && o.session.connected ==>
        Carried(p.link, o.session.link,
          [EscFrame.Frame(PlainBytes(EscTexts.Command(mode, '#', 'e')), true), EscFrame.Frame(payload, true)])
  {
    var o1 := Serm(d, p, mode);
    SermCarries(d, p, mode);
    if o1.result.Success? {
      CommandCarries(d, o1.session, payload);
      var o := Command(d, o1.session, payload);
      if o.result.Success? && o.session.connected {
        CarriedTrans(p.link, o1.session.link, o.session.link,
                     [EscFrame.Frame(PlainBytes(EscTexts.Command(mode, '#', 'e')), true)], [EscFrame.Frame(payload, true)]);
      }
    }
  }

  /** `openDrawer` sends error mode 3 and `1$d`; `printDailyReport` sends
      error mode 3 and the report for the day. */
  lemma DrawerAndReportCarry(d: Dialect, s: Session, now: EscTexts.JavaDate)
    ensures var o := OpenDrawer(d, s);
      o.result.Success? && o.session.connected ==>
        Carried(Prepare(d, s).link, o.session.link,
          [EscFrame.Frame(PlainBytes(EscTexts.Command(3, '#', 'e')), true),
           EscFrame.Frame(PlainBytes(EscTexts.Command(1, '$', 'd')), true)])
    ensures var o := DailyReport(d, s, now);
      o.result.Success? && o.session.connected ==>
        d.dailyReport &&
        Carried(Prepare(d, s).link, o.session.link,
          [EscFrame.Frame(PlainBytes(EscTexts.Command(3, '#', 'e')), true),
           EscFrame.Frame(PlainBytes(EscTexts.DayReportText(now)), true)])
  {
    AfterErrorModeCarries(d, Prepare(d, s), 3, PlainBytes(EscTexts.Command(1, '$', 'd')));
    AfterErrorModeCarries(d, Prepare(d, s), 3, PlainBytes(EscTexts.DayReportText(now)));
  }

  // ====================================================== a silent printer

  /** Nothing waits on the line and nothing will ever be answered. */
  predicate Silent(l: Link) {
    l.input == [] && forall k :: 0 <= k < |l.replies| ==> l.replies[k] == []
  }

  /** Between `a` and `b` only one-byte control writes went out. */
  predicate OnlyControls(a: Link, b: Link) {
    |a.sent| <= |b.sent| && b.sent[..|a.sent|] == a.sent &&
    forall k :: |a.sent| <= k < |b.sent| ==> |b.sent[k]| == 1
  }

  lemma SilentWrite(l: Link, data: seq<byte>)
    requires Silent(l)
    ensures Silent(Write(l, data))
  {
    var r := Write(l, data);
    if |l.replies| > 0 {
      assert r.input == [] + l.replies[0];
      forall k | 0 <= k < |r.replies|
        ensures r.replies[k] == []
      {
        assert r.replies[k] == l.replies[k + 1];
      }
    }
  }

  /** A control byte on a silent line: the line stays silent, one byte goes
      out, and a DLE finds the printer disconnected. */
  lemma SilentControl(d: Dialect, s: Session, b: byte)
    requires Silent(s.link)
    ensures var r := SendControl(d, s, b);
      Silent(r.link) && OnlyControls(s.link, r.link) &&
      (b == DLE ==> !r.connected) && (b != DLE ==> r.connected == s.connected)
  {
    var l := Write(s.link, [b]);
    SilentWrite(s.link, [b]);
    assert l.input == [];
    var r := SendControl(d, s, b);
    if b == CAN {
      assert r.link == l || r.link == ReadOneByteAnswer(l).1;
      assert ReadOneByteAnswer(l).1 == l;
    } else if b == DLE {
      assert r == SendDle(d, s);
    } else {
      assert r == SendEnq(d, s);
    }
  }

  /** Control bytes on a silent line leave it silent, send only themselves,
      and once a DLE has gone out the printer counts as disconnected. */
  lemma {:induction false} SilentControls(d: Dialect, s: Session, bs: seq<byte>)
    requires Silent(s.link)
    ensures var r := SendControls(d, s, bs);
      Silent(r.link) && OnlyControls(s.link, r.link) &&
      (DLE in bs ==> !r.connected) && (DLE !in bs ==> r.connected == s.connected)
    decreases |bs|
  {
    if |bs| > 0 {
      var s1 := SendControl(d, s, bs[0]);
      SilentControl(d, s, bs[0]);
      SilentControls(d, s1, bs[1..]);
      assert bs == [bs[0]] + bs[1..];
      var r := SendControls(d, s, bs);
      assert r == SendControls(d, s1, bs[1..]);
      assert r.link.sent[..|s.link.sent|] == s.link.sent by {
        assert r.link.sent[..|s1.link.sent|] == s1.link.sent;
        assert s1.link.sent[..|s.link.sent|] == s.link.sent;
      }
    }
  }

  /** Every reset pattern of the four drivers holds a DLE. */
  lemma ResetHasDle(d: Dialect)
    requires d.rounds >= 1
    ensures DLE in ResetCodes(d)
  {
    var round := Seqs.Repeat([CAN], d.roundCans) + [DLE, ENQ];
    var rounds := Seqs.Repeat(round, d.rounds);
    assert rounds == round + Seqs.Repeat(round, d.rounds - 1);
    assert round[|round| - 2] == DLE;
    assert rounds[|round| - 2] == DLE;
    var codes := ResetCodes(d);
    assert codes[|Seqs.Repeat([CAN], d.leadingCans)| + |round| - 2] == DLE;
  }

  /** A printer that never answers: `print` sends nothing but the reset's
      control bytes and throws "no communication" at the error-mode
      command; so do `openDrawer` and, where it is supported, the daily
      report. */
  lemma SilentPrinter(d: Dialect, s: Session, slip: Slips.Slip, now: EscTexts.JavaDate)
    requires IsTable(s.slots) && Silent(s.link) && d.rounds >= 1
    ensures Print(d, s, slip) == Outcome(Prepare(d, s), Failure(NoCommunication))
    ensures OpenDrawer(d, s) == Outcome(Prepare(d, s), Failure(NoCommunication))
    ensures d.dailyReport ==> DailyReport(d, s, now) == Outcome(Prepare(d, s), Failure(NoCommunication))
    ensures OnlyControls(s.link, Prepare(d, s).link)
  {
    ResetHasDle(d);
    var p := Prepare(d, s);
    if d.flushFirst {
      var f := FlushSession(s);
      assert Silent(f.link);
      SilentControls(d, f, ResetCodes(d));
    } else {
      SilentControls(d, s, ResetCodes(d));
    }
    assert !p.connected;
  }

  // ====================================================== a dropped line

  /** Once the printer counts as disconnected the receipt's commands are
      skipped without a word: nothing goes out and the session is
      unchanged. Only the rate lookups still run, so the receipt "prints"
      exactly when every line's rate is in the table. */
  lemma {:induction false} DisconnectedLines(d: Dialect, s: Session, lines: seq<SaleLine>, no: int)
    requires IsTable(s.slots) && !s.connected
    ensures SendLines(d, s, lines, no).session == s
    ensures SendLines(d, s, lines, no).result.Success? <==> RatesDefined(lines, s.slots)
    ensures SendLines(d, s, lines, no).result.Failure? ==> SendLines(d, s, lines, no).result.error == UndefinedRate
    decreases |lines|
  {
    if |lines| > 0 {
      DisconnectedLine(d, s, no, lines[0]);
      RatesDefinedCons(lines, s.slots);
      if Some(lines[0].taxRate) in s.slots {
        assert SendLines(d, s, lines, no) == SendLines(d, s, lines[1..], no + 1);
        DisconnectedLines(d, s, lines[1..], no + 1);
      }
    }
  }

  /** Every line's rate has a slot. */
  predicate RatesDefined(lines: seq<SaleLine>, slots: seq<Option<VATRate>>) {
    forall k :: 0 <= k < |lines| ==> Some(lines[k].taxRate) in slots
  }

  lemma RatesDefinedCons(lines: seq<SaleLine>, slots: seq<Option<VATRate>>)
    requires |lines| > 0
    ensures RatesDefined(lines, slots) <==> Some(lines[0].taxRate) in slots && RatesDefined(lines[1..], slots)
  {
    assert forall k :: 1 <= k < |lines| ==> lines[k] == lines[1..][k - 1];
  }

  lemma DisconnectedLine(d: Dialect, s: Session, no: int, line: SaleLine)
    requires IsTable(s.slots) && !s.connected
    ensures SendLine(d, s, no, line) ==
      Outcome(s, if Some(line.taxRate) in s.slots then Success(()) else Failure(UndefinedRate))
  {
  }

  lemma DisconnectedPrintSlip(d: Dialect, s: Session, slip: Slips.Slip)
    requires IsTable(s.slots) && !s.connected
    ensures PrintSlip(d, s, slip).session == s
    ensures PrintSlip(d, s, slip).result.Success? <==> RatesDefined(slip.lines, s.slots)
    ensures PrintSlip(d, s, slip).result.Failure? ==> PrintSlip(d, s, slip).result.error == UndefinedRate
  {
    DisconnectedLines(d, s, slip.lines, 1);
  }

  // ===================================================== answered requests

  /** DLE finds the printer connected exactly when a byte was already
      waiting or the printer answered the DLE. */
  lemma DleConnected(d: Dialect, s: Session)
    ensures SendDle(d, s).connected <==>
      |s.link.input| > 0 || (|s.link.replies| > 0 && |s.link.replies[0]| > 0)
  {
  }

  /** An answer of one byte is read as the flags by every driver. An answer
      that starts with ESC is read as ESC by a plain `read()`, while
      `readOneByteAnswer` takes the last byte of it instead. */
  lemma DleFlagsOfAnswer(d: Dialect, s: Session, answer: seq<byte>)
    requires s.link.input == [] && |s.link.replies| > 0 && s.link.replies[0] == answer && |answer| > 0
    ensures |answer| == 1 ==> SendDle(d, s).dle == EscFrame.DecodeDLE(answer[0])
    ensures answer[0] == EscFrame.ESC && !d.oneByteAnswers ==> SendDle(d, s).dle == EscFrame.DecodeDLE(EscFrame.ESC)
    ensures answer[0] == EscFrame.ESC && |answer| > 1 && d.oneByteAnswers ==>
      SendDle(d, s).dle == EscFrame.DecodeDLE(answer[|answer| - 1]) && SendDle(d, s).link.input == []
  {
    var l := Write(s.link, [DLE]);
    assert l.input == answer;
  }

  /** The bytes of a status answer: the code's text and "#Z", bracketed. */
  function StatusReply(code: int): seq<byte> {
    EscFrame.Prefix + PlainBytes(EscFrame.StatusText(code)) + EscFrame.Suffix
  }

  lemma StatusBytes(code: int)
    ensures EscFrame.ESC !in PlainBytes(EscFrame.StatusText(code))
    ensures Charset.BytesText(PlainBytes(EscFrame.StatusText(code))) == EscFrame.StatusText(code)
  {
    var t := EscFrame.StatusText(code);
    var c := JavaText.IntText(code);
    Numbers.IntTextChars(code);
    assert forall k :: 0 <= k < |t| ==> (t[k] as int) < 128 && t[k] as int != 0x1B by {
      forall k | 0 <= k < |t|
        ensures (t[k] as int) < 128 && t[k] as int != 0x1B
      {
        if k < |c| {
          assert t[k] == c[k];
          assert Numbers.NumberChar(c[k]);
        } else {
          assert t[k] == "#Z"[k - |c|];
        }
      }
    }
    Charset.BytesTextOfTextBytes(t);
  }

  /** What a command reads after its frame when the printer answers it with
      a status. */
  lemma ExchangeReadsStatus(s: Session, payload: seq<byte>, checked: bool, code: int)
    requires s.link.input == [] && |s.link.replies| > 0 && s.link.replies[0] == StatusReply(code)
    ensures Exchange(s, payload, checked).0 == EscFrame.StatusText(code)
    ensures Exchange(s, payload, checked).1.link.input == []
  {
    var l := Write(s.link, EscFrame.Frame(payload, checked));
    var body := PlainBytes(EscFrame.StatusText(code));
    StatusBytes(code);
    assert l.input == EscFrame.Prefix + body + EscFrame.Suffix + [];
    EscFrame.ReadSeqOfReply(l, body, []);
  }

  /** A connected command answered with status `code` succeeds exactly when
      the code is 0, and a nonzero code is the fault it throws. */
  lemma CommandOfStatus(d: Dialect, s: Session, payload: seq<byte>, code: int)
    requires s.connected && -128 <= code <= 127
    requires s.link.input == [] && |s.link.replies| > 0 && s.link.replies[0] == StatusReply(code)
    ensures Command(d, s, payload).result.Success? <==> code == 0
    ensures code != 0 ==> Command(d, s, payload).result == Failure(DeviceStatus(code))
  {
    ExchangeReadsStatus(s, payload, true, code);
    EscFrame.DecodeStatusOfText(d.stripsControl, code, []);
    assert EscFrame.StatusText(code) + [] == EscFrame.StatusText(code);
  }

  /** A nonzero status after the error-mode command throws exactly in the
      strict dialects; the Innova driver only logs it and goes on. */
  lemma SermOfStatus(d: Dialect, s: Session, ps: int, code: int)
    requires s.connected && -128 <= code <= 127 && code != 0
    requires s.link.input == [] && |s.link.replies| > 0 && s.link.replies[0] == StatusReply(code)
    ensures Serm(d, s, ps).result.Failure? <==> d.strictErrorMode
    ensures d.strictErrorMode ==> Serm(d, s, ps).result == Failure(DeviceStatus(code))
  {
    ExchangeReadsStatus(s, PlainBytes(EscTexts.Command(ps, '#', 'e')), true, code);
    EscFrame.DecodeStatusOfText(d.stripsControl, code, []);
    assert EscFrame.StatusText(code) + [] == EscFrame.StatusText(code);
  }

  lemma InnovaLenient()
    ensures !Innova.strictErrorMode && Thermal203.strictErrorMode && Thermal301.strictErrorMode && Vivo.strictErrorMode
  {
  }

  /** An open transaction is cancelled (its `0$e` is the next frame out)
      exactly when the ENQ flags say so and the printer is connected;
      otherwise nothing is sent. */
  lemma CancelPendingSends(d: Dialect, s: Session)
    ensures CancelPending(d, s).session.link.sent != s.link.sent <==> s.connected && s.enq.inTransaction
    ensures s.connected && s.enq.inTransaction ==>
      CancelPending(d, s).session.link.sent[|s.link.sent|] == EscFrame.Frame(PlainBytes(EscTexts.Command(0, '$', 'e')), true)
  {
    if s.connected && s.enq.inTransaction {
      var o := Command(d, s, PlainBytes(EscTexts.Command(0, '$', 'e')));
      var n := |s.link.sent|;
      assert o.session.link.sent[..n + 1][n] == o.session.link.sent[n];
      assert |CancelPending(d, s).session.link.sent| > n;
    }
  }

  /** The rate table the printer sends back is the one the lines are then
      looked up in. */
  lemma RateRequestReadsTable(d: Dialect, s: Session, ps: int, text: string)
    requires IsTable(s.slots) && s.connected && Charset.IsLatin(text) && EscFrame.ESC !in PlainBytes(text)
    requires s.link.input == [] && |s.link.replies| > 0 && s.link.replies[0] == EscFrame.Prefix + PlainBytes(text) + EscFrame.Suffix
    ensures RateRequest(d, s, ps).session.slots == DecodeRates(d, text, s.slots).0
    ensures DecodeRates(d, text, s.slots).1.Failure? ==> RateRequest(d, s, ps).result == DecodeRates(d, text, s.slots).1
  {
    var l := Write(s.link, EscFrame.Frame(PlainBytes(EscTexts.Command(ps, '#', 's')), false));
    assert l.input == EscFrame.Prefix + PlainBytes(text) + EscFrame.Suffix + [];
    EscFrame.ReadSeqOfReply(l, PlainBytes(text), []);
    Charset.BytesTextOfTextBytes(text);
  }
}

=== FILE: escframe.dfy ===
/** The framing shared by the Posnet Thermal (2.03 and 3.01), Innova Profit
    451 and Optimus Vivo drivers. A command travels as `ESC P`, its payload,
    an optional check of two upper-case hex digits, then `ESC \`; the check is
    0xFF XOR every payload byte. Answers come back in the same brackets, the
    status answer being `<code>#Z`. The one-byte requests DLE and ENQ are
    answered with a byte of flags. */
module EscFrame {
  import opened Wrappers
  import opened Faults
  import opened BitsAndBytes
  import Charset
  import JavaText
  import Seqs
  import Link

  const ESC: byte := 0x1B
  /** `prefix`: ESC 'P'. */
  const Prefix: seq<byte> := [0x1B, 0x50]
  /** `suffix`: ESC '\'. */
  const Suffix: seq<byte> := [0x1B, 0x5C]

  // -------------------------------------------------------------- check

  /** `^` on two bytes; the sign of Java's `byte` does not touch the low
      eight bits, which are all that is kept. */
  function Xor(a: byte, b: byte): (r: byte) {
    ((a as bv8) ^ (b as bv8)) as int
  }

  /** `init` XOR-ed with every byte of `s`, first to last. */
  function XorAll(init: bv8, s: seq<byte>): bv8 {
    if |s| == 0 then init else XorAll(init, s[..|s| - 1]) ^ (s[|s| - 1] as bv8)
  }

  /** The check byte of `calculateCC`: 0xFF, then each payload byte XOR-ed in. */
  function CheckByte(payload: seq<byte>): byte {
    XorAll(0xFF, payload) as int
  }

  /** `calculateCC`: the check byte as two upper-case hex digits, in bytes. */
  function CalculateCC(payload: seq<byte>): (r: seq<byte>)
    ensures |r| == 2
    ensures r == Charset.TextBytes(ByteToHexString(CheckByte(payload)))
  {
    Charset.TextBytes(ByteToHexString(CheckByte(payload)))
  }

  /** Folding in two pieces is folding their concatenation. */
  lemma {:induction false} XorAllAppend(init: bv8, a: seq<byte>, b: seq<byte>)
    ensures XorAll(init, a + b) == XorAll(XorAll(init, a), b)
    decreases |b|
  {
    if |b| > 0 {
      assert (a + b)[..|a + b| - 1] == a + b[..|b| - 1];
      XorAllAppend(init, a, b[..|b| - 1]);
    } else {
      assert a + b == a;
    }
  }

  /** The starting value can be taken out of the fold. */
  lemma {:induction false} XorAllInit(init: bv8, s: seq<byte>)
    ensures XorAll(init, s) == init ^ XorAll(0, s)
    decreases |s|
  {
    if |s| > 0 {
      XorAllInit(init, s[..|s| - 1]);
    }
  }

  lemma XorOfByte(a: byte, m: byte)
    ensures Xor(a, m) as bv8 == (a as bv8) ^ (m as bv8)
  {
  }

  /** An empty payload has the check "FF". */
  lemma CheckOfEmpty()
    ensures CheckByte([]) == 0xFF
    ensures ByteToHexString(CheckByte([])) == "FF"
  {
  }

  lemma ByteOfBits(v: bv8)
    ensures (v as int) as bv8 == v
  {
  }

  lemma XorCancel(x: bv8, y: bv8)
    ensures x ^ (y ^ x) == y
  {
  }

  lemma XorMoves(x: bv8, m: bv8)
    requires m != 0
    ensures x ^ m != x
  {
  }

  lemma BitsInjective(a: bv8, b: bv8)
    requires a != b
    ensures a as int != b as int
  {
    ByteOfBits(a);
    ByteOfBits(b);
  }

  lemma XorShift(x: bv8, c: bv8, m: bv8, w: bv8)
    ensures (x ^ (c ^ m)) ^ w == ((x ^ c) ^ w) ^ m
  {
  }

  /** Folding one more byte in. */
  lemma XorAllLast(init: bv8, p: seq<byte>, c: byte)
    ensures XorAll(init, p + [c]) == XorAll(init, p) ^ (c as bv8)
  {
    assert (p + [c])[..|p|] == p;
  }

  /** The check closes the payload: the XOR of the payload and its check byte
      is always 0xFF, so a receiver can verify a frame by XOR alone. */
  lemma CheckSeals(payload: seq<byte>)
    ensures XorAll(0, payload + [CheckByte(payload)]) == 0xFF
  {
    var c := CheckByte(payload);
    var x := XorAll(0, payload);
    XorAllInit(0xFF, payload);
    XorAllLast(0, payload, c);
    ByteOfBits(XorAll(0xFF, payload));
    XorCancel(x, 0xFF);
  }

  /** The fold over a payload with one byte singled out. */
  lemma XorAllAround(init: bv8, a: seq<byte>, c: byte, b: seq<byte>)
    ensures XorAll(init, a + [c] + b) == (XorAll(init, a) ^ (c as bv8)) ^ XorAll(0, b)
  {
    XorAllAppend(init, a + [c], b);
    XorAllLast(init, a, c);
    XorAllInit(XorAll(init, a) ^ (c as bv8), b);
  }

  lemma XorAllAt(init: bv8, p: seq<byte>, i: nat)
    requires i < |p|
    ensures XorAll(init, p) == (XorAll(init, p[..i]) ^ (p[i] as bv8)) ^ XorAll(0, p[i + 1..])
  {
    assert p == p[..i] + [p[i]] + p[i + 1..];
    XorAllAround(init, p[..i], p[i], p[i + 1..]);
  }

  /** Changing one byte by a mask changes the fold by that mask. */
  lemma XorAllFlip(payload: seq<byte>, i: nat, mask: byte)
    requires i < |payload|
    ensures XorAll(0xFF, payload[i := Xor(payload[i], mask)]) == XorAll(0xFF, payload) ^ (mask as bv8)
  {
    var c := payload[i];
    var q := payload[i := Xor(c, mask)];
    assert q[..i] == payload[..i] && q[i + 1..] == payload[i + 1..];
    XorAllAt(0xFF, payload, i);
    XorAllAt(0xFF, q, i);
    XorOfByte(c, mask);
    XorShift(XorAll(0xFF, payload[..i]), c as bv8, mask as bv8, XorAll(0, payload[i + 1..]));
  }

  /** Changing one payload byte by a nonzero mask changes the check by the same
      mask; in particular, flipping any single bit is always detected. */
  lemma CheckDetectsFlip(payload: seq<byte>, i: nat, mask: byte)
    requires i < |payload| && mask != 0
    ensures XorAll(0xFF, payload[i := Xor(payload[i], mask)]) == XorAll(0xFF, payload) ^ (mask as bv8)
    ensures CheckByte(payload[i := Xor(payload[i], mask)]) != CheckByte(payload)
  {
    var q := payload[i := Xor(payload[i], mask)];
    XorAllFlip(payload, i, mask);
    MaskMoves(XorAll(0xFF, payload), mask);
    ChecksDiffer(payload, q);
  }

  lemma MaskMoves(h: bv8, mask: byte)
    requires mask != 0
    ensures h ^ (mask as bv8) != h
  {
    assert mask as bv8 != 0;
    XorMoves(h, mask as bv8);
  }

  /** Different folds give different check bytes. */
  lemma ChecksDiffer(p: seq<byte>, q: seq<byte>)
    requires XorAll(0xFF, p) != XorAll(0xFF, q)
    ensures CheckByte(p) != CheckByte(q)
  {
    BitsInjective(XorAll(0xFF, p), XorAll(0xFF, q));
  }

  /** `parse2hex` reads the check byte back out of its two digits. */
  lemma CheckReadsBack(payload: seq<byte>)
    ensures Parse2Hex(ByteToHexString(CheckByte(payload))[0], ByteToHexString(CheckByte(payload))[1])
      == CheckByte(payload)
  {
    Parse2HexInvertsByteToHexString(CheckByte(payload));
  }

  // -------------------------------------------------------------- frames

  /** `sendPrefix`, the payload, `calculateCC` when `checked`, `sendSuffix`:
      one transmission. Only the rate request `23#s` goes without a check. */
  function Frame(payload: seq<byte>, checked: bool): (f: seq<byte>)
    ensures |f| == |payload| + 4 + (if checked then 2 else 0)
    ensures f[..2] == Prefix && f[|f| - 2..] == Suffix
    ensures f[2..2 + |payload|] == payload
    ensures checked ==> f[2 + |payload|..4 + |payload|] == CalculateCC(payload)
  {
    Prefix + payload + (if checked then CalculateCC(payload) else []) + Suffix
  }

  // ------------------------------------------------------------- answers

  /** `readSeq`: bytes are taken one at a time until the text read so far
      contains `ESC \`; then the first `ESC P` and after it the first `ESC \`
      are deleted. When the line runs dry first (the wait budget runs out)
      everything waiting has been read and the answer is "". Bytes after the
      closing `ESC \` stay on the line. Deleting from bytes and then turning
      them into text is the same as deleting from the text, since the
      conversion is character by character. */
  function ReadSeq(l: Link.Link): (r: (string, Link.Link))
    ensures r.1.sent == l.sent && r.1.replies == l.replies
    ensures Seqs.IndexOfSeq(l.input, Suffix) < 0 ==> r.0 == "" && r.1.input == []
    ensures Seqs.IndexOfSeq(l.input, Suffix) >= 0 ==>
      r.1.input == l.input[Seqs.IndexOfSeq(l.input, Suffix) + 2..]
  {
    var i := Seqs.IndexOfSeq(l.input, Suffix);
    if i < 0 then ("", l.(input := []))
    else
      var got := l.input[..i + 2];
      (Charset.BytesText(Seqs.RemoveFirst(Seqs.RemoveFirst(got, Prefix), Suffix)), l.(input := l.input[i + 2..]))
  }

  /** The first `ESC \` of a bracketed body without ESC is its closing one. */
  lemma SuffixOfReply(body: seq<byte>, rest: seq<byte>)
    requires ESC !in body
    ensures Seqs.IndexOfSeq(Prefix + body + Suffix + rest, Suffix) == |body| + 2
  {
    var s := Prefix + body + Suffix + rest;
    var n := |body| + 2;
    assert Seqs.OccursAt(s, Suffix, n);
    forall i | 0 <= i < n
      ensures !Seqs.OccursAt(s, Suffix, i)
    {
      if i >= 2 {
        assert s[i] == body[i - 2];
      } else if i == 1 {
        assert s[i] == 0x50;
      } else {
        assert s[i + 1] == 0x50;
      }
    }
  }

  /** Cutting the brackets off a body without ESC leaves the body. */
  lemma UnbracketReply(body: seq<byte>)
    requires ESC !in body
    ensures Seqs.RemoveFirst(Seqs.RemoveFirst(Prefix + body + Suffix, Prefix), Suffix) == body
  {
    StripPrefix(body);
    StripSuffix(body);
  }

  lemma StripPrefix(body: seq<byte>)
    ensures Seqs.RemoveFirst(Prefix + body + Suffix, Prefix) == body + Suffix
  {
    var s := Prefix + body + Suffix;
    assert Seqs.OccursAt(s, Prefix, 0);
    assert Seqs.IndexOfSeq(s, Prefix) == 0;
    assert s[..0] + s[2..] == body + Suffix;
  }

  lemma StripSuffix(body: seq<byte>)
    requires ESC !in body
    ensures Seqs.RemoveFirst(body + Suffix, Suffix) == body
  {
    var t := body + Suffix;
    assert Seqs.IndexOfSeq(t, Suffix) == |body| by {
      assert Seqs.OccursAt(t, Suffix, |body|);
      forall i | 0 <= i < |body|
        ensures !Seqs.OccursAt(t, Suffix, i)
      {
        assert t[i] == body[i];
      }
    }
    assert t[..|body|] + t[|body| + 2..] == body;
  }

  /** A well-formed answer is read back exactly, and what follows it stays on
      the line. */
  lemma ReadSeqOfReply(l: Link.Link, body: seq<byte>, rest: seq<byte>)
    requires ESC !in body
    requires l.input == Prefix + body + Suffix + rest
    ensures ReadSeq(l).0 == Charset.BytesText(body)
    ensures ReadSeq(l).1.input == rest
  {
    SuffixOfReply(body, rest);
    var n := |body| + 4;
    assert l.input[..n] == Prefix + body + Suffix;
    assert l.input[n..] == rest;
    UnbracketReply(body);
  }

  // -------------------------------------------------------------- status

  /** `decodeLBERSTS`: "" (a timeout) is -1; otherwise the text before the
      first "#Z" is read with `Byte.parseByte`. With `stripsControl` (the
      Thermal drivers) a two-character code whose first character is a
      control character loses that character first. A missing "#Z" makes
      `substring(0, -1)` throw; a bad number throws `NumberFormatException`. */
  function DecodeStatus(stripsControl: bool, s: string): (r: Result<int, Fault>)
    ensures s == "" ==> r == Success(-1)
    ensures s != "" && Seqs.IndexOfSeq(s, "#Z") < 0 ==> r == Failure(IndexOutOfBounds)
    ensures r.Success? ==> -128 <= r.value <= 127
    ensures r.Failure? ==> r.error in {IndexOutOfBounds, NumberFormat}
  {
    if s == "" then Success(-1)
    else
      var i := Seqs.IndexOfSeq(s, "#Z");
      if i < 0 then Failure(IndexOutOfBounds)
      else
        var t := s[..i];
        var u := if stripsControl && |t| == 2 && (t[0] as int) < 32 then t[1..] else t;
        match JavaText.ParseByte(u)
        case Some(v) => Success(v)
        case None => Failure(NumberFormat)
  }

  /** The status text a printer answers with. */
  function StatusText(code: int): string {
    JavaText.IntText(code) + "#Z"
  }

  /** The first "#Z" of a status text comes right after the code. */
  lemma StatusMarkAt(code: int, rest: string)
    ensures Seqs.IndexOfSeq(StatusText(code) + rest, "#Z") == |JavaText.IntText(code)|
  {
    var c := JavaText.IntText(code);
    var s := StatusText(code) + rest;
    JavaText.IntTextNoBlank(code);
    IntTextHasNoHash(code);
    assert Seqs.OccursAt(s, "#Z", |c|);
    forall i | 0 <= i < |c|
      ensures !Seqs.OccursAt(s, "#Z", i)
    {
      assert s[i] == c[i];
    }
  }

  lemma IntTextHasNoHash(code: int)
    ensures '#' !in JavaText.IntText(code)
  {
    var c := JavaText.IntText(code);
    var u := JavaText.NatText(if code < 0 then -code else code);
    assert forall k :: 0 <= k < |u| ==> JavaText.IsDigit(u[k]);
    if code < 0 {
      assert forall k :: 1 <= k < |c| ==> c[k] == u[k - 1];
    }
  }

  /** Every status code a byte can hold is decoded from its text, whether or
      not the dialect strips control characters. */
  lemma DecodeStatusOfText(stripsControl: bool, code: int, rest: string)
    requires -128 <= code <= 127
    ensures DecodeStatus(stripsControl, StatusText(code) + rest) == Success(code)
  {
    var c := JavaText.IntText(code);
    StatusMarkAt(code, rest);
    assert (StatusText(code) + rest)[..|c|] == c;
    JavaText.ParseByteOfText(code);
  }

  /** A one-digit code behind a control character: the Thermal drivers drop
      the character and read the digit; the others fail to parse the text. */
  lemma DecodeStatusControlPrefix(c: char, d: nat, rest: string)
    requires (c as int) < 32 && d < 10
    ensures DecodeStatus(true, [c] + StatusText(d) + rest) == Success(d)
    ensures DecodeStatus(false, [c] + StatusText(d) + rest) == Failure(NumberFormat)
  {
    var s := [c] + StatusText(d) + rest;
    var t := JavaText.IntText(d);
    assert t == [JavaText.DigitChar(d)];
    assert Seqs.IndexOfSeq(s, "#Z") == 2 by {
      assert Seqs.OccursAt(s, "#Z", 2);
      assert s[0] == c && s[1] == t[0];
      assert !Seqs.OccursAt(s, "#Z", 0) && !Seqs.OccursAt(s, "#Z", 1);
    }
    assert s[..2][1..] == t;
    JavaText.ParseByteOfText(d);
    assert JavaText.ParseInt(s[..2]) == None by {
      assert !JavaText.IsDigit(s[0]);
    }
  }

  // ------------------------------------------------------- DLE and ENQ

  /** Answer to DLE: on-line, paper empty, mechanism or control error. */
  datatype DleFlags = DleFlags(online: bool, paperEmpty: bool, error: bool)

  /** Answer to ENQ: fiscal mode, last command succeeded, inside a
      transaction, last transaction succeeded. */
  datatype EnqFlags = EnqFlags(fiscal: bool, commandOk: bool, inTransaction: bool, transactionOk: bool)

  /** `(b & w) == w` for a one-bit `w`: the signed view of the byte has the
      same low bits as its pattern. */
  predicate HasBit(b: byte, w: nat)
    requires w in {1, 2, 4, 8}
  {
    (b / w) % 2 == 1
  }

  /** `decodeDLE`: bits 4, 2, 1. */
  function DecodeDLE(b: byte): (r: DleFlags)
    ensures r.online <==> b % 8 >= 4
    ensures r.paperEmpty <==> b % 4 >= 2
    ensures r.error <==> b % 2 == 1
  {
    LowBits(b);
    DleFlags(HasBit(b, 4), HasBit(b, 2), HasBit(b, 1))
  }

  /** `decodeENQ`: bits 8, 4, 2, 1. */
  function DecodeENQ(b: byte): (r: EnqFlags)
    ensures r.fiscal <==> b % 16 >= 8
    ensures r.commandOk <==> b % 8 >= 4
    ensures r.inTransaction <==> b % 4 >= 2
    ensures r.transactionOk <==> b % 2 == 1
  {
    LowBits(b);
    EnqFlags(HasBit(b, 8), HasBit(b, 4), HasBit(b, 2), HasBit(b, 1))
  }

  function BitOf(flag: bool, w: nat): nat {
    if flag then w else 0
  }

  /** The byte a printer with these DLE flags answers, higher bits clear. */
  function EncodeDLE(f: DleFlags): (b: byte)
    ensures b < 8
  {
    BitOf(f.online, 4) + BitOf(f.paperEmpty, 2) + BitOf(f.error, 1)
  }

  function EncodeENQ(f: EnqFlags): (b: byte)
    ensures b < 16
  {
    BitOf(f.fiscal, 8) + BitOf(f.commandOk, 4) + BitOf(f.inTransaction, 2) + BitOf(f.transactionOk, 1)
  }

  /** Every DLE flag set is read back, whatever the bits above bit 2 hold. */
  lemma DecodeDLEOfEncode(f: DleFlags, high: nat)
    requires high < 32
    ensures DecodeDLE(8 * high + EncodeDLE(f)) == f
  {
    var b := 8 * high + EncodeDLE(f);
    assert b / 4 == 2 * high + EncodeDLE(f) / 4;
    assert b / 2 == 4 * high + EncodeDLE(f) / 2;
  }

  /** Decoding keeps exactly the low three bits of the DLE answer. */
  lemma EncodeDLEOfDecode(b: byte)
    ensures EncodeDLE(DecodeDLE(b)) == b % 8
  {
    LowBits(b);
  }

  lemma DecodeENQOfEncode(f: EnqFlags, high: nat)
    requires high < 16
    ensures DecodeENQ(16 * high + EncodeENQ(f)) == f
  {
    var b := 16 * high + EncodeENQ(f);
    assert b / 8 == 2 * high + EncodeENQ(f) / 8;
    assert b / 4 == 4 * high + EncodeENQ(f) / 4;
    assert b / 2 == 8 * high + EncodeENQ(f) / 2;
  }

  lemma EncodeENQOfDecode(b: byte)
    ensures EncodeENQ(DecodeENQ(b)) == b % 16
  {
    LowBits(b);
  }

  /** The low four bits of `b`, one by one. */
  lemma LowBits(b: byte)
    ensures b % 4 == 2 * ((b / 2) % 2) + b % 2
    ensures b % 8 == 4 * ((b / 4) % 2) + 2 * ((b / 2) % 2) + b % 2
    ensures b % 16 == 8 * ((b / 8) % 2) + 4 * ((b / 4) % 2) + 2 * ((b / 2) % 2) + b % 2
  {
    var h, q, e := b / 2, b / 4, b / 8;
    assert q == h / 2 && e == q / 2;
    assert b == 2 * h + b % 2;
    assert h == 2 * q + h % 2;
    assert q == 2 * e + q % 2;
    assert e == 2 * (b / 16) + e % 2;
  }
}

=== FILE: esctexts.dfy ===
/** The payloads of the ESC-framed commands (the text between `ESC P` and
    the check bytes): sale lines, the two closings, the card slip, the daily
    report and the short fixed commands. Each payload is a list of fields
    with separators; the lemmas cut a payload back into its fields and read
    the numbers back. */
module EscTexts {
  import opened Wrappers
  import opened Faults
  import opened Datamodel
  import opened EscDialect
  import JavaText
  import Numbers
  import Seqs

  const CR: char := '\r'

  // =============================================================== numbers

  /** An amount written with `k` fraction digits in the dialect's notation:
      `Double.toString` or `NumberFormat` (`f2`, `f4`). */
  function Num(style: NumberStyle, d: Decimal, k: nat): (r: string)
    requires k >= 1
    ensures Numbers.NumberChars(r)
  {
    match style
    case Plain =>
      Numbers.DecimalTextNoBlank(d);
      Numbers.DecimalText(d)
    case Fixed =>
      Numbers.FixedTextChars(d, k);
      Numbers.FixedText(d, k)
  }

  /** An amount of cents. */
  function Money(style: NumberStyle, cents: int): (r: string)
    ensures Numbers.NumberChars(r)
  {
    Num(style, Decimal(cents, 2), 2)
  }

  /** What is written reads back: exactly in plain notation or when the value
      has no more than `k` decimals, and otherwise as the value rounded
      half-even to `k` decimals. */
  lemma NumReadsBack(style: NumberStyle, d: Decimal, k: nat)
    requires k >= 1
    ensures Numbers.ParseDecimal(Num(style, d, k)).Some?
    ensures style == Plain || d.scale <= k ==> Numbers.SameValue(Numbers.ParseDecimal(Num(style, d, k)).value, d)
    ensures style == Fixed ==> Numbers.ParseDecimal(Num(style, d, k)).value == Decimal(Numbers.RoundTo(d, k), k)
  {
    match style
    case Plain => Numbers.DecimalTextReadsBack(d);
    case Fixed => Numbers.FixedTextReadsBack(d, k);
  }

  /** The text parses as a number equal to `cents` hundredths. */
  predicate ReadsAsCents(t: string, cents: int) {
    Numbers.ParseDecimal(t).Some? && Numbers.SameValue(Numbers.ParseDecimal(t).value, Decimal(cents, 2))
  }

  /** Amounts of cents always read back exactly. */
  lemma MoneyReadsBack(style: NumberStyle, cents: int)
    ensures Numbers.ParseDecimal(Money(style, cents)).Some?
    ensures Numbers.SameValue(Numbers.ParseDecimal(Money(style, cents)).value, Decimal(cents, 2))
    ensures ReadsAsCents(Money(style, cents), cents)
  {
    NumReadsBack(style, Decimal(cents, 2), 2);
  }

  /** A rendered number contains none of the separators. */
  lemma NumberSeparators(s: string)
    requires Numbers.NumberChars(s)
    ensures CR !in s && '/' !in s && ';' !in s && '$' !in s && '#' !in s
  {
    Numbers.NumberCharsLack(s, CR);
    Numbers.NumberCharsLack(s, '/');
    Numbers.NumberCharsLack(s, ';');
    Numbers.NumberCharsLack(s, '$');
    Numbers.NumberCharsLack(s, '#');
  }

  lemma IntSeparators(i: int)
    ensures CR !in JavaText.IntText(i) && '/' !in JavaText.IntText(i) && ';' !in JavaText.IntText(i)
    ensures '$' !in JavaText.IntText(i) && '#' !in JavaText.IntText(i)
  {
    Numbers.IntTextChars(i);
    NumberSeparators(JavaText.IntText(i));
  }

  // =========================================================== the payload

  /** Every payload has one shape: parameters, a two-character command name
      (`$l`, `$y`, `$x`, `#g`, `#r`, ...), text lines each ended by CR, and
      numbers each ended by '/'. */
  function Payload(head: string, mark: char, code: char, lines: seq<string>, numbers: seq<string>): string {
    head + [mark, code] + (Seqs.Terminated(lines, CR) + Seqs.Terminated(numbers, '/'))
  }

  /** `t` cuts back into these parts: the first `mark` ends the parameters
      `head` and is followed by `code`; cutting the rest at CR gives the
      lines and then the numbers' text, which cut at '/' gives the numbers
      and an empty tail. */
  predicate Cuts(t: string, head: string, mark: char, code: char, lines: seq<string>, numbers: seq<string>) {
    Seqs.IndexOf(t, mark) == |head| && |head| + 2 <= |t| && t[..|head|] == head && t[|head| + 1] == code &&
    Seqs.Fields(t[|head| + 2..], CR) == lines + [Seqs.Terminated(numbers, '/')] &&
    Seqs.Fields(Seqs.Terminated(numbers, '/'), '/') == numbers + [[]]
  }

  /** A payload cuts back into its parts as long as the parameters hold no
      `mark`, the lines no CR and the numbers neither CR nor '/'. */
  lemma PayloadCuts(head: string, mark: char, code: char, lines: seq<string>, numbers: seq<string>)
    requires mark !in head
    requires SingleLines(lines)
    requires Clean(numbers, CR, '/')
    ensures Cuts(Payload(head, mark, code, lines, numbers), head, mark, code, lines, numbers)
  {
    var body := Seqs.Terminated(lines, CR) + Seqs.Terminated(numbers, '/');
    var t := Payload(head, mark, code, lines, numbers);
    Seqs.CutAt(head, mark, [code] + body);
    assert t == head + ([mark] + ([code] + body));
    assert t[|head| + 2..] == body;
    Seqs.NotInTerminated(numbers, '/', CR);
    Seqs.FieldsOfTerminatedThen(lines, Seqs.Terminated(numbers, '/'), CR);
    Seqs.FieldsOfTerminated(numbers, '/');
  }

  /** No field of `fs` breaks the line. */
  predicate SingleLines(fs: seq<string>) {
    forall k :: 0 <= k < |fs| ==> CR !in fs[k]
  }

  /** No field holds either character. */
  predicate Clean(fs: seq<string>, a: char, b: char) {
    forall k :: 0 <= k < |fs| ==> a !in fs[k] && b !in fs[k]
  }

  /** Fields separated (not terminated) by `sep`: `a;b;c`. */
  function Row(fs: seq<string>, sep: char): string
    requires |fs| >= 1
  {
    Seqs.Terminated(fs[..|fs| - 1], sep) + fs[|fs| - 1]
  }

  lemma RowFields(fs: seq<string>, sep: char, x: char)
    requires |fs| >= 1 && x != sep && Clean(fs, sep, x)
    ensures Seqs.Fields(Row(fs, sep), sep) == fs
    ensures x !in Row(fs, sep)
  {
    var init := fs[..|fs| - 1];
    assert forall k :: 0 <= k < |init| ==> init[k] == fs[k];
    Seqs.FieldsOfTerminatedThen(init, fs[|fs| - 1], sep);
    Seqs.NotInTerminated(init, sep, x);
    assert init + [fs[|fs| - 1]] == fs;
  }

  /** Terminated parameters cut back into themselves and one empty field. */
  lemma TerminatedHead(fs: seq<string>, sep: char, x: char)
    requires x != sep && Clean(fs, sep, x)
    ensures Seqs.Fields(Seqs.Terminated(fs, sep), sep) == fs + [[]]
    ensures x !in Seqs.Terminated(fs, sep)
  {
    Seqs.FieldsOfTerminated(fs, sep);
    Seqs.NotInTerminated(fs, sep, x);
  }

  // ============================================================ sale lines

  /** The discount value written on a line: cents for the amount kinds; for
      the rate kinds the fraction is multiplied by 100 (`discount *= 100.0`),
      so that it is written as a percentage. */
  function DiscountSent(line: SaleLine): (r: Decimal)
    ensures line.discountType.IsRateKind() ==> Numbers.SameValue(r, Decimal(100 * line.discount, 4))
    ensures !line.discountType.IsRateKind() ==> Numbers.SameValue(r, Decimal(line.discount, 2))
  {
    Decimal(line.discount, 2)
  }

  /** Line number, and with discounts the discount kind's ordinal. */
  function LineHead(d: Dialect, no: int, line: SaleLine): seq<string> {
    if d.discountedLines then [JavaText.IntText(no), JavaText.IntText(line.discountType.Ordinal())]
    else [JavaText.IntText(no)]
  }

  /** Rate letter, price, value (gross, or the total after the discount for
      the Innova driver) and, with discounts, the discount. */
  function LineNumbers(d: Dialect, line: SaleLine, ptu: char): seq<string> {
    if d.discountedLines then
      [[ptu], Money(d.numbers, line.price), Money(d.numbers, line.gross), Num(d.numbers, DiscountSent(line), 2)]
    else
      [[ptu], Money(d.numbers, line.price), Money(d.numbers, line.total)]
  }

  /** `sendLBTRSLN`'s payload `$l`: name and quantity on lines of their
      own, then the numbers. */
  function LineText(d: Dialect, no: int, line: SaleLine, ptu: char): string {
    Payload(Row(LineHead(d, no, line), ';'), '$', 'l', [line.name, Num(d.numbers, line.amount, 4)], LineNumbers(d, line, ptu))
  }

  /** The line's text cuts back into its parts: number and discount kind
      before `$l`, then name, quantity and the '/'-terminated numbers on
      separate lines. */
  lemma LineTextFields(d: Dialect, no: int, line: SaleLine, ptu: char)
    requires CR !in line.name && ptu != CR && ptu != '/'
    ensures Cuts(LineText(d, no, line, ptu), Row(LineHead(d, no, line), ';'), '$', 'l',
      [line.name, Num(d.numbers, line.amount, 4)], LineNumbers(d, line, ptu))
    ensures Seqs.Fields(Row(LineHead(d, no, line), ';'), ';') == LineHead(d, no, line)
  {
    var head := LineHead(d, no, line);
    var q := Num(d.numbers, line.amount, 4);
    assert Clean(head, ';', '$') by {
      IntSeparators(no);
      IntSeparators(line.discountType.Ordinal());
    }
    RowFields(head, ';', '$');
    LineNumbersClean(d, line, ptu);
    NumberSeparators(q);
    PayloadCuts(Row(head, ';'), '$', 'l', [line.name, q], LineNumbers(d, line, ptu));
  }

  lemma LineNumbersClean(d: Dialect, line: SaleLine, ptu: char)
    requires ptu != CR && ptu != '/'
    ensures Clean(LineNumbers(d, line, ptu), CR, '/')
  {
    var p := Money(d.numbers, line.price);
    NumberSeparators(p);
    if d.discountedLines {
      var g := Money(d.numbers, line.gross);
      var r := Num(d.numbers, DiscountSent(line), 2);
      NumberSeparators(g);
      NumberSeparators(r);
      assert LineNumbers(d, line, ptu) == [[ptu], p, g, r];
    } else {
      var g := Money(d.numbers, line.total);
      NumberSeparators(g);
      assert LineNumbers(d, line, ptu) == [[ptu], p, g];
    }
  }

  /** The numbers of a line read back as the line's price, value and
      discount, all exactly. */
  lemma LineNumbersReadBack(d: Dialect, line: SaleLine, ptu: char)
    ensures var ns := LineNumbers(d, line, ptu);
      ns[0] == [ptu] &&
      Numbers.ParseDecimal(ns[1]).Some? && Numbers.SameValue(Numbers.ParseDecimal(ns[1]).value, Decimal(line.price, 2)) &&
      Numbers.ParseDecimal(ns[2]).Some? &&
      Numbers.SameValue(Numbers.ParseDecimal(ns[2]).value, Decimal(if d.discountedLines then line.gross else line.total, 2))
    ensures var ns := LineNumbers(d, line, ptu);
      d.discountedLines ==> (|ns| == 4 && Numbers.ParseDecimal(ns[3]).Some? &&
        Numbers.SameValue(Numbers.ParseDecimal(ns[3]).value, DiscountSent(line)))
  {
    MoneyReadsBack(d.numbers, line.price);
    MoneyReadsBack(d.numbers, line.gross);
    MoneyReadsBack(d.numbers, line.total);
    NumReadsBack(d.numbers, DiscountSent(line), 2);
  }

  // ========================================================= `$y` closing

  /** The cash amount `$y` is told about: the amount of the last cash entry
      (`cash = amount` inside the loop), 0 when there is none. */
  function CashOf(ps: seq<Payment>): int {
    if |ps| == 0 then 0
    else if ps[|ps| - 1].code == 0 then ps[|ps| - 1].amount
    else CashOf(ps[..|ps| - 1])
  }

  /** The entries listed as forms of payment: every one but cash, in order
      (the loop's `continue` skips code 0). */
  function Others(ps: seq<Payment>): (r: seq<Payment>)
    ensures |r| <= |ps|
    ensures forall j :: 0 <= j < |r| ==> r[j].code != 0 && r[j] in ps
  {
    if |ps| == 0 then []
    else (if ps[0].code == 0 then [] else [ps[0]]) + Others(ps[1..])
  }

  /** A code is listed as a form of payment exactly when it was prepared and
      it is not cash. */
  lemma {:induction false} OthersSent(ps: seq<Payment>, c: nat)
    ensures Sent(Others(ps), c) <==> Sent(ps, c) && c != 0
  {
    if |ps| > 0 {
      var head: seq<Payment> := if ps[0].code == 0 then [] else [ps[0]];
      OthersSent(ps[1..], c);
      SentAppend(head, Others(ps[1..]), c);
      SentAppend([ps[0]], ps[1..], c);
      assert ps == [ps[0]] + ps[1..];
      assert Sent([ps[0]], c) <==> ps[0].code == c by {
        if ps[0].code == c {
          assert [ps[0]][0].code == c;
        }
      }
      assert Sent(head, c) <==> ps[0].code == c && c != 0 by {
        if ps[0].code == c && c != 0 {
          assert head[0].code == c;
        }
      }
    }
  }

  /** Among collected entries the cash one, if any, comes first, so the cash
      amount is the first type's amount, 0 included. */
  lemma {:induction false} CashOfCollect(es: seq<(int, Option<string>)>, n: nat)
    requires 1 <= n <= |es|
    ensures CashOf(Collect(es, n)) == es[0].0
  {
    var front := Collect(es, n - 1);
    var r := Collect(es, n);
    if n == 1 {
      assert front == [];
    } else {
      CashOfCollect(es, n - 1);
      if es[n - 1].0 != 0 {
        assert r == front + [Payment(n - 1, es[n - 1].0, es[n - 1].1)];
        assert r[..|r| - 1] == front;
      } else {
        assert r == front;
      }
    }
  }

  /** For a slip with payments, `$y` announces the cash amount of the first
      type of the order (cash in every order), and lists exactly the other
      types of the order that have a nonzero amount. */
  lemma ClosingPayments(order: seq<PaymentType>, slip: Slips.Slip, c: nat)
    requires |order| >= 1 && c < |order|
    requires Slips.IsUsingPayments(slip)
    ensures CashOf(PreparePayments(order, slip).value) == Slips.GetPaymentAmount(slip, order[0])
    ensures Sent(Others(PreparePayments(order, slip).value), c) <==> c != 0 && Slips.GetPaymentAmount(slip, order[c]) != 0
  {
    var es := Entries(order, slip);
    CashOfCollect(es, |es|);
    OthersSent(PreparePayments(order, slip).value, c);
    PaymentSentIff(order, slip, c);
  }

  /** The prepared list, `null` being no list. */
  function Prepared(payments: Option<seq<Payment>>): seq<Payment> {
    if payments.Some? then payments.value else []
  }

  function Codes(ps: seq<Payment>): (r: seq<string>)
    ensures |r| == |ps| && forall j :: 0 <= j < |ps| ==> r[j] == JavaText.IntText(ps[j].code)
  {
    seq(|ps|, j requires 0 <= j < |ps| => JavaText.IntText(ps[j].code))
  }

  function Names(ps: seq<Payment>): (r: seq<string>)
    ensures |r| == |ps| && forall j :: 0 <= j < |ps| ==> r[j] == JavaText.NullText(ps[j].name)
  {
    seq(|ps|, j requires 0 <= j < |ps| => JavaText.NullText(ps[j].name))
  }

  function Amounts(style: NumberStyle, ps: seq<Payment>): (r: seq<string>)
    ensures |r| == |ps| && forall j :: 0 <= j < |ps| ==> r[j] == Money(style, ps[j].amount)
  {
    seq(|ps|, j requires 0 <= j < |ps| => Money(style, ps[j].amount))
  }

  /** The parameters in front of `$y`: three footer lines, plain ending,
      short summary, no deposits, a system number, the number of forms of
      payment, whether cash was paid, and the codes of the forms. */
  function Trxend1Head(others: seq<Payment>, cash: int): seq<string> {
    ["3", "0", "1", "0", "0", "0", "0", "1", JavaText.IntText(|others|), "0", if cash != 0 then "1" else "0"] + Codes(others)
  }

  /** The system-number line: with a bar code `#`, at most the first 16
      characters (`stripReference`), `#`, and a `null` reference throws;
      without, the reference as concatenation prints it. */
  function ReferenceLine(barcode: bool, reference: Option<string>): (r: Result<string, Fault>)
    ensures r.Failure? <==> barcode && reference.None?
    ensures r.Failure? ==> r.error == NullPointer
    ensures r.Success? && barcode ==>
      var n := if |reference.value| > 16 then 16 else |reference.value|;
      r.value == "#" + reference.value[..n] + "#"
    ensures r.Success? && !barcode ==> r.value == JavaText.NullText(reference)
  {
    if !barcode then Success(JavaText.NullText(reference))
    else if reference.None? then Failure(NullPointer)
    else Success("#" + JavaText.Cut(reference.value, 16) + "#")
  }

  /** Till, cashier, system number, footer, and the names of the forms. */
  function Trxend1Lines(cashbox: Option<string>, cashier: Option<string>, ref: string, footer: Footer, others: seq<Payment>): seq<string> {
    [JavaText.NullText(cashbox), JavaText.NullText(cashier), ref, footer.line1, footer.line2, footer.line3] + Names(others)
  }

  /** Total, amount due, discount, cash paid, the forms' amounts, change. */
  function Trxend1Amounts(style: NumberStyle, total: int, cash: int, others: seq<Payment>): seq<string> {
    [Money(style, total), Money(style, total), "0", Money(style, cash)] + Amounts(style, others) + ["0"]
  }

  /** `sendLBTRXEND1`'s payload `$y`. */
  function Trxend1Text(style: NumberStyle, barcode: bool, footer: Footer, total: int,
                       cashbox: Option<string>, cashier: Option<string>, reference: Option<string>,
                       payments: Option<seq<Payment>>): (r: Result<string, Fault>)
    ensures r.Failure? <==> barcode && reference.None?
  {
    var ref :- ReferenceLine(barcode, reference);
    var ps := Prepared(payments);
    Success(Payload(Seqs.Terminated(Trxend1Head(Others(ps), CashOf(ps)), ';'), '$', 'y',
      Trxend1Lines(cashbox, cashier, ref, footer, Others(ps)),
      Trxend1Amounts(style, total, CashOf(ps), Others(ps))))
  }

  /** The text holds no line break. */
  predicate OneLine(o: Option<string>) {
    o.None? || CR !in o.value
  }

  /** `$y` cuts back into its parts: the ';'-terminated parameters, the
      lines, and the '/'-terminated amounts. */
  lemma Trxend1Fields(style: NumberStyle, barcode: bool, footer: Footer, total: int,
                      cashbox: Option<string>, cashier: Option<string>, reference: Option<string>,
                      payments: Option<seq<Payment>>)
    requires Trxend1Text(style, barcode, footer, total, cashbox, cashier, reference, payments).Success?
    requires OneLine(cashbox) && OneLine(cashier) && OneLine(reference)
    requires CR !in footer.line1 && CR !in footer.line2 && CR !in footer.line3
    requires forall p :: p in Prepared(payments) ==> OneLine(p.name)
    ensures var ps := Prepared(payments);
      Cuts(Trxend1Text(style, barcode, footer, total, cashbox, cashier, reference, payments).value,
        Seqs.Terminated(Trxend1Head(Others(ps), CashOf(ps)), ';'), '$', 'y',
        Trxend1Lines(cashbox, cashier, ReferenceLine(barcode, reference).value, footer, Others(ps)),
        Trxend1Amounts(style, total, CashOf(ps), Others(ps)))
    ensures var ps := Prepared(payments);
      Seqs.Fields(Seqs.Terminated(Trxend1Head(Others(ps), CashOf(ps)), ';'), ';') == Trxend1Head(Others(ps), CashOf(ps)) + [[]]
  {
    var ps := Prepared(payments);
    var others := Others(ps);
    var ref := ReferenceLine(barcode, reference).value;
    var head := Trxend1Head(others, CashOf(ps));
    var lines := Trxend1Lines(cashbox, cashier, ref, footer, others);
    var amounts := Trxend1Amounts(style, total, CashOf(ps), others);
    assert '$' !in Seqs.Terminated(head, ';') && Seqs.Fields(Seqs.Terminated(head, ';'), ';') == head + [[]] by {
      Trxend1HeadClean(others, CashOf(ps));
      TerminatedHead(head, ';', '$');
    }
    assert SingleLines(lines) by {
      Trxend1LinesOk(cashbox, cashier, barcode, reference, footer, ps);
    }
    assert Clean(amounts, CR, '/') by {
      Trxend1AmountsClean(style, total, CashOf(ps), others);
    }
    assert Trxend1Text(style, barcode, footer, total, cashbox, cashier, reference, payments).value
      == Payload(Seqs.Terminated(head, ';'), '$', 'y', lines, amounts);
    PayloadCuts(Seqs.Terminated(head, ';'), '$', 'y', lines, amounts);
  }

  lemma CutKeepsOut(s: string, n: nat, c: char)
    requires c !in s
    ensures c !in JavaText.Cut(s, n)
  {
  }

  lemma Trxend1LinesOk(cashbox: Option<string>, cashier: Option<string>, barcode: bool, reference: Option<string>,
                       footer: Footer, ps: seq<Payment>)
    requires !(barcode && reference.None?)
    requires OneLine(cashbox) && OneLine(cashier) && OneLine(reference)
    requires CR !in footer.line1 && CR !in footer.line2 && CR !in footer.line3
    requires forall p :: p in ps ==> OneLine(p.name)
    ensures SingleLines(Trxend1Lines(cashbox, cashier, ReferenceLine(barcode, reference).value, footer, Others(ps)))
  {
    var ref := ReferenceLine(barcode, reference).value;
    if barcode {
      CutKeepsOut(reference.value, 16, CR);
    }
    Trxend1LinesClean(cashbox, cashier, ref, footer, Others(ps));
  }

  lemma Trxend1LinesClean(cashbox: Option<string>, cashier: Option<string>, ref: string, footer: Footer, others: seq<Payment>)
    requires OneLine(cashbox) && OneLine(cashier) && CR !in ref
    requires CR !in footer.line1 && CR !in footer.line2 && CR !in footer.line3
    requires forall p :: p in others ==> OneLine(p.name)
    ensures SingleLines(Trxend1Lines(cashbox, cashier, ref, footer, others))
  {
    var names := Names(others);
    assert forall j :: 0 <= j < |names| ==> CR !in names[j] by {
      forall j | 0 <= j < |names|
        ensures CR !in names[j]
      {
        assert others[j] in others;
      }
    }
  }

  lemma Trxend1HeadClean(others: seq<Payment>, cash: int)
    ensures Clean(Trxend1Head(others, cash), ';', '$')
  {
    IntSeparators(|others|);
    var codes := Codes(others);
    forall j | 0 <= j < |others|
      ensures ';' !in codes[j] && '$' !in codes[j]
    {
      IntSeparators(others[j].code);
    }
  }

  lemma Trxend1AmountsClean(style: NumberStyle, total: int, cash: int, others: seq<Payment>)
    ensures Clean(Trxend1Amounts(style, total, cash, others), CR, '/')
  {
    NumberSeparators(Money(style, total));
    NumberSeparators(Money(style, cash));
    var amounts := Amounts(style, others);
    forall j | 0 <= j < |others|
      ensures CR !in amounts[j] && '/' !in amounts[j]
    {
      NumberSeparators(Money(style, others[j].amount));
    }
  }

  /** The parameters of `$y` read back: the number of forms, the cash flag
      (set exactly when cash was paid), and each form's code. */
  lemma Trxend1HeadReadsBack(others: seq<Payment>, cash: int)
    ensures var head := Trxend1Head(others, cash);
      |head| == 11 + |others| &&
      JavaText.ParseInt(head[8]) == Some(|others|) &&
      (head[10] == "1" <==> cash != 0) &&
      forall j :: 0 <= j < |others| ==> JavaText.ParseInt(head[11 + j]) == Some(others[j].code)
  {
    var head := Trxend1Head(others, cash);
    var codes := Codes(others);
    assert head[8] == JavaText.IntText(|others|) && head[10] == (if cash != 0 then "1" else "0");
    assert forall j :: 0 <= j < |others| ==> head[11 + j] == codes[j];
    JavaText.IntTextRoundTrip(|others|);
    forall j | 0 <= j < |others|
      ensures JavaText.ParseInt(head[11 + j]) == Some(others[j].code)
    {
      JavaText.IntTextRoundTrip(others[j].code);
    }
  }

  /** The amounts of `$y` read back exactly: total, cash, and each form's
      amount in the order of the codes. */
  lemma Trxend1AmountsReadBack(style: NumberStyle, total: int, cash: int, others: seq<Payment>)
    ensures var amounts := Trxend1Amounts(style, total, cash, others);
      |amounts| == 5 + |others| && ReadsAsCents(amounts[0], total) && ReadsAsCents(amounts[3], cash) &&
      forall j :: 0 <= j < |others| ==> ReadsAsCents(amounts[4 + j], others[j].amount)
  {
    var amounts := Trxend1Amounts(style, total, cash, others);
    var middle := Amounts(style, others);
    assert amounts[0] == Money(style, total) && amounts[3] == Money(style, cash);
    assert forall j :: 0 <= j < |others| ==> amounts[4 + j] == middle[j];
    MoneyReadsBack(style, total);
    MoneyReadsBack(style, cash);
    forall j | 0 <= j < |others|
      ensures ReadsAsCents(amounts[4 + j], others[j].amount)
    {
      MoneyReadsBack(style, others[j].amount);
    }
  }

  // ========================================================== `$x` closing

  /** The Innova slots in the order `$x` lists them. */
  function Slots(p: InnovaPayments): seq<InnovaSlot> {
    [p.cash, p.card, p.cheque, p.voucher]
  }

  /** The payment types behind the slots. */
  const SlotTypes: seq<PaymentType> := [Cash, CreditCard, Cheque, Voucher]

  /** The parameters in front of `$x`: three footer lines, cut and close,
      short summary, no discount, the four slot flags, no deposits taken or
      returned, no change. */
  function TrxendHead(p: InnovaPayments): seq<string> {
    ["3", "0", "0", "0",
     JavaText.IntText(p.cash.flag), JavaText.IntText(p.card.flag),
     JavaText.IntText(p.cheque.flag), JavaText.IntText(p.voucher.flag),
     "0", "0", "0"]
  }

  /** Three footer lines in front of which "003" stands, two unprinted
      lines, and the names of the card, cheque and voucher. */
  function TrxendLines(p: InnovaPayments): seq<string> {
    InnovaFooter + [JavaText.NullText(p.card.name), JavaText.NullText(p.cheque.name), JavaText.NullText(p.voucher.name)]
  }

  const InnovaFooter: seq<string> :=
    ["003", "Serwer wydruku fiskalnego wersja 1.1", "(c) 2001-2007 TT Soft Sp. z o.o., BPP.",
     "http://www.tt-soft.com/", "", ""]

  /** Total, discount, the four slot amounts, deposits and change. */
  function TrxendAmounts(total: int, p: InnovaPayments): seq<string> {
    [Money(Plain, total), "0",
     Money(Plain, p.cash.amount), Money(Plain, p.card.amount),
     Money(Plain, p.cheque.amount), Money(Plain, p.voucher.amount),
     "0", "0", "0"]
  }

  /** `sendLBTRXEND`'s payload `$x`. */
  function TrxendText(total: int, p: InnovaPayments): string {
    Payload(Row(TrxendHead(p), ';'), '$', 'x', TrxendLines(p), TrxendAmounts(total, p))
  }

  /** `$x` cuts back into its parts: the eleven ';'-separated parameters,
      the nine lines and the nine amounts. */
  lemma TrxendFields(total: int, p: InnovaPayments)
    requires OneLine(p.card.name) && OneLine(p.cheque.name) && OneLine(p.voucher.name)
    ensures Cuts(TrxendText(total, p), Row(TrxendHead(p), ';'), '$', 'x', TrxendLines(p), TrxendAmounts(total, p))
    ensures Seqs.Fields(Row(TrxendHead(p), ';'), ';') == TrxendHead(p)
  {
    var head := TrxendHead(p);
    var lines := TrxendLines(p);
    var amounts := TrxendAmounts(total, p);
    assert Clean(head, ';', '$') && Seqs.Fields(Row(head, ';'), ';') == head && '$' !in Row(head, ';') by {
      TrxendHeadClean(p);
      RowFields(head, ';', '$');
    }
    assert SingleLines(lines) by {
      TrxendLinesSingle(p);
    }
    assert Clean(amounts, CR, '/') by {
      TrxendAmountsClean(total, p);
    }
    PayloadCuts(Row(head, ';'), '$', 'x', lines, amounts);
  }

  lemma TrxendHeadClean(p: InnovaPayments)
    ensures Clean(TrxendHead(p), ';', '$')
  {
    IntSeparators(p.cash.flag);
    IntSeparators(p.card.flag);
    IntSeparators(p.cheque.flag);
    IntSeparators(p.voucher.flag);
  }

  lemma TrxendLinesSingle(p: InnovaPayments)
    requires OneLine(p.card.name) && OneLine(p.cheque.name) && OneLine(p.voucher.name)
    ensures SingleLines(TrxendLines(p))
  {
    var ls := TrxendLines(p);
    InnovaFooterSingle();
    forall k | 0 <= k < |ls|
      ensures CR !in ls[k]
    {
      if k < |InnovaFooter| {
        assert ls[k] == InnovaFooter[k];
      }
    }
  }

  lemma InnovaFooterSingle()
    ensures SingleLines(InnovaFooter)
  {
    FooterLine1();
    FooterLine2();
    FooterLine3();
  }

  lemma FooterLine1()
    ensures CR !in "Serwer wydruku fiskalnego wersja 1.1"
  {
  }

  lemma FooterLine2()
    ensures CR !in "(c) 2001-2007 TT Soft Sp. z o.o., BPP."
  {
  }

  lemma FooterLine3()
    ensures CR !in "http://www.tt-soft.com/"
  {
  }

  lemma TrxendAmountsClean(total: int, p: InnovaPayments)
    ensures Clean(TrxendAmounts(total, p), CR, '/')
  {
    NumberSeparators(Money(Plain, total));
    NumberSeparators(Money(Plain, p.cash.amount));
    NumberSeparators(Money(Plain, p.card.amount));
    NumberSeparators(Money(Plain, p.cheque.amount));
    NumberSeparators(Money(Plain, p.voucher.amount));
  }

  /** What `$x` tells the printer about each of the four slots of a slip:
      the flag is 1 exactly when the slip holds a nonzero amount of that
      type (0 otherwise), the amount reads back as the slip's amount, and
      the name line carries the slip's name for a used slot and is empty for
      an unused one. The total reads back exactly. */
  lemma TrxendOfSlip(slip: Slips.Slip, total: int, i: nat)
    requires i < 4
    ensures var p := PrepareInnova(slip);
      var a := Slips.GetPaymentAmount(slip, SlotTypes[i]);
      JavaText.ParseInt(TrxendHead(p)[4 + i]) == Some(if a != 0 then 1 else 0) &&
      Numbers.ParseDecimal(TrxendAmounts(total, p)[2 + i]).Some? &&
      Numbers.SameValue(Numbers.ParseDecimal(TrxendAmounts(total, p)[2 + i]).value, Decimal(a, 2))
    ensures var p := PrepareInnova(slip);
      var a := Slips.GetPaymentAmount(slip, SlotTypes[i]);
      i >= 1 ==> TrxendLines(p)[5 + i] == (if a != 0 then JavaText.NullText(Slips.GetPaymentName(slip, SlotTypes[i])) else "")
    ensures Numbers.ParseDecimal(TrxendAmounts(total, PrepareInnova(slip))[0]).Some?
    ensures Numbers.SameValue(Numbers.ParseDecimal(TrxendAmounts(total, PrepareInnova(slip))[0]).value, Decimal(total, 2))
  {
    var p := PrepareInnova(slip);
    var s := Slots(p)[i];
    assert s == InnovaSlotOf(slip, SlotTypes[i], i >= 1) by {
      PrepareInnovaSlots(slip);
    }
    TrxendPlaces(total, p, i);
    JavaText.IntTextRoundTrip(s.flag);
    MoneyReadsBack(Plain, s.amount);
    MoneyReadsBack(Plain, total);
  }

  /** Where slot `i` lands in the three parts of `$x`. */
  lemma TrxendPlaces(total: int, p: InnovaPayments, i: nat)
    requires i < 4
    ensures TrxendHead(p)[4 + i] == JavaText.IntText(Slots(p)[i].flag)
    ensures TrxendAmounts(total, p)[2 + i] == Money(Plain, Slots(p)[i].amount)
    ensures i >= 1 ==> TrxendLines(p)[5 + i] == JavaText.NullText(Slots(p)[i].name)
  {
    FlagPlace(p, i);
    AmountPlace(total, p, i);
    if i >= 1 {
      NamePlace(p, i);
    }
  }

  lemma FlagPlace(p: InnovaPayments, i: nat)
    requires i < 4
    ensures TrxendHead(p)[4 + i] == JavaText.IntText(Slots(p)[i].flag)
  {
  }

  lemma AmountPlace(total: int, p: InnovaPayments, i: nat)
    requires i < 4
    ensures TrxendAmounts(total, p)[2 + i] == Money(Plain, Slots(p)[i].amount)
  {
  }

  lemma NamePlace(p: InnovaPayments, i: nat)
    requires 1 <= i < 4
    ensures TrxendLines(p)[5 + i] == JavaText.NullText(Slots(p)[i].name)
  {
    assert |InnovaFooter| == 6;
  }

  // ============================================================ card slip

  /** The card-slip fields are limited: longer texts are cut to `n`
      characters and trimmed; shorter ones go as they are. Either way the
      result is a piece of `s`. */
  function CutTrim(s: string, n: nat): (r: string)
    ensures |r| <= n
    ensures |s| <= n ==> r == s
    ensures forall x :: x in r ==> x in s
  {
    if |s| > n then
      var t := JavaText.Trim(s[..n]);
      PieceChars(s[..n], JavaText.TrimStart(s[..n]), t);
      PieceChars(s, 0, s[..n]);
      t
    else
      s
  }

  /** Every character of a piece of `s` is a character of `s`. */
  lemma PieceChars(s: string, i: nat, t: string)
    requires i + |t| <= |s| && t == s[i..i + |t|]
    ensures forall x :: x in t ==> x in s
  {
    forall x | x in t
      ensures x in s
    {
      var k :| 0 <= k < |t| && t[k] == x;
      assert t[k] == s[i + k];
    }
  }

  /** A piece of `s` holds no character `s` does not hold. */
  lemma CutTrimKeepsOut(s: string, n: nat, c: char)
    requires c !in s
    ensures c !in CutTrim(s, n)
  {
  }

  /** The card data of `sendLBTRSCARD`: sales reference, card holder,
      terminal, card name and card number. */
  datatype CardData = CardData(reference: string, holder: string, terminal: string, cardName: string, cardNumber: string)

  /** Till and cashier lines, the five card fields cut to 12, 15, 8, 16 and
      20 characters, expiry month and year, and the authorisation code. */
  function CardLines(c: CardData): seq<string> {
    CardLinesOf(CutTrim(c.reference, 12), CutTrim(c.holder, 15), CutTrim(c.terminal, 8),
                CutTrim(c.cardName, 16), CutTrim(c.cardNumber, 20))
  }

  /** The ten lines around five prepared card fields. */
  function CardLinesOf(a: string, b: string, e: string, f: string, g: string): (ls: seq<string>)
    ensures |ls| == 10 && ls[2] == a && ls[3] == b && ls[4] == e && ls[5] == f && ls[6] == g
  {
    ["01", "Jasiu", a, b, e, f, g, "01", "01", "3AL2455"]
  }

  /** Till and cashier not printed, cut and close, PIN or signature. */
  function CardHead(pin: bool): seq<string> {
    ["1", "1", if pin then "1" else "0"]
  }

  /** `sendLBTRSCARD`'s payload `#g`. */
  function CardText(c: CardData, amount: int, pin: bool): string {
    Payload(Seqs.Terminated(CardHead(pin), ';'), '#', 'g', CardLines(c), [Money(Plain, amount)])
  }

  /** The card fields as sent are within their lengths, and a field short
      enough is sent unchanged. */
  lemma CardFieldLimits(c: CardData)
    ensures var ls := CardLines(c);
      |ls[2]| <= 12 && |ls[3]| <= 15 && |ls[4]| <= 8 && |ls[5]| <= 16 && |ls[6]| <= 20
    ensures |c.reference| <= 12 ==> CardLines(c)[2] == c.reference
    ensures |c.cardNumber| <= 20 ==> CardLines(c)[6] == c.cardNumber
  {
  }


  /** `#g` cuts back into the PIN flag, the ten lines and the amount, which
      reads back exactly. */
  lemma CardTextFields(c: CardData, amount: int, pin: bool)
    requires CR !in c.reference && CR !in c.holder && CR !in c.terminal && CR !in c.cardName && CR !in c.cardNumber
    ensures Cuts(CardText(c, amount, pin), Seqs.Terminated(CardHead(pin), ';'), '#', 'g', CardLines(c), [Money(Plain, amount)])
    ensures Seqs.Fields(Seqs.Terminated(CardHead(pin), ';'), ';') == CardHead(pin) + [[]]
    ensures CardHead(pin)[2] == "1" <==> pin
    ensures Numbers.ParseDecimal(Money(Plain, amount)).Some?
    ensures Numbers.SameValue(Numbers.ParseDecimal(Money(Plain, amount)).value, Decimal(amount, 2))
  {
    var head := CardHead(pin);
    assert '#' !in Seqs.Terminated(head, ';') && Seqs.Fields(Seqs.Terminated(head, ';'), ';') == head + [[]] by {
      TerminatedHead(head, ';', '#');
    }
    assert SingleLines(CardLines(c)) by {
      CardLinesSingle(c);
    }
    assert Clean([Money(Plain, amount)], CR, '/') by {
      NumberSeparators(Money(Plain, amount));
    }
    PayloadCuts(Seqs.Terminated(head, ';'), '#', 'g', CardLines(c), [Money(Plain, amount)]);
    MoneyReadsBack(Plain, amount);
  }

  lemma CardLinesSingle(c: CardData)
    requires CR !in c.reference && CR !in c.holder && CR !in c.terminal && CR !in c.cardName && CR !in c.cardNumber
    ensures SingleLines(CardLines(c))
  {
    CutTrimKeepsOut(c.reference, 12, CR);
    CutTrimKeepsOut(c.holder, 15, CR);
    CutTrimKeepsOut(c.terminal, 8, CR);
    CutTrimKeepsOut(c.cardName, 16, CR);
    CutTrimKeepsOut(c.cardNumber, 20, CR);
    SingleFive(CutTrim(c.reference, 12), CutTrim(c.holder, 15), CutTrim(c.terminal, 8),
               CutTrim(c.cardName, 16), CutTrim(c.cardNumber, 20));
  }

  /** Five line-free fields between the fixed card lines. */
  lemma SingleFive(a: string, b: string, e: string, f: string, g: string)
    requires CR !in a && CR !in b && CR !in e && CR !in f && CR !in g
    ensures SingleLines(CardLinesOf(a, b, e, f, g))
  {
  }

  // ========================================================= short commands

  /** A command with one numeric parameter and no lines: `0$e` (cancel),
      `1$d` (drawer), `pl$h` (open a receipt), `ps#e` (error mode),
      `ps#s` (rate table). */
  function Command(param: int, mark: char, code: char): string {
    Payload(JavaText.IntText(param), mark, code, [], [])
  }

  /** A one-parameter command reads back: the parameter is all that stands
      before the mark, and the name ends the text. */
  lemma CommandReadsBack(param: int, mark: char, code: char)
    requires mark == '$' || mark == '#'
    ensures var t := Command(param, mark, code);
      var i := Seqs.IndexOf(t, mark);
      0 <= i && i + 2 == |t| && JavaText.ParseInt(t[..i]) == Some(param) && t[i + 1] == code
  {
    var h := JavaText.IntText(param);
    IntSeparators(param);
    assert SingleLines([]);
    PayloadCuts(h, mark, code, [], []);
    assert Seqs.Terminated<char>([], CR) == [] && Seqs.Terminated<char>([], '/') == [];
    JavaText.IntTextRoundTrip(param);
  }

  /** The day of a daily report, as `Date` gives it: years since 1900,
      months from 0, days of the month from 1. */
  datatype JavaDate = JavaDate(year: int, month: int, date: int)

  /** Report kind 1, then the two-digit year, month and day. */
  function DayReportHead(now: JavaDate): seq<string> {
    ["1", JavaText.IntText(now.year - 100), JavaText.IntText(now.month + 1), JavaText.IntText(now.date)]
  }

  /** `sendLBDAYREP`'s payload `#r`. */
  function DayReportText(now: JavaDate): string {
    Payload(Row(DayReportHead(now), ';'), '#', 'r', [], [])
  }

  /** The daily report names the calendar day: the parameters read back as
      the calendar year less 2000 (its last two digits from 2000 to 2099),
      the month from 1 to 12 and the day. */
  lemma DayReportReadsBack(now: JavaDate, calendarYear: int)
    requires now.year == calendarYear - 1900 && 0 <= now.month <= 11
    ensures Cuts(DayReportText(now), Row(DayReportHead(now), ';'), '#', 'r', [], [])
    ensures var fs := Seqs.Fields(Row(DayReportHead(now), ';'), ';');
      |fs| == 4 && fs[0] == "1" &&
      JavaText.ParseInt(fs[1]) == Some(calendarYear - 2000) &&
      JavaText.ParseInt(fs[2]) == Some(now.month + 1) && 1 <= now.month + 1 <= 12 &&
      JavaText.ParseInt(fs[3]) == Some(now.date)
  {
    var head := DayReportHead(now);
    assert Seqs.Fields(Row(head, ';'), ';') == head && '#' !in Row(head, ';') by {
      DayReportHeadClean(now);
      RowFields(head, ';', '#');
    }
    assert Cuts(DayReportText(now), Row(head, ';'), '#', 'r', [], []) by {
      assert SingleLines([]);
      PayloadCuts(Row(head, ';'), '#', 'r', [], []);
    }
    assert JavaText.ParseInt(head[1]) == Some(calendarYear - 2000) by {
      JavaText.IntTextRoundTrip(now.year - 100);
    }
    assert JavaText.ParseInt(head[2]) == Some(now.month + 1) by {
      JavaText.IntTextRoundTrip(now.month + 1);
    }
    assert JavaText.ParseInt(head[3]) == Some(now.date) by {
      JavaText.IntTextRoundTrip(now.date);
    }
  }

  lemma DayReportHeadClean(now: JavaDate)
    ensures Clean(DayReportHead(now), ';', '#')
  {
    IntSeparators(now.year - 100);
    IntSeparators(now.month + 1);
    IntSeparators(now.date);
  }
}

=== FILE: faults.dfy ===
/** Everything the modelled code can throw, as one datatype. Unchecked Java
    exceptions, the `IOException`s raised by the link layer, and the
    `FiscalPrinterException`s raised by the drivers are kept apart so that
    contracts can say which kind a path ends in. */
module Faults {

  /** Why a Posnet 101 frame could not be received (the `IOException` texts). */
  datatype ReceiveStage = NoStx | NoHash | NoCrc | NoEtx

  datatype Fault =
    // unchecked Java exceptions
    | IllegalArgument
    | IndexOutOfBounds
    | NumberFormat
    | NullPointer
    | IllegalState
    | UnsupportedOperation
    // IOException
    | Timeout(stage: ReceiveStage)
    | BadCrc
    | AckTimeout
    | NakReceived
    | RatesTimeout
    // FiscalPrinterException
    | NoCommunication
    | DeviceStatus(code: int)
    | UndefinedRate
    | NotReady(property: string, value: string)
    | NoHeader
    | UnfinishedTransaction
    | ProtocolFault(command: string, errorCode: string)
    | NotConfirmed(command: string)
    | PaperOut
    | DailyReportMissing
    | PrecisionTooHigh
}

=== FILE: javatext.dfy ===
/** The parts of Java's `String`, `Character`, `Integer` and `Byte` behaviour
    that the drivers depend on, restated over Dafny strings. Only the ASCII
    range is given Unicode-aware behaviour where the JDK would offer more
    (letter case, digit recognition). */
module JavaText {
  import opened Wrappers

  /** `String.trim` removes every character up to and including U+0020. */
  predicate IsBlank(c: char) {
    c <= ' '
  }

  function TrimStart(s: string): (i: nat)
    ensures i <= |s|
    ensures forall k :: 0 <= k < i ==> IsBlank(s[k])
    ensures i < |s| ==> !IsBlank(s[i])
  {
    if |s| == 0 || !IsBlank(s[0]) then 0 else 1 + TrimStart(s[1..])
  }

  function TrimEnd(s: string): (j: nat)
    ensures j <= |s|
    ensures forall k :: j <= k < |s| ==> IsBlank(s[k])
    ensures 0 < j ==> !IsBlank(s[j - 1])
  {
    if |s| == 0 || !IsBlank(s[|s| - 1]) then |s| else TrimEnd(s[..|s| - 1])
  }

  /** Java `String.trim`: the result neither starts nor ends with a blank,
      and it is the piece of `s` after the leading blanks. */
  function Trim(s: string): (r: string)
    ensures |r| <= |s|
    ensures r == [] || (!IsBlank(r[0]) && !IsBlank(r[|r| - 1]))
    ensures TrimStart(s) + |r| <= |s| && r == s[TrimStart(s)..TrimStart(s) + |r|]
  {
    var i := TrimStart(s);
    if i == |s| then "" else s[i..TrimEnd(s)]
  }

  /** `s` is a blank run, its trim, then a blank run. */
  lemma TrimSplits(s: string)
    ensures s == s[..TrimStart(s)] + Trim(s) + s[TrimStart(s) + |Trim(s)|..]
    ensures forall k :: TrimStart(s) + |Trim(s)| <= k < |s| ==> IsBlank(s[k])
  {
    var i := TrimStart(s);
    var r := Trim(s);
    if i < |s| {
      var j := TrimEnd(s);
      assert !IsBlank(s[i]);
      assert r == s[i..j];
      ThreeParts(s, i, j);
    } else {
      ThreeParts(s, i, i);
    }
  }

  lemma ThreeParts(s: string, i: nat, j: nat)
    requires i <= j <= |s|
    ensures s == s[..i] + s[i..j] + s[j..]
  {
    assert s[..j] == s[..i] + s[i..j];
  }

  /** The trim is empty exactly when `s` is all blanks. */
  lemma TrimEmpty(s: string)
    ensures Trim(s) == [] <==> forall k :: 0 <= k < |s| ==> IsBlank(s[k])
  {
    var i := TrimStart(s);
    if i < |s| {
      assert !IsBlank(s[i]);
      assert i < TrimEnd(s);
    }
  }

  lemma TrimIdempotent(s: string)
    ensures Trim(Trim(s)) == Trim(s)
  {
    var r := Trim(s);
    if r != [] {
      assert TrimStart(r) == 0;
      assert TrimEnd(r) == |r|;
    }
  }

  /** A string with no blank at either end is its own trim. */
  lemma TrimOfUnpadded(s: string)
    requires s == [] || (!IsBlank(s[0]) && !IsBlank(s[|s| - 1]))
    ensures Trim(s) == s
  {
    if s != [] {
      assert TrimStart(s) == 0;
      assert TrimEnd(s) == |s|;
    }
  }

  /** No character of `s` is blank (in particular no tab or line break). */
  predicate NoBlank(s: string) {
    forall k :: 0 <= k < |s| ==> !IsBlank(s[k])
  }

  lemma TrimOfNoBlank(s: string)
    requires NoBlank(s)
    ensures Trim(s) == s
  {
    if s != [] {
      assert !IsBlank(s[0]) && !IsBlank(s[|s| - 1]);
      TrimOfUnpadded(s);
    }
  }

  /** `s.length() > n ? s.substring(0, n) : s`. */
  function Cut(s: string, n: nat): (r: string)
    ensures |r| == if |s| > n then n else |s|
    ensures r == s[..|r|]
  {
    if |s| > n then s[..n] else s
  }

  /** String concatenation renders a `null` reference as "null". */
  function NullText(o: Option<string>): string {
    match o
    case Some(s) => s
    case None => "null"
  }

  predicate StartsWith(s: string, p: string) {
    |p| <= |s| && s[..|p|] == p
  }

  // ---------------------------------------------------------------- decimal

  predicate IsDigit(c: char) {
    '0' <= c <= '9'
  }

  function DigitChar(d: nat): (c: char)
    requires d < 10
    ensures IsDigit(c) && (c as int) - ('0' as int) == d
  {
    ('0' as int + d) as char
  }

  /** Decimal digits of `n` without leading zeros (`Integer.toString` of a
      non-negative value). */
  function NatText(n: nat): (r: string)
    ensures |r| >= 1
    ensures forall k :: 0 <= k < |r| ==> IsDigit(r[k])
    ensures |r| > 1 ==> r[0] != '0'
  {
    if n < 10 then [DigitChar(n)] else NatText(n / 10) + [DigitChar(n % 10)]
  }

  /** `Integer.toString` / `Long.toString` / string concatenation of an integer. */
  function IntText(i: int): (r: string)
    ensures |r| >= 1
    ensures i < 0 <==> r[0] == '-'
  {
    if i < 0 then "-" + NatText(-i) else NatText(i)
  }

  /** A rendered integer holds only digits and a minus sign. */
  lemma IntTextNoBlank(i: int)
    ensures NoBlank(IntText(i))
  {
    var t := IntText(i);
    var u := NatText(if i < 0 then -i else i);
    assert forall k :: 0 <= k < |u| ==> IsDigit(u[k]);
    if i < 0 {
      assert forall k :: 1 <= k < |t| ==> t[k] == u[k - 1];
    }
  }

  /** Value of a string of decimal digits, most significant first. */
  function DigitsValue(s: string): (v: nat)
    requires forall k :: 0 <= k < |s| ==> IsDigit(s[k])
  {
    if |s| == 0 then 0
    else
      assert IsDigit(s[|s| - 1]);
      DigitsValue(s[..|s| - 1]) * 10 + ((s[|s| - 1] as int) - ('0' as int))
  }

  lemma {:induction false} DigitsValueOfNatText(n: nat)
    ensures DigitsValue(NatText(n)) == n
  {
    if n >= 10 {
      var t := NatText(n);
      DigitsValueOfNatText(n / 10);
      assert t[..|t| - 1] == NatText(n / 10);
    }
  }

  /** `Integer.parseInt(s, 10)` on exact integers: an optional sign, then at
      least one ASCII digit. `None` stands for `NumberFormatException`. */
  function ParseInt(s: string): (r: Option<int>)
    ensures r.Some? ==> |s| >= 1
  {
    if |s| == 0 then None
    else if s[0] == '-' || s[0] == '+' then
      if |s| >= 2 && forall k :: 1 <= k < |s| ==> IsDigit(s[k]) then
        var v: int := DigitsValue(s[1..]);
        Some(if s[0] == '-' then -v else v)
      else None
    else if forall k :: 0 <= k < |s| ==> IsDigit(s[k]) then Some(DigitsValue(s))
    else None
  }

  lemma IntTextRoundTrip(i: int)
    ensures ParseInt(IntText(i)) == Some(i)
  {
    var t := IntText(i);
    if i < 0 {
      var u := NatText(-i);
      DigitsValueOfNatText(-i);
      assert t[1..] == u;
      assert forall k :: 1 <= k < |t| ==> IsDigit(t[k]) by {
        forall k | 1 <= k < |t| ensures IsDigit(t[k]) {
          assert t[k] == u[k - 1];
        }
      }
    } else {
      DigitsValueOfNatText(i);
      assert t[0] != '-' && t[0] != '+';
    }
  }

  /** `Byte.parseByte`: an integer text whose value lies in -128..127. Any other
      text is a `NumberFormatException` (`None`). Values that would overflow an
      `int` are out of the byte range as well, so parsing exactly is faithful. */
  function ParseByte(s: string): (r: Option<int>)
    ensures r.Some? <==> ParseInt(s).Some? && -128 <= ParseInt(s).value <= 127
    ensures r.Some? ==> r.value == ParseInt(s).value
  {
    match ParseInt(s)
    case None => None
    case Some(v) => if -128 <= v <= 127 then Some(v) else None
  }

  lemma ParseByteOfText(b: int)
    requires -128 <= b <= 127
    ensures ParseByte(IntText(b)) == Some(b)
  {
    IntTextRoundTrip(b);
  }

  // -------------------------------------------------------------------- hex

  function HexLowerChar(d: nat): (c: char)
    requires d < 16
  {
    if d < 10 then DigitChar(d) else ('a' as int + (d - 10)) as char
  }

  predicate IsHexLower(c: char) {
    IsDigit(c) || 'a' <= c <= 'f'
  }

  /** `Integer.toHexString` of a non-negative value: lower-case digits, no
      leading zeros. */
  function HexText(n: nat): (r: string)
    ensures 1 <= |r|
    ensures forall k :: 0 <= k < |r| ==> IsHexLower(r[k])
    ensures |r| > 1 ==> r[0] != '0'
    ensures n < 0x10 ==> |r| == 1
    ensures n < 0x100 ==> |r| <= 2
    ensures n < 0x1000 ==> |r| <= 3
    ensures n < 0x1_0000 ==> |r| <= 4
  {
    if n < 16 then [HexLowerChar(n)] else HexText(n / 16) + [HexLowerChar(n % 16)]
  }

  /** `Character.digit(c, 16)` on ASCII: 0..15 for a hex digit of either case,
      -1 otherwise. */
  function HexValue(c: char): (d: int)
    ensures -1 <= d < 16
  {
    if IsDigit(c) then c as int - '0' as int
    else if 'a' <= c <= 'f' then c as int - 'a' as int + 10
    else if 'A' <= c <= 'F' then c as int - 'A' as int + 10
    else -1
  }

  lemma HexValueOfLowerChar(d: nat)
    requires d < 16
    ensures HexValue(HexLowerChar(d)) == d
  {
  }

  /** Value of a string of hex digits, most significant first. */
  function HexDigitsValue(s: string): (v: nat)
    requires forall k :: 0 <= k < |s| ==> 0 <= HexValue(s[k])
  {
    if |s| == 0 then 0
    else HexDigitsValue(s[..|s| - 1]) * 16 + HexValue(s[|s| - 1])
  }

  lemma {:induction false} HexDigitsValueOfHexText(n: nat)
    ensures forall k :: 0 <= k < |HexText(n)| ==> 0 <= HexValue(HexText(n)[k])
    ensures HexDigitsValue(HexText(n)) == n
  {
    var t := HexText(n);
    forall k | 0 <= k < |t|
      ensures 0 <= HexValue(t[k])
    {
    }
    if n >= 16 {
      HexDigitsValueOfHexText(n / 16);
      assert t[..|t| - 1] == HexText(n / 16);
      HexValueOfLowerChar(n % 16);
    } else {
      HexValueOfLowerChar(n);
    }
  }

  // ------------------------------------------------------------- letter case

  /** ASCII upper-casing; other characters are left alone. */
  function UpperAscii(c: char): char {
    if 'a' <= c <= 'z' then (c as int - 32) as char else c
  }

  /** `String.equalsIgnoreCase`, restricted to ASCII case folding. */
  predicate EqualsIgnoreCase(a: string, b: string) {
    |a| == |b| && forall k :: 0 <= k < |a| ==> UpperAscii(a[k]) == UpperAscii(b[k])
  }
}

=== FILE: link.dfy ===
/** A serial line as the drivers see it, with time taken out. The device's
    answers are known in advance: `replies[0]` arrives in answer to the next
    transmission, `replies[1]` to the one after, and so on. Bytes that have
    arrived and not been read wait in `input`. Every transmission is recorded
    in `sent`. Waiting "until a timeout" becomes reading until `input` runs
    dry. */
module Link {
  import opened BitsAndBytes
  import opened Wrappers
  import opened Faults

  datatype Link = Link(input: seq<byte>, replies: seq<seq<byte>>, sent: seq<seq<byte>>)

  /** A line on which nothing has been sent yet. */
  function Open(replies: seq<seq<byte>>): (l: Link)
    ensures l.input == [] && l.replies == replies && l.sent == []
  {
    Link([], replies, [])
  }

  /** `outputStream.write(data)`: the data is recorded, then the device's
      answer to it (if it has one) lands in the input. */
  function Write(l: Link, data: seq<byte>): (r: Link)
    ensures r.sent == l.sent + [data]
    ensures |l.replies| > 0 ==> r.input == l.input + l.replies[0] && r.replies == l.replies[1..]
    ensures |l.replies| == 0 ==> r.input == l.input && r.replies == []
  {
    if |l.replies| == 0 then Link(l.input, [], l.sent + [data])
    else Link(l.input + l.replies[0], l.replies[1..], l.sent + [data])
  }

  /** `inputStream.read()`: the next byte, or `None` (Java's -1) when nothing
      is waiting. */
  function Read(l: Link): (r: (Option<byte>, Link))
    ensures |l.input| == 0 ==> r.0 == None && r.1 == l
    ensures |l.input| > 0 ==> r.0 == Some(l.input[0]) && r.1 == l.(input := l.input[1..])
  {
    if |l.input| == 0 then (None, l) else (Some(l.input[0]), l.(input := l.input[1..]))
  }

  /** The low eight bits of what `read()` returns: -1 on an empty line reads
      as 0xFF once it is cast to a byte. */
  function ReadCast(l: Link): (r: (byte, Link))
    ensures |l.input| == 0 ==> r.0 == 0xFF && r.1 == l
    ensures |l.input| > 0 ==> r.0 == l.input[0] && r.1.input == l.input[1..]
    ensures r.1.sent == l.sent && r.1.replies == l.replies
  {
    var (b, l') := Read(l);
    (if b.Some? then b.value else 0xFF, l')
  }

  /** Draining the input (`while (available() > 0) read()`). */
  function Flush(l: Link): (r: Link)
    ensures r.input == [] && r.replies == l.replies && r.sent == l.sent
  {
    l.(input := [])
  }

  /** The outcome of a step of a driver: the line as it was left, and either
      a value or the exception the step threw. The line is kept on failure too,
      so that properties can speak of what had been sent before the fault. */
  datatype Run<+T> = Run(link: Link, result: Result<T, Fault>) {
    predicate IsFailure() {
      result.Failure?
    }

    function PropagateFailure<U>(): Run<U>
      requires result.Failure?
    {
      Run(link, Failure(result.error))
    }

    function Extract(): (Link, T)
      requires result.Success?
    {
      (link, result.value)
    }
  }

  /** A step that does not touch the line but may throw. */
  function Lift<T>(l: Link, r: Result<T, Fault>): (run: Run<T>)
    ensures run.link == l && run.result == r
  {
    Run(l, r)
  }

  /** Between `l` and `r` the line carried a leading part of `frames`, in
      order, and nothing else: the shape of every run that sends a fixed
      list of frames and stops at the first failure. */
  predicate SentPart(l: Link, r: Link, frames: seq<seq<byte>>) {
    |l.sent| <= |r.sent| <= |l.sent| + |frames| && r.sent == l.sent + frames[..|r.sent| - |l.sent|]
  }

  /** One frame sent, then a leading part of the rest: a leading part of the
      whole list. */
  lemma SentPartStep(l: Link, m: Link, r: Link, f: seq<byte>, frames: seq<seq<byte>>)
    requires m.sent == l.sent + [f]
    requires SentPart(m, r, frames)
    ensures SentPart(l, r, [f] + frames)
    ensures |r.sent| > |l.sent|
    ensures r.sent == m.sent + frames ==> r.sent == l.sent + ([f] + frames)
  {
    var n := |r.sent| - |m.sent|;
    assert ([f] + frames)[..n + 1] == [f] + frames[..n];
  }

  /** One frame sent: a leading part of any list that starts with it. */
  lemma SentPartFirst(l: Link, m: Link, frames: seq<seq<byte>>)
    requires |frames| >= 1 && m.sent == l.sent + [frames[0]]
    ensures SentPart(l, m, frames)
    ensures |m.sent| > |l.sent|
  {
    assert frames[..1] == [frames[0]];
  }

  /** `step` applied to each item in turn, each on the line the previous one
      left; the first failure ends the run. */
  function Steps<T>(l: Link, items: seq<T>, step: (Link, T) -> Run<()>): (r: Run<()>)
    decreases |items|
  {
    if |items| == 0 then Run(l, Success(()))
    else
      var x := step(l, items[0]);
      if x.result.Failure? then x else Steps(x.link, items[1..], step)
  }

  /** The frame each item is sent as. */
  function Sends<T>(items: seq<T>, frame: T -> seq<byte>): (fs: seq<seq<byte>>)
    ensures |fs| == |items|
    ensures forall k :: 0 <= k < |items| ==> fs[k] == frame(items[k])
  {
    seq(|items|, k requires 0 <= k < |items| => frame(items[k]))
  }

  /** Every application of `step` transmits exactly the item's frame. */
  ghost predicate SendsOne<T(!new)>(step: (Link, T) -> Run<()>, frame: T -> seq<byte>) {
    forall m: Link, x: T :: step(m, x).link.sent == m.sent + [frame(x)]
  }

  /** A run of steps sends a leading part of the items' frames, and all of
      them when it succeeds. */
  lemma {:induction false} StepsSend<T(!new)>(l: Link, items: seq<T>, step: (Link, T) -> Run<()>, frame: T -> seq<byte>)
    requires SendsOne(step, frame)
    ensures SentPart(l, Steps(l, items, step).link, Sends(items, frame))
    ensures |items| > 0 ==> |Steps(l, items, step).link.sent| > |l.sent|
    ensures Steps(l, items, step).result.Success? ==> Steps(l, items, step).link.sent == l.sent + Sends(items, frame)
    decreases |items|
  {
    if |items| > 0 {
      var x := step(l, items[0]);
      var fs := Sends(items, frame);
      assert fs == [frame(items[0])] + Sends(items[1..], frame);
      if x.result.Failure? {
        SentPartFirst(l, x.link, fs);
      } else {
        StepsSend(x.link, items[1..], step, frame);
        SentPartStep(l, x.link, Steps(x.link, items[1..], step).link, frame(items[0]), Sends(items[1..], frame));
      }
    }
  }
}

=== FILE: numbers.dfy ===
/** Decimal renderings of amounts. The drivers turn `double` values into text
    with `Double.toString` (string concatenation) or with a `NumberFormat`
    fixed to k fraction digits. Here every amount is an exact decimal, and the
    two renderings become: the shortest plain decimal with at least one
    fraction digit (`DecimalText`), and the value rounded half-even to exactly
    k fraction digits (`FixedText`). */
module Numbers {
  import opened Wrappers
  import opened Datamodel
  import JavaText
  import ToString
  import Seqs

  function Abs(x: int): nat {
    if x < 0 then -x else x
  }

  /** The two decimals denote the same number. */
  predicate SameValue(a: Decimal, b: Decimal) {
    a.mantissa * Pow10(b.scale) == b.mantissa * Pow10(a.scale)
  }

  // ------------------------------------------------------------ rendering

  /** `m / 10^k` written out with exactly `k` fraction digits, preceded by a
      minus sign when `negative`. */
  function PointText(negative: bool, m: nat, k: nat): (r: string)
    requires k >= 1
  {
    var p := Pow10(k);
    DivMod(m, p);
    NatTextShort(m % p, k);
    (if negative then "-" else "") + JavaText.NatText(m / p) + "."
      + ToString.PadZeros(JavaText.NatText(m % p), k)
  }

  lemma DivMod(m: nat, p: nat)
    requires p >= 1
    ensures 0 <= m / p && 0 <= m % p < p && m == m / p * p + m % p
  {
  }

  /** `d` with trailing zero fraction digits removed. */
  function Normalize(d: Decimal): (r: Decimal)
    ensures SameValue(r, d)
    ensures r.scale <= d.scale
    ensures r.scale == 0 || r.mantissa % 10 != 0
    decreases d.scale
  {
    if d.scale > 0 && d.mantissa % 10 == 0 then
      var e := Decimal(d.mantissa / 10, d.scale - 1);
      assert d.mantissa == e.mantissa * 10;
      var r := Normalize(e);
      assert r.mantissa * Pow10(d.scale) == r.mantissa * Pow10(e.scale) * 10;
      r
    else d
  }

  /** What `Double.toString` prints for a value in plain notation: the
      shortest decimal, but never without a fraction digit ("5.0"). */
  function DecimalText(d: Decimal): (r: string) {
    var n := Normalize(d);
    if n.scale == 0 then PointText(n.mantissa < 0, Abs(n.mantissa) * 10, 1)
    else PointText(n.mantissa < 0, Abs(n.mantissa), n.scale)
  }

  /** A character a rendered number is made of. */
  predicate NumberChar(c: char) {
    JavaText.IsDigit(c) || c == '-' || c == '.'
  }

  predicate NumberChars(s: string) {
    forall k :: 0 <= k < |s| ==> NumberChar(s[k])
  }

  lemma PointTextNoBlank(negative: bool, m: nat, k: nat)
    requires k >= 1
    ensures NumberChars(PointText(negative, m, k))
    ensures JavaText.NoBlank(PointText(negative, m, k))
  {
    var p := Pow10(k);
    DivMod(m, p);
    NatTextShort(m % p, k);
    NatTextHasNoPoint(m / p);
    NatTextHasNoPoint(m % p);
    ToString.PadZerosValue(JavaText.NatText(m % p), k);
    var w := JavaText.NatText(m / p);
    var f := ToString.PadZeros(JavaText.NatText(m % p), k);
    assert AllDigits(f);
    var s := (if negative then "-" else "") + w + "." + f;
    assert forall i :: 0 <= i < |s| ==> NumberChar(s[i]) && !JavaText.IsBlank(s[i]) by {
      forall i | 0 <= i < |s| ensures NumberChar(s[i]) && !JavaText.IsBlank(s[i]) {
        var o := if negative then 1 else 0;
        if i < o {
        } else if i < o + |w| {
          assert s[i] == w[i - o];
        } else if i == o + |w| {
        } else {
          assert s[i] == f[i - o - |w| - 1];
        }
      }
    }
  }

  /** A rendered amount holds no blank, so trimming leaves it alone. */
  lemma DecimalTextNoBlank(d: Decimal)
    ensures NumberChars(DecimalText(d))
    ensures JavaText.NoBlank(DecimalText(d))
  {
    var n := Normalize(d);
    if n.scale == 0 {
      PointTextNoBlank(n.mantissa < 0, Abs(n.mantissa) * 10, 1);
    } else {
      PointTextNoBlank(n.mantissa < 0, Abs(n.mantissa), n.scale);
    }
  }

  /** An amount of cents as `Double.toString(cents / 100.0)` prints it. */
  function MoneyText(cents: int): string {
    DecimalText(Decimal(cents, 2))
  }

  /** `d` rounded half-even to `k` fraction digits, as a mantissa of scale k
      (`NumberFormat`'s default rounding). */
  function RoundTo(d: Decimal, k: nat): (r: int)
    ensures d.scale <= k ==> r * Pow10(d.scale) == d.mantissa * Pow10(k)
    ensures d.scale > k ==>
      2 * Abs(r * Pow10(d.scale - k) - d.mantissa) <= Pow10(d.scale - k)
  {
    if d.scale <= k then
      ScaleUp(d.mantissa, d.scale, k);
      d.mantissa * Pow10(k - d.scale)
    else
      var p := Pow10(d.scale - k);
      var u := RoundHalfEven(Abs(d.mantissa), p);
      SignedRound(d.mantissa, p, u);
      if d.mantissa < 0 then -(u as int) else u
  }

  /** `a / p` rounded to the nearest integer, ties to the even neighbour. */
  function RoundHalfEven(a: nat, p: nat): (u: nat)
    requires p >= 1
    ensures 2 * Abs(u * p - a) <= p
  {
    DivMod(a, p);
    var q := a / p;
    var rem := a % p;
    var up := 2 * rem > p || (2 * rem == p && q % 2 == 1);
    var u := if up then q + 1 else q;
    RoundError(a, p, q, rem, up, u);
    u
  }

  lemma ScaleUp(m: int, s: nat, k: nat)
    requires s <= k
    ensures m * Pow10(k - s) * Pow10(s) == m * Pow10(k)
  {
    PowAdd(s, k - s);
    assert Pow10(k) == Pow10(s) * Pow10(k - s);
    assert m * Pow10(k - s) * Pow10(s) == m * (Pow10(s) * Pow10(k - s));
  }

  lemma SignedRound(m: int, p: nat, u: nat)
    requires 2 * Abs(u * p - Abs(m)) <= p
    ensures 2 * Abs((if m < 0 then -(u as int) else u) * p - m) <= p
  {
    if m < 0 {
      assert (-(u as int)) * p - m == -(u * p - Abs(m));
    }
  }

  lemma RoundError(a: nat, p: nat, q: nat, rem: nat, up: bool, u: nat)
    requires p >= 1 && a == q * p + rem && rem < p
    requires up == (2 * rem > p || (2 * rem == p && q % 2 == 1))
    requires u == if up then q + 1 else q
    ensures 2 * Abs(u * p - a) <= p
  {
    if up {
      assert u * p - a == p - rem;
    } else {
      assert u * p - a == -(rem as int);
    }
  }

  /** `NumberFormat` with k fraction digits (minimum and maximum), no
      grouping, US symbols. */
  function FixedText(d: Decimal, k: nat): (r: string)
    requires k >= 1
  {
    var u := RoundTo(d, k);
    PointText(u < 0, Abs(u), k)
  }

  // -------------------------------------------------------------- parsing

  predicate AllDigits(s: string) {
    forall k :: 0 <= k < |s| ==> JavaText.IsDigit(s[k])
  }

  /** Reading a plain decimal back: an optional minus, at least one digit, a
      point, at least one digit. The scale is the number of fraction digits. */
  function ParseDecimal(s: string): (r: Option<Decimal>)
    ensures r.Some? ==> r.value.scale >= 1
  {
    if |s| > 0 && s[0] == '-' then
      match ParseUnsigned(s[1..])
      case Some(d) => Some(Decimal(-d.mantissa, d.scale))
      case None => None
    else ParseUnsigned(s)
  }

  function ParseUnsigned(body: string): (r: Option<Decimal>)
    ensures r.Some? ==> r.value.scale >= 1
  {
    var i := Seqs.IndexOf(body, '.');
    if i < 1 || i == |body| - 1 then None
    else
      var whole := body[..i];
      var frac := body[i + 1..];
      if AllDigits(whole) && AllDigits(frac) then
        Some(Decimal(JavaText.DigitsValue(whole) * Pow10(|frac|) + JavaText.DigitsValue(frac), |frac|))
      else None
  }

  // --------------------------------------------------------------- lemmas

  lemma {:induction false} PowAdd(a: nat, b: nat)
    ensures Pow10(a + b) == Pow10(a) * Pow10(b)
    decreases b
  {
    if b > 0 {
      PowAdd(a, b - 1);
      assert Pow10(a + b) == 10 * Pow10(a + b - 1);
    }
  }

  lemma {:induction false} NatTextShort(n: nat, k: nat)
    requires k >= 1 && n < Pow10(k)
    ensures |JavaText.NatText(n)| <= k
    decreases k
  {
    if n >= 10 {
      assert k >= 2;
      assert n / 10 < Pow10(k - 1);
      NatTextShort(n / 10, k - 1);
    }
  }

  lemma NatTextHasNoPoint(n: nat)
    ensures '.' !in JavaText.NatText(n)
    ensures AllDigits(JavaText.NatText(n))
  {
    var t := JavaText.NatText(n);
    assert forall k :: 0 <= k < |t| ==> t[k] != '.';
  }

  /** A digit run, a point and a digit run read back as their value. */
  /** The value of the digits `w`, a point, and the digits `f`, in units of
      the last fraction digit. */
  function PointValue(w: string, f: string): nat
    requires AllDigits(w) && AllDigits(f)
  {
    JavaText.DigitsValue(w) * Pow10(|f|) + JavaText.DigitsValue(f)
  }

  lemma ParseUnsignedOf(w: string, f: string)
    requires |w| >= 1 && |f| >= 1 && AllDigits(w) && AllDigits(f)
    ensures ParseUnsigned(w + "." + f) == Some(Decimal(PointValue(w, f), |f|))
  {
    var body := w + "." + f;
    IndexOfPoint(w, f);
    assert body[..|w|] == w;
    assert body[|w| + 1..] == f;
  }

  lemma IndexOfPoint(w: string, f: string)
    requires AllDigits(w)
    ensures Seqs.IndexOf(w + "." + f, '.') == |w|
  {
    var body := w + "." + f;
    assert body[|w|] == '.';
    assert body[..|w|] == w;
    assert forall k :: 0 <= k < |w| ==> w[k] != '.' by {
      forall k | 0 <= k < |w| ensures w[k] != '.' {
        assert JavaText.IsDigit(w[k]);
      }
    }
  }

  lemma ParseDecimalOf(negative: bool, w: string, f: string)
    requires |w| >= 1 && |f| >= 1 && AllDigits(w) && AllDigits(f)
    ensures ParseDecimal((if negative then "-" else "") + w + "." + f)
      == Some(Decimal(if negative then -(PointValue(w, f) as int) else PointValue(w, f), |f|))
  {
    var body := w + "." + f;
    ParseUnsignedOf(w, f);
    assert JavaText.IsDigit(w[0]);
    assert body[0] == w[0];
    assert (if negative then "-" else "") + w + "." + f == (if negative then "-" else "") + body;
    SignedParse(negative, body);
  }

  lemma SignedParse(negative: bool, body: string)
    requires |body| > 0 && body[0] != '-' && ParseUnsigned(body).Some?
    ensures ParseDecimal((if negative then "-" else "") + body)
      == Some(Decimal(if negative then -ParseUnsigned(body).value.mantissa
                      else ParseUnsigned(body).value.mantissa,
                      ParseUnsigned(body).value.scale))
  {
    if negative {
      ParseOfMinus(body);
    } else {
      assert "" + body == body;
      ParseOfPlain(body);
    }
  }

  lemma ParseOfMinus(body: string)
    ensures ParseDecimal("-" + body) ==
      if ParseUnsigned(body).Some?
      then Some(Decimal(-ParseUnsigned(body).value.mantissa, ParseUnsigned(body).value.scale))
      else None
  {
    assert ("-" + body)[1..] == body;
  }

  lemma ParseOfPlain(body: string)
    requires |body| > 0 && body[0] != '-'
    ensures ParseDecimal(body) == ParseUnsigned(body)
  {
  }

  /** The text of `PointText` reads back as exactly `m / 10^k` with sign. */
  lemma ParsePointText(negative: bool, m: nat, k: nat)
    requires k >= 1
    ensures ParseDecimal(PointText(negative, m, k)) == Some(Decimal(if negative then -(m as int) else m as int, k))
  {
    var p := Pow10(k);
    DivMod(m, p);
    var w := JavaText.NatText(m / p);
    NatTextShort(m % p, k);
    var f := ToString.PadZeros(JavaText.NatText(m % p), k);
    NatTextHasNoPoint(m / p);
    NatTextHasNoPoint(m % p);
    ToString.PadZerosValue(JavaText.NatText(m % p), k);
    assert AllDigits(f);
    ParseDecimalOf(negative, w, f);
    JavaText.DigitsValueOfNatText(m / p);
    JavaText.DigitsValueOfNatText(m % p);
    assert PointValue(w, f) == m;
  }

  /** `DecimalText` loses nothing: it reads back as the same number. */
  lemma DecimalTextReadsBack(d: Decimal)
    ensures ParseDecimal(DecimalText(d)).Some?
    ensures SameValue(ParseDecimal(DecimalText(d)).value, d)
  {
    if Normalize(d).scale == 0 {
      WholeTextReadsBack(d);
    } else {
      var n := Normalize(d);
      ParsePointText(n.mantissa < 0, Abs(n.mantissa), n.scale);
      assert ParseDecimal(DecimalText(d)) == Some(n);
    }
  }

  /** A whole number is written with ".0" and reads back as ten tenths of it. */
  lemma WholeTextReadsBack(d: Decimal)
    requires Normalize(d).scale == 0
    ensures ParseDecimal(DecimalText(d)).Some?
    ensures SameValue(ParseDecimal(DecimalText(d)).value, d)
  {
    var n := Normalize(d);
    ParsePointText(n.mantissa < 0, Abs(n.mantissa) * 10, 1);
    var e := Decimal(n.mantissa * 10, 1);
    assert ParseDecimal(DecimalText(d)) == Some(e);
    assert SameValue(e, n);
    SameValueTrans(e, n, d);
  }

  lemma SameValueTrans(a: Decimal, b: Decimal, c: Decimal)
    requires SameValue(a, b) && SameValue(b, c)
    ensures SameValue(a, c)
  {
    var pa, pb, pc := Pow10(a.scale), Pow10(b.scale), Pow10(c.scale);
    assert a.mantissa * pb == b.mantissa * pa;
    assert b.mantissa * pc == c.mantissa * pb;
    assert a.mantissa * pb * pc == c.mantissa * pa * pb by {
      assert a.mantissa * pb * pc == b.mantissa * pa * pc;
      assert b.mantissa * pc * pa == c.mantissa * pb * pa;
    }
    MulCancel(a.mantissa * pc, c.mantissa * pa, pb);
  }

  lemma MulCancel(x: int, y: int, p: int)
    requires p >= 1 && x * p == y * p
    ensures x == y
  {
    assert (x - y) * p == 0;
  }

  /** `FixedText` prints the rounded value with exactly `k` fraction digits,
      and the rounding is exact whenever `d` has at most `k` decimals. */
  lemma FixedTextReadsBack(d: Decimal, k: nat)
    requires k >= 1
    ensures ParseDecimal(FixedText(d, k)) == Some(Decimal(RoundTo(d, k), k))
    ensures d.scale <= k ==> SameValue(Decimal(RoundTo(d, k), k), d)
  {
    var u := RoundTo(d, k);
    ParsePointText(u < 0, Abs(u), k);
  }

  lemma FixedTextChars(d: Decimal, k: nat)
    requires k >= 1
    ensures NumberChars(FixedText(d, k))
  {
    var u := RoundTo(d, k);
    PointTextNoBlank(u < 0, Abs(u), k);
  }

  /** A rendered number holds none of the separators the commands use. */
  lemma NumberCharsLack(s: string, c: char)
    requires NumberChars(s) && !NumberChar(c)
    ensures c !in s
  {
  }

  /** An integer is rendered with digits and a minus sign only. */
  lemma IntTextChars(i: int)
    ensures NumberChars(JavaText.IntText(i))
  {
    var t := JavaText.IntText(i);
    var u := JavaText.NatText(if i < 0 then -i else i);
    assert forall k :: 0 <= k < |u| ==> JavaText.IsDigit(u[k]);
    if i < 0 {
      assert forall k :: 1 <= k < |t| ==> t[k] == u[k - 1];
    }
  }
}

=== FILE: posnet.dfy ===
/** The Posnet 1.01 driver (`drivers/Posnet101Driver`). A command is text
    sent between STX and ETX, followed by '#' and the four-digit CRC-16 of
    the text; the printer answers in the same frame. Commands and answers are
    tab-separated: a command name, then fields whose first two letters name
    them. */
module Posnet {
  import opened Wrappers
  import opened Faults
  import opened BitsAndBytes
  import opened Datamodel
  import opened Link
  import opened Charset
  import Seqs
  import JavaText
  import Crc16
  import Slips
  import Numbers

  const STX: byte := 0x02
  const ETX: byte := 0x03
  const HASH: byte := 0x23
  const TAB: char := '\t'

  // ================================================================ framing

  /** `send`: STX, the text, '#', the CRC of the text alone, ETX. */
  function Frame(payload: seq<byte>): (f: seq<byte>)
    ensures |f| == |payload| + 7
    ensures f[0] == STX && f[|f| - 1] == ETX && f[|payload| + 1] == HASH
    ensures f[1..|payload| + 1] == payload
  {
    Framing(payload, CrcBytes(payload))
  }

  /** The frame around `payload` with a given four-byte check field. */
  function Framing(payload: seq<byte>, crc: seq<byte>): (f: seq<byte>)
    requires |crc| == 4
    ensures |f| == |payload| + 7
    ensures f[0] == STX && f[|f| - 1] == ETX && f[|payload| + 1] == HASH
    ensures f[1..|payload| + 1] == payload
    ensures f[|payload| + 2..|payload| + 6] == crc
  {
    var f := [STX] + (payload + ([HASH] + (crc + [ETX])));
    assert f[1..|payload| + 1] == payload;
    assert f[|payload| + 2..|payload| + 6] == crc;
    f
  }

  /** The four characters of `calcCRC`, as bytes (`Crc16.CalcCRCIsCrcText`
      equates the table-driven text with `Crc16.CrcText`). */
  function CrcBytes(payload: seq<byte>): (c: seq<byte>)
    ensures |c| == 4
  {
    TextBytes(Crc16.CrcText(payload))
  }

  function Send(l: Link, s: string): (r: Link)
    ensures r.sent == l.sent + [Frame(TextBytes(s))]
  {
    Write(l, Frame(TextBytes(s)))
  }

  /** The first half of `receive`: skip to STX, collect up to '#', then take
      the four check bytes. Beside the payload and the check bytes it returns
      the input left unread. A wait that runs out of bytes is a timeout. */
  function ScanFrame(input: seq<byte>): (r: (Result<(seq<byte>, seq<byte>), Fault>, seq<byte>))
    ensures |r.1| <= |input|
    ensures r.0.Success? ==> HASH !in r.0.value.0 && |r.0.value.1| == 4
    ensures r.0.Failure? ==> r.0.error.Timeout?
  {
    var i := Seqs.IndexOf(input, STX);
    if i < 0 then (Failure(Timeout(NoStx)), [])
    else
      var a := input[i + 1..];
      var j := Seqs.IndexOf(a, HASH);
      if j < 0 then (Failure(Timeout(NoHash)), [])
      else
        var b := a[j + 1..];
        if |b| < 4 then (Failure(Timeout(NoCrc)), b)
        else (Success((a[..j], b[..4])), b[4..])
  }

  /** The byte layer of `receive`: the check bytes are compared, ignoring
      case, with the CRC of the payload; on a match the input is read up to
      and including ETX. */
  function ReceiveBytes(input: seq<byte>): (r: (Result<seq<byte>, Fault>, seq<byte>))
    ensures |r.1| <= |input|
    ensures r.0.Success? ==> HASH !in r.0.value
    ensures r.0.Failure? ==> r.0.error.Timeout? || r.0.error == BadCrc
  {
    var (scan, c) := ScanFrame(input);
    match scan
    case Failure(e) => (Failure(e), c)
    case Success((payload, crc)) =>
      if !JavaText.EqualsIgnoreCase(Crc16.CrcText(payload), BytesText(crc)) then (Failure(BadCrc), c)
      else
        var e := Seqs.IndexOf(c, ETX);
        if e < 0 then (Failure(Timeout(NoEtx)), [])
        else (Success(payload), c[e + 1..])
  }

  /** An answer holding '?' reports an error: the trimmed text before the
      first '?' names the command, the trimmed text after it is the code. */
  function AnswerText(s: string): (r: Result<string, Fault>)
    ensures r.Success? <==> '?' !in s
    ensures r.Success? ==> r.value == s
    ensures r.Failure? ==> r.error.ProtocolFault? && '?' !in r.error.command
  {
    var i := Seqs.IndexOf(s, '?');
    if i < 0 then Success(s)
    else
      var cmd := JavaText.Trim(s[..i]);
      assert '?' !in cmd by {
        var t := JavaText.TrimStart(s[..i]);
        assert s[..i][t..t + |cmd|] == cmd;
      }
      Failure(ProtocolFault(cmd, JavaText.Trim(s[i + 1..])))
  }

  /** `receive`: one answer frame, read as text. */
  function Receive(l: Link): (r: Run<string>)
    ensures r.link.sent == l.sent && r.link.replies == l.replies
  {
    var (res, rest) := ReceiveBytes(l.input);
    var l' := l.(input := rest);
    match res
    case Failure(e) => Run(l', Failure(e))
    case Success(p) => Run(l', AnswerText(BytesText(p)))
  }

  /** `send(command); receive()`. */
  function Exchange(l: Link, command: string): (r: Run<string>)
    ensures r.link.sent == l.sent + [FrameOf(command)]
  {
    Receive(Send(l, command))
  }

  /** The input that a well-formed answer frame leaves on the line. */
  function Framed(noise: seq<byte>, payload: seq<byte>, crc: seq<byte>, rest: seq<byte>): seq<byte> {
    noise + ([STX] + (payload + ([HASH] + (crc + ([ETX] + rest)))))
  }

  /** A well-formed frame is cut at its STX, '#' and the four check bytes. */
  lemma ScanOfFramed(noise: seq<byte>, payload: seq<byte>, crc: seq<byte>, rest: seq<byte>)
    requires STX !in noise && HASH !in payload && |crc| == 4
    ensures ScanFrame(Framed(noise, payload, crc, rest)) == (Success((payload, crc)), [ETX] + rest)
  {
    var b := crc + ([ETX] + rest);
    var a := payload + ([HASH] + b);
    Seqs.CutAt(noise, STX, a);
    Seqs.CutAt(payload, HASH, b);
    assert b[..4] == crc && b[4..] == [ETX] + rest;
  }

  /** A frame is accepted exactly when its CRC matches, in either letter
      case; the payload comes out whole and the bytes after ETX stay unread. */
  lemma ReceiveChecksCrc(noise: seq<byte>, payload: seq<byte>, crc: seq<byte>, rest: seq<byte>)
    requires STX !in noise && HASH !in payload && |crc| == 4
    ensures JavaText.EqualsIgnoreCase(Crc16.CrcText(payload), BytesText(crc)) ==>
      ReceiveBytes(Framed(noise, payload, crc, rest)) == (Success(payload), rest)
    ensures !JavaText.EqualsIgnoreCase(Crc16.CrcText(payload), BytesText(crc)) ==>
      ReceiveBytes(Framed(noise, payload, crc, rest)) == (Failure(BadCrc), [ETX] + rest)
  {
    ScanOfFramed(noise, payload, crc, rest);
    ReceiveOfScan(Framed(noise, payload, crc, rest), payload, crc, rest);
  }

  /** After a scanned frame the CRC decides, and ETX is consumed on a match. */
  lemma ReceiveOfScan(input: seq<byte>, payload: seq<byte>, crc: seq<byte>, rest: seq<byte>)
    requires ScanFrame(input) == (Success((payload, crc)), [ETX] + rest)
    ensures ReceiveBytes(input) ==
      if JavaText.EqualsIgnoreCase(Crc16.CrcText(payload), BytesText(crc)) then (Success(payload), rest)
      else (Failure(BadCrc), [ETX] + rest)
  {
    Seqs.CutAt([], ETX, rest);
    assert [] + ([ETX] + rest) == [ETX] + rest;
  }

  /** Parsing inverts framing: whatever precedes the frame (without an STX)
      is skipped, and the payload of any frame `send` builds comes back. */
  lemma ReceiveOfFrame(noise: seq<byte>, payload: seq<byte>, rest: seq<byte>)
    requires STX !in noise && HASH !in payload
    ensures ReceiveBytes(noise + Frame(payload) + rest) == (Success(payload), rest)
  {
    var crc := CrcBytes(payload);
    assert noise + Frame(payload) + rest == Framed(noise, payload, crc, rest);
    var c := Crc16.CrcText(payload);
    assert IsLatin(c) by {
      forall k | 0 <= k < |c| ensures (c[k] as int) < 256 {
        assert JavaText.IsHexLower(c[k]);
      }
    }
    BytesTextOfTextBytes(c);
    ReceiveChecksCrc(noise, payload, crc, rest);
  }

  /** An error answer `cmd?code` becomes the fault naming both, trimmed. */
  lemma AnswerOfError(cmd: string, code: string)
    requires '?' !in cmd
    ensures AnswerText(cmd + "?" + code) == Failure(ProtocolFault(JavaText.Trim(cmd), JavaText.Trim(code)))
  {
    var s := cmd + (['?'] + code);
    assert cmd + "?" + code == s;
    Seqs.CutAt(cmd, '?', code);
  }

  // =============================================================== decoding

  /** The tokens after the echoed command name. */
  function ReplyTokens(answer: string): (ts: seq<string>) {
    var all := Seqs.JavaSplit(answer, TAB);
    if |all| <= 1 then [] else all[1..]
  }

  /** Every token is long enough to hold a two-character key. */
  predicate Keyed(ts: seq<string>) {
    forall k :: 0 <= k < |ts| ==> |ts[k]| >= 2
  }

  /** Keys are the first two characters of each token, values the trimmed
      rest; a later token overrides an earlier one with the same key. A token
      shorter than two characters throws. */
  function DecodeTokens(ts: seq<string>): (r: Result<map<string, string>, Fault>)
    ensures r.Success? <==> Keyed(ts)
    ensures r.Failure? ==> r.error == IndexOutOfBounds
    ensures r.Success? ==> forall key :: key in r.value ==> |key| == 2
    ensures r.Success? ==> forall k :: 0 <= k < |ts| ==> ts[k][..2] in r.value
  {
    if |ts| == 0 then Success(map[])
    else if |ts[0]| < 2 then Failure(IndexOutOfBounds)
    else
      var rest := DecodeTokens(ts[1..]);
      KeyedCons(ts);
      if rest.Failure? then rest
      else
        var m := map[ts[0][..2] := JavaText.Trim(ts[0][2..])] + rest.value;
        HeadsIn(ts, m);
        Success(m)
  }

  lemma KeyedCons(ts: seq<string>)
    requires |ts| > 0
    ensures Keyed(ts) <==> |ts[0]| >= 2 && Keyed(ts[1..])
  {
    assert forall k :: 1 <= k < |ts| ==> ts[k] == ts[1..][k - 1];
  }

  /** The first token's key and the rest's keys cover all the keys. */
  lemma HeadsIn(ts: seq<string>, m: map<string, string>)
    requires |ts| > 0 && |ts[0]| >= 2 && ts[0][..2] in m
    requires Keyed(ts[1..]) && forall k :: 0 <= k < |ts| - 1 ==> ts[1..][k][..2] in m
    ensures forall k :: 0 <= k < |ts| ==> ts[k][..2] in m
  {
    forall k | 1 <= k < |ts|
      ensures ts[k][..2] in m
    {
      assert ts[k] == ts[1..][k - 1];
    }
  }

  /** `decode`: the answer as a property map. */
  function Decode(answer: string): (r: Result<map<string, string>, Fault>)
    ensures r.Success? <==> Keyed(ReplyTokens(answer))
    ensures r.Failure? ==> r.error == IndexOutOfBounds
    ensures r.Success? ==> forall k :: 0 <= k < |ReplyTokens(answer)| ==> ReplyTokens(answer)[k][..2] in r.value
  {
    DecodeTokens(ReplyTokens(answer))
  }

  /** The keys of the decoded map are exactly the first two characters of
      the tokens. */
  lemma {:induction false} KeysOfTokens(ts: seq<string>, key: string)
    requires Keyed(ts)
    ensures key in DecodeTokens(ts).value <==> exists j :: 0 <= j < |ts| && ts[j][..2] == key
  {
    if |ts| > 0 {
      var rest := ts[1..];
      assert forall j :: 0 <= j < |rest| ==> rest[j] == ts[j + 1];
      KeysOfTokens(rest, key);
      if key in DecodeTokens(rest).value {
        var j :| 0 <= j < |rest| && rest[j][..2] == key;
        assert ts[j + 1][..2] == key;
      }
    }
  }

  /** A repeated key keeps the value of its last token. */
  lemma {:induction false} DecodeLastWins(ts: seq<string>, k: nat)
    requires k < |ts| && Keyed(ts)
    requires forall j :: k < j < |ts| ==> ts[j][..2] != ts[k][..2]
    ensures DecodeTokens(ts).Success?
    ensures DecodeTokens(ts).value[ts[k][..2]] == JavaText.Trim(ts[k][2..])
  {
    var rest := ts[1..];
    assert forall j :: 0 <= j < |rest| ==> rest[j] == ts[j + 1];
    if k > 0 {
      DecodeLastWins(rest, k - 1);
    } else {
      KeysOfTokens(rest, ts[0][..2]);
    }
  }

  // ============================================================ commands

  /** A command (or an answer): its name, a tab, then each field and a tab. */
  function Command(name: string, fields: seq<string>): string {
    name + [TAB] + Seqs.Terminated(fields, TAB)
  }

  /** A field as the encoders build it: a two-letter key and its value. */
  type Entry = (string, string)

  /** The field texts: each key followed by its value. */
  function Texts(es: seq<Entry>): seq<string> {
    seq(|es|, k requires 0 <= k < |es| => es[k].0 + es[k].1)
  }

  function Keys(es: seq<Entry>): seq<string> {
    seq(|es|, k requires 0 <= k < |es| => es[k].0)
  }

  /** The property map that entries describe: each key maps to its trimmed
      value, and a later entry overrides an earlier one. */
  function Table(es: seq<Entry>): map<string, string> {
    if |es| == 0 then map[] else map[es[0].0 := JavaText.Trim(es[0].1)] + Table(es[1..])
  }

  /** Every key has two characters, and neither keys nor values hold a tab. */
  predicate WellFormed(es: seq<Entry>) {
    forall k :: 0 <= k < |es| ==> |es[k].0| == 2 && TAB !in es[k].0 && TAB !in es[k].1
  }

  lemma KeptOfFields(name: string, fs: seq<string>)
    requires |name| >= 1 && forall k :: 0 <= k < |fs| ==> |fs[k]| >= 1
    ensures Seqs.KeptFields([name] + fs + [""]) == 1 + |fs|
  {
    var all := [name] + fs + [""];
    assert all[..|all| - 1] == [name] + fs;
    var xs := [name] + fs;
    assert xs[|xs| - 1] != [];
  }

  /** `split` gives back the fields of a command after its name, when the
      name is not empty and no field is empty or holds a tab. */
  lemma SplitOfCommand(name: string, fields: seq<string>)
    requires |name| >= 1 && TAB !in name
    requires forall k :: 0 <= k < |fields| ==> |fields[k]| >= 1 && TAB !in fields[k]
    ensures ReplyTokens(Command(name, fields)) == fields
  {
    JavaSplitOfCommand(name, fields);
    assert ([name] + fields)[1..] == fields;
  }

  /** Java's `split` on a tab cuts a command into its name and its fields. */
  lemma JavaSplitOfCommand(name: string, fields: seq<string>)
    requires |name| >= 1 && TAB !in name
    requires forall k :: 0 <= k < |fields| ==> |fields[k]| >= 1 && TAB !in fields[k]
    ensures Seqs.JavaSplit(Command(name, fields), TAB) == [name] + fields
  {
    var s := Command(name, fields);
    Seqs.FieldsOfTerminated(fields, TAB);
    Seqs.FieldsStep(name, Seqs.Terminated(fields, TAB), fields, TAB);
    KeptOfFields(name, fields);
    assert s[|name|] == TAB;
    var all := [name] + fields + [""];
    assert all[..1 + |fields|] == [name] + fields;
  }

  /** Decoding the texts of entries with two-character keys yields their
      table. */
  lemma {:induction false} DecodeTokensOfTexts(es: seq<Entry>)
    requires forall k :: 0 <= k < |es| ==> |es[k].0| == 2
    ensures DecodeTokens(Texts(es)) == Success(Table(es))
  {
    if |es| > 0 {
      var t := Texts(es);
      assert Texts(es[1..]) == t[1..];
      assert t[0][..2] == es[0].0 && t[0][2..] == es[0].1;
      DecodeTokensOfTexts(es[1..]);
    }
  }

  /** The printer's decoder reads back the table of the entries of any
      command whose name is not empty and whose entries are well formed. */
  lemma DecodeOfCommand(name: string, es: seq<Entry>)
    requires |name| >= 1 && TAB !in name && WellFormed(es)
    ensures Decode(Command(name, Texts(es))) == Success(Table(es))
  {
    var fs := Texts(es);
    forall k | 0 <= k < |fs|
      ensures |fs[k]| >= 1 && TAB !in fs[k]
    {
      assert fs[k] == es[k].0 + es[k].1;
    }
    SplitOfCommand(name, fs);
    DecodeTokensOfTexts(es);
  }

  /** The keys of the table are the keys of the entries. */
  lemma {:induction false} TableKeys(es: seq<Entry>, key: string)
    ensures key in Table(es) <==> key in Keys(es)
  {
    if |es| > 0 {
      assert Keys(es) == [es[0].0] + Keys(es[1..]);
      TableKeys(es[1..], key);
    }
  }

  /** A key holds the trimmed value of its last entry. */
  lemma {:induction false} TableLastWins(es: seq<Entry>, k: nat)
    requires k < |es|
    requires forall j :: k < j < |es| ==> es[j].0 != es[k].0
    ensures es[k].0 in Table(es) && Table(es)[es[k].0] == JavaText.Trim(es[k].1)
  {
    var rest := es[1..];
    assert forall j :: 0 <= j < |rest| ==> rest[j] == es[j + 1];
    if k > 0 {
      TableLastWins(rest, k - 1);
    } else {
      TableKeys(rest, es[0].0);
      assert es[0].0 !in Keys(rest);
    }
  }

  // ============================================================== encoders

  /** The slot number of a rate as `vatRates.get` yields it, rendered by
      string concatenation: an unmapped rate gives "null". */
  function SlotText(slots: map<VATRate, int>, rate: VATRate): (t: string)
    ensures rate !in slots ==> t == "null"
    ensures rate in slots ==> JavaText.ParseInt(t) == Some(slots[rate])
    ensures JavaText.NoBlank(t)
  {
    if rate in slots then
      JavaText.IntTextRoundTrip(slots[rate]);
      JavaText.IntTextNoBlank(slots[rate]);
      JavaText.IntText(slots[rate])
    else "null"
  }

  /** The discount fields of `encodeLine`: none without a discount; "rd0" for
      a surcharge and "rd1" for a reduction; then "rw" with cents or "rp"
      with ten-thousandths. */
  function DiscountEntries(t: DiscountType, value: int): (es: seq<Entry>)
    ensures |es| == 0 <==> t == NoDiscount
    ensures |es| != 0 ==> |es| == 2 && es[0] == ("rd", if t.IsExtra() then "0" else "1")
    ensures |es| != 0 ==> es[1] == (if t.IsRateKind() then "rp" else "rw", JavaText.IntText(value))
  {
    match t
    case NoDiscount => []
    case AmountExtra => [("rd", "0"), ("rw", JavaText.IntText(value))]
    case AmountDiscount => [("rd", "1"), ("rw", JavaText.IntText(value))]
    case RateExtra => [("rd", "0"), ("rp", JavaText.IntText(value))]
    case RateDiscount => [("rd", "1"), ("rp", JavaText.IntText(value))]
  }

  function LineEntries(line: SaleLine, slots: map<VATRate, int>): seq<Entry> {
    [("na", line.name), ("vt", SlotText(slots, line.taxRate)),
     ("pr", JavaText.IntText(line.price)), ("il", Numbers.DecimalText(line.amount))]
      + DiscountEntries(line.discountType, line.discount)
  }

  /** `encodeLine`. */
  function EncodeLine(line: SaleLine, slots: map<VATRate, int>): string {
    Command("trline", Texts(LineEntries(line, slots)))
  }

  /** The table of a sale line: the name, the slot, the price in cents and
      the quantity, each trimmed, then whatever the discount entries give. */
  lemma LineTable(line: SaleLine, slots: map<VATRate, int>)
    ensures Table(LineEntries(line, slots)) ==
      map["na" := JavaText.Trim(line.name), "vt" := JavaText.Trim(SlotText(slots, line.taxRate)),
          "pr" := JavaText.Trim(JavaText.IntText(line.price)),
          "il" := JavaText.Trim(Numbers.DecimalText(line.amount))]
      + Table(DiscountEntries(line.discountType, line.discount))
  {
    var e0, e1 := ("na", line.name), ("vt", SlotText(slots, line.taxRate));
    var e2, e3 := ("pr", JavaText.IntText(line.price)), ("il", Numbers.DecimalText(line.amount));
    TableAppend([e0, e1, e2, e3], DiscountEntries(line.discountType, line.discount));
    TableOfFour(e0, e1, e2, e3);
  }

  /** What the printer should read out of the discount fields. */
  function DiscountRead(t: DiscountType, value: int): map<string, string> {
    match t
    case NoDiscount => map[]
    case AmountExtra => map["rd" := "0", "rw" := JavaText.IntText(value)]
    case AmountDiscount => map["rd" := "1", "rw" := JavaText.IntText(value)]
    case RateExtra => map["rd" := "0", "rp" := JavaText.IntText(value)]
    case RateDiscount => map["rd" := "1", "rp" := JavaText.IntText(value)]
  }

  lemma DiscountTable(t: DiscountType, value: int)
    ensures Table(DiscountEntries(t, value)) == DiscountRead(t, value)
  {
    var ds := DiscountEntries(t, value);
    if t != NoDiscount {
      var d0, d1 := ds[0], ds[1];
      JavaText.IntTextNoBlank(value);
      JavaText.TrimOfNoBlank(d1.1);
      JavaText.TrimOfNoBlank(d0.1);
      assert ds == [d0] + [d1];
      TableOne(d0);
      TableSnoc([d0], d1);
    }
  }

  /** "rd" says 0 for a surcharge and 1 for a reduction; "rw" carries an
      amount in cents and "rp" a rate in ten-thousandths, each parsing back
      to the discount value; there are no discount fields without a
      discount. */
  lemma DiscountReadFields(t: DiscountType, value: int)
    ensures var m := DiscountRead(t, value);
      && ("rd" in m <==> t != NoDiscount)
      && ("rd" in m ==> m["rd"] == if t.IsExtra() then "0" else "1")
      && ("rw" in m <==> t in {AmountDiscount, AmountExtra})
      && ("rp" in m <==> t.IsRateKind())
      && ("rw" in m ==> JavaText.ParseInt(m["rw"]) == Some(value))
      && ("rp" in m ==> JavaText.ParseInt(m["rp"]) == Some(value))
      && (forall key :: key in m ==> key in {"rd", "rw", "rp"})
  {
    JavaText.IntTextRoundTrip(value);
  }

  /** The table of four entries. */
  lemma TableOfFour(e0: Entry, e1: Entry, e2: Entry, e3: Entry)
    ensures Table([e0, e1, e2, e3]) == map[e0.0 := JavaText.Trim(e0.1), e1.0 := JavaText.Trim(e1.1),
                                          e2.0 := JavaText.Trim(e2.1), e3.0 := JavaText.Trim(e3.1)]
  {
    TableOne(e0);
    assert [e0, e1] == [e0] + [e1];
    TableSnoc([e0], e1);
    assert [e0, e1, e2] == [e0, e1] + [e2];
    TableSnoc([e0, e1], e2);
    assert [e0, e1, e2, e3] == [e0, e1, e2] + [e3];
    TableSnoc([e0, e1, e2], e3);
  }

  /** An entry added at the end overrides its key. */
  lemma TableSnoc(a: seq<Entry>, e: Entry)
    ensures Table(a + [e]) == Table(a)[e.0 := JavaText.Trim(e.1)]
  {
    TableAppend(a, [e]);
    TableOne(e);
    MergeOne(Table(a), e.0, JavaText.Trim(e.1));
  }

  lemma TableOne(e: Entry)
    ensures Table([e]) == map[e.0 := JavaText.Trim(e.1)]
  {
    assert [e][1..] == [];
  }

  /** Tables of joined entries merge, the later entries winning. */
  lemma {:induction false} TableAppend(a: seq<Entry>, b: seq<Entry>)
    ensures Table(a + b) == Table(a) + Table(b)
  {
    if |a| == 0 {
      assert a + b == b;
      MergeEmpty(Table(b));
    } else {
      var head := map[a[0].0 := JavaText.Trim(a[0].1)];
      assert (a + b)[1..] == a[1..] + b;
      assert Table(a + b) == head + Table(a[1..] + b);
      TableAppend(a[1..], b);
      MergeAssoc(head, Table(a[1..]), Table(b));
    }
  }

  lemma MergeAssoc(x: map<string, string>, y: map<string, string>, z: map<string, string>)
    ensures x + (y + z) == (x + y) + z
  {
  }

  lemma MergeEmpty(x: map<string, string>)
    ensures map[] + x == x
  {
  }

  lemma MergeOne(m: map<string, string>, k: string, v: string)
    ensures m + map[k := v] == m[k := v]
  {
  }

  /** The properties a sale line should give the printer: the trimmed name,
      the slot (or "null" for an unmapped rate), the price in cents and the
      quantity as sent, then the discount fields. */
  function LineRead(line: SaleLine, slots: map<VATRate, int>): map<string, string> {
    LineBase(line, slots) + DiscountRead(line.discountType, line.discount)
  }

  /** The fields every sale line carries, before the discount fields. */
  function LineBase(line: SaleLine, slots: map<VATRate, int>): map<string, string> {
    map["na" := JavaText.Trim(line.name), "vt" := SlotText(slots, line.taxRate),
        "pr" := JavaText.IntText(line.price), "il" := Numbers.DecimalText(line.amount)]
  }

  /** A merge keeps the left value of a key the right map lacks. */
  lemma MergeKeeps(m: map<string, string>, d: map<string, string>, key: string)
    requires key in m && key !in d
    ensures key in m + d && (m + d)[key] == m[key]
  {
  }

  /** The printer reads exactly `LineRead` out of a sale line whose name holds
      no tab. */
  lemma EncodeLineDecodes(line: SaleLine, slots: map<VATRate, int>)
    requires TAB !in line.name
    ensures Decode(EncodeLine(line, slots)) == Success(LineRead(line, slots))
  {
    var es := LineEntries(line, slots);
    JavaText.IntTextNoBlank(line.price);
    Numbers.DecimalTextNoBlank(line.amount);
    JavaText.IntTextNoBlank(line.discount);
    NoTabOfNoBlank(JavaText.IntText(line.price));
    NoTabOfNoBlank(Numbers.DecimalText(line.amount));
    NoTabOfNoBlank(JavaText.IntText(line.discount));
    NoTabOfNoBlank(SlotText(slots, line.taxRate));
    assert WellFormed(es);
    NameOk("trline");
    DecodeOfCommand("trline", es);
    LineTable(line, slots);
    DiscountTable(line.discountType, line.discount);
    JavaText.TrimOfNoBlank(JavaText.IntText(line.price));
    JavaText.TrimOfNoBlank(Numbers.DecimalText(line.amount));
    JavaText.TrimOfNoBlank(SlotText(slots, line.taxRate));
  }

  /** Read field by field: the price and the slot parse back to what was
      encoded and the quantity to the same value. */
  lemma LineReadFields(line: SaleLine, slots: map<VATRate, int>)
    ensures var m := LineRead(line, slots);
      && "na" in m && m["na"] == JavaText.Trim(line.name)
      && "pr" in m && JavaText.ParseInt(m["pr"]) == Some(line.price)
      && "vt" in m && (line.taxRate in slots ==> JavaText.ParseInt(m["vt"]) == Some(slots[line.taxRate]))
      && (line.taxRate !in slots ==> m["vt"] == "null")
      && "il" in m && Numbers.ParseDecimal(m["il"]).Some?
      && Numbers.SameValue(Numbers.ParseDecimal(m["il"]).value, line.amount)
  {
    var b, d := LineBase(line, slots), DiscountRead(line.discountType, line.discount);
    DiscountReadFields(line.discountType, line.discount);
    MergeKeeps(b, d, "na");
    MergeKeeps(b, d, "pr");
    MergeKeeps(b, d, "vt");
    MergeKeeps(b, d, "il");
    JavaText.IntTextRoundTrip(line.price);
    Numbers.DecimalTextReadsBack(line.amount);
  }

  /** The discount fields of a line are those of `DiscountReadFields`. */
  lemma LineReadDiscount(line: SaleLine, slots: map<VATRate, int>, key: string)
    requires key in {"rd", "rw", "rp"}
    ensures key in LineRead(line, slots) <==> key in DiscountRead(line.discountType, line.discount)
    ensures key in LineRead(line, slots) ==>
      LineRead(line, slots)[key] == DiscountRead(line.discountType, line.discount)[key]
  {
  }

  lemma NoTabOfNoBlank(s: string)
    requires JavaText.NoBlank(s)
    ensures TAB !in s
  {
    assert forall k :: 0 <= k < |s| ==> s[k] != TAB;
  }

  /** The payment codes of `encodePayment`; code 1 is not used. */
  function PaymentCode(t: PaymentType): (n: nat)
    ensures n <= 8 && n != 1
  {
    match t
    case Cash => 0
    case CreditCard => 2
    case Cheque => 3
    case Bond => 4
    case Credit => 5
    case Other => 6
    case Voucher => 7
    case Account => 8
  }

  /** Different payment types travel under different codes. */
  lemma PaymentCodeInjective(a: PaymentType, b: PaymentType)
    requires PaymentCode(a) == PaymentCode(b)
    ensures a == b
  {
  }

  /** A name is sent only when it is present and not blank. */
  predicate SendsName(p: SlipPayment) {
    p.name.Some? && JavaText.Trim(p.name.value) != ""
  }

  function PaymentEntries(p: SlipPayment): seq<Entry> {
    [("ty", JavaText.IntText(PaymentCode(p.ptype))), ("wa", JavaText.IntText(p.amount))]
      + (if SendsName(p) then [("na", p.name.value)] else [])
  }

  /** `encodePayment`. */
  function EncodePayment(p: SlipPayment): string {
    Command("trpayment", Texts(PaymentEntries(p)))
  }

  /** The properties a payment should give the printer: its type code, its
      amount in cents, and the trimmed name when one is sent. */
  function PaymentRead(p: SlipPayment): map<string, string> {
    var m := map["ty" := JavaText.IntText(PaymentCode(p.ptype)), "wa" := JavaText.IntText(p.amount)];
    if SendsName(p) then m["na" := JavaText.Trim(p.name.value)] else m
  }

  /** The printer reads exactly `PaymentRead` out of a payment whose name
      holds no tab. */
  lemma EncodePaymentDecodes(p: SlipPayment)
    requires p.name.Some? ==> TAB !in p.name.value
    ensures Decode(EncodePayment(p)) == Success(PaymentRead(p))
  {
    PaymentWellFormed(p);
    NameOk("trpayment");
    DecodeOfCommand("trpayment", PaymentEntries(p));
    PaymentTable(p);
  }

  lemma PaymentWellFormed(p: SlipPayment)
    requires p.name.Some? ==> TAB !in p.name.value
    ensures WellFormed(PaymentEntries(p))
  {
    JavaText.IntTextNoBlank(PaymentCode(p.ptype));
    JavaText.IntTextNoBlank(p.amount);
    NoTabOfNoBlank(JavaText.IntText(PaymentCode(p.ptype)));
    NoTabOfNoBlank(JavaText.IntText(p.amount));
  }

  lemma PaymentTable(p: SlipPayment)
    ensures Table(PaymentEntries(p)) == PaymentRead(p)
  {
    var es := PaymentEntries(p);
    var ty := JavaText.IntText(PaymentCode(p.ptype));
    var wa := JavaText.IntText(p.amount);
    JavaText.IntTextNoBlank(PaymentCode(p.ptype));
    JavaText.IntTextNoBlank(p.amount);
    JavaText.TrimOfNoBlank(ty);
    JavaText.TrimOfNoBlank(wa);
    var e0, e1 := ("ty", ty), ("wa", wa);
    TableOne(e0);
    assert [e0, e1] == [e0] + [e1];
    TableSnoc([e0], e1);
    if SendsName(p) {
      TableSnoc([e0, e1], ("na", p.name.value));
    } else {
      assert es == [e0, e1];
    }
  }

  /** The type code and the amount parse back to what was encoded, and the
      name is there exactly when one is sent. */
  lemma PaymentReadFields(p: SlipPayment)
    ensures var m := PaymentRead(p);
      && "ty" in m && JavaText.ParseInt(m["ty"]) == Some(PaymentCode(p.ptype) as int)
      && "wa" in m && JavaText.ParseInt(m["wa"]) == Some(p.amount)
      && ("na" in m <==> SendsName(p))
      && ("na" in m ==> m["na"] == JavaText.Trim(p.name.value))
  {
    JavaText.IntTextRoundTrip(PaymentCode(p.ptype));
    JavaText.IntTextRoundTrip(p.amount);
  }

  const DefaultFooter: Footer :=
    Footer("&b&c&hDziękujemy", "&c&bZapraszamy ponownie", "&i&cPosnet 1.01, (c) Bart Prokop")

  /** `cnf`: the header of a receipt. A missing cashier, cash box or reference
      throws before anything is sent. */
  function Cnf(cashier: Option<string>, cashbox: Option<string>, reference: Option<string>, footer: Footer)
    : (r: Result<string, Fault>)
    ensures r.Success? <==> cashier.Some? && cashbox.Some? && reference.Some?
    ensures r.Failure? ==> r.error == NullPointer
  {
    if cashier.None? || cashbox.None? || reference.None? then Failure(NullPointer)
    else Success(CnfCommand(cashier.value, cashbox.value, reference.value, footer))
  }

  function CnfCommand(cashier: string, cashbox: string, reference: string, footer: Footer): string {
    Command("ftrcfg", Texts(CnfEntries(cashier, cashbox, reference, footer)))
  }

  function CnfEntries(cashier: string, cashbox: string, reference: string, footer: Footer): seq<Entry> {
    [("cc", JavaText.Cut(cashier, 32)), ("cn", JavaText.Cut(cashbox, 8)),
     ("sn", JavaText.Cut(reference, 30)), ("bc", JavaText.Cut(reference, 16)),
     ("ln", footer.line1 + "\n" + footer.line2 + "\n" + footer.line3)]
  }

  /** The properties a receipt header should give the printer: the cashier,
      the cash box and the reference (twice) cut to 32, 8, 30 and 16
      characters, and the three footer lines joined by line breaks, each
      trimmed. */
  function CnfRead(cashier: string, cashbox: string, reference: string, footer: Footer): map<string, string> {
    map["cc" := JavaText.Trim(JavaText.Cut(cashier, 32)), "cn" := JavaText.Trim(JavaText.Cut(cashbox, 8)),
        "sn" := JavaText.Trim(JavaText.Cut(reference, 30)), "bc" := JavaText.Trim(JavaText.Cut(reference, 16)),
        "ln" := JavaText.Trim(footer.line1 + "\n" + footer.line2 + "\n" + footer.line3)]
  }

  /** With all three values present and no tab anywhere, the printer reads
      exactly `CnfRead` out of the header. */
  lemma CnfDecodes(cashier: string, cashbox: string, reference: string, footer: Footer)
    requires TAB !in cashier && TAB !in cashbox && TAB !in reference
    requires TAB !in footer.line1 && TAB !in footer.line2 && TAB !in footer.line3
    ensures Cnf(Some(cashier), Some(cashbox), Some(reference), footer)
      == Success(CnfCommand(cashier, cashbox, reference, footer))
    ensures Decode(CnfCommand(cashier, cashbox, reference, footer)) == Success(CnfRead(cashier, cashbox, reference, footer))
  {
    var es := CnfEntries(cashier, cashbox, reference, footer);
    CnfWellFormed(cashier, cashbox, reference, footer);
    NameOk("ftrcfg");
    DecodeOfCommand("ftrcfg", es);
    CnfTable(cashier, cashbox, reference, footer);
  }

  lemma NameOk(name: string)
    requires name == "ftrcfg" || name == "trpayment" || name == "trline"
    ensures |name| >= 1 && TAB !in name
  {
  }

  lemma CnfWellFormed(cashier: string, cashbox: string, reference: string, footer: Footer)
    requires TAB !in cashier && TAB !in cashbox && TAB !in reference
    requires TAB !in footer.line1 && TAB !in footer.line2 && TAB !in footer.line3
    ensures WellFormed(CnfEntries(cashier, cashbox, reference, footer))
  {
    var es := CnfEntries(cashier, cashbox, reference, footer);
    CutKeepsNoTab(cashier, 32);
    CutKeepsNoTab(cashbox, 8);
    CutKeepsNoTab(reference, 30);
    CutKeepsNoTab(reference, 16);
    assert es == [es[0], es[1], es[2], es[3]] + [es[4]];
    WellFormedOfFive(es[0], es[1], es[2], es[3], es[4]);
  }

  lemma CnfTable(cashier: string, cashbox: string, reference: string, footer: Footer)
    ensures Table(CnfEntries(cashier, cashbox, reference, footer)) == CnfRead(cashier, cashbox, reference, footer)
  {
    var es := CnfEntries(cashier, cashbox, reference, footer);
    var e0, e1, e2, e3, e4 := es[0], es[1], es[2], es[3], es[4];
    assert es == [e0, e1, e2, e3] + [e4];
    TableOfFour(e0, e1, e2, e3);
    TableSnoc([e0, e1, e2, e3], e4);
  }

  lemma WellFormedOfFive(e0: Entry, e1: Entry, e2: Entry, e3: Entry, e4: Entry)
    requires |e0.0| == 2 && TAB !in e0.0 && TAB !in e0.1
    requires |e1.0| == 2 && TAB !in e1.0 && TAB !in e1.1
    requires |e2.0| == 2 && TAB !in e2.0 && TAB !in e2.1
    requires |e3.0| == 2 && TAB !in e3.0 && TAB !in e3.1
    requires |e4.0| == 2 && TAB !in e4.0 && TAB !in e4.1
    ensures WellFormed([e0, e1, e2, e3] + [e4])
  {
  }

  lemma CutKeepsNoTab(s: string, n: nat)
    requires TAB !in s
    ensures TAB !in JavaText.Cut(s, n)
  {
    var c := JavaText.Cut(s, n);
    assert forall k :: 0 <= k < |c| ==> c[k] == s[k];
  }

  // ============================================================ readiness

  /** `decodeBool`: '1', 'T' or 'Y' in either case is true; '0' or 'N' in
      either case is false; anything else throws. */
  function DecodeBool(c: char): (r: Result<bool, Fault>)
    ensures r == Success(true) <==> c in "1TtYy"
    ensures r == Success(false) <==> c in "0Nn"
    ensures r.Failure? ==> r.error == IllegalState
  {
    if c == '1' || JavaText.UpperAscii(c) == 'T' || JavaText.UpperAscii(c) == 'Y' then Success(true)
    else if c == '0' || JavaText.UpperAscii(c) == 'N' then Success(false)
    else Failure(IllegalState)
  }

  /** The flag characters this driver would write. */
  function EncodeBool(b: bool): char {
    if b then '1' else '0'
  }

  lemma DecodeBoolRoundTrip(b: bool)
    ensures DecodeBool(EncodeBool(b)) == Success(b)
  {
  }

  /** Letter case does not matter to `decodeBool`. */
  lemma DecodeBoolIgnoresCase(c: char)
    ensures DecodeBool(JavaText.UpperAscii(c)) == DecodeBool(c)
  {
  }

  /** The "ds" status of `sdev`: 1, 2 and 3 mean the printer waits for the
      operator; any other value lets printing go on. A missing property throws
      as `getProperty(...).equals` would. */
  function CheckDevice(p: map<string, string>): (r: Result<(), Fault>)
    ensures r.Success? <==> "ds" in p && p["ds"] !in {"1", "2", "3"}
    ensures "ds" !in p ==> r == Failure(NullPointer)
    ensures "ds" in p && p["ds"] in {"1", "2", "3"} ==> r == Failure(NotReady("ds", p["ds"]))
  {
    if "ds" !in p then Failure(NullPointer)
    else if p["ds"] != "0" && p["ds"] in {"1", "2", "3"} then Failure(NotReady("ds", p["ds"]))
    else Success(())
  }

  const MechanismFaults: set<string> := {"1", "2", "3", "4", "5", "6", "7", "8", "9", "10"}

  /** The "pr" status of `sprn`: 1 to 10 name a mechanism fault. */
  function CheckMechanism(p: map<string, string>): (r: Result<(), Fault>)
    ensures r.Success? <==> "pr" in p && p["pr"] !in MechanismFaults
    ensures "pr" !in p ==> r == Failure(NullPointer)
    ensures "pr" in p && p["pr"] in MechanismFaults ==> r == Failure(NotReady("pr", p["pr"]))
  {
    if "pr" !in p then Failure(NullPointer)
    else if p["pr"] != "0" && p["pr"] in MechanismFaults then Failure(NotReady("pr", p["pr"]))
    else Success(())
  }

  /** The "hr" (header present) and "ts" (transaction state) answers of
      `scomm`: the header flag must decode to true and no transaction may be
      open. */
  function CheckSession(p: map<string, string>): (r: Result<(), Fault>)
    ensures r.Success? <==>
      ("hr" in p && |p["hr"]| > 0 && DecodeBool(p["hr"][0]) == Success(true) && "ts" in p && p["ts"] == "0")
    ensures "hr" in p && |p["hr"]| > 0 && DecodeBool(p["hr"][0]) == Success(false) ==> r == Failure(NoHeader)
    ensures ("hr" in p && |p["hr"]| > 0 && DecodeBool(p["hr"][0]) == Success(true) && "ts" in p && p["ts"] != "0")
      ==> r == Failure(UnfinishedTransaction)
  {
    if "hr" !in p then Failure(NullPointer)
    else if |p["hr"]| == 0 then Failure(IndexOutOfBounds)
    else
      match DecodeBool(p["hr"][0])
      case Failure(e) => Failure(e)
      case Success(header) =>
        if !header then Failure(NoHeader)
        else if "ts" !in p then Failure(NullPointer)
        else if p["ts"] != "0" then Failure(UnfinishedTransaction)
        else Success(())
  }

  /** `send(command); decode(receive())`. */
  function Query(l: Link, command: string): (r: Run<map<string, string>>)
    ensures r.link.sent == l.sent + [FrameOf(command)]
  {
    var x :- Exchange(l, command);
    Lift(x.0, Decode(x.1))
  }

  /** The four status queries of `canPrint`, named by what they ask about. */
  datatype Status = Identity | Device | Mechanism | Session

  /** The order in which `canPrint` sends them. */
  const StatusOrder: seq<Status> := [Identity, Device, Mechanism, Session]

  function StatusQuery(s: Status): string {
    match s
    case Identity => "sid\t"
    case Device => "sdev\t"
    case Mechanism => "sprn\t"
    case Session => "scomm\t"
  }

  function StatusFrame(s: Status): seq<byte> {
    FrameOf(StatusQuery(s))
  }

  /** The check made on each answer; the identification only has to decode. */
  function StatusCheck(s: Status, p: map<string, string>): Result<(), Fault> {
    match s
    case Identity => Success(())
    case Device => CheckDevice(p)
    case Mechanism => CheckMechanism(p)
    case Session => CheckSession(p)
  }

  /** One status query, its answer decoded and checked. */
  function StatusStep(l: Link, s: Status): (r: Run<()>)
    ensures r.link.sent == l.sent + [StatusFrame(s)]
  {
    var q :- Query(l, StatusQuery(s));
    Lift(q.0, StatusCheck(s, q.1))
  }

  lemma StatusStepSends()
    ensures SendsOne(StatusStep, StatusFrame)
  {
    forall m: Link, s: Status
      ensures StatusStep(m, s).link.sent == m.sent + [StatusFrame(s)]
    {
    }
  }

  /** `canPrint`: the four status queries, each answer checked before the
      next query goes out. All four go out when it succeeds; on a failure,
      the ones up to the failing one. */
  function CanPrint(l: Link): (r: Run<()>)
    ensures SentPart(l, r.link, Sends(StatusOrder, StatusFrame))
    ensures |r.link.sent| > |l.sent|
    ensures r.result.Success? ==> r.link.sent == l.sent + Sends(StatusOrder, StatusFrame)
  {
    StatusStepSends();
    StepsSend(l, StatusOrder, StatusStep, StatusFrame);
    Steps(l, StatusOrder, StatusStep)
  }

  // ================================================================= rates

  /** The rate texts of `initVatRates`, with comma decimals. */
  function RateOfText(t: string): (r: Option<VATRate>) {
    if t == "22,00" then Some(VAT22)
    else if t == "7,00" then Some(VAT07)
    else if t == "3,00" then Some(VAT03)
    else if t == "23,00" then Some(VAT23)
    else if t == "8,00" then Some(VAT08)
    else if t == "5,00" then Some(VAT05)
    else if t == "0,00" then Some(VAT00)
    else if t == "100,00" then Some(VATzw)
    else None
  }

  /** The text under which the printer reports each rate. */
  function RateText(r: VATRate): string {
    match r
    case VAT22 => "22,00"
    case VAT07 => "7,00"
    case VAT03 => "3,00"
    case VAT23 => "23,00"
    case VAT08 => "8,00"
    case VAT05 => "5,00"
    case VAT00 => "0,00"
    case VATzw => "100,00"
  }

  /** Every rate is recognised from its text, and only from it. */
  lemma RateOfTextInverts(t: string, r: VATRate)
    ensures RateOfText(t) == Some(r) <==> t == RateText(r)
  {
  }

  /** The slot of a rate key: its second character minus 'a'. */
  function SlotOfKey(key: string): int
    requires |key| >= 2
  {
    key[1] as int - 'a' as int
  }

  /** The loop of `initVatRates` over the keys, in the order given: a key
      whose value is a known rate text files that rate under the key's slot,
      replacing an earlier entry. */
  function VatSlots(props: map<string, string>, keys: seq<string>, acc: map<VATRate, int>): map<VATRate, int>
    requires forall key :: key in props ==> |key| == 2
  {
    if |keys| == 0 then acc
    else
      var key := keys[0];
      var acc' := if key in props && RateOfText(props[key]).Some?
        then acc[RateOfText(props[key]).value := SlotOfKey(key)] else acc;
      VatSlots(props, keys[1..], acc')
  }

  /** Each rate text appears under at most one key. */
  predicate RatesUnique(props: map<string, string>) {
    forall k1, k2 ::
      (k1 in props && k2 in props && RateOfText(props[k1]).Some? && RateOfText(props[k1]) == RateOfText(props[k2]))
      ==> k1 == k2
  }

  /** A rate that no key names keeps its entry from before. */
  lemma {:induction false} VatSlotsMiss(props: map<string, string>, keys: seq<string>, acc: map<VATRate, int>, rate: VATRate)
    requires forall key :: key in props ==> |key| == 2
    requires forall j :: 0 <= j < |keys| ==> keys[j] !in props || RateOfText(props[keys[j]]) != Some(rate)
    ensures rate in VatSlots(props, keys, acc) <==> rate in acc
    ensures rate in acc ==> VatSlots(props, keys, acc)[rate] == acc[rate]
  {
    if |keys| > 0 {
      var key := keys[0];
      var acc' := if key in props && RateOfText(props[key]).Some?
        then acc[RateOfText(props[key]).value := SlotOfKey(key)] else acc;
      assert forall j :: 0 <= j < |keys[1..]| ==> keys[1..][j] == keys[j + 1];
      VatSlotsMiss(props, keys[1..], acc', rate);
    }
  }

  /** A rate already filed under the slot of its only key stays there. */
  lemma {:induction false} VatSlotsStable(props: map<string, string>, keys: seq<string>, acc: map<VATRate, int>, key: string)
    requires forall k :: k in props ==> |k| == 2
    requires RatesUnique(props) && key in props && RateOfText(props[key]).Some?
    requires RateOfText(props[key]).value in acc && acc[RateOfText(props[key]).value] == SlotOfKey(key)
    ensures RateOfText(props[key]).value in VatSlots(props, keys, acc)
    ensures VatSlots(props, keys, acc)[RateOfText(props[key]).value] == SlotOfKey(key)
  {
    if |keys| > 0 {
      var k := keys[0];
      var acc' := if k in props && RateOfText(props[k]).Some?
        then acc[RateOfText(props[k]).value := SlotOfKey(k)] else acc;
      VatSlotsStable(props, keys[1..], acc', key);
    }
  }

  /** Whenever each rate text appears under one key only, a key met anywhere
      in the loop decides its rate's slot, whatever the order of the keys. */
  lemma {:induction false} VatSlotsHit(props: map<string, string>, keys: seq<string>, acc: map<VATRate, int>, key: string)
    requires forall k :: k in props ==> |k| == 2
    requires RatesUnique(props) && key in props && RateOfText(props[key]).Some?
    requires key in keys
    ensures RateOfText(props[key]).value in VatSlots(props, keys, acc)
    ensures VatSlots(props, keys, acc)[RateOfText(props[key]).value] == SlotOfKey(key)
  {
    var k := keys[0];
    var acc' := if k in props && RateOfText(props[k]).Some?
      then acc[RateOfText(props[k]).value := SlotOfKey(k)] else acc;
    if k == key {
      VatSlotsStable(props, keys[1..], acc', key);
    } else {
      assert key in keys[1..];
      VatSlotsHit(props, keys[1..], acc', key);
    }
  }

  /** The keys of the reply tokens, in reply order. */
  function TokenKeys(ts: seq<string>): (ks: seq<string>)
    requires forall k :: 0 <= k < |ts| ==> |ts[k]| >= 2
    ensures |ks| == |ts|
    ensures forall k :: 0 <= k < |ts| ==> ks[k] == ts[k][..2]
  {
    if |ts| == 0 then [] else [ts[0][..2]] + TokenKeys(ts[1..])
  }

  /** The status queries `initVatRates` sends after the rate table; their
      answers only have to decode. */
  const RateQueries: seq<string> := ["strns\t", "sfsk\t", "stot\t", "scnt\t"]

  /** `initVatRates`: read the rate table, then the four status queries.
      Java walks the keys in the hash order of `Properties`; the model walks
      them in reply order, which decides nothing when each rate text appears
      once (see `VatSlotsHit`). */
  function InitVatRates(l: Link): (r: Run<map<VATRate, int>>)
    ensures SentPart(l, r.link, [FrameOf("vatget\t")] + Frames(RateQueries))
    ensures |r.link.sent| > |l.sent|
    ensures r.result.Success? ==> r.link.sent == l.sent + ([FrameOf("vatget\t")] + Frames(RateQueries))
  {
    var v := ReadRates(l);
    SentPartFirst(l, v.link, [FrameOf("vatget\t")] + Frames(RateQueries));
    if v.result.Failure? then Run(v.link, Failure(v.result.error))
    else
      var q := QueryAll(v.link, RateQueries);
      SentPartStep(l, v.link, q.link, FrameOf("vatget\t"), Frames(RateQueries));
      if q.result.Failure? then Run(q.link, Failure(q.result.error))
      else Run(q.link, Success(v.result.value))
  }

  /** The rate table query: each property whose value names a rate gives
      that rate the slot its key names. */
  function ReadRates(l: Link): (r: Run<map<VATRate, int>>)
    ensures r.link.sent == l.sent + [FrameOf("vatget\t")]
  {
    var v :- Exchange(l, "vatget\t");
    var ts := ReplyTokens(v.1);
    var props :- Lift(v.0, DecodeTokens(ts));
    Run(props.0, Success(VatSlots(props.1, TokenKeys(ts), map[])))
  }

  /** A query whose answer only has to decode. */
  function QueryStep(l: Link, command: string): (r: Run<()>)
    ensures r.link.sent == l.sent + [FrameOf(command)]
  {
    var q :- Query(l, command);
    Run(q.0, Success(()))
  }

  lemma QueryStepSends()
    ensures SendsOne(QueryStep, FrameOf)
  {
    forall m: Link, c: string
      ensures QueryStep(m, c).link.sent == m.sent + [FrameOf(c)]
    {
    }
  }

  /** Each query sent and its answer decoded, in order; the first failure
      ends the run. */
  function QueryAll(l: Link, queries: seq<string>): (r: Run<()>)
    ensures SentPart(l, r.link, Frames(queries))
    ensures |queries| > 0 ==> |r.link.sent| > |l.sent|
    ensures r.result.Success? ==> r.link.sent == l.sent + Frames(queries)
  {
    QueryStepSends();
    StepsSend(l, queries, QueryStep, FrameOf);
    Steps(l, queries, QueryStep)
  }

  // ================================================================ receipt

  /** `send(command); receive()`, the answer itself unused. */
  function ExchangeStep(l: Link, command: string): (r: Run<()>)
    ensures r.link.sent == l.sent + [FrameOf(command)]
  {
    var x :- Exchange(l, command);
    Run(x.0, Success(()))
  }

  lemma ExchangeStepSends()
    ensures SendsOne(ExchangeStep, FrameOf)
  {
    forall m: Link, c: string
      ensures ExchangeStep(m, c).link.sent == m.sent + [FrameOf(c)]
    {
    }
  }

  /** Each command sent and its answer received, in order; the first failure
      ends the run. */
  function ExchangeAll(l: Link, commands: seq<string>): (r: Run<()>)
    ensures SentPart(l, r.link, Frames(commands))
    ensures |commands| > 0 ==> |r.link.sent| > |l.sent|
    ensures r.result.Success? ==> r.link.sent == l.sent + Frames(commands)
  {
    ExchangeStepSends();
    StepsSend(l, commands, ExchangeStep, FrameOf);
    Steps(l, commands, ExchangeStep)
  }

  /** The frame `send` builds around a command. */
  function FrameOf(command: string): seq<byte> {
    Frame(TextBytes(command))
  }

  function Frames(commands: seq<string>): (fs: seq<seq<byte>>)
    ensures |fs| == |commands|
    ensures forall k :: 0 <= k < |commands| ==> fs[k] == FrameOf(commands[k])
  {
    Sends(commands, FrameOf)
  }

  function LineCommands(lines: seq<SaleLine>, slots: map<VATRate, int>): seq<string> {
    if |lines| == 0 then [] else [EncodeLine(lines[0], slots)] + LineCommands(lines[1..], slots)
  }

  function PaymentCommands(ps: seq<SlipPayment>): seq<string> {
    if |ps| == 0 then [] else [EncodePayment(ps[0])] + PaymentCommands(ps[1..])
  }

  /** The closing command: the total in cents, repeated as the amount paid
      when the receipt lists payments. */
  function TrendCommand(total: int, hasPayments: bool): string {
    "trend\tto" + JavaText.IntText(total) + "\t"
      + (if hasPayments then "fp" + JavaText.IntText(total) + "\t" else "")
  }

  /** What `printSlip` sends once the printer is ready and the rates are
      known: the header, the transaction start, the lines, the payments, the
      closing command and the drawer opening. */
  function ReceiptCommands(header: string, slip: Slips.Slip, slots: map<VATRate, int>): seq<string> {
    [header, "trinit\t"] + LineCommands(slip.lines, slots) + PaymentCommands(slip.payments)
      + [TrendCommand(Slips.Total(slip), |slip.payments| > 0), "opendrwr\t"]
  }

  /** `printSlip`: cancel whatever was open, check the printer, read the
      rates, then send the receipt. A missing header value throws before the
      header goes out. */
  function PrintSlip(l: Link, slip: Slips.Slip, footer: Footer): (r: Run<()>)
  {
    var c :- Exchange(l, "prncancel\t");
    var ready :- CanPrint(c.0);
    var rates :- InitVatRates(ready.0);
    var header :- Lift(rates.0, Cnf(slip.cashierName, slip.cashbox, slip.reference, footer));
    ExchangeAll(rates.0, ReceiptCommands(header.1, slip, rates.1))
  }

  /** A receipt that prints went out as: the cancel, the status queries,
      the rate queries, then the header built from the slip's three values,
      `trinit`, the lines with the rates the printer reported, the
      payments, `trend` and the drawer. */
  lemma PrintSlipSends(l: Link, slip: Slips.Slip, footer: Footer)
    ensures var r := PrintSlip(l, slip, footer);
      var rates := InitVatRates(CanPrint(Exchange(l, "prncancel\t").link).link);
      r.result.Success? ==>
        slip.cashierName.Some? && slip.cashbox.Some? && slip.reference.Some? && rates.result.Success? &&
        r.link.sent == l.sent + [FrameOf("prncancel\t")] + Sends(StatusOrder, StatusFrame)
          + ([FrameOf("vatget\t")] + Frames(RateQueries))
          + Frames(ReceiptCommands(Cnf(slip.cashierName, slip.cashbox, slip.reference, footer).value,
                                   slip, rates.result.value))
  {
    var rates := InitVatRates(CanPrint(Exchange(l, "prncancel\t").link).link);
    var r := PrintSlip(l, slip, footer);
    if r.result.Success? {
      PrintSlipSteps(l, slip, footer);
      var commands := ReceiptCommands(Cnf(slip.cashierName, slip.cashbox, slip.reference, footer).value,
                                      slip, rates.result.value);
      assert r.link.sent == rates.link.sent + Frames(commands);
    }
  }

  /** A receipt that prints got through every step, and ended with the
      receipt's commands. */
  lemma PrintSlipSteps(l: Link, slip: Slips.Slip, footer: Footer)
    requires PrintSlip(l, slip, footer).result.Success?
    ensures var c := Exchange(l, "prncancel\t");
      c.result.Success? && CanPrint(c.link).result.Success? && InitVatRates(CanPrint(c.link).link).result.Success?
    ensures slip.cashierName.Some? && slip.cashbox.Some? && slip.reference.Some?
    ensures var rates := InitVatRates(CanPrint(Exchange(l, "prncancel\t").link).link);
      PrintSlip(l, slip, footer) ==
        ExchangeAll(rates.link, ReceiptCommands(Cnf(slip.cashierName, slip.cashbox, slip.reference, footer).value,
                                                slip, rates.result.value))
  {
  }

  /** The frame carries a command whose text starts with `name`. */
  predicate StartsCommand(frame: seq<byte>, name: string) {
    |frame| >= |name| + 1 && frame[1..|name| + 1] == TextBytes(name)
  }

  lemma FrameStart(s: string, name: string)
    requires |s| >= 1 && |name| >= 1 && s[0] != name[0] && (s[0] as int) < 256 && (name[0] as int) < 256
    ensures !StartsCommand(Frame(TextBytes(s)), name)
  {
    var p := TextBytes(s);
    StartsWithText(Frame(p), s, name);
  }

  /** A frame that carries `s` does not start with a command whose first
      character differs. */
  lemma StartsWithText(f: seq<byte>, s: string, name: string)
    requires |s| >= 1 && |name| >= 1 && s[0] != name[0] && (s[0] as int) < 256 && (name[0] as int) < 256
    requires |f| >= |s| + 1 && f[1..|s| + 1] == TextBytes(s)
    ensures !StartsCommand(f, name)
  {
    FirstCarried(f, s);
    FirstCarried(f, name);
  }

  /** A frame that carries `s` holds its first character right after STX. */
  lemma FirstCarried(f: seq<byte>, s: string)
    requires |s| >= 1 && (s[0] as int) < 256
    ensures |f| >= |s| + 1 && f[1..|s| + 1] == TextBytes(s) ==> f[1] == s[0] as int
  {
    if |f| >= |s| + 1 && f[1..|s| + 1] == TextBytes(s) {
      var t := TextBytes(s);
      assert t[0] == (s[0] as int) % 256;
      assert f[1..|s| + 1][0] == t[0];
      assert f[1..|s| + 1][0] == f[1];
      assert (s[0] as int) % 256 == s[0] as int;
    }
  }

  /** If the printer is found not ready, the receipt fails and neither the
      header ("ftrcfg") nor the transaction start ("trinit") is ever sent. */
  lemma PrintSlipStopsWhenNotReady(l: Link, slip: Slips.Slip, footer: Footer)
    ensures CancelOrStatusFails(l) ==> PrintSlip(l, slip, footer).result.Failure?
    ensures var r := PrintSlip(l, slip, footer);
      CancelOrStatusFails(l) ==>
        forall k :: |l.sent| <= k < |r.link.sent| ==>
          !StartsCommand(r.link.sent[k], "ftrcfg") && !StartsCommand(r.link.sent[k], "trinit")
  {
    if CancelOrStatusFails(l) {
      var c := Exchange(l, "prncancel\t");
      PrintSlipStops(l, slip, footer);
      FrameStart("prncancel\t", "ftrcfg");
      FrameStart("prncancel\t", "trinit");
      if c.result.Failure? {
        NoReceiptFrames(l, c.link, c.link, FrameOf("prncancel\t"));
      } else {
        NoReceiptFrames(l, c.link, CanPrint(c.link).link, FrameOf("prncancel\t"));
      }
    }
  }

  /** The cancel at the start of a receipt fails, or the status check after
      it finds the printer not ready. */
  predicate CancelOrStatusFails(l: Link) {
    var c := Exchange(l, "prncancel\t");
    c.result.Failure? || CanPrint(c.link).result.Failure?
  }

  /** A receipt that finds the printer not ready ends where the cancel or
      the status check ended. */
  lemma PrintSlipStops(l: Link, slip: Slips.Slip, footer: Footer)
    ensures var c := Exchange(l, "prncancel\t");
      CancelOrStatusFails(l) ==>
        PrintSlip(l, slip, footer) ==
          if c.result.Failure? then Run(c.link, Failure(c.result.error))
          else Run(CanPrint(c.link).link, Failure(CanPrint(c.link).result.error))
  {
  }

  /** After the cancel frame and a leading part of the status queries, no
      frame starts a header or a transaction. */
  lemma NoReceiptFrames(l: Link, c: Link, r: Link, cancel: seq<byte>)
    requires c.sent == l.sent + [cancel]
    requires !StartsCommand(cancel, "ftrcfg") && !StartsCommand(cancel, "trinit")
    requires r == c || SentPart(c, r, Sends(StatusOrder, StatusFrame))
    ensures forall k :: |l.sent| <= k < |r.sent| ==>
      !StartsCommand(r.sent[k], "ftrcfg") && !StartsCommand(r.sent[k], "trinit")
  {
    StatusFramesStart("ftrcfg");
    StatusFramesStart("trinit");
    var fs := Sends(StatusOrder, StatusFrame);
    forall k | |l.sent| <= k < |r.sent|
      ensures !StartsCommand(r.sent[k], "ftrcfg") && !StartsCommand(r.sent[k], "trinit")
    {
      if k == |l.sent| {
        assert r.sent[k] == cancel;
      } else {
        assert r.sent[k] == fs[k - |l.sent| - 1];
      }
    }
  }

  /** No status query frame starts with a command whose first letter is not
      's'. */
  lemma StatusFramesStart(name: string)
    requires |name| >= 1 && name[0] != 's' && (name[0] as int) < 256
    ensures forall s: Status :: !StartsCommand(StatusFrame(s), name)
  {
    forall s: Status
      ensures !StartsCommand(StatusFrame(s), name)
    {
      FrameStart(StatusQuery(s), name);
    }
  }

  /** `openDrawer`: succeeds exactly when the printer echoes the command. */
  function OpenDrawer(l: Link): (r: Run<()>)
    ensures r.link.sent == l.sent + [FrameOf("opendrwr\t")]
    ensures r.result.Success? <==>
      Exchange(l, "opendrwr\t").result.Success?
      && JavaText.Trim(Exchange(l, "opendrwr\t").result.value) == "opendrwr"
  {
    var x :- Exchange(l, "opendrwr\t");
    if JavaText.Trim(x.1) == "opendrwr" then Run(x.0, Success(()))
    else Run(x.0, Failure(NotConfirmed("opendrwr")))
  }
}

=== FILE: seqs.dfy ===
/** Searching and cutting generic sequences, in the way the drivers use
    `String.indexOf`, `StringBuilder.delete` and `String.split` on both
    strings and byte buffers. */
module Seqs {

  /** `t` occurs in `s` starting at position `i`. */
  predicate OccursAt<T(==)>(s: seq<T>, t: seq<T>, i: int) {
    0 <= i && i + |t| <= |s| && s[i..i + |t|] == t
  }

  /** Index of the first occurrence of element `x` in `s`, or -1 (Java `indexOf(char)`). */
  function IndexOf<T(==)>(s: seq<T>, x: T): (r: int)
    ensures -1 <= r < |s|
    ensures r == -1 <==> x !in s
    ensures 0 <= r ==> s[r] == x && x !in s[..r]
  {
    if |s| == 0 then -1
    else if s[0] == x then 0
    else
      var k := IndexOf(s[1..], x);
      assert s[1..][..if k < 0 then 0 else k] == s[1..1 + if k < 0 then 0 else k];
      if k < 0 then -1 else 1 + k
  }

  /** Searching past a stretch that lacks `x`. */
  lemma IndexOfAfter<T>(a: seq<T>, b: seq<T>, x: T)
    requires x !in a
    ensures IndexOf(a + b, x) == if x in b then |a| + IndexOf(b, x) else -1
  {
    var r := IndexOf(a + b, x);
    assert forall k :: 0 <= k < |a| ==> (a + b)[k] == a[k];
    assert forall k :: |a| <= k < |a| + |b| ==> (a + b)[k] == b[k - |a|];
    if x in b {
      var j := IndexOf(b, x);
      assert (a + b)[|a| + j] == x;
      assert x !in (a + b)[..r];
      assert (a + b)[..|a| + j] == a + b[..j];
    }
  }

  /** Cutting `a + [x] + b` at its first `x` gives back `a` and `b`. */
  lemma CutAt<T>(a: seq<T>, x: T, b: seq<T>)
    requires x !in a
    ensures IndexOf(a + ([x] + b), x) == |a|
    ensures (a + ([x] + b))[..|a|] == a && (a + ([x] + b))[|a| + 1..] == b
  {
    var t := [x] + b;
    assert IndexOf(t, x) == 0;
    IndexOfAfter(a, t, x);
    assert (a + t)[|a|..] == t;
    assert t[1..] == b;
  }

  /** Index of the first occurrence of `t` in `s`, or -1 (Java `indexOf(String)`). */
  function IndexOfSeq<T(==)>(s: seq<T>, t: seq<T>): (r: int)
    ensures -1 <= r <= |s|
    ensures r == -1 <==> forall i :: 0 <= i <= |s| ==> !OccursAt(s, t, i)
    ensures 0 <= r ==> OccursAt(s, t, r) && forall i :: 0 <= i < r ==> !OccursAt(s, t, i)
  {
    IndexOfFrom(s, t, 0)
  }

  function IndexOfFrom<T(==)>(s: seq<T>, t: seq<T>, from: nat): (r: int)
    requires from <= |s| + 1
    requires forall i :: 0 <= i < from ==> !OccursAt(s, t, i)
    ensures -1 <= r <= |s|
    ensures r == -1 <==> forall i :: 0 <= i <= |s| ==> !OccursAt(s, t, i)
    ensures 0 <= r ==> OccursAt(s, t, r) && forall i :: 0 <= i < r ==> !OccursAt(s, t, i)
    decreases |s| + 1 - from
  {
    if from + |t| > |s| then
      assert forall i :: from <= i <= |s| ==> !OccursAt(s, t, i);
      -1
    else if s[from..from + |t|] == t then
      assert OccursAt(s, t, from);
      from
    else IndexOfFrom(s, t, from + 1)
  }

  /** `s` with its first occurrence of `t` removed; unchanged when `t` does not
      occur (`StringBuilder.delete(i, i + t.length())` after `indexOf`). */
  function RemoveFirst<T(==)>(s: seq<T>, t: seq<T>): (r: seq<T>)
    ensures IndexOfSeq(s, t) == -1 ==> r == s
    ensures IndexOfSeq(s, t) >= 0 ==>
      |r| == |s| - |t| && s == r[..IndexOfSeq(s, t)] + t + r[IndexOfSeq(s, t)..]
  {
    var i := IndexOfSeq(s, t);
    if i < 0 then s else s[..i] + s[i + |t|..]
  }

  /** Every field between separators, empty ones included. */
  function Fields<T(==)>(s: seq<T>, sep: T): (r: seq<seq<T>>)
    ensures |r| >= 1
    ensures forall k :: 0 <= k < |r| ==> sep !in r[k]
    decreases |s|
  {
    var i := IndexOf(s, sep);
    if i < 0 then [s] else [s[..i]] + Fields(s[i + 1..], sep)
  }

  /** Inverse of `Fields`: the fields glued back with the separator. */
  function Join<T>(fs: seq<seq<T>>, sep: T): seq<T>
    requires |fs| >= 1
  {
    if |fs| == 1 then fs[0] else fs[0] + [sep] + Join(fs[1..], sep)
  }

  lemma {:induction false} JoinFields<T>(s: seq<T>, sep: T)
    ensures Join(Fields(s, sep), sep) == s
    decreases |s|
  {
    var i := IndexOf(s, sep);
    if i >= 0 {
      var rest := Fields(s[i + 1..], sep);
      JoinFields(s[i + 1..], sep);
      JoinCons(s[..i], rest, sep);
      assert s == s[..i] + [sep] + s[i + 1..];
    }
  }

  lemma JoinCons<T>(f: seq<T>, rest: seq<seq<T>>, sep: T)
    requires |rest| >= 1
    ensures Join([f] + rest, sep) == f + [sep] + Join(rest, sep)
  {
    assert ([f] + rest)[1..] == rest;
  }

  /** Number of leading elements kept once trailing empty fields are dropped. */
  function KeptFields<T>(fs: seq<seq<T>>): (n: nat)
    ensures n <= |fs|
    ensures forall k :: n <= k < |fs| ==> fs[k] == []
    ensures n > 0 ==> fs[n - 1] != []
  {
    if |fs| == 0 then 0
    else if fs[|fs| - 1] == [] then KeptFields(fs[..|fs| - 1])
    else |fs|
  }

  /** Java `String.split` with a one-character separator: a string without the
      separator is returned whole, otherwise all fields are cut out and the
      trailing empty ones are dropped. */
  function JavaSplit<T(==)>(s: seq<T>, sep: T): (r: seq<seq<T>>)
    ensures sep !in s ==> r == [s]
    ensures sep in s ==> r == Fields(s, sep)[..KeptFields(Fields(s, sep))]
  {
    if sep !in s then [s]
    else
      var fs := Fields(s, sep);
      fs[..KeptFields(fs)]
  }

  /** Fields, each followed by the separator. */
  function Terminated<T>(fs: seq<seq<T>>, sep: T): seq<T> {
    if |fs| == 0 then [] else fs[0] + [sep] + Terminated(fs[1..], sep)
  }

  /** A field in front is cut off first. */
  lemma FieldsOfCons<T>(f: seq<T>, rest: seq<T>, sep: T)
    requires sep !in f
    ensures Fields(f + [sep] + rest, sep) == [f] + Fields(rest, sep)
  {
    var s := f + [sep] + rest;
    IndexOfAfter(f, [sep] + rest, sep);
    assert s == f + ([sep] + rest);
    assert s[..|f|] == f && s[|f| + 1..] == rest;
  }

  /** Cutting separator-terminated fields gives them back, and one empty
      field after the last separator. */
  lemma {:induction false} FieldsOfTerminated<T>(fs: seq<seq<T>>, sep: T)
    requires forall k :: 0 <= k < |fs| ==> sep !in fs[k]
    ensures Fields(Terminated(fs, sep), sep) == fs + [[]]
  {
    if |fs| == 0 {
      assert IndexOf(Terminated(fs, sep), sep) < 0;
    } else {
      FieldsOfTerminated(fs[1..], sep);
      FieldsStep(fs[0], Terminated(fs[1..], sep), fs[1..], sep);
      assert fs == [fs[0]] + fs[1..];
    }
  }

  /** Terminated fields and one unterminated field after them are cut back
      into exactly those fields. */
  lemma {:induction false} FieldsOfTerminatedThen<T>(fs: seq<seq<T>>, last: seq<T>, sep: T)
    requires forall k :: 0 <= k < |fs| ==> sep !in fs[k]
    requires sep !in last
    ensures Fields(Terminated(fs, sep) + last, sep) == fs + [last]
  {
    if |fs| == 0 {
      FieldsOfWhole(last, sep);
      assert Terminated(fs, sep) + last == last;
    } else {
      FieldsOfTerminatedThen(fs[1..], last, sep);
      FieldsThenStep(fs[0], Terminated(fs[1..], sep), fs[1..], last, sep);
      TerminatedCons(fs, last, sep);
      assert fs == [fs[0]] + fs[1..];
    }
  }

  lemma FieldsOfWhole<T>(s: seq<T>, sep: T)
    requires sep !in s
    ensures Fields(s, sep) == [s]
  {
  }

  lemma FieldsThenStep<T>(f: seq<T>, t: seq<T>, rest: seq<seq<T>>, last: seq<T>, sep: T)
    requires sep !in f && Fields(t + last, sep) == rest + [last]
    ensures Fields(f + [sep] + (t + last), sep) == [f] + rest + [last]
  {
    FieldsOfCons(f, t + last, sep);
  }

  lemma TerminatedCons<T>(fs: seq<seq<T>>, last: seq<T>, sep: T)
    requires |fs| > 0
    ensures Terminated(fs, sep) + last == fs[0] + [sep] + (Terminated(fs[1..], sep) + last)
  {
  }

  lemma FieldsStep<T>(f: seq<T>, t: seq<T>, rest: seq<seq<T>>, sep: T)
    requires sep !in f && Fields(t, sep) == rest + [[]]
    ensures Fields(f + [sep] + t, sep) == [f] + rest + [[]]
  {
    FieldsOfCons(f, t, sep);
  }

  /** A value found in no field and other than the separator is not in the
      terminated text either. */
  lemma {:induction false} NotInTerminated<T>(fs: seq<seq<T>>, sep: T, x: T)
    requires x != sep
    requires forall k :: 0 <= k < |fs| ==> x !in fs[k]
    ensures x !in Terminated(fs, sep)
  {
    if |fs| > 0 {
      assert forall k :: 0 <= k < |fs| - 1 ==> fs[1..][k] == fs[k + 1];
      NotInTerminated(fs[1..], sep, x);
    }
  }

  /** Terminated fields side by side are terminated together. */
  lemma {:induction false} TerminatedAppend<T>(a: seq<seq<T>>, b: seq<seq<T>>, sep: T)
    ensures Terminated(a + b, sep) == Terminated(a, sep) + Terminated(b, sep)
  {
    if |a| > 0 {
      TerminatedAppend(a[1..], b, sep);
      assert (a + b)[1..] == a[1..] + b;
    } else {
      assert a + b == b;
    }
  }

  /** `n` copies of `s`, back to back. */
  function Repeat<T>(s: seq<T>, n: nat): (r: seq<T>)
    ensures |r| == n * |s|
  {
    if n == 0 then [] else s + Repeat(s, n - 1)
  }
}

=== FILE: slip.dfy ===
/** Payment and line bookkeeping of a receipt (`datamodel/Slip`). */
module Slips {
  import opened Wrappers
  import opened Faults
  import opened Datamodel
  import JavaText

  datatype Slip = Slip(
    reference: Option<string>,
    cashbox: Option<string>,
    cashierName: Option<string>,
    lines: seq<SaleLine>,
    payments: seq<SlipPayment>)

  const EmptySlip: Slip := Slip(None, None, None, [], [])

  // ------------------------------------------------------------- lines

  /** `addLine`: appended after every earlier line. */
  function AddLine(s: Slip, line: SaleLine): (r: Slip)
    ensures NoOfLines(r) == NoOfLines(s) + 1
    ensures r.lines[..NoOfLines(s)] == s.lines && r.lines[NoOfLines(s)] == line
    ensures r.payments == s.payments && r.reference == s.reference
    ensures r.cashbox == s.cashbox && r.cashierName == s.cashierName
  {
    s.(lines := s.lines + [line])
  }

  function NoOfLines(s: Slip): nat {
    |s.lines|
  }

  /** `getLine`: `List.get`, which throws outside the list. */
  function GetLine(s: Slip, index: int): (r: Result<SaleLine, Fault>)
    ensures r.Success? <==> 0 <= index < NoOfLines(s)
    ensures r.Success? ==> r.value == s.lines[index]
  {
    if 0 <= index < |s.lines| then Success(s.lines[index]) else Failure(IndexOutOfBounds)
  }

  /** Lines added one after another come back in the order they were added. */
  lemma {:induction false} AddLinesInOrder(s: Slip, ls: seq<SaleLine>)
    ensures AddLines(s, ls).lines == s.lines + ls
    ensures NoOfLines(AddLines(s, ls)) == NoOfLines(s) + |ls|
    decreases |ls|
  {
    if |ls| > 0 {
      AddLinesInOrder(AddLine(s, ls[0]), ls[1..]);
      assert s.lines + [ls[0]] + ls[1..] == s.lines + ls;
    }
  }

  function AddLines(s: Slip, ls: seq<SaleLine>): Slip
    decreases |ls|
  {
    if |ls| == 0 then s else AddLines(AddLine(s, ls[0]), ls[1..])
  }

  /** `getTotal`: the sum of the line totals (exact, in cents). */
  function Total(s: Slip): int {
    SumTotals(s.lines)
  }

  function SumTotals(ls: seq<SaleLine>): int {
    if |ls| == 0 then 0 else SumTotals(ls[..|ls| - 1]) + ls[|ls| - 1].total
  }

  /** The total of a receipt built line by line is the total it started from
      plus the totals of the lines added. */
  lemma {:induction false} TotalOfAddLines(s: Slip, ls: seq<SaleLine>)
    ensures Total(AddLines(s, ls)) == Total(s) + SumTotals(ls)
    decreases |ls|
  {
    if |ls| > 0 {
      TotalOfAddLines(AddLine(s, ls[0]), ls[1..]);
      assert (s.lines + [ls[0]])[..|s.lines|] == s.lines;
      SumTotalsCons(ls);
    }
  }

  /** The sum taken from the front: the first total plus the sum of the rest. */
  lemma {:induction false} SumTotalsCons(ls: seq<SaleLine>)
    requires |ls| > 0
    ensures SumTotals(ls) == ls[0].total + SumTotals(ls[1..])
    decreases |ls|
  {
    if |ls| > 1 {
      var init := ls[..|ls| - 1];
      SumTotalsCons(init);
      assert init[1..] == ls[1..][..|ls| - 2];
    } else {
      assert ls[1..] == [];
      assert ls[..0] == [];
    }
  }

  // ---------------------------------------------------------- payments

  /** `isUsingPayments`. */
  predicate IsUsingPayments(s: Slip) {
    |s.payments| > 0
  }

  /** No payment type occurs twice. */
  predicate UniqueTypes(ps: seq<SlipPayment>) {
    forall i, j :: 0 <= i < j < |ps| ==> ps[i].ptype != ps[j].ptype
  }

  /** Position of the first entry of type `t`, or -1. */
  function IndexOfType(ps: seq<SlipPayment>, t: PaymentType): (i: int)
    ensures -1 <= i < |ps|
    ensures i == -1 <==> forall k :: 0 <= k < |ps| ==> ps[k].ptype != t
    ensures 0 <= i ==> ps[i].ptype == t && forall k :: 0 <= k < i ==> ps[k].ptype != t
  {
    if |ps| == 0 then -1
    else
      var j := IndexOfType(ps[..|ps| - 1], t);
      if j >= 0 then j else if ps[|ps| - 1].ptype == t then |ps| - 1 else -1
  }

  lemma IndexOfTypeIsFirst(ps: seq<SlipPayment>, t: PaymentType, i: int)
    requires 0 <= i < |ps| && ps[i].ptype == t
    requires forall k :: 0 <= k < i ==> ps[k].ptype != t
    ensures IndexOfType(ps, t) == i
  {
  }

  /** `getPayment`: the first entry of the given type, or `null`. */
  function GetPayment(s: Slip, t: PaymentType): (r: Option<SlipPayment>)
    ensures r.None? <==> forall k :: 0 <= k < |s.payments| ==> s.payments[k].ptype != t
    ensures r.Some? ==> r.value in s.payments && r.value.ptype == t
  {
    var i := IndexOfType(s.payments, t);
    if i < 0 then None else Some(s.payments[i])
  }

  /** `getPaymentAmount`: 0 for a type that was never added. */
  function GetPaymentAmount(s: Slip, t: PaymentType): (a: int)
    ensures GetPayment(s, t).None? ==> a == 0
  {
    match GetPayment(s, t)
    case Some(p) => p.amount
    case None => 0
  }

  /** `getPaymentName`: "" for a type that was never added; a stored `null`
      name comes back as `null`. */
  function GetPaymentName(s: Slip, t: PaymentType): (n: Option<string>)
    ensures GetPayment(s, t).None? ==> n == Some("")
  {
    match GetPayment(s, t)
    case Some(p) => p.name
    case None => Some("")
  }

  /** The name normalisation of `addPayment(type, amount, name)`: cut to 16
      characters, then trimmed; `null` stays `null`. */
  function NormalizeName(name: Option<string>): (r: Option<string>)
    ensures name.None? <==> r.None?
    ensures r.Some? ==> |r.value| <= 16
    ensures r.Some? ==> r.value == JavaText.Trim(JavaText.Cut(name.value, 16))
  {
    match name
    case None => None
    case Some(n) => Some(JavaText.Trim(JavaText.Cut(n, 16)))
  }

  /** `addPayment(type, amount, name)`: a new type is appended with the
      normalised name; an existing entry keeps its name and gets the amount
      added. Amounts are exact cents, so the two-decimal rounding is the identity. */
  function AddPayment(s: Slip, t: PaymentType, amount: int, name: Option<string>): (r: Slip)
    ensures r.lines == s.lines && r.reference == s.reference
    ensures r.cashbox == s.cashbox && r.cashierName == s.cashierName
    ensures GetPaymentAmount(r, t) == GetPaymentAmount(s, t) + amount
    ensures GetPayment(s, t).None? ==>
      r.payments == s.payments + [SlipPayment(t, amount, NormalizeName(name))]
    ensures GetPayment(s, t).Some? ==>
      |r.payments| == |s.payments| && GetPaymentName(r, t) == GetPaymentName(s, t)
    ensures forall k :: 0 <= k < |s.payments| && s.payments[k].ptype != t ==> r.payments[k] == s.payments[k]
  {
    var i := IndexOfType(s.payments, t);
    if i < 0 then
      var r := s.(payments := s.payments + [SlipPayment(t, amount, NormalizeName(name))]);
      assert IndexOfType(r.payments, t) == |s.payments|;
      r
    else
      var p := s.payments[i];
      var r := s.(payments := s.payments[i := p.(amount := p.amount + amount)]);
      IndexOfTypeIsFirst(r.payments, t, i);
      r
  }

  /** `addPayment(SlipPayment)`: a new type is appended exactly as given (its
      name is not normalised); an existing entry gets the amount added. */
  function AddPaymentEntry(s: Slip, p: SlipPayment): (r: Slip)
    ensures r.lines == s.lines && r.reference == s.reference
    ensures r.cashbox == s.cashbox && r.cashierName == s.cashierName
    ensures GetPaymentAmount(r, p.ptype) == GetPaymentAmount(s, p.ptype) + p.amount
    ensures GetPayment(s, p.ptype).None? ==> r.payments == s.payments + [p]
    ensures GetPayment(s, p.ptype).Some? ==>
      |r.payments| == |s.payments| && GetPaymentName(r, p.ptype) == GetPaymentName(s, p.ptype)
    ensures forall k :: 0 <= k < |s.payments| && s.payments[k].ptype != p.ptype ==> r.payments[k] == s.payments[k]
  {
    var i := IndexOfType(s.payments, p.ptype);
    if i < 0 then
      var r := s.(payments := s.payments + [p]);
      assert IndexOfType(r.payments, p.ptype) == |s.payments|;
      r
    else
      var q := s.payments[i];
      var r := s.(payments := s.payments[i := q.(amount := q.amount + p.amount)]);
      IndexOfTypeIsFirst(r.payments, p.ptype, i);
      r
  }

  lemma AddPaymentKeepsUnique(s: Slip, t: PaymentType, amount: int, name: Option<string>)
    requires UniqueTypes(s.payments)
    ensures UniqueTypes(AddPayment(s, t, amount, name).payments)
  {
  }

  lemma AddPaymentEntryKeepsUnique(s: Slip, p: SlipPayment)
    requires UniqueTypes(s.payments)
    ensures UniqueTypes(AddPaymentEntry(s, p).payments)
  {
  }

  /** One call of either `addPayment` overload. */
  datatype PaymentCall =
    | ByType(t: PaymentType, amount: int, name: Option<string>)
    | ByEntry(p: SlipPayment)

  function Apply(s: Slip, c: PaymentCall): Slip {
    match c
    case ByType(t, a, n) => AddPayment(s, t, a, n)
    case ByEntry(p) => AddPaymentEntry(s, p)
  }

  function ApplyAll(s: Slip, cs: seq<PaymentCall>): Slip
    decreases |cs|
  {
    if |cs| == 0 then s else ApplyAll(Apply(s, cs[0]), cs[1..])
  }

  /** Whatever sequence of `addPayment` calls is made on a fresh slip, each
      payment type has at most one entry, and payments are used iff a call was made. */
  lemma {:induction false} ApplyAllKeepsUnique(s: Slip, cs: seq<PaymentCall>)
    requires UniqueTypes(s.payments)
    ensures UniqueTypes(ApplyAll(s, cs).payments)
    ensures |ApplyAll(s, cs).payments| >= |s.payments|
    ensures IsUsingPayments(ApplyAll(s, cs)) <==> IsUsingPayments(s) || |cs| > 0
    decreases |cs|
  {
    if |cs| > 0 {
      var s1 := Apply(s, cs[0]);
      if cs[0].ByType? {
        AddPaymentKeepsUnique(s, cs[0].t, cs[0].amount, cs[0].name);
      } else {
        AddPaymentEntryKeepsUnique(s, cs[0].p);
      }
      ApplyAllKeepsUnique(s1, cs[1..]);
    }
  }

  // ----------------------------------------------------------- setters

  /** The trimming setters (`setCashbox`, `setCashierName`, `setReference`). */
  function TrimmedOrNull(v: Option<string>): (r: Option<string>)
    ensures v.None? <==> r.None?
    ensures r.Some? ==> r.value == JavaText.Trim(v.value)
  {
    match v
    case None => None
    case Some(x) => Some(JavaText.Trim(x))
  }

  function SetCashbox(s: Slip, v: Option<string>): (r: Slip)
    ensures v.None? <==> r.cashbox.None?
    ensures r.cashbox.Some? ==> r.cashbox.value == JavaText.Trim(v.value)
    ensures r.(cashbox := s.cashbox) == s
  {
    s.(cashbox := TrimmedOrNull(v))
  }

  function SetCashierName(s: Slip, v: Option<string>): (r: Slip)
    ensures v.None? <==> r.cashierName.None?
    ensures r.cashierName.Some? ==> r.cashierName.value == JavaText.Trim(v.value)
    ensures r.(cashierName := s.cashierName) == s
  {
    s.(cashierName := TrimmedOrNull(v))
  }

  function SetReference(s: Slip, v: Option<string>): (r: Slip)
    ensures v.None? <==> r.reference.None?
    ensures r.reference.Some? ==> r.reference.value == JavaText.Trim(v.value)
    ensures r.(reference := s.reference) == s
  {
    s.(reference := TrimmedOrNull(v))
  }

  /** Setting a field twice with the same argument stores the same value: the
      stored value has no blank at either end. */
  lemma SettersIdempotent(s: Slip, v: Option<string>)
    ensures SetCashbox(SetCashbox(s, v), SetCashbox(s, v).cashbox) == SetCashbox(s, v)
    ensures SetCashierName(SetCashierName(s, v), SetCashierName(s, v).cashierName) == SetCashierName(s, v)
    ensures SetReference(SetReference(s, v), SetReference(s, v).reference) == SetReference(s, v)
  {
    if v.Some? {
      JavaText.TrimIdempotent(v.value);
    }
  }
}

=== FILE: tostring.dfy ===
/** Text conversions of `util/ToString`: the Mazovia code page used by the
    Thermal printers, accent stripping, and the debug renderings of strings
    and bytes. */
module ToString {
  import opened Wrappers
  import opened Faults
  import opened BitsAndBytes
  import JavaText

  /** The eighteen Polish letters that have their own Mazovia code. */
  const PolishLetters: string := "ĄĆĘŁŃÓŚŹŻąćęłńóśźż"

  /** Mazovia code of a Polish letter; `None` for every other character. */
  function MazoviaLetter(c: char): (r: Option<byte>)
    ensures r.Some? <==> c in PolishLetters
    ensures r.Some? ==> r.value >= 128
  {
    if c == 'Ą' then Some(143) else if c == 'Ć' then Some(149)
    else if c == 'Ę' then Some(144) else if c == 'Ł' then Some(156)
    else if c == 'Ń' then Some(165) else if c == 'Ó' then Some(163)
    else if c == 'Ś' then Some(152) else if c == 'Ź' then Some(160)
    else if c == 'Ż' then Some(161) else if c == 'ą' then Some(134)
    else if c == 'ć' then Some(141) else if c == 'ę' then Some(145)
    else if c == 'ł' then Some(146) else if c == 'ń' then Some(164)
    else if c == 'ó' then Some(162) else if c == 'ś' then Some(158)
    else if c == 'ź' then Some(166) else if c == 'ż' then Some(167)
    else None
  }

  /** One character in Mazovia: its table code, otherwise `(byte) c`, the low
      8 bits of the character code. */
  function MazoviaByte(c: char): (r: byte)
    ensures c as int < 128 ==> r == c as int
    ensures c in PolishLetters ==> r == MazoviaLetter(c).value
    ensures c !in PolishLetters ==> r == (c as int) % 256
  {
    match MazoviaLetter(c)
    case Some(b) => b
    case None => (c as int) % 256
  }

  /** `string2Mazovia`: exactly one byte per character. */
  function String2Mazovia(s: string): (r: seq<byte>)
    ensures |r| == |s|
    ensures forall k :: 0 <= k < |s| ==> r[k] == MazoviaByte(s[k])
  {
    if |s| == 0 then [] else [MazoviaByte(s[0])] + String2Mazovia(s[1..])
  }

  /** Reading a Mazovia byte back: a table code gives its letter, any other
      byte the character with that code. */
  function MazoviaChar(b: byte): (c: char)
  {
    if b == 143 then 'Ą' else if b == 149 then 'Ć'
    else if b == 144 then 'Ę' else if b == 156 then 'Ł'
    else if b == 165 then 'Ń' else if b == 163 then 'Ó'
    else if b == 152 then 'Ś' else if b == 160 then 'Ź'
    else if b == 161 then 'Ż' else if b == 134 then 'ą'
    else if b == 141 then 'ć' else if b == 145 then 'ę'
    else if b == 146 then 'ł' else if b == 164 then 'ń'
    else if b == 162 then 'ó' else if b == 158 then 'ś'
    else if b == 166 then 'ź' else if b == 167 then 'ż'
    else b as char
  }

  /** Characters the code page can carry without loss: 7-bit ASCII and the
      Polish letters. */
  predicate MazoviaSafe(c: char) {
    (c as int) < 128 || c in PolishLetters
  }

  lemma MazoviaCharOfByte(c: char)
    requires MazoviaSafe(c)
    ensures MazoviaChar(MazoviaByte(c)) == c
  {
    if c in PolishLetters {
      MazoviaLetterReadsBack(c);
    } else {
      assert MazoviaLetter(c) == None;
    }
  }

  /** Every table code reads back as its letter. */
  lemma MazoviaLetterReadsBack(c: char)
    requires c in PolishLetters
    ensures MazoviaLetter(c).Some? && MazoviaChar(MazoviaLetter(c).value) == c
  {
    var i :| 0 <= i < |PolishLetters| && PolishLetters[i] == c;
    if i == 0 {
      assert c == 'Ą';
    } else if i == 1 {
      assert c == 'Ć';
    } else if i == 2 {
      assert c == 'Ę';
    } else if i == 3 {
      assert c == 'Ł';
    } else if i == 4 {
      assert c == 'Ń';
    } else if i == 5 {
      assert c == 'Ó';
    } else if i == 6 {
      assert c == 'Ś';
    } else if i == 7 {
      assert c == 'Ź';
    } else if i == 8 {
      assert c == 'Ż';
    } else if i == 9 {
      assert c == 'ą';
    } else if i == 10 {
      assert c == 'ć';
    } else if i == 11 {
      assert c == 'ę';
    } else if i == 12 {
      assert c == 'ł';
    } else if i == 13 {
      assert c == 'ń';
    } else if i == 14 {
      assert c == 'ó';
    } else if i == 15 {
      assert c == 'ś';
    } else if i == 16 {
      assert c == 'ź';
    } else if i == 17 {
      assert c == 'ż';
    }
  }

  /** The table is injective: distinct letters never share a code. */
  lemma MazoviaCodesDistinct(c: char, d: char)
    requires c in PolishLetters && d in PolishLetters && c != d
    ensures MazoviaByte(c) != MazoviaByte(d)
    ensures MazoviaByte(c) >= 128
  {
    MazoviaCharOfByte(c);
    MazoviaCharOfByte(d);
  }

  function DecodeMazovia(b: seq<byte>): (s: string)
    ensures |s| == |b|
  {
    if |b| == 0 then "" else [MazoviaChar(b[0])] + DecodeMazovia(b[1..])
  }

  lemma {:induction false} MazoviaRoundTrip(s: string)
    requires forall k :: 0 <= k < |s| ==> MazoviaSafe(s[k])
    ensures DecodeMazovia(String2Mazovia(s)) == s
  {
    if |s| > 0 {
      MazoviaCharOfByte(s[0]);
      MazoviaRoundTrip(s[1..]);
      assert String2Mazovia(s)[1..] == String2Mazovia(s[1..]);
    }
  }

  // ----------------------------------------------------------- accents

  /** The plain letter `string2noAccents` puts in place of an accented one. */
  function NoAccent(c: char): (r: char)
    ensures (c in PolishLetters || c == 'ü') ==> ('A' <= r <= 'Z' || 'a' <= r <= 'z')
    ensures !(c in PolishLetters || c == 'ü') ==> r == c
  {
    if c == 'Ą' then 'A' else if c == 'Ć' then 'C' else if c == 'Ę' then 'E'
    else if c == 'Ł' then 'L' else if c == 'Ń' then 'N' else if c == 'Ó' then 'O'
    else if c == 'Ś' then 'S' else if c == 'Ź' || c == 'Ż' then 'Z'
    else if c == 'ą' then 'a' else if c == 'ć' then 'c' else if c == 'ę' then 'e'
    else if c == 'ł' then 'l' else if c == 'ń' then 'n' else if c == 'ó' then 'o'
    else if c == 'ś' then 's' else if c == 'ź' || c == 'ż' then 'z'
    else if c == 'ü' then 'u'
    else c
  }

  /** `string2noAccents`: same length, each Polish letter and 'ü' replaced by
      an ASCII letter, every other character kept. */
  function String2NoAccents(s: string): (r: string)
    ensures |r| == |s|
    ensures forall k :: 0 <= k < |s| ==> r[k] == NoAccent(s[k])
    ensures forall k :: 0 <= k < |s| ==> (s[k] in PolishLetters || s[k] == 'ü') ==> r[k] as int < 128
    ensures forall k :: 0 <= k < |s| ==> !(s[k] in PolishLetters || s[k] == 'ü') ==> r[k] == s[k]
  {
    if |s| == 0 then "" else [NoAccent(s[0])] + String2NoAccents(s[1..])
  }

  lemma NoAccentIdempotent(c: char)
    ensures NoAccent(NoAccent(c)) == NoAccent(c)
  {
  }

  lemma NoAccentsIdempotent(s: string)
    ensures String2NoAccents(String2NoAccents(s)) == String2NoAccents(s)
  {
    var r := String2NoAccents(s);
    forall k | 0 <= k < |s|
      ensures String2NoAccents(r)[k] == r[k]
    {
      NoAccentIdempotent(s[k]);
    }
  }

  // ----------------------------------------------------- debug rendering

  predicate Printable(c: char) {
    32 <= c as int < 128
  }

  /** One character of `debugString`: printable characters as themselves,
      any other as " 0x<lower-case hex>h ". */
  function DebugChar(c: char): (r: string)
    ensures Printable(c) ==> r == [c]
    ensures forall k :: 0 <= k < |r| ==> Printable(r[k])
    ensures !Printable(c) ==> |r| >= 6 && r[..3] == " 0x" && r[|r| - 2..] == "h "
    ensures !Printable(c) ==> (var h := r[3..|r| - 2];
      (forall k :: 0 <= k < |h| ==> JavaText.IsHexLower(h[k]) && 0 <= JavaText.HexValue(h[k])) &&
      JavaText.HexDigitsValue(h) == c as int)
  {
    if (c as int) < 32 || (c as int) >= 128 then
      var t := JavaText.HexText(c as int);
      JavaText.HexDigitsValueOfHexText(c as int);
      assert (" 0x" + t + "h ")[3..|t| + 3] == t;
      " 0x" + t + "h "
    else [c]
  }

  /** `debugString`. */
  function DebugString(s: string): (r: string)
    ensures |r| >= |s|
    ensures forall k :: 0 <= k < |r| ==> Printable(r[k])
  {
    if |s| == 0 then "" else DebugChar(s[0]) + DebugString(s[1..])
  }

  lemma {:induction false} DebugStringOfPrintable(s: string)
    requires forall k :: 0 <= k < |s| ==> Printable(s[k])
    ensures DebugString(s) == s
  {
    if |s| > 0 {
      DebugStringOfPrintable(s[1..]);
    }
  }

  // ---------------------------------------------------- byte renderings

  /** `"0" + s` until the text is `n` characters long. */
  function PadZeros(s: string, n: nat): (r: string)
    ensures |r| == if |s| < n then n else |s|
    decreases n - |s|
  {
    if |s| < n then PadZeros("0" + s, n) else s
  }

  /** `byteToIntString`: the unsigned byte value in decimal, zero-padded to
      three digits. */
  function ByteToIntString(b: byte): (r: string)
    ensures |r| == 3
    ensures forall k :: 0 <= k < 3 ==> JavaText.IsDigit(r[k])
    ensures JavaText.DigitsValue(r) == b
  {
    var t := JavaText.IntText(b);
    NatTextOfByteIsShort(b);
    JavaText.DigitsValueOfNatText(b);
    PadZerosValue(t, 3);
    PadZeros(t, 3)
  }

  lemma NatTextOfByteIsShort(b: byte)
    ensures |JavaText.NatText(b)| <= 3
  {
    if b >= 10 {
      assert |JavaText.NatText(b / 10)| <= 2;
    }
  }

  lemma {:induction false} PadZerosValue(s: string, n: nat)
    requires forall k :: 0 <= k < |s| ==> JavaText.IsDigit(s[k])
    ensures forall k :: 0 <= k < |PadZeros(s, n)| ==> JavaText.IsDigit(PadZeros(s, n)[k])
    ensures JavaText.DigitsValue(PadZeros(s, n)) == JavaText.DigitsValue(s)
    decreases n - |s|
  {
    if |s| < n {
      LeadingZero(s);
      PadZerosValue("0" + s, n);
    }
  }

  lemma {:induction false} LeadingZero(s: string)
    requires forall k :: 0 <= k < |s| ==> JavaText.IsDigit(s[k])
    ensures forall k :: 0 <= k < |"0" + s| ==> JavaText.IsDigit(("0" + s)[k])
    ensures JavaText.DigitsValue("0" + s) == JavaText.DigitsValue(s)
    decreases |s|
  {
    if |s| > 0 {
      var t := "0" + s;
      assert t[..|t| - 1] == "0" + s[..|s| - 1];
      LeadingZero(s[..|s| - 1]);
    }
  }

  /** Each byte as two hex digits and a space. */
  function HexSpaced(a: seq<byte>): (r: string)
    ensures |r| == 3 * |a|
    ensures forall k :: 0 <= k < |a| ==> HexSpacedAt(r, k, a[k])
  {
    if |a| == 0 then ""
    else
      var rest := HexSpaced(a[1..]);
      var r := ByteToHexString(a[0]) + " " + rest;
      forall k | 0 <= k < |a|
        ensures HexSpacedAt(r, k, a[k])
      {
        if k > 0 {
          assert HexSpacedAt(rest, k - 1, a[1..][k - 1]);
          assert r[3 * k] == rest[3 * (k - 1)];
          assert r[3 * k + 1] == rest[3 * (k - 1) + 1];
          assert r[3 * k + 2] == rest[3 * (k - 1) + 2];
        }
      }
      r
  }

  /** Position `k` of a `HexSpaced` text holds `b`'s two hex digits and a space. */
  predicate HexSpacedAt(r: string, k: nat, b: byte) {
    3 * k + 3 <= |r| && r[3 * k] == ByteToHexString(b)[0] && r[3 * k + 1] == ByteToHexString(b)[1]
    && r[3 * k + 2] == ' '
  }

  /** In a `byteArrayToString` text for a range starting at `from`, byte `a[k]`
      is listed in its slot after the opening "[ ". */
  predicate ListsByteAt(text: string, a: seq<byte>, from: int, k: int)
    requires 0 <= from <= k < |a|
  {
    |text| >= 2 && HexSpacedAt(text[2..], k - from, a[k])
  }

  /** `byteArrayToString(a, from, to)`: "[ ", then hex digits and a space per
      byte of `a[from..to]`, then "]". An empty range reads nothing; a range
      reaching outside the array is an index error. */
  function ByteArrayToString(a: seq<byte>, from: int, to: int): (r: Result<string, Fault>)
    ensures r.Success? <==> to <= from || (0 <= from && to <= |a|)
    ensures r.Failure? ==> r.error == IndexOutOfBounds
    ensures to <= from ==> r == Success("[ ]")
    ensures r.Success? && from < to ==>
      |r.value| == 3 + 3 * (to - from) && r.value[..2] == "[ " && r.value[|r.value| - 1] == ']'
      && forall k :: from <= k < to ==> ListsByteAt(r.value, a, from, k)
  {
    if to <= from then Success("[ ]")
    else if from < 0 || to > |a| then Failure(IndexOutOfBounds)
    else
      var body := HexSpaced(a[from..to]);
      var r := "[ " + body + "]";
      assert r[2..][..|body|] == body;
      forall k | from <= k < to
        ensures ListsByteAt(r, a, from, k)
      {
        assert HexSpacedAt(body, k - from, a[from..to][k - from]);
      }
      Success(r)
  }
}

=== FILE: wrappers.dfy ===
/** Failure-compatible datatypes used throughout the model: `Option` for the
    Java `null` / "absent" cases and `Result` for operations that can throw. */
module Wrappers {

  datatype Option<+T> = None | Some(value: T) {
    predicate IsFailure() {
      None?
    }

    function PropagateFailure<U>(): Option<U>
      requires None?
    {
      None
    }

    function Extract(): T
      requires Some?
    {
      value
    }

    function GetOr(default: T): T {
      match this
      case Some(v) => v
      case None => default
    }
  }

  datatype Result<+R, +E> = Success(value: R) | Failure(error: E) {
    predicate IsFailure() {
      Failure?
    }

    function PropagateFailure<U>(): Result<U, E>
      requires Failure?
    {
      Failure(this.error)
    }

    function Extract(): R
      requires Success?
    {
      value
    }
  }
}
